=== FILE: README.md ===
# Linux Voice Assistant: a verified model of the satellite's decision logic

Linux Voice Assistant is a voice satellite for Home Assistant. It listens
for a wake word, streams microphone audio into a Home Assistant voice
pipeline over the ESPHome native API, plays the spoken response, and exposes
a media player and a mute switch as ESPHome entities. Streamed music can come
from a Sendspin server, and the wake words from a Wyoming openWakeWord server.

This project models the satellite's own decision code as pure Dafny
functions and methods over immutable records. Each handler returns the new
state together with what it did, in order: messages for Home Assistant, calls
on the players, reports for the Sendspin server. The peers become parameters:
Home Assistant, mpv, sounddevice, the Wyoming server and the clocks. One
module models each source file:

- `Satellite` (satellite.py). The voice session is a record of flags. Its
  transitions cover wake words, pipeline and timer events, audio chunks,
  the end of a response, manual stop, muting and disconnect. Also modelled:
  the DeviceInfo name, the wake-word selection of SetConfiguration, and the
  dispatch of `handle_message`.
- `Entity` (entity.py). The media player and mute switch entities.
  `Messages` holds the ESPHome messages as abstract records.
- `PcmQueue` and `PcmPlayer` (sendspin_bridge.py, `AudioPlayer`). The
  integer part of the timestamped PCM queue: frame alignment, gap filling,
  overlap trimming, the three frame readers and the server-time cursor.
  Audio is a sequence of bytes and times are integer microseconds.
- `SendspinBridge` (sendspin_bridge.py, `SendspinBridge`). The stream,
  pause, duck, volume and mute flags, plus the player built for each format.
- `WakeClient`, `ObjectScanner` and `ModelNames`
  (openwakeword_client.py). These cover:
  - the client state: pause, suppression deadline, refractory period, model
    cache, detect request;
  - the concatenated-JSON scanner and drain loop of the reader;
  - the handling of each message;
  - model-name prettifying, normalising and filtering;
  - the `list_models` entries.
- `MpvPlayer` (mpv_player.py). Output selection, the done-callback
  discipline, duck memory, volume clamping, the watchdog decision and the
  log bridge.
- `AudioDeviceUtil` (audio_device_util.py). The three-tier device-name
  match.
- `Util`, `Utilities`, `ErrorHandling` and `Monitoring`: the small
  helpers.
- `Text` and `Optional` supply the slice of Python's `str` and `Optional`
  behaviour that the others need.

Behaviour of the code worth noting:

- The code has no voice-session ERROR state. Pipeline errors fall through
  `handle_voice_event` unhandled (satellite.py:178), so any other event
  changes nothing.
- The refractory period and the suppression window live in the wake client
  (openwakeword_client.py:125-133, 345-359), not in the voice session.
- A wake word during a running pipeline is rejected, not allowed to
  pre-empt it (satellite.py:323-325).
- The second `PLAY` branch of `MediaPlayerEntity.handle_message`
  (entity.py:135-137) can never run, because the first `PLAY` test
  (entity.py:112) catches every PLAY command. The model has one PLAY case.
- UNMUTE always ends in PAUSED (entity.py:134), as the code does.
- `VoiceSatelliteProtocol.__init__` passes `initial_volume=` to a
  `MediaPlayerEntity` constructor that has no such parameter
  (satellite.py:83-91 against entity.py:37-45). The model's entity
  therefore starts from the constructor's own defaults
  (`Entity.NewMediaPlayer`). The satellite's construction itself is not
  modelled.
- The satellite's entity list is taken to be the media player followed by
  the mute switch. That is the order in which `__init__` appends them when
  it creates both.

Nothing here is a wire format. The ESPHome framing and protobuf encoding
come from libraries outside the repository, so messages are datatypes.

## Model

| member | source | states |
|---|---|---|
| Text.Lower | linux_voice_assistant/openwakeword_client.py:28 | `str.lower` keeps the length and lower-cases each ASCII letter in place |
| Text.Capitalize | linux_voice_assistant/openwakeword_client.py:31 | `str.capitalize` upper-cases the first character and lower-cases the rest, keeping the length |
| Text.FindFrom | linux_voice_assistant/util.py:28 | the substring search returns the first occurrence at or after the start, and finds none only when there is none |
| Text.Find | linux_voice_assistant/util.py:28 | `needle in hay` holds exactly when the search finds an occurrence |
| Text.TrimStart | linux_voice_assistant/satellite.py:223 | `lstrip` removes only characters of the set, and leaves no leading character of the set |
| Text.TrimEnd | linux_voice_assistant/satellite.py:223 | `rstrip` removes only characters of the set, and leaves no trailing character of the set |
| Text.TrimStartIsTail | linux_voice_assistant/satellite.py:223 | `lstrip` keeps a tail of the string |
| Text.TrimEndIsHead | linux_voice_assistant/satellite.py:223 | `rstrip` keeps a head of the string |
| Text.Trim | linux_voice_assistant/satellite.py:223 | `strip(chars)` leaves neither a leading nor a trailing character of the set, and everything it removes before and after the piece it keeps is in the set |
| Text.TrimIsSlice | linux_voice_assistant/satellite.py:223 | what `strip` keeps is one contiguous piece of the original |
| Text.TrimUnpadded | linux_voice_assistant/satellite.py:223 | a string that neither starts nor ends with a stripped character is left alone |
| Text.TrimAll | linux_voice_assistant/satellite.py:223 | a string made only of stripped characters strips to nothing |
| Text.Strip | linux_voice_assistant/openwakeword_client.py:172-176 | `strip()` leaves no leading or trailing whitespace, and removes only whitespace |
| Text.Split | linux_voice_assistant/openwakeword_client.py:27 | `split(sep)` never returns an empty list and no part holds the separator |
| Text.SplitNoSep | linux_voice_assistant/openwakeword_client.py:27 | a string without the separator splits into itself alone |
| Text.SplitAt | linux_voice_assistant/openwakeword_client.py:27 | the first separator cuts off the first part |
| Text.SplitAppend | linux_voice_assistant/openwakeword_client.py:27 | splitting `a`, a separator and `b` gives the parts of `a` followed by the parts of `b` |
| Text.JoinSplit | linux_voice_assistant/openwakeword_client.py:27-32 | joining the parts with the separator gives back the string split |
| Text.LessIrreflexive | linux_voice_assistant/openwakeword_client.py:44 | no string sorts before itself |
| Text.LessTransitive | linux_voice_assistant/openwakeword_client.py:44 | the code-point order `sorted` uses is transitive |
| Text.LessTotal | linux_voice_assistant/openwakeword_client.py:44 | any two distinct strings are ordered one way or the other |
| Text.LessAsymmetric | linux_voice_assistant/openwakeword_client.py:44 | two strings are never each before the other |
| Text.Insert | linux_voice_assistant/openwakeword_client.py:42-44 | inserting into a sorted list without repeats keeps it so and adds exactly the new string |
| Text.SortedDistinct | linux_voice_assistant/openwakeword_client.py:42-44 | `sorted(set(xs))` is strictly increasing and holds exactly the strings of `xs` |
| Util.LowOctetsValueIsMod | linux_voice_assistant/util.py:16-17 | the octets `(mac >> i) & 0xff` taken together are the node id reduced to its low 48 bits, for any number of octets |
| Util.HexPair | linux_voice_assistant/util.py:17 | `f"{b:02x}"` is exactly two lower-case hex digits |
| Util.HexPairValue | linux_voice_assistant/util.py:17 | the two hex digits read back as the octet they format |
| Util.FormatOctets | linux_voice_assistant/util.py:17 | octets joined by ':' give 3n-1 characters, a ':' at every third position, and each octet's two hex digits in place |
| Util.MacOctets | linux_voice_assistant/util.py:17 | `range(40, -1, -8)` yields six octets, most significant first |
| Util.FormatMac | linux_voice_assistant/util.py:16-18 | the fallback MAC is 17 characters: lower-case hex pairs separated by ':' |
| Util.FormatMacRoundTrip | linux_voice_assistant/util.py:16-18 | reading the formatted MAC back gives the node id modulo 2^48 (round trip) |
| Util.GetMac | linux_voice_assistant/util.py:10-18 | a non-empty FIXED_MAC_ADDRESS wins and is only lower-cased; an unset or empty one falls back to the node id, which the result encodes exactly |
| Util.CallAll | linux_voice_assistant/util.py:21-23 | exactly the present callables are invoked, in argument order |
| Util.PresentAppend | linux_voice_assistant/util.py:21-23 | the invocations for two argument lists in a row are those of each, concatenated |
| Util.PresentSingle | linux_voice_assistant/util.py:22 | `filter(None, …)` keeps a callable and drops a None |
| Util.IsArm | linux_voice_assistant/util.py:26-28 | true exactly when the machine name contains "arm" or "aarch" |
| Util.IsArmAarch64 | linux_voice_assistant/util.py:26-28 | "aarch64" is ARM |
| Util.IsArmArmv7l | linux_voice_assistant/util.py:26-28 | "armv7l" is ARM |
| Util.NotArmX86 | linux_voice_assistant/util.py:26-28 | "x86_64" is not ARM |
| Utilities.Clamp0To1 | linux_voice_assistant/utilities.py:11-40 | a failed conversion gives the default; NaN passes both tests and is returned as it is; any other float, infinities included, gives a number in [0, 1]: below 0 gives 0, above 1 gives 1, and a value in range is kept |
| Utilities.Clamp0To100 | linux_voice_assistant/utilities.py:43-72 | a failed conversion gives the default; otherwise the result is in [0, 100], with the same three cases |
| Utilities.ClampValue | linux_voice_assistant/utilities.py:75-94 | with ordered bounds a value that is not NaN comes back within them, and a value in range is kept; NaN comes back unclamped; the result is always the value or one of the bounds |
| Utilities.ClampValueNaNBound | linux_voice_assistant/utilities.py:88-93 | a NaN bound is never crossed, so with a NaN maximum only the minimum clamps |
| Utilities.ClampValueIdempotent | linux_voice_assistant/utilities.py:75-94 | clamping a clamped value changes nothing |
| Utilities.ClampValueMonotone | linux_voice_assistant/utilities.py:75-94 | clamping keeps the order of two values |
| Utilities.ClampValueCrossedBounds | linux_voice_assistant/utilities.py:88-93 | with minimum > maximum the lower test wins for values below the minimum and every other value gives the maximum |
| Utilities.Clamp0To100DefaultUnclamped | linux_voice_assistant/utilities.py:55-64 | the default returned on a failed conversion is not clamped |
| ErrorHandling.Taxonomy | linux_voice_assistant/error_handling.py:11-38 | audio-device and network errors are recoverable and not fatal; hardware and configuration errors are fatal and not recoverable; KeyboardInterrupt and SystemExit are not Exceptions |
| ErrorHandling.HandleErrorSafely | linux_voice_assistant/error_handling.py:149-190 | the caller carries on exactly when the error is not of a fatal type; it is logged critical exactly when fatal, as a warning exactly when recoverable and not fatal, otherwise as an error |
| ErrorHandling.DefaultClassification | linux_voice_assistant/error_handling.py:152-153 | with the default tuples: hardware, configuration and keyboard-interrupt stop the program; audio-device and network errors carry on with a warning; any other Exception carries on and is logged as an error |
| ErrorHandling.FatalCheckedFirst | linux_voice_assistant/error_handling.py:167-181 | a class listed as both fatal and recoverable counts as fatal |
| ErrorHandling.BackoffDelayIsPower | linux_voice_assistant/error_handling.py:59-77 | the k-th sleep lasts `initial_delay * backoff_factor ** k` |
| ErrorHandling.RetryWithBackoff | linux_voice_assistant/error_handling.py:41-91 | at most max_retries + 1 calls; every call but the last raised a retried exception; the outcome is the last call's value or exception; a retried exception escapes only after all attempts; one sleep between consecutive attempts, growing geometrically; a negative max_retries calls nothing and returns None |
| Monitoring.NewMonitor | linux_voice_assistant/monitoring.py:49-75 | a new monitor has no history and all counters at zero |
| Monitoring.BoundedAppend | linux_voice_assistant/monitoring.py:158-162 | the result is a suffix of the old list plus the new item; nothing is evicted below the cap; past the cap the length stays; a list within the cap stays within it; the new item is last |
| Monitoring.LastN | linux_voice_assistant/monitoring.py:169 | the window is the last min(n, len) items |
| Monitoring.AppendAllKeepsNewest | linux_voice_assistant/monitoring.py:158-162 | appending items one by one to an empty bounded list keeps exactly the cap most recent, oldest first |
| Monitoring.LastNStep | linux_voice_assistant/monitoring.py:158-162 | one more bounded append turns the window of a list into the window of the longer list |
| Monitoring.AddToHistory | linux_voice_assistant/monitoring.py:158-162 | only the history changes, by one bounded append with `max_history` as the cap |
| Monitoring.AddToHistoryBounded | linux_voice_assistant/monitoring.py:158-162 | a history within `max_history` stays within it; below the cap the snapshot is appended; at the cap the oldest is dropped; the new snapshot becomes the current one |
| Monitoring.HistoryKeepsNewest | linux_voice_assistant/monitoring.py:99-162 | after any run of samples the history holds the `max_history` most recent |
| Monitoring.GetCurrentMetrics | linux_voice_assistant/monitoring.py:186-188 | None exactly for an empty history, otherwise the newest snapshot |
| Monitoring.Record | linux_voice_assistant/monitoring.py:208-218 | recording an event raises its own counter by one and leaves every other counter and the error log alone |
| Monitoring.RecordCommutes | linux_voice_assistant/monitoring.py:208-218 | recording two events in either order gives the same counters |
| Monitoring.RecordError | linux_voice_assistant/monitoring.py:220-225 | the message becomes the newest error; a log of at most 20 stays at most 20; the counters are untouched |
| Monitoring.RecordErrorsKeepsNewest | linux_voice_assistant/monitoring.py:220-225 | after any run of errors the log holds the 20 most recent, oldest first |
| Monitoring.RecentWindow | linux_voice_assistant/monitoring.py:169-195 | the summary window is the last ten snapshots, or all of them when there are fewer |
| Monitoring.GetMetricsSummary | linux_voice_assistant/monitoring.py:190-206 | an empty history gives the empty summary; otherwise the window is the last one to ten snapshots and the counters are copied |
| Monitoring.SummaryCoversNewestTen | linux_voice_assistant/monitoring.py:158-206 | with `max_history` of at least ten, the summary of any sample run covers the ten most recent samples |
| AudioDeviceUtil.FindSoundDeviceByName | linux_voice_assistant/audio_device_util.py:11-84 | an absent or empty name gives the default; otherwise the first output device with exactly that name, else the longest output-device name inside it (lowest index on ties), else the first output device whose name contains it, else the default; any index returned is an output device |
| AudioDeviceUtil.ExactScan | linux_voice_assistant/audio_device_util.py:25-36 | the first exact match among output devices, and None exactly when there is none |
| AudioDeviceUtil.ContainedScan | linux_voice_assistant/audio_device_util.py:42-62 | the longest contained output-device name, the earliest among equals, and None exactly when no non-empty name is contained |
| AudioDeviceUtil.ReverseScan | linux_voice_assistant/audio_device_util.py:64-76 | the first output device whose name contains the request, and None exactly when there is none |
| AudioDeviceUtil.ExactBeatsContained | linux_voice_assistant/audio_device_util.py:25-62 | an exact match would also pass the substring tier, so tier one decides only the order, never the outcome's existence |
| AudioDeviceUtil.LongestContainedUnique | linux_voice_assistant/audio_device_util.py:51-53 | the strict `>` makes the substring winner unique |
| AudioDeviceUtil.BluetoothExample | linux_voice_assistant/audio_device_util.py:38-41 | "bluez_output.1" is found inside "pipewire/bluez_output.1", and an input-only entry of that name is skipped |
| MpvPlayer.Route | linux_voice_assistant/mpv_player.py:270-277 | a `pulse/` device goes to Pulse as is, an `alsa/` device to ALSA as is, anything else to Pulse with `pulse/` put in front; the device always carries the prefix of its backend |
| MpvPlayer.SelectBackendAndDevice | linux_voice_assistant/mpv_player.py:257-277 | the backend is pulse or alsa; the device is absent exactly for a missing, empty or "default" device string; otherwise the stripped string is routed |
| MpvPlayer.StripUnpadded | linux_voice_assistant/mpv_player.py:270 | `strip()` leaves a string with no whitespace at its ends unchanged |
| MpvPlayer.RouteStable | linux_voice_assistant/mpv_player.py:270-277 | the chosen device string is non-empty, already stripped, and routes to the same output again |
| MpvPlayer.SelectBackendAndDeviceStable | linux_voice_assistant/mpv_player.py:257-277 | selecting again from the chosen device gives the same backend and device (a fixed point) |
| MpvPlayer.PrefixedNotDefault | linux_voice_assistant/mpv_player.py:267 | a prefixed device string never counts as the default |
| MpvPlayer.SelectDefaultDevice | linux_voice_assistant/mpv_player.py:262-268 | no device and "default" both give Pulse's default sink |
| MpvPlayer.SelectAlsaDevice | linux_voice_assistant/mpv_player.py:265-274 | "alsa/hw:1" goes to ALSA unchanged |
| MpvPlayer.SelectBlankDevice | linux_voice_assistant/mpv_player.py:267-277 | a blank device passes the emptiness test before the strip and ends up as the bare "pulse/" |
| MpvPlayer.NewPlayer | linux_voice_assistant/mpv_player.py:31-41 | a new player has no callback, nothing ducked, is not stopped and has no watchdog |
| MpvPlayer.InvocationsAppend | linux_voice_assistant/mpv_player.py:207-215 | callback invocations of two traces in a row add up |
| MpvPlayer.SilentHasNoInvocations | linux_voice_assistant/mpv_player.py:207-215 | a trace with no callback effect counts no invocation |
| MpvPlayer.Finish | linux_voice_assistant/mpv_player.py:207-215 | the callback is swapped out and the watchdog cancelled; a registered callback is invoked exactly once and nothing else changes |
| MpvPlayer.FinishAtMostOnce | linux_voice_assistant/mpv_player.py:210 | a second `_finish` invokes nothing, and the first invokes as many callbacks as were pending |
| MpvPlayer.Stop | linux_voice_assistant/mpv_player.py:105-119 | the player is stopped with no watchdog; a silent stop keeps the callback and invokes nothing; a loud stop ends with the pending callback, even when mpv raised; every pending callback is either invoked or still pending; volume and duck memory are untouched |
| MpvPlayer.LoadCommands | linux_voice_assistant/mpv_player.py:90-94 | one load command per item and no callback |
| MpvPlayer.PlaylistAppend | linux_voice_assistant/mpv_player.py:91 | `play` of the first item replaces whatever was queued before |
| MpvPlayer.LoadCommandsQueue | linux_voice_assistant/mpv_player.py:87-96 | the load commands leave exactly the requested items queued, in order, the first one loaded first |
| MpvPlayer.ArmWatchdog | linux_voice_assistant/mpv_player.py:219-244 | a timer is pending exactly when the watchdog period is positive; nothing else changes |
| MpvPlayer.PlayAsWritten | linux_voice_assistant/mpv_player.py:71-103 | as written, the player is left marked stopped after every `play` (the silent stop sets the flag after it was cleared) |
| MpvPlayer.Play | linux_voice_assistant/mpv_player.py:71-103 | the corrected `play`, which leaves the player not stopped after its silent stop: the new callback is invoked at most once overall; on failure (an empty list or mpv raising) it is invoked and the watchdog is off; on success nothing is invoked, the player is not stopped, the callback is registered, the watchdog is armed for a positive period, and exactly the requested items are queued; the volume is untouched |
| MpvPlayer.PlayAfterStop | linux_voice_assistant/mpv_player.py:87-103 | after the silent stop: failure invokes the callback and disarms, success queues the items, keeps the callback and arms the watchdog |
| MpvPlayer.PlayDropsPreviousCallback | linux_voice_assistant/mpv_player.py:79-85 | a `play` over an unfinished playback replaces the old callback without invoking it |
| MpvPlayer.SetVolume | linux_voice_assistant/mpv_player.py:121-127 | mpv receives the percentage clamped to [0, 100], unchanged within that range; nothing else changes |
| MpvPlayer.Duck | linux_voice_assistant/mpv_player.py:139-145 | only the first duck remembers the volume; the volume becomes the clamped target |
| MpvPlayer.Unduck | linux_voice_assistant/mpv_player.py:147-154 | the remembered volume is restored and forgotten; with nothing remembered nothing changes |
| MpvPlayer.DuckTwiceUnduckRestores | linux_voice_assistant/mpv_player.py:139-154 | two ducks and an unduck give back the volume held before the first duck |
| MpvPlayer.UnduckIdempotent | linux_voice_assistant/mpv_player.py:147-154 | a second unduck changes nothing |
| MpvPlayer.Trip | linux_voice_assistant/mpv_player.py:227-238 | a stall of at least the watchdog period on a player not stopped is a loud stop; anything else re-arms the watchdog |
| MpvPlayer.Step | linux_voice_assistant/mpv_player.py:165-238 | no observer, stop, trip or volume event invokes more callbacks than were pending, and only the registered callback is ever invoked |
| MpvPlayer.StopPreservingCallback | linux_voice_assistant/mpv_player.py:105-119 | a stop invokes only the registered callback |
| MpvPlayer.CallbackAtMostOnce | linux_voice_assistant/mpv_player.py:77 | whatever sequence of events follows a `play`, its done-callback is invoked at most once, and no other callback is invoked |
| MpvPlayer.WatchdogNeverTripsAsWritten | linux_voice_assistant/mpv_player.py:79-108 | as written, a watchdog trip after any `play` does nothing, however long playback stalled |
| MpvPlayer.WatchdogTripsStalledPlayback | linux_voice_assistant/mpv_player.py:227-235 | with the flag cleared for the new playback, a stall of the full period stops playback and invokes the callback exactly once |
| MpvPlayer.WatchdogExample | linux_voice_assistant/mpv_player.py:227-235 | an 8 s watchdog and a clip stuck for 10 s: nothing happens as written; corrected, mpv is stopped and the callback fires |
| MpvPlayer.MpvLogLevel | linux_voice_assistant/mpv_player.py:281-292 | the lower-cased level maps fatal and error to error, warn and warning to warning, info to info, and everything else, including None, to debug |
| MpvPlayer.MpvLogLevelIgnoresCase | linux_voice_assistant/mpv_player.py:283 | the mapping ignores case |
| MpvPlayer.MpvLogLevelExamples | linux_voice_assistant/mpv_player.py:283-290 | "FATAL" is an error, None and "v" are debug |
| ModelNames.PathName | linux_voice_assistant/openwakeword_client.py:24 | `Path(name).name` is the last '/'-separated component that is neither empty nor ".", or empty when there is none; so it never holds a '/' and is never "." |
| ModelNames.LastRealComponent | linux_voice_assistant/openwakeword_client.py:24 | the component `Path` keeps is the last one that is neither empty nor "."; when none is, the result is empty |
| ModelNames.PathNameAfterDir | linux_voice_assistant/openwakeword_client.py:24 | a real file name after any directory and a '/' is its own `Path(...).name`, so "models/hey_jarvis.tflite" and "hey_jarvis.tflite" agree |
| ModelNames.PathNameTrailingSlash | linux_voice_assistant/openwakeword_client.py:24 | a trailing '/' does not change `Path(...).name` |
| ModelNames.RFind | linux_voice_assistant/openwakeword_client.py:24 | the suffix split finds a dot exactly when there is one, and it is the last dot |
| ModelNames.RFindLast | linux_voice_assistant/openwakeword_client.py:24 | any position holding the last occurrence of the character is the one found |
| ModelNames.PathNamePlain | linux_voice_assistant/openwakeword_client.py:24 | a bare file name (no '/', not empty, not ".") is its own `Path(...).name` |
| ModelNames.StemOfName | linux_voice_assistant/openwakeword_client.py:24 | the stem is a prefix of the name; when it differs, what was cut is a '.' that is the last dot, not the first character and not the last; when the name is kept whole, no inner dot is its last dot |
| ModelNames.Stem | linux_voice_assistant/openwakeword_client.py:24 | `Path(name).stem` is the suffix rule applied to `Path(name).name`, the last real component, so it holds no directory part |
| ModelNames.StemAtDot | linux_voice_assistant/openwakeword_client.py:24 | a bare name loses exactly its text from the last inner dot on |
| ModelNames.StemNoDot | linux_voice_assistant/openwakeword_client.py:24 | a bare name without a dot is its own stem |
| ModelNames.VersionSuffixUnderscore | linux_voice_assistant/openwakeword_client.py:26 | a text matching `_v\d+(\.\d+)?` holds exactly one '_', its first character |
| ModelNames.StripVersion | linux_voice_assistant/openwakeword_client.py:26 | the version-suffix substitution removes a matching suffix ending at `$` (before a final newline too) whenever one exists, and otherwise leaves the text unchanged |
| ModelNames.StripVersionAt | linux_voice_assistant/openwakeword_client.py:26 | a suffix `_v<version>` after the last '_' is removed and nothing else |
| ModelNames.StripDigitSuffix | linux_voice_assistant/openwakeword_client.py:26 | `<p>_v<digit>` loses exactly `_v<digit>` |
| ModelNames.StripTwoPartVersion | linux_voice_assistant/openwakeword_client.py:26 | the optional `.digits` part of the version goes with it: `hey_jarvis_v0.1` becomes `hey_jarvis`, and the underscore inside the name stays |
| ModelNames.CapitalizeIsCapitalized | linux_voice_assistant/openwakeword_client.py:31 | `str.capitalize` leaves no lower-case first letter and no upper-case letter after it |
| ModelNames.CapitalizeAll | linux_voice_assistant/openwakeword_client.py:31 | the comprehension capitalises every part and keeps their number and order |
| ModelNames.LabelWordsAsWritten | linux_voice_assistant/openwakeword_client.py:24-31 | the label always has at least one word (split never returns an empty list) |
| ModelNames.LabelWords | linux_voice_assistant/openwakeword_client.py:21-22 | the label the docstring promises: one word per '_'-separated part of the version-stripped stem, in order; the first word is "OK" when that part reads "ok" in any case and otherwise the part capitalised; every later word is its part capitalised |
| ModelNames.PrettifyAgreesUnlessOk | linux_voice_assistant/openwakeword_client.py:27-32 | the code as written and the docstring's label agree on every name whose first word is not "ok" |
| ModelNames.PrettifyHal | linux_voice_assistant/openwakeword_client.py:21-22 | 'hal_v2' is labelled 'Hal', as the docstring says |
| ModelNames.LabelWordsAsWrittenOkNabu | linux_voice_assistant/openwakeword_client.py:24-31 | as written, 'ok_nabu_v0.1' gives the words "OK" and "nabu" |
| ModelNames.PrettifyAsWrittenOkNabu | linux_voice_assistant/openwakeword_client.py:28-29 | as written, 'ok_nabu_v0.1' is labelled 'OK nabu', not the 'OK Nabu' of the docstring |
| ModelNames.PrettifyOkNabu | linux_voice_assistant/openwakeword_client.py:21-22 | the corrected label of 'ok_nabu_v0.1' is 'OK Nabu' |
| ModelNames.AsWrittenLabelNotCapitalized | linux_voice_assistant/openwakeword_client.py:28-29 | the as-written label breaks the capitalisation that `LabelWords` keeps |
| ModelNames.NormalizeModelName | linux_voice_assistant/openwakeword_client.py:35-38 | a normalised model name is `Path(name).stem`: the suffix rule applied to the last real path component, with no directory part |
| ModelNames.NormalizeAll | linux_voice_assistant/openwakeword_client.py:43 | every model is normalised, in order |
| ModelNames.RemoveDenied | linux_voice_assistant/openwakeword_client.py:15-44 | exactly the names outside the denylist remain, and sortedness is kept |
| ModelNames.FilterDetectModels | linux_voice_assistant/openwakeword_client.py:41-44 | the result is sorted without repeats and holds exactly the normalised names of the input that are not on the denylist |
| ModelNames.FilterDetectModelsNoDuplicates | linux_voice_assistant/openwakeword_client.py:42-44 | no name is offered twice |
| ObjectScanner.Step | linux_voice_assistant/openwakeword_client.py:234-254 | an object closes exactly at a '}' outside any string that brings the depth from 1 to 0; the depth changes only at braces outside strings; an object's start is the index of the '{' that opens it at depth 0 |
| ObjectScanner.StepStrings | linux_voice_assistant/openwakeword_client.py:234-243 | outside a string a quote opens one and any character but a quote or brace changes nothing; inside, a backslash sets the escape, the next character clears it, an unescaped quote closes the string, and depth and start stay while nothing closes |
| ObjectScanner.Run | linux_voice_assistant/openwakeword_client.py:234-254 | the objects closed while scanning a range end inside that range, in strictly increasing order |
| ObjectScanner.YieldObjects | linux_voice_assistant/openwakeword_client.py:228-255 | every yielded text lies inside the buffer, starts with '{' and ends with '}', and the yielded objects do not overlap |
| ObjectScanner.RunGood | linux_voice_assistant/openwakeword_client.py:228-255 | the scan keeps its invariant: an open object starts at a '{' after every yielded one, and the escape flag is set only inside a string |
| ObjectScanner.RunSplit | linux_voice_assistant/openwakeword_client.py:234 | a scan may be cut at any index and resumed from the state reached there, with the same state and objects |
| ObjectScanner.RunCorr | linux_voice_assistant/openwakeword_client.py:234-254 | scanning a suffix from a matching state finds the same objects, shifted by the offset |
| ObjectScanner.LastPieceAtRest | linux_voice_assistant/openwakeword_client.py:248-253 | right after the last object closes the scanner is outside every string and object, and nothing after it closes |
| ObjectScanner.ResumeAtRest | linux_voice_assistant/openwakeword_client.py:277 | rescanning `buf[pos:]` from a point of rest finds what the full scan finds after that point |
| ObjectScanner.InStringOfBody | linux_voice_assistant/openwakeword_client.py:235-241 | a literal's contents, its closing quote and then a flat body are the rest of a string begun in a flat body |
| ObjectScanner.RunFlatBody | linux_voice_assistant/openwakeword_client.py:234-254 | a body of plain characters and string literals, scanned outside any string, leaves the scanner as it was and closes nothing, whatever braces the literals hold |
| ObjectScanner.RunInString | linux_voice_assistant/openwakeword_client.py:234-254 | scanning the rest of a literal leaves the string at its closing quote, whatever braces and escaped quotes it holds, and the flat body after it closes nothing |
| ObjectScanner.StringLiteralInert | linux_voice_assistant/openwakeword_client.py:234-254 | a whole string literal, scanned from outside any string, leaves depth and start unchanged and yields nothing |
| ObjectScanner.RunFlat | linux_voice_assistant/openwakeword_client.py:244-253 | one flat object scanned from rest yields exactly that object and ends at rest |
| ObjectScanner.BoundsCut | linux_voice_assistant/openwakeword_client.py:229 | each object of a concatenation `{}{}...` sits at its computed bounds |
| ObjectScanner.ConcatScan | linux_voice_assistant/openwakeword_client.py:229 | flat objects (no nested object; literals may hold any character) written back to back are found each at its own bounds, and the scan ends at rest |
| ObjectScanner.ScanAppendFlat | linux_voice_assistant/openwakeword_client.py:229 | one more flat object appended after a text that scans to rest is found exactly where it was appended |
| ObjectScanner.ScanAppendWhole | linux_voice_assistant/openwakeword_client.py:229 | any text that scans on its own to one object spanning all of it, appended after a text that scans to rest, is found exactly where it was appended |
| ObjectScanner.YieldObjectsOfConcat | linux_voice_assistant/openwakeword_client.py:229 | flat objects written back to back, string literals with braces and escaped quotes included, are cut apart again: the texts the scanner yields are exactly the objects, in order |
| ObjectScanner.YieldObjectWithString | linux_voice_assistant/openwakeword_client.py:228-255 | the object `{"a":"}\"{"}` is yielded whole: the braces and the escaped quote inside its literals do not cut it |
| ObjectScanner.Remainder | linux_voice_assistant/openwakeword_client.py:364 | `buf[pos:]` is the tail after `pos`, and empty once `pos` passes the end |
| ObjectScanner.Drain | linux_voice_assistant/openwakeword_client.py:274-280 | the pass loop never moves `pos` backwards |
| ObjectScanner.AsWrittenOvershoots | linux_voice_assistant/openwakeword_client.py:278-280 | with two or more objects in one pass, adding every end (each relative to the same `pos`) moves `pos` past the last object's end by at least the first object's end |
| ObjectScanner.DrainCorrected | linux_voice_assistant/openwakeword_client.py:274-364 | with `pos` moved to the last object's end, the loop hands over exactly the objects of the buffer and keeps all text after the last one, which holds no complete object |
| ObjectScanner.NothingAfterLast | linux_voice_assistant/openwakeword_client.py:274-277 | a second pass from the last object's end finds no object |
| ObjectScanner.DrainExample | linux_voice_assistant/openwakeword_client.py:278-364 | on `{}{}{` the code hands over the two objects but advances `pos` to 6, dropping the trailing `{` of the object still arriving; the corrected cursor keeps it |
| ObjectScanner.ScanExample | linux_voice_assistant/openwakeword_client.py:228-255 | `{}{}{` yields the two complete objects (0,2) and (2,4) |
| WakeClient.Or | linux_voice_assistant/openwakeword_client.py:290-343 | `a or b` yields `a` exactly when `a` is truthy, `b` otherwise |
| WakeClient.KeywordText | linux_voice_assistant/openwakeword_client.py:290-332 | a string value is lower-cased; any other value prints as text that spells no keyword |
| WakeClient.NewClient | linux_voice_assistant/openwakeword_client.py:57-69 | a new client is not paused, has no suppression window, no refractory period, no connection, no callback and an empty model cache |
| WakeClient.Pause | linux_voice_assistant/openwakeword_client.py:119-120 | pausing sets the pause flag and changes nothing else |
| WakeClient.Resume | linux_voice_assistant/openwakeword_client.py:122-123 | resuming clears the pause flag and changes nothing else |
| WakeClient.Suppress | linux_voice_assistant/openwakeword_client.py:125-130 | the suppression deadline never moves earlier, reaches at least `now + ms`, is one of the old deadline and `now + ms`, and nothing else changes |
| WakeClient.SuppressIdempotent | linux_voice_assistant/openwakeword_client.py:125-130 | suppressing twice with the same arguments is suppressing once |
| WakeClient.SetRefractory | linux_voice_assistant/openwakeword_client.py:132-133 | the refractory period is the given value when non-negative and 0 otherwise, and nothing else changes |
| WakeClient.NonEmpty | linux_voice_assistant/openwakeword_client.py:207 | the filtered names are exactly the non-empty names given, and none is empty |
| WakeClient.NonEmptyAppend | linux_voice_assistant/openwakeword_client.py:207 | filtering the names of two lists in a row gives the two filtered lists in a row, so the kept names keep their order |
| WakeClient.NonEmptyAgrees | linux_voice_assistant/openwakeword_client.py:207 | the filter equals an independent one that drops empty names from the end backwards |
| WakeClient.NonEmptyFirst | linux_voice_assistant/openwakeword_client.py:207-211 | the first filtered name is the first non-empty name given |
| WakeClient.SetDetect | linux_voice_assistant/openwakeword_client.py:204-213 | without a connection the call fails; a request with only empty names is ignored; otherwise the detect message carries the non-empty names in the order given, duplicates kept, and the client takes the first of them as its name |
| WakeClient.DataOf | linux_voice_assistant/openwakeword_client.py:300-327 | `msg.get("data", {}) or {}` is truthy or the empty object |
| WakeClient.NormalizeModels | linux_voice_assistant/openwakeword_client.py:310-315 | every cache entry comes from a listed model; when every model is a string or an object there is one entry per model, in order, each the model's own entry |
| WakeClient.NormalizeNames | linux_voice_assistant/openwakeword_client.py:310-313 | a list of plain names becomes one `{"name": ...}` entry per name, in order |
| WakeClient.NormalizeAppend | linux_voice_assistant/openwakeword_client.py:310-315 | normalising two lists of models in a row gives the two results in a row, so entries keep the order of their models |
| WakeClient.NormalizeAgrees | linux_voice_assistant/openwakeword_client.py:310-315 | the normalisation equals an independent one that works from the end backwards, keeping each model's entry and dropping models with none |
| WakeClient.OutcomeMeaning | linux_voice_assistant/openwakeword_client.py:171-190 | an entry `list_models` keeps has a non-empty name outside the helper models and is the model with only its label added; an entry is skipped exactly when its name is empty or a helper model |
| WakeClient.PhraseIsLabel | linux_voice_assistant/openwakeword_client.py:175-178 | a non-empty phrase is the label |
| WakeClient.Collect | linux_voice_assistant/openwakeword_client.py:170-191 | the returned list fails exactly when one entry raises; otherwise it holds every kept entry and nothing but kept entries |
| WakeClient.Outcomes | linux_voice_assistant/openwakeword_client.py:171 | every model is looked at, in order |
| WakeClient.ListedModels | linux_voice_assistant/openwakeword_client.py:170-191 | `list_models` fails exactly when building an entry raises, and otherwise returns every kept model with its label and nothing else |
| WakeClient.ListedNoExcluded | linux_voice_assistant/openwakeword_client.py:172-174 | no helper model and no nameless model is ever offered |
| WakeClient.InfoTypesAreNoEvents | linux_voice_assistant/openwakeword_client.py:299-331 | the info types are neither `detection` nor an event type, so the info path is taken first |
| WakeClient.DetectedName | linux_voice_assistant/openwakeword_client.py:337-342 | the reported name is a truthy field value or, failing all three, the client's own name |
| WakeClient.HandleMessage | linux_voice_assistant/openwakeword_client.py:290-361 | the reader crashes exactly on a detection-shaped message whose data is truthy but not an object; it reports a detection exactly for a detection-shaped message; it updates the model cache exactly for an info message listing usable models; a detection reaches the callback exactly when one is set and the client is neither paused nor suppressed, and then opens the refractory window unless the callback raised; the pause flag, the refractory period and the name never change, and the deadline never moves earlier |
| WakeClient.Deliver | linux_voice_assistant/openwakeword_client.py:336-361 | the detection carries the chosen name and timestamp; it is delivered exactly when a callback is set and the client is not suppressed; a delivery with a refractory period suppresses for that period, and otherwise nothing changes |
| WakeClient.RefractoryHoldsBack | linux_voice_assistant/openwakeword_client.py:345-359 | after a delivered detection every detection in the following `refractory_ms` milliseconds is held back |
| WakeClient.PausedDeliversNothing | linux_voice_assistant/openwakeword_client.py:347 | while paused no detection reaches the callback |
| WakeClient.DetectionShape | linux_voice_assistant/openwakeword_client.py:329-330 | a bare `detection` message is a detection |
| WakeClient.WakeHotwordShape | linux_voice_assistant/openwakeword_client.py:331-334 | type and event words are compared without regard to case |
| WakeClient.OtherEventShape | linux_voice_assistant/openwakeword_client.py:331-334 | an event of another kind is not a detection |
| WakeClient.EventMessage | linux_voice_assistant/openwakeword_client.py:290-334 | an `event` message is a detection exactly when its lower-cased event word is one of the detection words |
| WakeClient.ListDataCrashes | linux_voice_assistant/openwakeword_client.py:327-332 | an event whose data is a non-empty list ends the reader thread |
| WakeClient.HandleAll | linux_voice_assistant/openwakeword_client.py:276-361 | objects are handled in order and handling stops at the first crash; the pause flag and the refractory period are kept and the deadline never moves earlier |
| WakeClient.OneDeliveryPerLine | linux_voice_assistant/openwakeword_client.py:345-359 | with a refractory period set, one line delivers at most one detection |
| WakeClient.OnlyFirstDelivered | linux_voice_assistant/openwakeword_client.py:345-359 | after a delivery with a refractory period set, nothing else in the line is delivered |
| WakeClient.NoDeliveryWhileSuppressed | linux_voice_assistant/openwakeword_client.py:347 | a client holding detections back delivers none of a line's detections |
| WakeClient.ReadLine | linux_voice_assistant/openwakeword_client.py:257-364 | a dead reader reads nothing; a live one stays alive exactly when the line's last reaction is not a crash |
| WakeClient.ReadLineKeepsPartialObject | linux_voice_assistant/openwakeword_client.py:271-364 | with the corrected cursor the buffer keeps exactly the text after the last complete object, and never holds a complete object between lines |
| PcmQueue.AdvanceCursor | linux_voice_assistant/sendspin_bridge.py:572-581 | the server cursor, counted in microsecond-times-sample-rate units with its remainder, advances by exactly `frames` seconds' worth of microseconds; the remainder stays below the sample rate; non-positive counts change nothing |
| PcmQueue.CursorComposes | linux_voice_assistant/sendspin_bridge.py:572-581 | advancing the cursor by `m` frames and then by `n` lands where one advance by `m + n` lands: the whole microseconds and the remainder agree |
| PcmQueue.InitializeCurrentChunk | linux_voice_assistant/sendspin_bridge.py:476-481 | the head of the queue becomes the current chunk read from its start; the cursor is set from the chunk's timestamp only while it is still 0 |
| PcmQueue.AdvanceFinishedChunk | linux_voice_assistant/sendspin_bridge.py:559-570 | finishing a chunk drops it and subtracts its whole-frame duration from the buffered duration, never below zero; with no current chunk nothing changes |
| PcmQueue.Load | linux_voice_assistant/sendspin_bridge.py:490-595 | making the next chunk current changes neither the bytes still to play nor the chunks held, and keeps the duration counter and the frame alignment |
| PcmQueue.FinishKeeps | linux_voice_assistant/sendspin_bridge.py:559-570 | dropping the current chunk removes exactly its unread bytes from the front of the stream, and keeps the duration counter matching the held chunks |
| PcmQueue.StreamTake | linux_voice_assistant/sendspin_bridge.py:505-544 | moving the offset forward by `k` removes exactly those `k` bytes from the front of the stream |
| PcmQueue.OrderedSuffix | linux_voice_assistant/sendspin_bridge.py:559-570 | dropping chunks from the front keeps them in timestamp order |
| PcmQueue.TimelineSuffix | linux_voice_assistant/sendspin_bridge.py:483-607 | the readers keep the timeline: the chunks left are still ordered and end no later than the next expected timestamp |
| PcmQueue.AppendKeeps | linux_voice_assistant/sendspin_bridge.py:937-977 | queuing a whole-frame chunk that starts no earlier than the expected timestamp, with its duration added, keeps the duration counter, the alignment and the timeline |
| PcmQueue.Consume | linux_voice_assistant/sendspin_bridge.py:507-607 | taking `n` bytes of the current chunk removes exactly them from the front of the stream, drops a chunk read to its end, and moves the cursor clock forward by exactly the frames credited |
| PcmQueue.ReadOne | linux_voice_assistant/sendspin_bridge.py:483-515 | one frame comes from the front of the stream, zero-padded when the chunk ends inside it; nothing is returned when nothing is held; on frame-aligned chunks the frame is a whole frame of real audio; a frame read moves the cursor, seeded from the first chunk when still zero, by one frame |
| PcmQueue.TakeFrame | linux_voice_assistant/sendspin_bridge.py:502-515 | the frame taken is frame-sized: the first bytes are the front of the stream and the rest are zeros; the cursor moves by exactly one frame |
| PcmQueue.FillOnce | linux_voice_assistant/sendspin_bridge.py:535-550 | one pass of the bulk loop reads the front of the stream, never more than asked, either reads something or drops a chunk, and moves the cursor, seeded when still zero, by the whole frames in what it read |
| PcmQueue.FillCurrent | linux_voice_assistant/sendspin_bridge.py:535-550 | the same pass once a chunk is current: the cursor moves from where it stands by the whole frames in what was read |
| PcmQueue.MovedAfterLoad | linux_voice_assistant/sendspin_bridge.py:480-481 | loading a chunk only seeds the cursor, so a move counted after loading counts from the seeded start |
| PcmQueue.Fill | linux_voice_assistant/sendspin_bridge.py:526-551 | the bulk loop reads the first `min(need, stream length)` bytes of the stream and stops short only when nothing is held; on aligned chunks it reads whole frames; once the cursor is non-zero it moves by whole frames no more than the bytes read, and exactly those on aligned chunks |
| PcmQueue.SkipLoop | linux_voice_assistant/sendspin_bridge.py:583-607 | skipping leaves a suffix of the stream; on frame-aligned chunks exactly `frames` frames go, or everything there is; once the cursor is non-zero it moves by at most `frames` frames, no more than the bytes skipped, and exactly those on aligned chunks |
| PcmQueue.SkipOnce | linux_voice_assistant/sendspin_bridge.py:596-607 | a tail shorter than a frame is dropped with its chunk; otherwise up to `left` whole frames are skipped; the skipped frames fit in the bytes dropped and the cursor, seeded when still zero, moves by exactly them |
| PcmQueue.SkipShortTail | linux_voice_assistant/sendspin_bridge.py:598-601 | a tail shorter than a frame goes with its chunk; on aligned chunks such a tail is empty |
| PcmQueue.SilenceFits | linux_voice_assistant/sendspin_bridge.py:930-946 | the silence filling a gap lasts no longer than the gap |
| PcmPlayer.NewPlayer | linux_voice_assistant/sendspin_bridge.py:144-206 | a new player holds no audio, keeps the invariant, and starts at volume 60 |
| PcmPlayer.SetFormat | linux_voice_assistant/sendspin_bridge.py:208-237 | a new format brings a new output stream that has not started; the queued audio and the expected timestamp are kept |
| PcmPlayer.ClampVolume | linux_voice_assistant/sendspin_bridge.py:249 | the stored volume is within 0..100, equal to the request when that is in range and the nearer bound otherwise |
| PcmPlayer.ClampVolumeIdempotent | linux_voice_assistant/sendspin_bridge.py:249 | clamping twice is clamping once |
| PcmPlayer.SetVolume | linux_voice_assistant/sendspin_bridge.py:247-250 | only the volume, clamped, and the mute flag change, so the invariant holds after exactly when it held before |
| PcmPlayer.Clear | linux_voice_assistant/sendspin_bridge.py:257-302 | after `clear` no audio is held, the timeline and the sync schedule are reset, the stream is not started, and the format, stream and volume are kept |
| PcmPlayer.ClearForgets | linux_voice_assistant/sendspin_bridge.py:257-302 | nothing from before a `clear` survives it except format, stream and volume |
| PcmPlayer.NewPlayerIsCleared | linux_voice_assistant/sendspin_bridge.py:257-302 | a fresh player is a cleared one |
| PcmPlayer.Pending | linux_voice_assistant/sendspin_bridge.py:858-860 | a deferred clear requested by the audio thread is carried out first, keeping the invariant |
| PcmPlayer.Schedule | linux_voice_assistant/sendspin_bridge.py:878-911 | the first chunk fixes the scheduled start from the time sync (or the loop clock when it fails), enters waiting-for-start and flags an early start within 700 ms; later a re-estimate replaces the start only while waiting and only when it moved by more than 5 ms; the buffer is untouched |
| PcmPlayer.ScheduleIdempotent | linux_voice_assistant/sendspin_bridge.py:878-911 | scheduling again with the same clock and time sync changes nothing more |
| PcmPlayer.Place | linux_voice_assistant/sendspin_bridge.py:926-963 | a chunk is skipped exactly when its overlap with the expected timestamp covers the whole payload; a placed chunk keeps a suffix of its payload and becomes the new expected timestamp |
| PcmPlayer.PlaceFirst | linux_voice_assistant/sendspin_bridge.py:927-928 | the first chunk after a clear is placed as it is and fixes the expected timestamp |
| PcmPlayer.PlaceGap | linux_voice_assistant/sendspin_bridge.py:930-948 | a late chunk is placed as it is, after a zero-filled chunk stamped at the expected timestamp that fills the gap |
| PcmPlayer.PlaceOverlap | linux_voice_assistant/sendspin_bridge.py:950-959 | an early chunk loses its whole overlapping frames and is re-stamped at the expected timestamp |
| PcmPlayer.Enqueue | linux_voice_assistant/sendspin_bridge.py:966-977 | a non-empty chunk goes to the back of the queue, the buffered duration grows by its duration and the next timestamp is its end; an empty one changes nothing |
| PcmPlayer.StartStream | linux_voice_assistant/sendspin_bridge.py:980-986 | the stream is started exactly when audio is queued and a stream exists, and nothing else changes |
| PcmPlayer.Submit | linux_voice_assistant/sendspin_bridge.py:850-874 | a payload without a format, with a zero frame size or with a partial frame is dropped after any pending clear |
| PcmPlayer.SubmitKeepsVolume | linux_voice_assistant/sendspin_bridge.py:850-991 | `submit` leaves the volume and the mute flag alone |
| PcmPlayer.SubmitAppends | linux_voice_assistant/sendspin_bridge.py:926-977 | an accepted chunk appends the gap's silence and the part of the payload that survives the overlap trim to the stream, and touches no audio already buffered |
| PcmPlayer.SubmitSteps | linux_voice_assistant/sendspin_bridge.py:876-986 | an accepted `submit` is scheduling, then placing, then queueing and starting the stream |
| PcmPlayer.SilenceKeepsInv | linux_voice_assistant/sendspin_bridge.py:930-948 | the silence queued for a gap ends no later than the late chunk starts, so the invariant holds |
| PcmPlayer.PlaceKeepsInv | linux_voice_assistant/sendspin_bridge.py:926-963 | placing a chunk keeps the invariant, and what is left of the payload is whole frames |
| PcmPlayer.PlaceGapKeepsInv | linux_voice_assistant/sendspin_bridge.py:930-948 | placing a chunk at or after the expected timestamp keeps the invariant |
| PcmPlayer.TrimKeepsFrames | linux_voice_assistant/sendspin_bridge.py:956-958 | trimming whole frames off a whole-frame payload leaves whole frames |
| PcmPlayer.EnqueueKeepsInv | linux_voice_assistant/sendspin_bridge.py:966-977 | queueing a whole-frame chunk at the expected timestamp keeps the invariant |
| PcmPlayer.SubmitKeepsInv | linux_voice_assistant/sendspin_bridge.py:850-991 | `submit` keeps the invariant: the duration counter matches the held chunks, every chunk is whole frames, and the chunks lie in order on the server timeline up to the expected timestamp |
| PcmPlayer.ReadOneFrame | linux_voice_assistant/sendspin_bridge.py:483-515 | without a format, with a zero frame size or with nothing held no frame is read and nothing changes; a frame read is frame-sized, its first bytes the front of the stream and the rest zeros, and moves the cursor by one frame from its seeded start; under the invariant it is never padded and the invariant survives |
| PcmPlayer.ReadFramesBulk | linux_voice_assistant/sendspin_bridge.py:517-557 | `n` frames of output are the first bytes of the stream padded with silence once it runs dry, the stream loses exactly those bytes, and the last output frame is the last whole frame of real audio read, kept as it was when less than a frame was read; once the cursor is non-zero it moves by whole frames no more than the bytes read, exactly those on aligned chunks |
| PcmPlayer.ReadWholeFrames | linux_voice_assistant/sendspin_bridge.py:522-557 | the bulk read with a format with whole frames: output, remaining stream, last output frame and cursor as above, and on aligned chunks a whole number of frames consumed |
| PcmPlayer.SkipFrames | linux_voice_assistant/sendspin_bridge.py:583-607 | skipping leaves a suffix of the stream and keeps the invariant; it raises exactly when the frame size is zero and audio is held; under the invariant exactly the requested frames go, or everything there is; once the cursor is non-zero it moves by at most the requested frames, no more than the bytes skipped |
| SendspinBridge.NewBridge | linux_voice_assistant/sendspin_bridge.py:1036-1048 | a new bridge is not playing, has no player, is at volume 100, unmuted and not ducked |
| SendspinBridge.Level | linux_voice_assistant/sendspin_bridge.py:1132-1133 | the player, if any, takes the clamped volume and the mute flag and nothing else; its queue invariant is kept |
| SendspinBridge.Apply | linux_voice_assistant/sendspin_bridge.py:1123-1133 | `_update_player_volume` hands the player the bridge's volume, halved while ducked, and its mute flag; the corrected rule keeps a paused player muted at 0 instead |
| SendspinBridge.Retune | linux_voice_assistant/sendspin_bridge.py:1096-1098 | the bridge's volume and mute flag are set and handed on to the player |
| SendspinBridge.ReportIfConnected | linux_voice_assistant/sendspin_bridge.py:1100-1110 | a state report with the volume and mute flag is scheduled exactly when the client is connected |
| SendspinBridge.SetVolume | linux_voice_assistant/sendspin_bridge.py:1094-1110 | the volume is clamped to 0..100, the mute flag taken, the player updated, and a report scheduled when connected; nothing else changes |
| SendspinBridge.Duck | linux_voice_assistant/sendspin_bridge.py:1112-1115 | ducking marks the bridge ducked and keeps volume and mute flag; as written the player always takes the halved volume, while the corrected rule keeps a paused player muted at 0 |
| SendspinBridge.Unduck | linux_voice_assistant/sendspin_bridge.py:1117-1121 | unducking clears the flag and restores the player's volume, except while paused, when nothing else changes |
| SendspinBridge.Pause | linux_voice_assistant/sendspin_bridge.py:1135-1141 | only a playing stream pauses, by muting the player at volume 0; otherwise nothing changes |
| SendspinBridge.Resume | linux_voice_assistant/sendspin_bridge.py:1143-1147 | only a paused stream resumes, and then its player gets its volume back; otherwise nothing changes |
| SendspinBridge.StopPlayer | linux_voice_assistant/sendspin_bridge.py:1244-1266 | the player is dropped and no format is current, nothing else changes |
| SendspinBridge.Stop | linux_voice_assistant/sendspin_bridge.py:1155-1174 | after `stop` nothing plays; an active stream loses its player and reports its state when connected; without one nothing happens |
| SendspinBridge.OnStreamStart | linux_voice_assistant/sendspin_bridge.py:1306-1314 | a stream start makes the bridge play and runs the start callback when one is set |
| SendspinBridge.OnStreamEnd | linux_voice_assistant/sendspin_bridge.py:1316-1329 | a stream end stops playback and drops the player, keeps the volume settings, and sets the entity idle when there is one |
| SendspinBridge.CommandState | linux_voice_assistant/sendspin_bridge.py:1336-1362 | a volume command sets the clamped volume, a mute command the mute flag, anything else changes nothing; the player follows |
| SendspinBridge.EntitySync | linux_voice_assistant/sendspin_bridge.py:1342-1359 | the entity hears the new volume after a volume command and the new mute flag after a mute command, when there is an entity |
| SendspinBridge.OnServerCommand | linux_voice_assistant/sendspin_bridge.py:1331-1373 | without a player payload nothing happens; otherwise the command is applied, the entity is updated, and a state report comes last |
| SendspinBridge.CreatePlayer | linux_voice_assistant/sendspin_bridge.py:1214-1236 | a new empty player for the format replaces the old one and takes the bridge's volume (kept muted at 0 while paused under the corrected rule); the stream flags and volume settings are kept |
| SendspinBridge.OnAudioChunk | linux_voice_assistant/sendspin_bridge.py:1375-1391 | without an active stream a chunk is ignored; with one it goes to the player, which is first recreated empty when the format changed; the bookkeeping invariant is kept |
| SendspinBridge.PauseResume | linux_voice_assistant/sendspin_bridge.py:1135-1147 | pausing and resuming a playing stream gives back the same bridge, player volume included |
| SendspinBridge.DuckUnduck | linux_voice_assistant/sendspin_bridge.py:1112-1121 | ducking and unducking an unpaused bridge gives back the same bridge |
| SendspinBridge.PauseIdempotent | linux_voice_assistant/sendspin_bridge.py:1135-1141 | a second pause changes nothing |
| SendspinBridge.StopIdempotent | linux_voice_assistant/sendspin_bridge.py:1155-1174 | a second stop changes nothing and reports nothing |
| SendspinBridge.DuckWhilePausedIsHeard | linux_voice_assistant/sendspin_bridge.py:1112-1141 | as written, ducking a paused bridge unmutes its player at half volume, so the paused music is heard again |
| SendspinBridge.DuckWhilePausedCorrected | linux_voice_assistant/sendspin_bridge.py:1117-1141 | with the corrected rule a paused bridge stays muted at volume 0 when ducked |
| SendspinBridge.DuckWhilePausedExample | linux_voice_assistant/sendspin_bridge.py:1112-1141 | a concrete playing bridge at volume 100: paused and then ducked, the code unmutes it at 50, the corrected rule keeps it silent |
| Entity.NewMediaPlayer | linux_voice_assistant/entity.py:37-56 | a new media player entity is IDLE at volume 1.0, unmuted, with a previous volume of 1.0, under the given key, name and object id |
| Entity.StateMessage | linux_voice_assistant/entity.py:158-164 | the state message is a media player state response |
| Entity.StateMessageMirrors | linux_voice_assistant/entity.py:158-164 | two entities give the same state message exactly when they agree on key, state, volume and mute flag |
| Entity.Trunc | linux_voice_assistant/entity.py:130-139 | `int()` of a float keeps the integer part, rounding toward zero on both sides of 0 |
| Entity.Play | linux_voice_assistant/entity.py:58-97 | play reports PLAYING at once; an announcement over playing music pauses the music and resumes it afterwards; an announcement otherwise, and music, report IDLE when done |
| Entity.AfterPlayback | linux_voice_assistant/entity.py:70-95 | the done callback either resumes the music and says nothing, or turns the entity IDLE and sends that state |
| Entity.Command | linux_voice_assistant/entity.py:104-134 | PAUSE and PLAY drive both players and settle on IDLE when both are idle; MUTE saves the volume and zeroes it only when unmuted; UNMUTE restores the saved volume in percent and then reports PAUSED; other commands do nothing |
| Entity.HandleMessage | linux_voice_assistant/entity.py:99-152 | a command for another key is ignored; a media URL plays, announcement only when flagged; a command runs; a new volume is set in percent on both players; listing and subscribing answer with the entity's description and state; the identity never changes |
| Entity.LastReplyIsState | linux_voice_assistant/entity.py:97-143 | whenever the entity answers one of its own commands, its last reply is its state as it now is |
| Entity.VolumeOnlyByVolumeCommands | linux_voice_assistant/entity.py:119-143 | no message but MUTE, UNMUTE or a bare volume change moves the volume, the saved volume or the mute flag |
| Entity.MuteUnmuteRestores | linux_voice_assistant/entity.py:119-133 | MUTE, any number of further MUTEs, then UNMUTE gives back the original volume, unmuted, and sets both players to it in percent |
| Entity.MutesKeepMuted | linux_voice_assistant/entity.py:120-126 | repeated MUTE on a muted entity changes nothing |
| Entity.NewMuteSwitch | linux_voice_assistant/entity.py:171-187 | the switch starts at the mute flag the satellite reports |
| Entity.SyncWithState | linux_voice_assistant/entity.py:197-199 | syncing sets the switch to the reported flag and changes nothing else |
| Entity.HandleSwitch | linux_voice_assistant/entity.py:201-220 | a switch command for its key sets the switch, calls `set_muted` with the new state and echoes it; other keys are ignored; listing describes a CONFIG switch with the microphone-off icon; subscribing first syncs with the mute flag; identity never changes |
| Entity.SwitchEchoesState | linux_voice_assistant/entity.py:201-220 | every state the switch reports is the state it holds afterwards |
| Satellite.Sent | linux_voice_assistant/satellite.py:309-380 | the messages sent are among the effects, never more of them |
| Satellite.SentAppend | linux_voice_assistant/satellite.py:374-380 | messages are sent in the order the effects happen: the messages of two effect lists in a row are those of the first followed by those of the second |
| Satellite.NewSession | linux_voice_assistant/satellite.py:121-126 | a new session neither streams, runs a pipeline, has played a response, continues a conversation nor rings a timer, and holds no TTS URL |
| Satellite.SetMuted | linux_voice_assistant/satellite.py:130-144 | muting stops the microphone stream, then the TTS player, whose pending done callback runs at that point, then the stop word; only a pending `_tts_finished` of a continued conversation leaves the stream on; unmuting only clears the flag |
| Satellite.SetMutedSends | linux_voice_assistant/satellite.py:130-144 | muting sends exactly what the TTS player's pending callback sends; unmuting sends nothing |
| Satellite.TtsFinished | linux_voice_assistant/satellite.py:372-386 | the end of a response always deactivates the stop word and sends AnnounceFinished; a continued conversation then sends a new start request and streams again, otherwise the pipeline ends and the audio is unducked; the continue flag is cleared either way |
| Satellite.TtsFinishedSends | linux_voice_assistant/satellite.py:372-386 | the messages sent at the end of a response are AnnounceFinished, followed by a start request exactly when the conversation continues; the pipeline stays active exactly then |
| Satellite.PlayTts | linux_voice_assistant/satellite.py:350-358 | a response plays only with a non-empty URL not yet played in this run, activating the stop word and calling back `_tts_finished`; after the call it counts as played unless nothing happened |
| Satellite.PlayTtsOnce | linux_voice_assistant/satellite.py:350-354 | a second `play_tts` does nothing |
| Satellite.ArgsMap | linux_voice_assistant/satellite.py:196-198 | the argument dict has exactly the names of the arguments |
| Satellite.ArgsMapLast | linux_voice_assistant/satellite.py:197-198 | a name maps to the value of its last argument |
| Satellite.HandleVoiceEvent | linux_voice_assistant/satellite.py:146-178 | RUN_START records the URL and starts the pipeline; the two STT ends stop the stream; INTENT_PROGRESS plays early only when flagged; INTENT_END records a continued conversation; TTS_END records the URL and plays; RUN_END finishes the run; other events change nothing |
| Satellite.VoiceEventKeepsDevice | linux_voice_assistant/satellite.py:146-178 | no pipeline event changes the mute flag, a ringing timer or the connection |
| Satellite.RunEnded | linux_voice_assistant/satellite.py:171-176 | RUN_END stops the stream and resets the played flag; a run whose response never played is finished here, and only a continued conversation turns the stream back on |
| Satellite.OnePlayPerRun | linux_voice_assistant/satellite.py:350-354 | after RUN_START with a URL, an early start on INTENT_PROGRESS plays the response and the TTS_END that follows plays nothing more |
| Satellite.PlayTimerFinished | linux_voice_assistant/satellite.py:390-400 | the timer sound is played again, with the same callback, while the timer flag is set; once cleared the audio is unducked |
| Satellite.HandleTimerEvent | linux_voice_assistant/satellite.py:180-191 | a finished timer sets the flag, activates the stop word, ducks and rings, but only the first time; other timer events do nothing |
| Satellite.RunCallback | linux_voice_assistant/satellite.py:358-399 | the TTS callback finishes the response; the timer callback plays the timer sound again or unducks, without changing the session |
| Satellite.StopTts | linux_voice_assistant/mpv_player.py:105-119 | stopping the TTS player runs the done callback it holds right after the stop, on the session as it is at that moment; with none pending it only stops |
| Satellite.StopTtsSends | linux_voice_assistant/mpv_player.py:207-215 | stopping the TTS player sends AnnounceFinished, plus a start request for a continued conversation, exactly when `_tts_finished` is pending, and nothing otherwise |
| Satellite.Wakeup | linux_voice_assistant/satellite.py:311-335 | a ringing timer is silenced instead, by clearing the flag and then stopping the TTS player with its pending callback; muted or busy, the wake word is ignored; otherwise a start request with the phrase is sent, the audio ducked, the microphone streamed and the wakeup sound played |
| Satellite.WakeupSends | linux_voice_assistant/satellite.py:311-331 | an accepted wake word sends exactly the start request with its phrase; silencing a timer sends what the pending callback sends; an ignored wake word sends nothing |
| Satellite.WakeWhileBusyIgnored | linux_voice_assistant/satellite.py:323-325 | a wake word while a pipeline runs changes nothing |
| Satellite.WakeupSilencesTimer | linux_voice_assistant/satellite.py:311-316 | when the timer sound's own callback is pending, silencing the timer stops the player and the callback, finding the flag cleared, unducks the audio |
| Satellite.HandleAudio | linux_voice_assistant/satellite.py:304-309 | a chunk is forwarded exactly when the microphone streams and the satellite is not muted |
| Satellite.Stop | linux_voice_assistant/satellite.py:337-348 | stop ends the pipeline and the conversation and clears the timer; the TTS player is stopped first, with the conversation flag still set, so a pending `_tts_finished` of a continued conversation turns the stream back on; unless a timer was ringing, the response is then finished as at its end |
| Satellite.StopSends | linux_voice_assistant/satellite.py:337-348 | a manual stop sends what the TTS player's pending callback sends, followed by AnnounceFinished unless it silenced a timer; a start request can only come from a pending `_tts_finished` of a continued conversation |
| Satellite.StopDuringContinuedConversation | linux_voice_assistant/satellite.py:337-348 | stopping a continued conversation's response sends AnnounceFinished, a start request and AnnounceFinished again, and leaves the stream on with no pipeline |
| Satellite.ConnectionLost | linux_voice_assistant/satellite.py:402-425 | losing the connection clears every session flag and the TTS URL, keeps the mute flag, stops the music player, then the TTS player with its pending callback running on the cleared session, then the stop word |
| Satellite.ConnectionLostSends | linux_voice_assistant/satellite.py:402-425 | after the connection is lost only a pending `_tts_finished` still hands a message, AnnounceFinished, to it; nothing else is sent |
| Satellite.CollapseSeparators | linux_voice_assistant/satellite.py:223 | runs of whitespace and dashes become single dashes: the result has no whitespace and no double dash, starts with a dash exactly when the input starts with a separator, and stays lower case |
| Satellite.CollapseSeparatorsByRuns | linux_voice_assistant/satellite.py:223 | replacing each whole run at once agrees, for every input, with reading one character at a time: a separator that starts a run becomes a dash, one inside a run disappears, any other character is copied |
| Satellite.CollapseKeepsText | linux_voice_assistant/satellite.py:223 | without its dashes, the collapsed string is the input without its separators: every other character is kept, in order |
| Satellite.TrimKeepsText | linux_voice_assistant/satellite.py:223 | `strip(chars)` loses only characters of the set: dropping them before or after stripping gives the same string |
| Satellite.CollapseCollapsed | linux_voice_assistant/satellite.py:223 | a string already collapsed is left alone |
| Satellite.CollapsedTrim | linux_voice_assistant/satellite.py:223 | stripping dashes keeps a string collapsed and lower case |
| Satellite.BaseName | linux_voice_assistant/satellite.py:223 | the base name is the lower-cased name with each maximal run of whitespace and dashes turned into one dash in place, and the dashes at either end removed; so it is collapsed, lower case, with no end dash, and without its dashes it is the lower-cased name without whitespace and dashes, in order |
| Satellite.BaseNameSpaceIsDash | linux_voice_assistant/satellite.py:223 | the space of "a b" becomes the dash of "a-b" |
| Satellite.BaseNameIdempotent | linux_voice_assistant/satellite.py:223 | building the base name of a base name gives it back |
| Satellite.Remove | linux_voice_assistant/satellite.py:224 | `replace` leaves none of the removed characters and is no longer than the input |
| Satellite.RemoveAppend | linux_voice_assistant/satellite.py:224 | removing characters from two strings in a row gives the two results in a row, so what is kept stays in order |
| Satellite.RemoveOne | linux_voice_assistant/satellite.py:224 | one character is kept exactly when it is not removed |
| Satellite.RemoveDropped | linux_voice_assistant/satellite.py:224 | a string of removed characters becomes empty |
| Satellite.RemoveNothing | linux_voice_assistant/satellite.py:224 | a string with none of the removed characters is kept whole |
| Satellite.RemoveKeeps | linux_voice_assistant/satellite.py:224 | every character that is not removed survives |
| Satellite.LastSix | linux_voice_assistant/satellite.py:225 | the last six characters, or all of a shorter string, are a suffix of it |
| Satellite.DeviceName | linux_voice_assistant/satellite.py:222-226 | the device name ends with the last six characters (all of them when fewer) of the lower-cased MAC without colons, after a dash; what precedes that dash is the lower-cased name with each run of whitespace and dashes one dash and no dash at either end |
| Satellite.Select | linux_voice_assistant/satellite.py:274-293 | every activated id was requested and is loaded or is the one newly loaded; a newly loaded id was requested, available and not loaded; when none is loaded, no requested id could be and every requested loaded id is active |
| Satellite.SelectStopsAtFirstLoad | linux_voice_assistant/satellite.py:287-293 | the ids after the first that has to be loaded are ignored |
| Satellite.SetActiveWakeWords | linux_voice_assistant/satellite.py:272-302 | the active ids become the selected ones, which are also saved as preferences; at most the newly loaded id is added; the change flag is set and preferences saved |
| Satellite.SetConfigurationLoadsAtMostOne | linux_voice_assistant/satellite.py:287-293 | one request loads at most one new wake word |
| Satellite.SetConfigurationDropsLaterIds | linux_voice_assistant/satellite.py:276-296 | asking for an unloaded wake word and then a loaded one switches the loaded one off |
| Satellite.ConfigurationReply | linux_voice_assistant/satellite.py:256-270 | the configuration lists the available wake words and the active ids, with at most two active |
| Satellite.Calls | linux_voice_assistant/satellite.py:216-252 | the entity's player calls happen in order and send no message |
| Satellite.DeviceInfo | linux_voice_assistant/satellite.py:221-241 | DeviceInfo uses no password, carries the MAC address, the device name and the voice assistant, API audio, announce, start conversation and timers features |
| Satellite.ToEntities | linux_voice_assistant/satellite.py:242-255 | an entity request goes to the media player and then the mute switch; ListEntities ends with the end-of-list marker; a command to the mute switch runs the satellite's mute logic, with the TTS player's pending callback, and answers with the new switch state; wake words are untouched |
| Satellite.AnnounceUrls | linux_voice_assistant/satellite.py:206-210 | an announcement plays the preannounce media, when there is one, before the announced media |
| Satellite.AnnounceMessage | linux_voice_assistant/satellite.py:201-218 | an announcement activates the stop word, ducks, records whether to start a conversation and plays on the announcement player, then finishing the response |
| Satellite.AnnounceSendsNothing | linux_voice_assistant/satellite.py:201-218 | an announcement sends no message of its own |
| Satellite.HandleMessage | linux_voice_assistant/satellite.py:193-302 | handling a message never changes the device name, MAC or timer sound; a request that only asks for an answer changes nothing |
| Satellite.HandlesEvent | linux_voice_assistant/satellite.py:194-200 | a pipeline event goes to `handle_voice_event` with its arguments as a dict, and nothing is replied |
| Satellite.HandlesAnnounce | linux_voice_assistant/satellite.py:201-218 | an announce request is handled as an announcement through the media player entity |
| Satellite.HandlesTimerEvent | linux_voice_assistant/satellite.py:219-220 | a timer event goes to `handle_timer_event`, and nothing is replied |
| Satellite.HandlesDeviceInfo | linux_voice_assistant/satellite.py:221-241 | DeviceInfo is answered with the device description and changes nothing |
| Satellite.HandlesConfigurationRequest | linux_voice_assistant/satellite.py:256-270 | a configuration request is answered with the wake word configuration and changes nothing |
| Satellite.HandlesSetConfiguration | linux_voice_assistant/satellite.py:272-302 | SetConfiguration changes only the wake words, saves the preferences and replies nothing |
| Satellite.HandlesEntityRequest | linux_voice_assistant/satellite.py:242-255 | the four entity requests are handed to the entities |
| Satellite.ListEntitiesReply | linux_voice_assistant/satellite.py:242-255 | ListEntities is answered by the media player's descriptor, the mute switch's descriptor and the end-of-list marker, in that order |
| Satellite.Disconnect | linux_voice_assistant/satellite.py:402-431 | on disconnect the session resets as in `connection_lost`, with the TTS player's pending callback, and the mute switch re-reads the mute flag |

## Left out

- Wire framing, the handshake, protobuf encoding, `process_packet` and the ConnectRequest state push. They live in `api_server.py` and aioesphomeapi, and api_server.py is not part of this model.
- The construction of `VoiceSatelliteProtocol` (satellite.py:54-128): de-duplicating entities and wiring callbacks is object bookkeeping, and as written it calls a constructor with an argument it does not accept.
- `duck()`/`unduck()` of the satellite (satellite.py:360-370) appear only as the effects `DuckAudio`/`UnduckAudio`. Which players they reach depends on player identity and `is_playing`, which are outside the model.
- `_play_timer_finished`'s one-second sleep. The timer callback is modelled as one step.
- The floating-point parts of `AudioPlayer`: sync-error filtering, the correction schedule, DAC and loop-time estimates, and cubic volume scaling. The sounddevice stream and `_audio_callback` are left out too. `compute_client_time` and the loop clock are parameters.
- `SendspinBridge.start`, `disconnect`, `_connection_loop` and its backoff, asyncio scheduling, and the client connection. Reports the bridge would schedule are returned as effects.
- SendspinBridge.SetVolume: the scheduled report reads `_muted` when it runs (sendspin_bridge.py:1107), not when it is scheduled. The model reports the value at scheduling time.
- SendspinBridge.OnServerCommand: likewise the final report's `muted` is taken at scheduling time (sendspin_bridge.py:1370).
- SendspinBridge.CreatePlayer: requires a positive sample rate. With a zero rate the source's `AudioPlayer` arithmetic divides by zero, which is not modelled.
- SendspinBridge.OnAudioChunk: inherits the positive-sample-rate requirement of CreatePlayer. The `self._client is None` guards are not modelled because the client always exists after `__init__`.
- PcmPlayer.SkipFrames: a zero frame size with audio held raises ZeroDivisionError in the source. The model returns None there and does not describe the partially updated state.
- Wyoming sockets, the reader thread, `list_models`' request/response exchange, and the `get_models` wait. `json.loads` and `json.dumps` are parameters or left out, and the clock is one `now` per line.
- JSON numbers are modelled as integers (`JNum` in wake_client.dfy). A fractional value, such as a float `timestamp` in a detection message, cannot be represented. The timestamp is only carried into the detection and decides nothing; a non-zero fraction below one would count as true in the `timestamp or time or ts` choice, where its truncation would not.
- WakeClient.ListedModels: starts from the normalised entries. The choice between `wake.get("models")` and `wake.get("names")`, and the URI validation, are not modelled.
- The `NameError` fallback label in `list_models` is the same function as `_prettify_model_name`, so it is not modelled separately.
- The mpv library, its property observers and the watchdog `Timer` threads. The watchdog is modelled as a decision taken at a given stall time.
- Unicode: `lower`, `capitalize`, `isspace` and the regular expressions are modelled on ASCII only.
- `async_retry_with_backoff`: it is declared `async`, so it returns a coroutine instead of a decorator and cannot be used as written.
- psutil metric collection, the threshold warnings and the averaging in the monitoring summary. The model chooses the summary window but does not average it.
- `audio_device_util.list_output_devices` (printing), `screen.py`, `cleanup.py`, `wakeword_indicator.py`, and the launcher, LED and CLI scripts.
- `time.sleep` in `retry_with_backoff`. Delays are recorded as a trace.
- Satellite.Stop: when the TTS player holds an announcement's done callback, that callback first runs the media entity's step (resume the music, or report IDLE; entity.py:66-84) and then `_tts_finished`. The session functions that stop the TTS player (Stop, SetMuted, Wakeup, ConnectionLost) take that callback as `TtsFinishedCallback`, so the entity's step is not among the effects they return.
- Satellite.ConnectionLost: stopping the music player also runs the done callback it holds (entity.py:86-95), which reports the entity IDLE. That callback belongs to the entity and is not among the effects returned; only the TTS player's pending callback is modelled.
- Satellite.HandleVoiceEvent: an event code that is not a member of aioesphomeapi's `VoiceAssistantEventType` makes the enum constructor raise ValueError (satellite.py:200). aioesphomeapi is not part of this model, so the model cannot tell such a code from a known event the satellite ignores; `OtherVoiceEvent` changes nothing in both cases.
- Satellite.HandleTimerEvent: likewise, an unknown timer event code raises ValueError in `VoiceAssistantTimerEventType` (satellite.py:220); `OtherTimerEvent` changes nothing.
- SendspinBridge.Stop: the SYNCHRONIZED report is a lambda that reads `_volume` and `_muted` when the event loop runs it (sendspin_bridge.py:1163-1174). The model reports the values at the moment `stop` schedules it.
- Entity.Command: UNMUTE sets both players to `int(volume * 100)` computed in floating point (entity.py:130-131). The model computes it on exact reals. A volume of 0.29, whether held as a double or as the protocol's 32-bit float, times 100 comes out just under 29 in floating point, so it gives 28 in the source and 29 in the model.
- Entity.HandleMessage: a new volume is converted the same way (entity.py:139), with the same difference between floating point and exact reals.
- Entity.MuteUnmuteRestores: the percentage it promises is the exact-real truncation of the saved volume, not the floating-point one.
- PcmQueue.Fill: the cursor clause assumes the cursor is non-zero once the first chunk is loaded. A cursor still zero after that (a chunk at server timestamp 0) is re-seeded from each chunk loaded later (sendspin_bridge.py:480-481), and the clause says nothing then.
- PcmQueue.SkipLoop: the same assumption; while the cursor stays zero, the skip loop re-seeds it from each chunk it loads (sendspin_bridge.py:594-595).
- PcmPlayer.ReadFramesBulk: the cursor clause carries the assumption of PcmQueue.Fill.
- PcmPlayer.ReadWholeFrames: likewise.
- PcmPlayer.SkipFrames: the cursor clause carries the assumption of PcmQueue.SkipLoop.

## Findings

| source | as written | input that shows it | evidently intended | confidence | as-written member | corrected member |
|---|---|---|---|---|---|---|
| linux_voice_assistant/openwakeword_client.py:278-280 | `pos += end_pos` adds end offsets that are each relative to the same slice start, so with two or more objects in one pass `pos` overshoots | buffer `{}{}{`: the pieces end at 2 and 4, `pos` becomes 6, and the trailing `{` is dropped instead of kept | advance `pos` to the last object's end, keeping `{` for the next line | high, not executed | ObjectScanner.AsWrittenOvershoots, ObjectScanner.DrainExample | ObjectScanner.DrainCorrected |
| linux_voice_assistant/openwakeword_client.py:21-22,28-29 | the first part "ok" becomes "OK" but the other parts are kept as written | `ok_nabu_v0.1` gives `OK nabu` | `OK Nabu`, as the docstring's example says | high, not executed | ModelNames.PrettifyAsWrittenOkNabu | ModelNames.PrettifyOkNabu |
| linux_voice_assistant/mpv_player.py:79,85,108,230 | `play` clears `_stopped` and then calls `stop(silent=True)`, which sets it again, so the watchdog sees every playback as stopped | an 8 s watchdog and a clip stalled for 10 s: the trip does nothing | the stalled playback is stopped and its done callback fires once | high, not executed | MpvPlayer.WatchdogNeverTripsAsWritten, MpvPlayer.WatchdogExample | MpvPlayer.WatchdogTripsStalledPlayback |
| linux_voice_assistant/sendspin_bridge.py:1112-1115,1123-1133 | `duck` re-applies the volume even while paused, overriding the mute set by `pause` (`unduck` does test `_paused`, at 1120) | a playing bridge at volume 100, paused and then ducked: the player is unmuted at 50 | a paused bridge stays muted at 0 until `resume` | medium, not executed | SendspinBridge.DuckWhilePausedIsHeard, SendspinBridge.DuckWhilePausedExample | SendspinBridge.DuckWhilePausedCorrected |

=== FILE: audio_device_util.dfy ===
/**
  `find_sounddevice_by_name`: resolving an mpv output-device name to a
  sounddevice index. The device table that `sd.query_devices()` returns is a
  parameter.
 */
module AudioDeviceUtil {

  import opened Optional
  import opened Text

  /** The two fields of a sounddevice entry the matcher reads. */
  datatype Device = Device(name: string, maxOutputChannels: int)

  predicate IsOutput(d: Device)
  {
    d.maxOutputChannels > 0
  }

  // ---------------------------------------------------------------------------
  // The three tiers, stated over the whole table

  /** Tier 1: an output device whose name is exactly the requested one. */
  predicate ExactAt(devices: seq<Device>, wanted: string, i: int)
  {
    0 <= i < |devices| && IsOutput(devices[i]) && devices[i].name == wanted
  }

  /** Tier 2 candidates: an output device with a non-empty name that occurs inside the requested one. */
  predicate ContainedAt(devices: seq<Device>, wanted: string, i: int)
  {
    0 <= i < |devices| && IsOutput(devices[i]) && devices[i].name != [] && Contains(wanted, devices[i].name)
  }

  /** Tier 3: an output device whose name contains the requested one. */
  predicate ReverseAt(devices: seq<Device>, wanted: string, i: int)
  {
    0 <= i < |devices| && IsOutput(devices[i]) && Contains(devices[i].name, wanted)
  }

  /** `i` is the first index satisfying `p` (for one of the tiers above). */
  predicate FirstExact(devices: seq<Device>, wanted: string, i: int)
  {
    ExactAt(devices, wanted, i) && forall j :: 0 <= j < i ==> !ExactAt(devices, wanted, j)
  }

  predicate FirstReverse(devices: seq<Device>, wanted: string, i: int)
  {
    ReverseAt(devices, wanted, i) && forall j :: 0 <= j < i ==> !ReverseAt(devices, wanted, j)
  }

  /** The longest contained name, the lowest index among equally long ones. */
  predicate LongestContained(devices: seq<Device>, wanted: string, i: int)
  {
    ContainedAt(devices, wanted, i)
    && (forall j :: 0 <= j < |devices| && ContainedAt(devices, wanted, j) ==> |devices[j].name| <= |devices[i].name|)
    && (forall j :: 0 <= j < i && ContainedAt(devices, wanted, j) ==> |devices[j].name| < |devices[i].name|)
  }

  predicate AnyExact(devices: seq<Device>, wanted: string)
  {
    exists i :: 0 <= i < |devices| && ExactAt(devices, wanted, i)
  }

  predicate AnyContained(devices: seq<Device>, wanted: string)
  {
    exists i :: 0 <= i < |devices| && ContainedAt(devices, wanted, i)
  }

  predicate AnyReverse(devices: seq<Device>, wanted: string)
  {
    exists i :: 0 <= i < |devices| && ReverseAt(devices, wanted, i)
  }

  // ---------------------------------------------------------------------------
  // The scan

  /** `find_sounddevice_by_name(mpv_device_name)` over the table `devices`. */
  method FindSoundDeviceByName(requested: Option<string>, devices: seq<Device>) returns (r: Option<nat>)
    ensures (requested.None? || requested.value == []) ==> r.None?
    ensures r.Some? ==> r.value < |devices| && IsOutput(devices[r.value]) && devices[r.value].name != []
    ensures requested.Some? && requested.value != [] ==>
              var wanted := requested.value;
              (AnyExact(devices, wanted) ==> r.Some? && FirstExact(devices, wanted, r.value))
              && (!AnyExact(devices, wanted) && AnyContained(devices, wanted) ==>
                    r.Some? && LongestContained(devices, wanted, r.value))
              && (!AnyExact(devices, wanted) && !AnyContained(devices, wanted) && AnyReverse(devices, wanted) ==>
                    r.Some? && FirstReverse(devices, wanted, r.value))
              && (!AnyExact(devices, wanted) && !AnyContained(devices, wanted) && !AnyReverse(devices, wanted) ==>
                    r.None?)
  {
    if requested.None? || requested.value == [] {
      return None;
    }
    var wanted := requested.value;
    r := ExactScan(devices, wanted);
    if r.Some? {
      return r;
    }
    r := ContainedScan(devices, wanted);
    if r.Some? {
      return r;
    }
    r := ReverseScan(devices, wanted);
  }

  /** Tier 1: the first output device named exactly `wanted`. */
  method ExactScan(devices: seq<Device>, wanted: string) returns (r: Option<nat>)
    ensures r.Some? ==> FirstExact(devices, wanted, r.value)
    ensures r.None? <==> !AnyExact(devices, wanted)
  {
    var i := 0;
    while i < |devices|
      invariant 0 <= i <= |devices|
      invariant forall j :: 0 <= j < i ==> !ExactAt(devices, wanted, j)
    {
      if devices[i].maxOutputChannels > 0 && devices[i].name == wanted {
        assert ExactAt(devices, wanted, i);
        return Some(i);
      }
      i := i + 1;
    }
    return None;
  }

  /** Tier 2: the longest output-device name that occurs inside `wanted`. */
  method ContainedScan(devices: seq<Device>, wanted: string) returns (r: Option<nat>)
    ensures r.Some? ==> LongestContained(devices, wanted, r.value)
    ensures r.None? <==> !AnyContained(devices, wanted)
  {
    var best: Option<nat> := None;
    var bestLen := 0;
    var i := 0;
    while i < |devices|
      invariant 0 <= i <= |devices|
      invariant best.None? ==> bestLen == 0 && forall j :: 0 <= j < i ==> !ContainedAt(devices, wanted, j)
      invariant best.Some? ==> best.value < i && ContainedAt(devices, wanted, best.value)
                               && bestLen == |devices[best.value].name|
      invariant forall j :: 0 <= j < i && ContainedAt(devices, wanted, j) ==> |devices[j].name| <= bestLen
      invariant best.Some? ==> forall j :: 0 <= j < best.value && ContainedAt(devices, wanted, j) ==>
                                             |devices[j].name| < bestLen
    {
      var d := devices[i];
      if d.maxOutputChannels > 0 {
        if Find(wanted, d.name).Some? {
          if |d.name| > bestLen {
            best := Some(i);
            bestLen := |d.name|;
          }
        }
      }
      i := i + 1;
    }
    return best;
  }

  /** Tier 3: the first output device whose name contains `wanted`. */
  method ReverseScan(devices: seq<Device>, wanted: string) returns (r: Option<nat>)
    ensures r.Some? ==> FirstReverse(devices, wanted, r.value)
    ensures r.None? <==> !AnyReverse(devices, wanted)
  {
    var i := 0;
    while i < |devices|
      invariant 0 <= i <= |devices|
      invariant forall j :: 0 <= j < i ==> !ReverseAt(devices, wanted, j)
    {
      var d := devices[i];
      if d.maxOutputChannels > 0 && Find(d.name, wanted).Some? {
        assert ReverseAt(devices, wanted, i);
        return Some(i);
      }
      i := i + 1;
    }
    return None;
  }

  // ---------------------------------------------------------------------------
  // Consequences

  /** The three tiers are ranked: an exact match is never displaced by a longer contained name. */
  lemma ExactBeatsContained(devices: seq<Device>, wanted: string, i: int)
    requires wanted != [] && FirstExact(devices, wanted, i)
    ensures ContainedAt(devices, wanted, i)
  {
    ContainsSelf(wanted);
  }

  /** Among contained names at most one index is the longest-then-lowest. */
  lemma LongestContainedUnique(devices: seq<Device>, wanted: string, i: int, k: int)
    requires LongestContained(devices, wanted, i) && LongestContained(devices, wanted, k)
    ensures i == k
  {
  }

  /**
    Example: the bluetooth sink listed under its bare name is found from the
    mpv name with the backend prefix, and an input-only entry of the same name
    is passed over.
   */
  lemma BluetoothExample()
    ensures ContainedAt([Device("bluez_output.1", 0), Device("bluez_output.1", 2)], "pipewire/bluez_output.1", 1)
    ensures !ContainedAt([Device("bluez_output.1", 0), Device("bluez_output.1", 2)], "pipewire/bluez_output.1", 0)
  {
    var wanted := "pipewire/bluez_output.1";
    assert StartsWith(wanted[9..], "bluez_output.1");
  }
}

=== FILE: entity.dfy ===
/**
  `Entity`: the two ESPHome entities the satellite exposes. The media player
  entity answers Home Assistant's media commands by driving the music and
  announcement players; the mute switch mirrors the satellite's mute flag.
  The players are not modelled here: their calls come back as a list, and
  what they report (`is_playing`, mpv's `idle-active`) is a parameter.
 */
module Entity {

  import opened Optional
  import opened Messages
  import MpvPlayer

  // ---------------------------------------------------------------------------
  // Media player entity

  datatype PlayerId = MusicPlayer | AnnouncePlayer

  /** What the done callback of a playback does first: resume the music, or report the entity idle. */
  datatype AfterPlay = ResumeMusic | ReportIdle

  /**
    A call on one of the two players. `thenDone` says whether the caller's
    own done callback runs after `after`.
   */
  datatype PlayerCall =
    | PlayOn(player: PlayerId, source: MpvPlayer.Source, after: AfterPlay, thenDone: bool)
    | PausePlayer(player: PlayerId)
    | ResumePlayer(player: PlayerId)
    | SetPlayerVolume(player: PlayerId, percent: int)

  /** What the players report when the entity asks: the music player's `is_playing`, and mpv's `idle-active` of each. */
  datatype Players = Players(musicPlaying: bool, musicIdle: bool, announceIdle: bool)

  datatype MediaPlayer = MediaPlayer(
    key: int,
    name: string,
    objectId: string,
    state: MediaPlayerState,
    volume: real,
    muted: bool,
    previousVolume: real)

  /** What one handler returns: the entity after it, the messages it yields, the player calls it made. */
  datatype Outcome = Outcome(entity: MediaPlayer, replies: seq<Message>, calls: seq<PlayerCall>)

  /** `MediaPlayerEntity.__init__`. */
  function NewMediaPlayer(key: int, name: string, objectId: string): (e: MediaPlayer)
    ensures e.state == Idle && e.volume == 1.0 && e.previousVolume == 1.0 && !e.muted
    ensures e.key == key && e.name == name && e.objectId == objectId
  {
    MediaPlayer(key, name, objectId, Idle, 1.0, false, 1.0)
  }

  /** `_get_state_message`. */
  function StateMessage(e: MediaPlayer): (m: Message)
    ensures m.MediaPlayerStateResponse?
  {
    MediaPlayerStateResponse(e.key, e.state, e.volume, e.muted)
  }

  /** The state message carries the entity's key, state, volume and mute flag, and nothing else. */
  lemma StateMessageMirrors(e: MediaPlayer, f: MediaPlayer)
    ensures StateMessage(e) == StateMessage(f) <==>
              e.key == f.key && e.state == f.state && e.volume == f.volume && e.muted == f.muted
  {
  }

  /** Python's `int(x)` on a float: the integer part, rounding toward zero. */
  function Trunc(x: real): (r: int)
    ensures x >= 0.0 ==> r as real <= x < r as real + 1.0
    ensures x < 0.0 ==> r as real - 1.0 < x <= r as real
  {
    if x >= 0.0 then x.Floor else -((-x).Floor)
  }

  /** `play(url, announcement, done_callback)`; the entity reports PLAYING straight away. */
  function Play(e: MediaPlayer, source: MpvPlayer.Source, announcement: bool, thenDone: bool, players: Players)
    : (o: Outcome)
    ensures o.entity == e.(state := Playing) && o.replies == [StateMessage(o.entity)]
    ensures announcement && players.musicPlaying ==>
              o.calls == [PausePlayer(MusicPlayer), PlayOn(AnnouncePlayer, source, ResumeMusic, thenDone)]
    ensures announcement && !players.musicPlaying ==> o.calls == [PlayOn(AnnouncePlayer, source, ReportIdle, thenDone)]
    ensures !announcement ==> o.calls == [PlayOn(MusicPlayer, source, ReportIdle, thenDone)]
  {
    var calls :=
      if announcement then
        if players.musicPlaying then [PausePlayer(MusicPlayer), PlayOn(AnnouncePlayer, source, ResumeMusic, thenDone)]
        else [PlayOn(AnnouncePlayer, source, ReportIdle, thenDone)]
      else [PlayOn(MusicPlayer, source, ReportIdle, thenDone)];
    var e1 := e.(state := Playing);
    Outcome(e1, [StateMessage(e1)], calls)
  }

  /**
    The first half of a playback's done callback: the music resumes, or the
    entity turns IDLE and sends its state.
   */
  function AfterPlayback(e: MediaPlayer, after: AfterPlay): (o: Outcome)
    ensures after == ResumeMusic ==> o == Outcome(e, [], [ResumePlayer(MusicPlayer)])
    ensures after == ReportIdle ==> o.entity == e.(state := Idle) && o.replies == [StateMessage(o.entity)] && o.calls == []
  {
    match after
    case ResumeMusic => Outcome(e, [], [ResumePlayer(MusicPlayer)])
    case ReportIdle => Outcome(e.(state := Idle), [StateMessage(e.(state := Idle))], [])
  }

  /** The state after PAUSE or PLAY: IDLE when both players are idle. */
  function Settled(players: Players, active: MediaPlayerState): MediaPlayerState
  {
    if players.musicIdle && players.announceIdle then Idle else active
  }

  /** A media command (the `has_command` branch of `handle_message`). */
  function Command(e: MediaPlayer, command: MediaCommand, players: Players): (o: Outcome)
    ensures command == PauseCommand ==>
              o.entity == e.(state := Settled(players, Paused)) && o.replies == [StateMessage(o.entity)]
              && o.calls == [PausePlayer(MusicPlayer), PausePlayer(AnnouncePlayer)]
    ensures command == PlayCommand ==>
              o.entity == e.(state := Settled(players, Playing)) && o.replies == [StateMessage(o.entity)]
              && o.calls == [ResumePlayer(MusicPlayer), ResumePlayer(AnnouncePlayer)]
    ensures command == MuteCommand && !e.muted ==>
              o.entity == e.(previousVolume := e.volume, volume := 0.0, muted := true)
              && o.calls == [SetPlayerVolume(MusicPlayer, 0), SetPlayerVolume(AnnouncePlayer, 0)]
    ensures command == MuteCommand && e.muted ==> o.entity == e && o.calls == []
    ensures command == MuteCommand ==> o.replies == [StateMessage(o.entity)]
    ensures command == UnmuteCommand && e.muted ==>
              o.entity == e.(volume := e.previousVolume, muted := false, state := Paused)
              && o.calls == [SetPlayerVolume(MusicPlayer, Trunc(e.previousVolume * 100.0)),
                             SetPlayerVolume(AnnouncePlayer, Trunc(e.previousVolume * 100.0))]
    ensures command == UnmuteCommand && !e.muted ==> o.entity == e.(state := Paused) && o.calls == []
    ensures command == UnmuteCommand ==>
              |o.replies| == 2 && o.replies[0] == StateMessage(o.entity.(state := e.state))
              && o.replies[1] == StateMessage(o.entity)
    ensures command.OtherMediaCommand? ==> o == Outcome(e, [], [])
  {
    match command
    case PauseCommand =>
      var e1 := e.(state := Settled(players, Paused));
      Outcome(e1, [StateMessage(e1)], [PausePlayer(MusicPlayer), PausePlayer(AnnouncePlayer)])
    case PlayCommand =>
      var e1 := e.(state := Settled(players, Playing));
      Outcome(e1, [StateMessage(e1)], [ResumePlayer(MusicPlayer), ResumePlayer(AnnouncePlayer)])
    case MuteCommand =>
      if !e.muted then
        var e1 := e.(previousVolume := e.volume, volume := 0.0, muted := true);
        Outcome(e1, [StateMessage(e1)], [SetPlayerVolume(MusicPlayer, 0), SetPlayerVolume(AnnouncePlayer, 0)])
      else Outcome(e, [StateMessage(e)], [])
    case UnmuteCommand =>
      var e1 := if e.muted then e.(volume := e.previousVolume, muted := false) else e;
      var percent := Trunc(e.previousVolume * 100.0);
      var calls := if e.muted then [SetPlayerVolume(MusicPlayer, percent), SetPlayerVolume(AnnouncePlayer, percent)] else [];
      var e2 := e1.(state := Paused);
      Outcome(e2, [StateMessage(e1), StateMessage(e2)], calls)
    case OtherMediaCommand(_) =>
      Outcome(e, [], [])
  }

  /** `MediaPlayerEntity.handle_message`. */
  function HandleMessage(e: MediaPlayer, msg: Message, players: Players): (o: Outcome)
    ensures msg.MediaPlayerCommandRequest? && msg.key != e.key ==> o == Outcome(e, [], [])
    ensures msg.MediaPlayerCommandRequest? && msg.key == e.key && msg.mediaUrl.Some? ==>
              o == Play(e, MpvPlayer.Single(msg.mediaUrl.value), msg.announcement == Some(true), false, players)
    ensures msg.MediaPlayerCommandRequest? && msg.key == e.key && msg.mediaUrl.None? && msg.command.Some? ==>
              o == Command(e, msg.command.value, players)
    ensures msg.MediaPlayerCommandRequest? && msg.key == e.key && msg.mediaUrl.None? && msg.command.None?
            && msg.newVolume.Some? ==>
              o.entity == e.(volume := msg.newVolume.value) && o.replies == [StateMessage(o.entity)]
              && o.calls == [SetPlayerVolume(MusicPlayer, Trunc(msg.newVolume.value * 100.0)),
                             SetPlayerVolume(AnnouncePlayer, Trunc(msg.newVolume.value * 100.0))]
    ensures msg.ListEntitiesRequest? ==>
              o == Outcome(e, [ListEntitiesMediaPlayerResponse(e.objectId, e.key, e.name, true)], [])
    ensures msg.SubscribeStatesRequest? ==> o == Outcome(e, [StateMessage(e)], [])
    ensures !msg.MediaPlayerCommandRequest? && !msg.ListEntitiesRequest? && !msg.SubscribeStatesRequest? ==>
              o == Outcome(e, [], [])
    ensures o.entity.key == e.key && o.entity.name == e.name && o.entity.objectId == e.objectId
  {
    match msg
    case MediaPlayerCommandRequest(key, url, announcement, command, volume) =>
      if key != e.key then Outcome(e, [], [])
      else if url.Some? then Play(e, MpvPlayer.Single(url.value), announcement == Some(true), false, players)
      else if command.Some? then Command(e, command.value, players)
      else if volume.Some? then
        var percent := Trunc(volume.value * 100.0);
        var e1 := e.(volume := volume.value);
        Outcome(e1, [StateMessage(e1)], [SetPlayerVolume(MusicPlayer, percent), SetPlayerVolume(AnnouncePlayer, percent)])
      else Outcome(e, [], [])
    case ListEntitiesRequest =>
      Outcome(e, [ListEntitiesMediaPlayerResponse(e.objectId, e.key, e.name, true)], [])
    case SubscribeStatesRequest =>
      Outcome(e, [StateMessage(e)], [])
    case _ =>
      Outcome(e, [], [])
  }

  /** Every reply to one of the entity's own commands ends with its state as it now is. */
  lemma LastReplyIsState(e: MediaPlayer, msg: Message, players: Players)
    requires msg.MediaPlayerCommandRequest? && msg.key == e.key
    requires HandleMessage(e, msg, players).replies != []
    ensures var o := HandleMessage(e, msg, players);
            o.replies[|o.replies| - 1] == StateMessage(o.entity)
  {
  }

  /** Only MUTE, UNMUTE and a volume change touch the volume or the mute flag. */
  lemma VolumeOnlyByVolumeCommands(e: MediaPlayer, msg: Message, players: Players)
    requires !(msg.MediaPlayerCommandRequest? && msg.key == e.key && msg.mediaUrl.None?
               && (msg.command in {Some(MuteCommand), Some(UnmuteCommand)} || (msg.command.None? && msg.newVolume.Some?)))
    ensures HandleMessage(e, msg, players).entity.volume == e.volume
    ensures HandleMessage(e, msg, players).entity.muted == e.muted
    ensures HandleMessage(e, msg, players).entity.previousVolume == e.previousVolume
  {
  }

  /**
    UNMUTE after MUTE gives back the volume held when the entity was first
    muted, however many MUTEs came in between, and hands the players that
    volume in percent.
   */
  lemma MuteUnmuteRestores(e: MediaPlayer, extraMutes: nat, players: Players)
    requires !e.muted
    ensures var muted := Mutes(Command(e, MuteCommand, players).entity, extraMutes, players);
            var o := Command(muted, UnmuteCommand, players);
            o.entity.volume == e.volume && !o.entity.muted && o.entity.previousVolume == e.volume
            && o.calls == [SetPlayerVolume(MusicPlayer, Trunc(e.volume * 100.0)),
                           SetPlayerVolume(AnnouncePlayer, Trunc(e.volume * 100.0))]
  {
    MutesKeepMuted(Command(e, MuteCommand, players).entity, extraMutes, players);
  }

  /** The entity after `n` further MUTE commands. */
  function Mutes(e: MediaPlayer, n: nat, players: Players): MediaPlayer
    decreases n
  {
    if n == 0 then e else Mutes(Command(e, MuteCommand, players).entity, n - 1, players)
  }

  /** MUTE on a muted entity changes nothing. */
  lemma {:induction false} MutesKeepMuted(e: MediaPlayer, n: nat, players: Players)
    requires e.muted
    ensures Mutes(e, n, players) == e
  {
    if n > 0 {
      MutesKeepMuted(Command(e, MuteCommand, players).entity, n - 1, players);
    }
  }

  // ---------------------------------------------------------------------------
  // Mute switch entity

  datatype MuteSwitch = MuteSwitch(key: int, name: string, objectId: string, switchState: bool)

  /** What the switch returns: the switch after it, the messages it yields, and the value passed to `set_muted`, if called. */
  datatype SwitchOutcome = SwitchOutcome(switch: MuteSwitch, replies: seq<Message>, setMuted: Option<bool>)

  /** `MuteSwitchEntity.__init__`: the switch starts at the satellite's mute flag. */
  function NewMuteSwitch(key: int, name: string, objectId: string, muted: bool): (s: MuteSwitch)
    ensures s.switchState == muted && s.key == key
  {
    MuteSwitch(key, name, objectId, muted)
  }

  /** `sync_with_state`: the switch takes the flag `get_muted` reports. */
  function SyncWithState(s: MuteSwitch, muted: bool): (r: MuteSwitch)
    ensures r.switchState == muted && r.(switchState := s.switchState) == s
  {
    s.(switchState := muted)
  }

  /** `MuteSwitchEntity.handle_message`; `muted` is what `get_muted` reports. */
  function HandleSwitch(s: MuteSwitch, msg: Message, muted: bool): (o: SwitchOutcome)
    ensures msg.SwitchCommandRequest? && msg.key == s.key ==>
              o.switch.switchState == msg.newState && o.setMuted == Some(msg.newState)
              && o.replies == [SwitchStateResponse(s.key, msg.newState)]
    ensures msg.SwitchCommandRequest? && msg.key != s.key ==> o == SwitchOutcome(s, [], None)
    ensures msg.ListEntitiesRequest? ==>
              o == SwitchOutcome(s, [ListEntitiesSwitchResponse(s.objectId, s.key, s.name, ConfigCategory, "mdi:microphone-off")], None)
    ensures msg.SubscribeStatesRequest? ==>
              o.switch.switchState == muted && o.replies == [SwitchStateResponse(s.key, muted)] && o.setMuted.None?
    ensures !msg.SwitchCommandRequest? && !msg.ListEntitiesRequest? && !msg.SubscribeStatesRequest? ==>
              o == SwitchOutcome(s, [], None)
    ensures o.switch.key == s.key && o.switch.name == s.name && o.switch.objectId == s.objectId
  {
    match msg
    case SwitchCommandRequest(key, state) =>
      if key == s.key then SwitchOutcome(s.(switchState := state), [SwitchStateResponse(s.key, state)], Some(state))
      else SwitchOutcome(s, [], None)
    case ListEntitiesRequest =>
      SwitchOutcome(s, [ListEntitiesSwitchResponse(s.objectId, s.key, s.name, ConfigCategory, "mdi:microphone-off")], None)
    case SubscribeStatesRequest =>
      var s1 := SyncWithState(s, muted);
      SwitchOutcome(s1, [SwitchStateResponse(s1.key, s1.switchState)], None)
    case _ =>
      SwitchOutcome(s, [], None)
  }

  /** Every state the switch reports is the state it then holds. */
  lemma SwitchEchoesState(s: MuteSwitch, msg: Message, muted: bool)
    requires HandleSwitch(s, msg, muted).replies != []
    requires !msg.ListEntitiesRequest?
    ensures var o := HandleSwitch(s, msg, muted);
            o.replies == [SwitchStateResponse(o.switch.key, o.switch.switchState)]
  {
  }
}

=== FILE: error_handling.dfy ===
/**
  The error taxonomy of the satellite and the two helpers built on it:
  `handle_error_safely`, which sorts an exception into fatal or recoverable,
  and the `retry_with_backoff` decorator, whose wrapped function and sleeps
  are modelled as a per-attempt outcome table and a trace of delays.
 */
module ErrorHandling {

  import opened Optional

  /** Exception classes: the module's own hierarchy plus the Python built-ins it names. */
  datatype ErrorClass =
    | BaseException
    | Exception
    | RecoverableError
    | FatalError
    | AudioDeviceError
    | NetworkError
    | HardwareError
    | ConfigurationError
    | KeyboardInterrupt
    | SystemExit
    | OtherException(name: string)  // any other subclass of Exception (ValueError, OSError, ...)

  /** The direct base class. */
  function Parent(c: ErrorClass): Option<ErrorClass>
  {
    match c
    case BaseException => None
    case Exception => Some(BaseException)
    case RecoverableError => Some(Exception)
    case FatalError => Some(Exception)
    case AudioDeviceError => Some(RecoverableError)
    case NetworkError => Some(RecoverableError)
    case HardwareError => Some(FatalError)
    case ConfigurationError => Some(FatalError)
    case KeyboardInterrupt => Some(BaseException)
    case SystemExit => Some(BaseException)
    case OtherException(_) => Some(Exception)
  }

  function Depth(c: ErrorClass): nat
  {
    match c
    case BaseException => 0
    case Exception | KeyboardInterrupt | SystemExit => 1
    case RecoverableError | FatalError | OtherException(_) => 2
    case _ => 3
  }

  /** `issubclass(c, base)`. */
  predicate IsSubclass(c: ErrorClass, base: ErrorClass)
    decreases Depth(c)
  {
    c == base || (Parent(c).Some? && Depth(Parent(c).value) < Depth(c) && IsSubclass(Parent(c).value, base))
  }

  /** `isinstance(error, types)` for a tuple of classes. */
  predicate IsInstanceOfAny(c: ErrorClass, types: seq<ErrorClass>)
  {
    exists k :: 0 <= k < |types| && IsSubclass(c, types[k])
  }

  /** The four concrete errors fall on the side of the hierarchy their names promise. */
  lemma Taxonomy()
    ensures IsSubclass(AudioDeviceError, RecoverableError) && IsSubclass(NetworkError, RecoverableError)
    ensures IsSubclass(HardwareError, FatalError) && IsSubclass(ConfigurationError, FatalError)
    ensures !IsSubclass(AudioDeviceError, FatalError) && !IsSubclass(NetworkError, FatalError)
    ensures !IsSubclass(HardwareError, RecoverableError) && !IsSubclass(ConfigurationError, RecoverableError)
    ensures !IsSubclass(KeyboardInterrupt, Exception) && !IsSubclass(SystemExit, Exception)
  {
  }

  // ---------------------------------------------------------------------------
  // handle_error_safely

  datatype LogLevel = Critical | Error | Warning

  const DefaultFatalTypes: seq<ErrorClass> := [FatalError, KeyboardInterrupt, SystemExit]
  const DefaultRecoverableTypes: seq<ErrorClass> := [RecoverableError]

  /**
    `handle_error_safely(error, context, fatal_types, recoverable_types)`:
    whether to carry on, and the level the error is logged at.
   */
  function HandleErrorSafely(c: ErrorClass, fatalTypes: seq<ErrorClass>, recoverableTypes: seq<ErrorClass>)
    : (r: (bool, LogLevel))
    ensures r.0 <==> !IsInstanceOfAny(c, fatalTypes)
    ensures r.1 == Critical <==> IsInstanceOfAny(c, fatalTypes)
    ensures r.1 == Warning <==> !IsInstanceOfAny(c, fatalTypes) && IsInstanceOfAny(c, recoverableTypes)
  {
    if IsInstanceOfAny(c, fatalTypes) then (false, Critical)
    else if IsInstanceOfAny(c, recoverableTypes) then (true, Warning)
    else (true, Error)
  }

  /** With the default tuples: the fatal family stops, the recoverable family and unknown errors carry on. */
  lemma DefaultClassification(name: string)
    ensures HandleErrorSafely(HardwareError, DefaultFatalTypes, DefaultRecoverableTypes) == (false, Critical)
    ensures HandleErrorSafely(ConfigurationError, DefaultFatalTypes, DefaultRecoverableTypes) == (false, Critical)
    ensures HandleErrorSafely(KeyboardInterrupt, DefaultFatalTypes, DefaultRecoverableTypes) == (false, Critical)
    ensures HandleErrorSafely(AudioDeviceError, DefaultFatalTypes, DefaultRecoverableTypes) == (true, Warning)
    ensures HandleErrorSafely(NetworkError, DefaultFatalTypes, DefaultRecoverableTypes) == (true, Warning)
    ensures HandleErrorSafely(OtherException(name), DefaultFatalTypes, DefaultRecoverableTypes) == (true, Error)
  {
    assert IsSubclass(HardwareError, DefaultFatalTypes[0]);
    assert IsSubclass(ConfigurationError, DefaultFatalTypes[0]);
    assert IsSubclass(KeyboardInterrupt, DefaultFatalTypes[1]);
    assert IsSubclass(AudioDeviceError, DefaultRecoverableTypes[0]);
    assert IsSubclass(NetworkError, DefaultRecoverableTypes[0]);
    var other := OtherException(name);
    assert !IsSubclass(BaseException, RecoverableError) && !IsSubclass(Exception, RecoverableError);
    assert !IsSubclass(BaseException, FatalError) && !IsSubclass(Exception, FatalError);
    assert !IsSubclass(BaseException, SystemExit) && !IsSubclass(Exception, SystemExit);
    assert !IsSubclass(BaseException, KeyboardInterrupt) && !IsSubclass(Exception, KeyboardInterrupt);
    assert !IsSubclass(other, FatalError) && !IsSubclass(other, KeyboardInterrupt);
    assert !IsSubclass(other, SystemExit) && !IsSubclass(other, RecoverableError);
    assert !IsInstanceOfAny(other, DefaultFatalTypes);
    assert !IsInstanceOfAny(other, DefaultRecoverableTypes);
  }

  /** A class listed as both fatal and recoverable is treated as fatal: the fatal test comes first. */
  lemma FatalCheckedFirst(c: ErrorClass, recoverableTypes: seq<ErrorClass>)
    ensures HandleErrorSafely(c, [c], recoverableTypes).0 == false
  {
    assert IsSubclass(c, [c][0]);
  }

  // ---------------------------------------------------------------------------
  // retry_with_backoff

  /** What one call of the wrapped function does. */
  datatype Attempt<V> = Returns(value: V) | Raises(cls: ErrorClass)

  /** What the wrapper does: return a value, raise, or (with no attempts at all) return None. */
  datatype RetryOutcome<V> = Returned(value: V) | Raised(cls: ErrorClass) | ReturnedNone

  function Pow(x: real, k: nat): real
  {
    if k == 0 then 1.0 else Pow(x, k - 1) * x
  }

  /** The delay slept before retry `k + 1`: `delay` starts at `initial_delay` and is multiplied after each sleep. */
  function BackoffDelay(initialDelay: real, backoffFactor: real, k: nat): real
  {
    if k == 0 then initialDelay else BackoffDelay(initialDelay, backoffFactor, k - 1) * backoffFactor
  }

  /** The k-th sleep is `initial_delay * backoff_factor ** k`. */
  lemma {:induction false} BackoffDelayIsPower(initialDelay: real, backoffFactor: real, k: nat)
    ensures BackoffDelay(initialDelay, backoffFactor, k) == initialDelay * Pow(backoffFactor, k)
  {
    if k > 0 {
      BackoffDelayIsPower(initialDelay, backoffFactor, k - 1);
      assert initialDelay * (Pow(backoffFactor, k - 1) * backoffFactor)
          == (initialDelay * Pow(backoffFactor, k - 1)) * backoffFactor;
    }
  }

  /**
    `retry_with_backoff(max_retries, initial_delay, backoff_factor, exceptions)(func)()`.
    `call(k)` is what the k-th call of `func` does; `sleeps` is the sequence of
    `time.sleep` arguments.
   */
  method RetryWithBackoff<V>(maxRetries: int, initialDelay: real, backoffFactor: real,
                             exceptions: seq<ErrorClass>, call: nat -> Attempt<V>)
    returns (outcome: RetryOutcome<V>, calls: nat, sleeps: seq<real>)
    ensures maxRetries < 0 ==> outcome == ReturnedNone && calls == 0 && sleeps == []
    ensures maxRetries >= 0 ==> 1 <= calls <= maxRetries + 1
    ensures forall k :: 0 <= k < calls - 1 ==> call(k).Raises? && IsInstanceOfAny(call(k).cls, exceptions)
    ensures outcome.Returned? ==> calls >= 1 && call(calls - 1) == Returns(outcome.value)
    ensures outcome.Raised? ==> calls >= 1 && call(calls - 1) == Raises(outcome.cls)
    ensures outcome.Raised? && IsInstanceOfAny(outcome.cls, exceptions) ==> calls == maxRetries + 1
    ensures maxRetries >= 0 ==> !outcome.ReturnedNone?
    ensures calls >= 1 ==> |sleeps| == calls - 1
    ensures forall k :: 0 <= k < |sleeps| ==> sleeps[k] == BackoffDelay(initialDelay, backoffFactor, k)
  {
    var delay := initialDelay;
    var lastException: Option<ErrorClass> := None;
    calls, sleeps := 0, [];
    var attempt := 0;
    while attempt < maxRetries + 1
      invariant maxRetries >= 0 ==> attempt <= maxRetries + 1
      invariant maxRetries < 0 ==> attempt == 0
      invariant calls == attempt
      invariant |sleeps| == (if attempt > 0 && attempt == maxRetries + 1 then attempt - 1 else attempt)
      invariant delay == BackoffDelay(initialDelay, backoffFactor, |sleeps|)
      invariant forall k :: 0 <= k < |sleeps| ==> sleeps[k] == BackoffDelay(initialDelay, backoffFactor, k)
      invariant forall k :: 0 <= k < attempt ==> call(k).Raises? && IsInstanceOfAny(call(k).cls, exceptions)
      invariant attempt == 0 <==> lastException.None?
      invariant attempt > 0 ==> lastException == Some(call(attempt - 1).cls)
    {
      var result := call(attempt);
      calls := calls + 1;
      match result {
        case Returns(v) =>
          return Returned(v), calls, sleeps;
        case Raises(c) =>
          if !IsInstanceOfAny(c, exceptions) {
            return Raised(c), calls, sleeps;
          }
          lastException := Some(c);
          if attempt < maxRetries {
            sleeps := sleeps + [delay];
            delay := delay * backoffFactor;
          }
      }
      attempt := attempt + 1;
    }
    if lastException.Some? {
      outcome := Raised(lastException.value);
    } else {
      outcome := ReturnedNone;
    }
  }
}

=== FILE: messages.dfy ===
/**
  The ESPHome API messages the satellite and its entities exchange with
  Home Assistant, as abstract records: only the fields the handlers read or
  fill in. A protobuf field that may be absent (`has_media_url`,
  `has_command`, `has_volume`) is an `Option`; a string field left unset is
  the empty string, as in protobuf.
 */
module Messages {

  import opened Optional

  datatype MediaPlayerState = Idle | Playing | Paused

  datatype MediaCommand = PauseCommand | PlayCommand | MuteCommand | UnmuteCommand | OtherMediaCommand(code: int)

  /** The pipeline events the satellite reacts to; every other event type is `OtherVoiceEvent`. */
  datatype VoiceEvent =
    | RunStart | RunEnd | SttVadEnd | SttEnd | IntentProgress | IntentEnd | TtsEnd
    | OtherVoiceEvent(code: int)

  datatype TimerEvent = TimerFinished | OtherTimerEvent(code: int)

  /** The voice assistant features a device can announce. */
  datatype Feature = VoiceAssistant | Speaker | ApiAudio | Timers | Announce | StartConversation

  datatype EntityCategory = NoCategory | ConfigCategory | DiagnosticCategory

  /** One wake word as the configuration response describes it. */
  datatype WakeWordInfo = WakeWordInfo(id: string, wakeWord: string, trainedLanguages: seq<string>)

  datatype Message =
    // requests from Home Assistant
    | MediaPlayerCommandRequest(key: int, mediaUrl: Option<string>, announcement: Option<bool>,
                                command: Option<MediaCommand>, newVolume: Option<real>)
    | SwitchCommandRequest(key: int, newState: bool)
    | ListEntitiesRequest
    | SubscribeStatesRequest
    | DeviceInfoRequest
    | ConfigurationRequest
    | SetConfiguration(requestedWakeWords: seq<string>)
    | EventResponse(event: VoiceEvent, args: seq<(string, string)>)
    | TimerEventResponse(timerEvent: TimerEvent)
    | AnnounceRequest(preannounceMediaId: string, mediaId: string, startConversation: bool)
    // answers and notifications from the satellite
    | MediaPlayerStateResponse(key: int, state: MediaPlayerState, volume: real, muted: bool)
    | ListEntitiesMediaPlayerResponse(objectId: string, key: int, name: string, supportsPause: bool)
    | SwitchStateResponse(key: int, switchState: bool)
    | ListEntitiesSwitchResponse(objectId: string, key: int, name: string, category: EntityCategory, icon: string)
    | ListEntitiesDoneResponse
    | DeviceInfoResponse(usesPassword: bool, name: string, macAddress: string, manufacturer: string,
                         model: string, features: set<Feature>)
    | ConfigurationResponse(availableWakeWords: seq<WakeWordInfo>, activeWakeWords: set<string>, maxActiveWakeWords: nat)
    | VoiceAssistantRequest(start: bool, wakeWordPhrase: string)
    | VoiceAssistantAudio(data: seq<int>)
    | AnnounceFinished

  /** The requests the satellite hands to every entity. */
  predicate ForEntities(m: Message)
  {
    m.ListEntitiesRequest? || m.SubscribeStatesRequest? || m.MediaPlayerCommandRequest? || m.SwitchCommandRequest?
  }
}

=== FILE: model_names.dfy ===
/**
  Wake-word model names as the Wyoming client handles them: `Path(name).stem`,
  the version-suffix strip `re.sub(r"(?:_v\d+(?:\.\d+)?)$", "", stem)`, the
  display label built from the parts, and the detect-model filter.
 */
module ModelNames {

  import opened Optional
  import opened Text

  // ---------------------------------------------------------------------------
  // pathlib

  /** Whether a path component survives `PurePosixPath` parsing (empty and "." parts are dropped). */
  predicate IsRealComponent(c: string)
  {
    c != [] && c != "."
  }

  /** `k` is the index of the last component of `parts` that survives parsing. */
  predicate IsLastReal(parts: seq<string>, k: int)
  {
    0 <= k < |parts| && IsRealComponent(parts[k])
    && forall j :: k < j < |parts| ==> !IsRealComponent(parts[j])
  }

  /** The last component of a list that survives parsing, or "" when none does. */
  function LastRealComponent(parts: seq<string>): (r: string)
    ensures r == [] ==> forall k :: 0 <= k < |parts| ==> !IsRealComponent(parts[k])
    ensures r != [] ==> exists k :: IsLastReal(parts, k) && parts[k] == r
    decreases |parts|
  {
    if parts == [] then []
    else if IsRealComponent(parts[|parts| - 1]) then
      assert IsLastReal(parts, |parts| - 1);
      parts[|parts| - 1]
    else
      var init := parts[..|parts| - 1];
      var r := LastRealComponent(init);
      assert forall k :: 0 <= k < |init| ==> init[k] == parts[k];
      assert r != [] ==> exists k :: IsLastReal(parts, k) && parts[k] == r by {
        if r != [] {
          var k :| IsLastReal(init, k) && init[k] == r;
          assert IsLastReal(parts, k);
        }
      }
      r
  }

  /**
    `Path(s).name`: the last '/'-separated component that is neither empty
    nor ".", or "" when there is none.
   */
  function PathName(s: string): (r: string)
    ensures '/' !in r
    ensures r != "."
    ensures var parts := Split(s, '/');
            (r == [] && forall k :: 0 <= k < |parts| ==> !IsRealComponent(parts[k]))
            || exists k :: IsLastReal(parts, k) && parts[k] == r
  {
    var parts := Split(s, '/');
    var r := LastRealComponent(parts);
    if r == [] then r
    else
      var k :| IsLastReal(parts, k) && parts[k] == r;
      SplitPartNoSep(s, '/', k);
      assert IsLastReal(parts, k);
      r
  }

  /** No part of a split holds the separator, stated for one index. */
  lemma SplitPartNoSep(s: string, sep: char, k: int)
    requires 0 <= k < |Split(s, sep)|
    ensures sep !in Split(s, sep)[k]
  {
    var parts := Split(s, sep);
    assert sep !in parts[k];
  }

  /** The index of the last `c` in `s` (`s.rfind(c)`), if any. */
  function RFind(s: string, c: char): (r: Option<nat>)
    ensures r.Some? <==> c in s
    ensures r.Some? ==> r.value < |s| && s[r.value] == c && c !in s[r.value + 1..]
  {
    if s == [] then None
    else if s[|s| - 1] == c then Some(|s| - 1)
    else
      var r := RFind(s[..|s| - 1], c);
      InitMembership(s, c, if r.Some? then r.value else |s|);
      r
  }

  /** Membership in `s` and in its slices, seen from the prefix without the last character. */
  lemma InitMembership(s: string, c: char, i: nat)
    requires s != [] && s[|s| - 1] != c
    ensures c in s <==> c in s[..|s| - 1]
    ensures i < |s| - 1 && c !in s[..|s| - 1][i + 1..] ==> c !in s[i + 1..]
  {
    assert s == s[..|s| - 1] + [s[|s| - 1]];
    if i < |s| - 1 {
      assert s[i + 1..] == s[..|s| - 1][i + 1..] + [s[|s| - 1]];
    }
  }

  /** `rfind` finds the last occurrence. */
  lemma {:induction false} RFindLast(s: string, c: char, i: nat)
    requires i < |s| && s[i] == c && c !in s[i + 1..]
    ensures RFind(s, c) == Some(i)
    decreases |s|
  {
    if i < |s| - 1 {
      assert s[|s| - 1] in s[i + 1..];
      assert s[..|s| - 1][i + 1..] == s[i + 1..|s| - 1];
      RFindLast(s[..|s| - 1], c, i);
    }
  }

  /** A name without '/' that is neither empty nor "." is its own `Path(name).name`. */
  lemma PathNamePlain(s: string)
    requires '/' !in s && IsRealComponent(s)
    ensures PathName(s) == s
  {
    SplitNoSep(s, '/');
  }

  /** The name after the last '/' is the path's name, whatever the directory part holds. */
  lemma PathNameAfterDir(dir: string, name: string)
    requires '/' !in name && IsRealComponent(name)
    ensures PathName(dir + "/" + name) == name
  {
    SplitAppend(dir, '/', name);
    SplitNoSep(name, '/');
    assert dir + "/" + name == dir + ['/'] + name;
  }

  /** A trailing '/' does not change the path's name. */
  lemma PathNameTrailingSlash(s: string)
    ensures PathName(s + "/") == PathName(s)
  {
    SplitAppend(s, '/', []);
    assert s + "/" == s + ['/'] + [];
    var parts := Split(s, '/');
    assert Split([], '/') == [[]];
    assert (parts + [[]])[..|parts|] == parts;
  }

  /** `PurePath.stem` on a final component: the suffix goes only when the last dot is neither first nor last. */
  function StemOfName(name: string): (r: string)
    ensures |r| <= |name| && r == name[..|r|]
    ensures r != name ==> |r| >= 1 && name[|r|] == '.' && '.' !in name[|r| + 1..] && |r| + 1 < |name|
    ensures r == name ==> forall i :: 0 < i < |name| - 1 && name[i] == '.' ==> '.' in name[i + 1..]
  {
    match RFind(name, '.')
    case Some(i) => if 0 < i < |name| - 1 then name[..i] else name
    case None => name
  }

  /** `Path(name).stem`: the stem of the last real path component. */
  function Stem(s: string): (r: string)
    ensures '/' !in r
    ensures r == StemOfName(PathName(s))
  {
    var name := PathName(s);
    var r := StemOfName(name);
    assert forall k :: 0 <= k < |r| ==> r[k] == name[k];
    r
  }

  // ---------------------------------------------------------------------------
  // The version suffix `_v\d+(\.\d+)?`

  predicate AllDigits(s: string)
  {
    forall k :: 0 <= k < |s| ==> IsDigit(s[k])
  }

  /** `t` matches `\d+(?:\.\d+)?` in full. */
  predicate IsVersionNumber(t: string)
  {
    (t != [] && AllDigits(t))
    || exists k :: 0 < k < |t| - 1 && t[k] == '.' && AllDigits(t[..k]) && AllDigits(t[k + 1..])
  }

  /** `t` matches `_v\d+(?:\.\d+)?` in full. */
  predicate IsVersionSuffix(t: string)
  {
    |t| >= 3 && t[0] == '_' && t[1] == 'v' && IsVersionNumber(t[2..])
  }

  /** A version suffix contains exactly one '_', its first character. */
  lemma VersionSuffixUnderscore(t: string)
    requires IsVersionSuffix(t)
    ensures '_' !in t[1..]
  {
    var n := t[2..];
    forall j | 2 <= j < |t|
      ensures t[j] != '_'
    {
      assert n[j - 2] == t[j];
      if !(n != [] && AllDigits(n)) {
        var k :| 0 < k < |n| - 1 && n[k] == '.' && AllDigits(n[..k]) && AllDigits(n[k + 1..]);
        if j - 2 < k {
          assert n[..k][j - 2] == t[j];
        } else if j - 2 > k {
          assert n[k + 1..][j - 2 - k - 1] == t[j];
        }
      }
    }
    forall j | 0 <= j < |t[1..]|
      ensures t[1..][j] != '_'
    {
      assert t[1..][j] == t[j + 1];
    }
  }

  /** The end of `s` where the suffix must match: `$` also matches just before a final newline. */
  function MatchEnd(s: string): (e: nat)
    ensures e <= |s|
  {
    if s != [] && s[|s| - 1] == '\n' then |s| - 1 else |s|
  }

  /**
    `re.sub(r"(?:_v\d+(?:\.\d+)?)$", "", s)`: a match must start at the last
    '_' before the match end (the suffix holds no other '_'), so there is at
    most one, and it is removed.
   */
  function StripVersion(s: string): (r: string)
    ensures r == s || (exists k :: 0 <= k < MatchEnd(s) && IsVersionSuffix(s[k..MatchEnd(s)])
                                   && r == s[..k] + s[MatchEnd(s)..])
    ensures (exists k :: 0 <= k < MatchEnd(s) && IsVersionSuffix(s[k..MatchEnd(s)])) ==> r != s
  {
    var e := MatchEnd(s);
    var body := s[..e];
    match RFind(body, '_')
    case None =>
      NoSuffixWithoutUnderscore(s, e);
      s
    case Some(k) =>
      if IsVersionSuffix(s[k..e]) then
        assert |s[..k] + s[e..]| < |s|;
        s[..k] + s[e..]
      else
        NoSuffixBeforeLastUnderscore(s, e, k);
        s
  }

  lemma NoSuffixWithoutUnderscore(s: string, e: nat)
    requires e <= |s| && '_' !in s[..e]
    ensures !exists k :: 0 <= k < e && IsVersionSuffix(s[k..e])
  {
    forall k | 0 <= k < e
      ensures !IsVersionSuffix(s[k..e])
    {
      assert s[k..e][0] == s[..e][k];
    }
  }

  lemma NoSuffixBeforeLastUnderscore(s: string, e: nat, last: nat)
    requires e <= |s| && last < e && s[last] == '_' && '_' !in s[..e][last + 1..]
    requires !IsVersionSuffix(s[last..e])
    ensures !exists k :: 0 <= k < e && IsVersionSuffix(s[k..e])
  {
    forall k | 0 <= k < e
      ensures !IsVersionSuffix(s[k..e])
    {
      if k < last && IsVersionSuffix(s[k..e]) {
        VersionSuffixUnderscore(s[k..e]);
      } else if k > last {
        assert s[k..e][0] == s[..e][last + 1..][k - last - 1];
      }
    }
  }

  // ---------------------------------------------------------------------------
  // Labels

  /** A word as `str.capitalize` leaves it: no lower-case first letter, no upper-case letter after it. */
  predicate IsCapitalized(w: string)
  {
    (w == [] || !IsLower(w[0])) && forall j :: 1 <= j < |w| ==> !IsUpper(w[j])
  }

  lemma CapitalizeIsCapitalized(w: string)
    ensures IsCapitalized(Capitalize(w))
  {
  }

  function CapitalizeAll(parts: seq<string>): (r: seq<string>)
    ensures |r| == |parts| && forall k :: 0 <= k < |parts| ==> r[k] == Capitalize(parts[k])
  {
    if parts == [] then [] else [Capitalize(parts[0])] + CapitalizeAll(parts[1..])
  }

  /** The words of a label before they are joined, as `_prettify_model_name` builds them. */
  function LabelWordsAsWritten(name: string): (words: seq<string>)
    ensures |words| >= 1
  {
    var parts := Split(StripVersion(Stem(name)), '_');
    if Lower(parts[0]) == "ok" then parts[0 := "OK"] else CapitalizeAll(parts)
  }

  /** `_prettify_model_name(name)` as written: after "ok" the other parts keep their case. */
  function PrettifyAsWritten(name: string): (r: string)
  {
    Join(LabelWordsAsWritten(name), " ")
  }

  /** The label words with every word after a leading "OK" capitalised, as the docstring promises. */
  function LabelWords(name: string): (words: seq<string>)
    ensures |words| >= 1
    ensures forall k :: 1 <= k < |words| ==> IsCapitalized(words[k])
    ensures IsCapitalized(words[0]) || words[0] == "OK"
    ensures var parts := Split(StripVersion(Stem(name)), '_');
            |words| == |parts|
            && (words[0] == if Lower(parts[0]) == "ok" then "OK" else Capitalize(parts[0]))
            && forall k :: 1 <= k < |words| ==> words[k] == Capitalize(parts[k])
  {
    var parts := Split(StripVersion(Stem(name)), '_');
    var caps := CapitalizeAll(parts);
    var words := if Lower(parts[0]) == "ok" then caps[0 := "OK"] else caps;
    forall k | 1 <= k < |words| ensures words[k] == Capitalize(parts[k]) && IsCapitalized(words[k]) {
      CapitalizeIsCapitalized(parts[k]);
    }
    CapitalizeIsCapitalized(parts[0]);
    words
  }

  /** The display label of a model: stem, version suffix removed, words capitalised, "ok" spelt "OK". */
  function Prettify(name: string): (r: string)
  {
    Join(LabelWords(name), " ")
  }

  /** The two definitions agree whenever the name does not start with the word "ok". */
  lemma PrettifyAgreesUnlessOk(name: string)
    requires Lower(Split(StripVersion(Stem(name)), '_')[0]) != "ok"
    ensures PrettifyAsWritten(name) == Prettify(name)
  {
  }

  /** A plain name whose last '.' sits strictly inside it loses the suffix from that dot. */
  lemma StemAtDot(s: string, i: nat)
    requires '/' !in s && IsRealComponent(s)
    requires 0 < i < |s| - 1 && s[i] == '.' && '.' !in s[i + 1..]
    ensures Stem(s) == s[..i]
  {
    PathNamePlain(s);
    RFindLast(s, '.', i);
  }

  /** A plain name without '.' is its own stem. */
  lemma StemNoDot(s: string)
    requires '/' !in s && IsRealComponent(s) && '.' !in s
    ensures Stem(s) == s
  {
    PathNamePlain(s);
  }

  /** A version suffix after the last '_' of a string that does not end in a newline is removed. */
  lemma StripVersionAt(s: string, k: nat)
    requires k < |s| && s[|s| - 1] != '\n'
    requires s[k] == '_' && '_' !in s[k + 1..] && IsVersionSuffix(s[k..])
    ensures StripVersion(s) == s[..k]
  {
    assert MatchEnd(s) == |s| && s[..|s|] == s;
    RFindLast(s, '_', k);
    assert s[..k] + s[|s|..] == s[..k];
  }

  /** `_v` and one digit is a version suffix. */
  lemma OneDigitSuffix(d: char)
    requires IsDigit(d)
    ensures IsVersionSuffix(['_', 'v', d])
  {
    assert ['_', 'v', d][2..] == [d];
  }

  /** A name of the form `p.d`, `p` free of '/' and '.', has stem `p`. */
  lemma StemDotChar(p: string, d: char)
    requires p != [] && '/' !in p && '.' !in p && d != '/' && d != '.'
    ensures Stem(p + ['.', d]) == p
  {
    var s := p + ['.', d];
    assert s[|p|] == '.' && s[|p| + 1..] == [d] && s[..|p|] == p;
    StemAtDot(s, |p|);
  }

  /** `_v` and a digit after anything is the version suffix that `StripVersion` removes. */
  lemma StripDigitSuffix(p: string, d: char)
    requires IsDigit(d)
    ensures StripVersion(p + ['_', 'v', d]) == p
  {
    var s := p + ['_', 'v', d];
    OneDigitSuffix(d);
    assert s[|p|..] == ['_', 'v', d] && s[|p| + 1..] == ['v', d] && s[..|p|] == p;
    StripVersionAt(s, |p|);
  }

  /** `hal_v2` is its own stem. */
  lemma StemHalV2()
    ensures Stem("hal_v2") == "hal_v2"
  {
    StemNoDot("hal_v2");
  }

  /** The one-digit version suffixes of `hal_v2` and `ok_nabu_v0` go. */
  lemma StripOneDigitVersions()
    ensures StripVersion("hal_v2") == "hal"
    ensures StripVersion("ok_nabu_v0") == "ok_nabu"
  {
    assert StripVersion("hal_v2") == "hal" by {
      assert "hal_v2" == "hal" + ['_', 'v', '2'];
      StripDigitSuffix("hal", '2');
    }
    assert "ok_nabu_v0" == "ok_nabu" + ['_', 'v', '0'];
    StripDigitSuffix("ok_nabu", '0');
  }

  /** The stem of `hal_v2` without its version suffix is "hal". */
  lemma StemHal()
    ensures StripVersion(Stem("hal_v2")) == "hal"
  {
    StemHalV2();
    StripOneDigitVersions();
  }

  lemma CapitalizeHal()
    ensures Capitalize("hal") == "Hal"
  {
    var w := "hal";
    LowerNoUpper(w[1..]);
    assert UpperChar('h') == 'H';
    assert [UpperChar(w[0])] + w[1..] == "Hal";
  }

  lemma LowerHal()
    ensures Lower("hal") == "hal"
  {
    LowerNoUpper("hal");
  }

  /** The words of `hal_v2`. */
  lemma LabelWordsHal()
    ensures LabelWords("hal_v2") == ["Hal"]
  {
    StemHal();
    SplitHal();
    LowerHal();
    CapitalizeAllHal();
  }

  lemma SplitHal()
    ensures Split("hal", '_') == ["hal"]
  {
    SplitNoSep("hal", '_');
  }

  lemma CapitalizeAllHal()
    ensures CapitalizeAll(["hal"]) == ["Hal"]
  {
    CapitalizeHal();
    assert CapitalizeAll(["hal"])[0] == "Hal";
  }

  lemma JoinHal()
    ensures Join(["Hal"], " ") == "Hal"
  {
  }

  /** `hal_v2` becomes "Hal". */
  lemma PrettifyHal()
    ensures Prettify("hal_v2") == "Hal"
  {
    LabelWordsHal();
    JoinHal();
  }

  /** `ok_nabu_v0.1` has stem `ok_nabu_v0`. */
  lemma StemOkNabuV0()
    ensures Stem("ok_nabu_v0.1") == "ok_nabu_v0"
  {
    assert "ok_nabu_v0.1" == "ok_nabu_v0" + ['.', '1'];
    StemDotChar("ok_nabu_v0", '1');
  }

  /** ... whose version suffix `_v0` goes. */
  lemma StemOkNabu()
    ensures StripVersion(Stem("ok_nabu_v0.1")) == "ok_nabu"
  {
    StemOkNabuV0();
    StripOneDigitVersions();
  }

  /** `_v0.1` matches the version pattern with its optional `.digits` part. */
  lemma TwoPartVersionSuffix()
    ensures IsVersionSuffix("_v0.1")
  {
    var n := "_v0.1"[2..];
    assert n == "0.1" && n[1] == '.' && n[..1] == "0" && n[2..] == "1";
  }

  /**
    A two-part version goes whole, and the underscore inside the name stays:
    `hey_jarvis_v0.1` (the stem of `hey_jarvis_v0.1.tflite`) becomes `hey_jarvis`.
   */
  lemma StripTwoPartVersion()
    ensures StripVersion("hey_jarvis_v0.1") == "hey_jarvis"
  {
    var s := "hey_jarvis_v0.1";
    TwoPartVersionSuffix();
    assert s[10..] == "_v0.1" && s[11..] == "v0.1" && s[..10] == "hey_jarvis";
    StripVersionAt(s, 10);
  }

  lemma SplitOkNabu()
    ensures Split("ok_nabu", '_') == ["ok", "nabu"]
  {
    SplitNoSep("nabu", '_');
    SplitAt("ok", '_', "nabu");
    assert "ok" + ['_'] + "nabu" == "ok_nabu";
  }

  lemma LowerOk()
    ensures Lower("ok") == "ok"
  {
    LowerNoUpper("ok");
  }

  lemma CapitalizeNabu()
    ensures Capitalize("nabu") == "Nabu"
  {
    var w := "nabu";
    LowerNoUpper(w[1..]);
    assert UpperChar('n') == 'N';
    assert [UpperChar(w[0])] + w[1..] == "Nabu";
  }

  /** The words of `ok_nabu_v0.1` as the code builds them. */
  lemma LabelWordsAsWrittenOkNabu()
    ensures LabelWordsAsWritten("ok_nabu_v0.1") == ["OK", "nabu"]
  {
    StemOkNabu();
    SplitOkNabu();
    LowerOk();
  }

  /** The words of `ok_nabu_v0.1` as the docstring promises them. */
  lemma LabelWordsOkNabu()
    ensures LabelWords("ok_nabu_v0.1") == ["OK", "Nabu"]
  {
    StemOkNabu();
    SplitOkNabu();
    LowerOk();
    CapitalizeNabu();
    assert CapitalizeAll(["ok", "nabu"])[1] == "Nabu";
  }

  /** `ok_nabu_v0.1` as written: "OK nabu", the second word left in lower case. */
  lemma PrettifyAsWrittenOkNabu()
    ensures PrettifyAsWritten("ok_nabu_v0.1") == "OK nabu"
  {
    JoinOkNabuAsWritten();
    LabelWordsAsWrittenOkNabu();
  }

  lemma JoinOkNabuAsWritten()
    ensures Join(["OK", "nabu"], " ") == "OK nabu"
  {
    JoinTwo("OK", "nabu", " ");
  }

  /** `ok_nabu_v0.1` corrected: "OK Nabu", the label the docstring gives. */
  lemma PrettifyOkNabu()
    ensures Prettify("ok_nabu_v0.1") == "OK Nabu"
  {
    JoinOkNabu();
    LabelWordsOkNabu();
  }

  lemma JoinOkNabu()
    ensures Join(["OK", "Nabu"], " ") == "OK Nabu"
  {
    JoinTwo("OK", "Nabu", " ");
  }

  /** The as-written label breaks the capitalisation promise that `LabelWords` keeps. */
  lemma AsWrittenLabelNotCapitalized()
    ensures |LabelWordsAsWritten("ok_nabu_v0.1")| == 2
    ensures !IsCapitalized(LabelWordsAsWritten("ok_nabu_v0.1")[1])
  {
    LabelWordsAsWrittenOkNabu();
  }

  // ---------------------------------------------------------------------------
  // Detect-model filter

  /** `_OWW_DETECT_MODEL_DENYLIST`: helper models that are not wake-word detectors. */
  const DetectModelDenylist: set<string> := {"embedding_model", "melspectrogram"}

  /** `_normalize_model_name(name)`: `Path(name).stem`. */
  function NormalizeModelName(name: string): (r: string)
    ensures '/' !in r
    ensures r == StemOfName(PathName(name))
  {
    Stem(name)
  }

  function NormalizeAll(models: seq<string>): (r: seq<string>)
    ensures |r| == |models| && forall k :: 0 <= k < |models| ==> r[k] == NormalizeModelName(models[k])
  {
    if models == [] then [] else [NormalizeModelName(models[0])] + NormalizeAll(models[1..])
  }

  function RemoveDenied(xs: seq<string>): (r: seq<string>)
    ensures StrictlySorted(xs) ==> StrictlySorted(r)
    ensures forall y :: y in r <==> y in xs && y !in DetectModelDenylist
  {
    if xs == [] then []
    else
      var rest := RemoveDenied(xs[1..]);
      assert StrictlySorted(xs) ==> StrictlySorted(xs[1..]);
      assert StrictlySorted(xs) ==> forall y :: y in rest ==> Less(xs[0], y);
      if xs[0] in DetectModelDenylist then rest else [xs[0]] + rest
  }

  /** `_filter_detect_models(models)`: stems, de-duplicated, denylist removed, sorted. */
  function FilterDetectModels(models: seq<string>): (r: seq<string>)
    ensures StrictlySorted(r)
    ensures forall y :: y in r <==> y !in DetectModelDenylist
                                    && exists k :: 0 <= k < |models| && NormalizeModelName(models[k]) == y
  {
    var stems := NormalizeAll(models);
    var r := RemoveDenied(SortedDistinct(stems));
    assert forall y :: y in stems <==> exists k :: 0 <= k < |models| && NormalizeModelName(models[k]) == y;
    r
  }

  /** No name is offered twice. */
  lemma FilterDetectModelsNoDuplicates(models: seq<string>, i: int, j: int)
    requires 0 <= i < j < |FilterDetectModels(models)|
    ensures FilterDetectModels(models)[i] != FilterDetectModels(models)[j]
  {
    StrictlySortedDistinct(FilterDetectModels(models), i, j);
  }
}

=== FILE: monitoring.dfy ===
/**
  The bookkeeping half of `SystemMonitor`: the bounded snapshot history, the
  event counters, the bounded error log and the choice of the summary window.
  Collecting the snapshots (psutil) and averaging them are left to the caller.
 */
module Monitoring {

  import opened Optional

  /** One `SystemMetrics` snapshot, as collected. */
  datatype Snapshot = Snapshot(
    timestamp: real,
    cpuPercent: real,
    memoryPercent: real,
    memoryMb: real,
    threadCount: int,
    openFiles: int)

  /** The integer part of `PerformanceMetrics` and its error log. */
  datatype Performance = Performance(
    wakeWordDetections: nat,
    wakeWordFalsePositives: nat,
    audioProcessingErrors: nat,
    mqttReconnections: nat,
    ttsPlaybacks: nat,
    recentErrors: seq<string>)

  datatype Monitor = Monitor(maxHistory: int, history: seq<Snapshot>, performance: Performance)

  /** How many errors `record_error` keeps. */
  const MaxRecentErrors: int := 20

  /** How many snapshots the summaries look at. */
  const SummaryWindowSize: nat := 10

  const NoPerformance := Performance(0, 0, 0, 0, 0, [])

  /** `SystemMonitor(max_history=...)` before its first sample. */
  function NewMonitor(maxHistory: int): (m: Monitor)
    ensures m.history == [] && m.performance == NoPerformance && m.maxHistory == maxHistory
  {
    Monitor(maxHistory, [], NoPerformance)
  }

  // ---------------------------------------------------------------------------
  // Bounded logs

  /** `xs.append(x)` followed by one `xs.pop(0)` when the list has grown past `cap`. */
  function BoundedAppend<T>(xs: seq<T>, x: T, cap: int): (r: seq<T>)
    ensures |r| <= |xs| + 1 && r == (xs + [x])[|xs| + 1 - |r|..]
    ensures |xs| + 1 <= cap ==> r == xs + [x]
    ensures |xs| + 1 > cap ==> |r| == |xs|
    ensures 0 <= |xs| <= cap ==> |r| <= cap
    ensures cap >= 1 ==> |r| >= 1 && r[|r| - 1] == x
  {
    var grown := xs + [x];
    if |grown| > cap then grown[1..] else grown
  }

  /** Appends every element of `xs`, in order, starting from `log`. */
  function AppendAll<T>(log: seq<T>, xs: seq<T>, cap: int): seq<T>
    decreases |xs|
  {
    if xs == [] then log else BoundedAppend(AppendAll(log, xs[..|xs| - 1], cap), xs[|xs| - 1], cap)
  }

  /** The last `min(|xs|, n)` elements of `xs`. */
  function LastN<T>(xs: seq<T>, n: nat): (r: seq<T>)
    ensures |r| == if |xs| < n then |xs| else n
    ensures r == xs[|xs| - |r|..]
  {
    if |xs| < n then xs else xs[|xs| - n..]
  }

  /**
    Starting from an empty log, appending any number of entries one at a time
    keeps exactly the `cap` most recent ones, oldest first: the oldest entry is
    the one evicted.
   */
  lemma {:induction false} AppendAllKeepsNewest<T>(xs: seq<T>, cap: nat)
    ensures AppendAll([], xs, cap) == LastN(xs, cap)
    decreases |xs|
  {
    if xs != [] {
      AppendAllKeepsNewest(xs[..|xs| - 1], cap);
      LastNStep(xs, cap);
    }
  }

  /** Appending to a window of the last `cap` entries gives the window of the longer log. */
  lemma LastNStep<T>(xs: seq<T>, cap: nat)
    requires xs != []
    ensures BoundedAppend(LastN(xs[..|xs| - 1], cap), xs[|xs| - 1], cap) == LastN(xs, cap)
  {
    var init, x := xs[..|xs| - 1], xs[|xs| - 1];
    var prev := LastN(init, cap);
    assert prev + [x] == xs[|init| - |prev|..];
    if |prev| + 1 > cap {
      assert |prev| == cap;
      assert (prev + [x])[1..] == xs[|xs| - cap..];
    }
  }

  // ---------------------------------------------------------------------------
  // History

  /** `_add_to_history(metrics)`. */
  function AddToHistory(m: Monitor, s: Snapshot): (r: Monitor)
    ensures r.maxHistory == m.maxHistory && r.performance == m.performance
    ensures r.history == BoundedAppend(m.history, s, m.maxHistory)
  {
    m.(history := BoundedAppend(m.history, s, m.maxHistory))
  }

  /** A history that starts empty never grows past `max_history`, and the newest snapshot is last. */
  lemma AddToHistoryBounded(m: Monitor, s: Snapshot)
    requires |m.history| <= m.maxHistory
    ensures |AddToHistory(m, s).history| <= m.maxHistory
    ensures m.maxHistory >= 1 ==> GetCurrentMetrics(AddToHistory(m, s)) == Some(s)
    ensures |m.history| < m.maxHistory ==> AddToHistory(m, s).history == m.history + [s]
    ensures |m.history| == m.maxHistory >= 1 ==> AddToHistory(m, s).history == m.history[1..] + [s]
  {
    if |m.history| == m.maxHistory >= 1 {
      assert (m.history + [s])[1..] == m.history[1..] + [s];
    }
  }

  /** A sequence of samples fed to a fresh monitor leaves the `max_history` most recent ones. */
  lemma HistoryKeepsNewest(maxHistory: nat, samples: seq<Snapshot>)
    ensures AppendAll([], samples, maxHistory) == LastN(samples, maxHistory)
  {
    AppendAllKeepsNewest(samples, maxHistory);
  }

  /** `get_current_metrics()`: the most recent snapshot, if any. */
  function GetCurrentMetrics(m: Monitor): (r: Option<Snapshot>)
    ensures r.None? <==> m.history == []
    ensures r.Some? ==> r.value == m.history[|m.history| - 1]
  {
    if m.history == [] then None else Some(m.history[|m.history| - 1])
  }

  // ---------------------------------------------------------------------------
  // Counters

  datatype Event = WakeWordDetection | TtsPlayback | MqttReconnection

  /** The counter an event is recorded in. */
  function Count(p: Performance, e: Event): nat
  {
    match e
    case WakeWordDetection => p.wakeWordDetections
    case TtsPlayback => p.ttsPlaybacks
    case MqttReconnection => p.mqttReconnections
  }

  /** `record_wake_word_detection()`, `record_tts_playback()`, `record_mqtt_reconnection()`. */
  function Record(p: Performance, e: Event): (r: Performance)
    ensures Count(r, e) == Count(p, e) + 1
    ensures forall e' :: e' != e ==> Count(r, e') == Count(p, e')
    ensures r.wakeWordFalsePositives == p.wakeWordFalsePositives
    ensures r.audioProcessingErrors == p.audioProcessingErrors
    ensures r.recentErrors == p.recentErrors
  {
    match e
    case WakeWordDetection => p.(wakeWordDetections := p.wakeWordDetections + 1)
    case TtsPlayback => p.(ttsPlaybacks := p.ttsPlaybacks + 1)
    case MqttReconnection => p.(mqttReconnections := p.mqttReconnections + 1)
  }

  /** The counters commute: the order in which events are recorded does not matter. */
  lemma RecordCommutes(p: Performance, e1: Event, e2: Event)
    ensures Record(Record(p, e1), e2) == Record(Record(p, e2), e1)
  {
  }

  /** `record_error(message)`: keeps at most the 20 most recent messages. */
  function RecordError(p: Performance, message: string): (r: Performance)
    ensures |p.recentErrors| <= MaxRecentErrors ==> |r.recentErrors| <= MaxRecentErrors
    ensures |r.recentErrors| >= 1 && r.recentErrors[|r.recentErrors| - 1] == message
    ensures forall e :: Count(r, e) == Count(p, e)
    ensures r.wakeWordFalsePositives == p.wakeWordFalsePositives
    ensures r.audioProcessingErrors == p.audioProcessingErrors
  {
    p.(recentErrors := BoundedAppend(p.recentErrors, message, MaxRecentErrors))
  }

  /** Recording errors one at a time from an empty log keeps the 20 most recent, in FIFO order. */
  lemma RecordErrorsKeepsNewest(messages: seq<string>)
    ensures AppendAll([], messages, MaxRecentErrors) == LastN(messages, 20)
  {
    AppendAllKeepsNewest(messages, 20);
  }

  // ---------------------------------------------------------------------------
  // Summary window

  /** What `get_metrics_summary()` is computed from; averaging the window is left out. */
  datatype Summary = Summary(
    window: seq<Snapshot>,
    wakeWordDetections: nat,
    ttsPlaybacks: nat,
    mqttReconnections: nat)

  /** The snapshots `_log_summary` and `get_metrics_summary` average: the last ten, or all when fewer. */
  function RecentWindow(history: seq<Snapshot>): (r: seq<Snapshot>)
    ensures |r| == if |history| >= 10 then 10 else |history|
    ensures r == history[|history| - |r|..]
  {
    if |history| >= 10 then history[|history| - 10..] else history
  }

  /** `get_metrics_summary()`: `None` stands for the empty dictionary returned for an empty history. */
  function GetMetricsSummary(m: Monitor): (r: Option<Summary>)
    ensures r.None? <==> m.history == []
    ensures r.Some? ==> r.value.window == LastN(m.history, SummaryWindowSize)
    ensures r.Some? ==> 1 <= |r.value.window| <= 10
    ensures r.Some? ==> r.value.wakeWordDetections == m.performance.wakeWordDetections
    ensures r.Some? ==> r.value.ttsPlaybacks == m.performance.ttsPlaybacks
    ensures r.Some? ==> r.value.mqttReconnections == m.performance.mqttReconnections
  {
    if m.history == [] then None
    else
      Some(Summary(RecentWindow(m.history), m.performance.wakeWordDetections,
                   m.performance.ttsPlaybacks, m.performance.mqttReconnections))
  }

  /** The summary of a fresh monitor fed enough samples covers the ten most recent ones. */
  lemma SummaryCoversNewestTen(maxHistory: nat, samples: seq<Snapshot>)
    requires maxHistory >= 10 && |samples| >= 1
    ensures GetMetricsSummary(Monitor(maxHistory, AppendAll([], samples, maxHistory), NoPerformance)).value.window
            == LastN(samples, 10)
  {
    AppendAllKeepsNewest(samples, maxHistory);
    var h := LastN(samples, maxHistory);
    assert LastN(h, 10) == LastN(samples, 10);
  }
}

=== FILE: mpv_player.dfy ===
/**
  The bookkeeping of `MpvMediaPlayer`: how the device string picks the mpv
  audio output, the done-callback discipline, the duck/unduck memory, volume
  clamping, the no-progress watchdog decision and the mpv log-level bridge.
  The mpv library is replaced by the list of commands sent to it and by the
  value of its `volume` property; callbacks are opaque tokens whose
  invocations appear in the effect trace.
 */
module MpvPlayer {

  import opened Optional
  import opened Text

  // ---------------------------------------------------------------------------
  // Backend and device selection

  /** An mpv `ao` value and `audio-device` value. */
  datatype Output = Output(ao: string, device: Option<string>)

  /** The routing of a non-default device string once it has been stripped. */
  function Route(d: string): (r: Output)
    ensures r.device.Some?
    ensures StartsWith(d, "pulse/") ==> r == Output("pulse", Some(d))
    ensures !StartsWith(d, "pulse/") && StartsWith(d, "alsa/") ==> r == Output("alsa", Some(d))
    ensures !StartsWith(d, "pulse/") && !StartsWith(d, "alsa/") ==> r == Output("pulse", Some("pulse/" + d))
    ensures r.ao == "pulse" ==> StartsWith(r.device.value, "pulse/")
    ensures r.ao == "alsa" ==> StartsWith(r.device.value, "alsa/")
  {
    if StartsWith(d, "pulse/") then Output("pulse", Some(d))
    else if StartsWith(d, "alsa/") then Output("alsa", Some(d))
    else Output("pulse", Some("pulse/" + d))
  }

  /** Whether the device string selects Pulse's default sink: `not device or device == "default"`. */
  predicate IsDefaultDevice(device: Option<string>)
  {
    device.None? || device.value == [] || device.value == "default"
  }

  /** `_select_backend_and_device(device)`: the empty/"default" test comes before the strip. */
  function SelectBackendAndDevice(device: Option<string>): (r: Output)
    ensures r.ao == "pulse" || r.ao == "alsa"
    ensures r.device.None? <==> IsDefaultDevice(device)
    ensures IsDefaultDevice(device) ==> r == Output("pulse", None)
    ensures !IsDefaultDevice(device) ==> r == Route(Strip(device.value))
  {
    if IsDefaultDevice(device) then Output("pulse", None)
    else Route(Strip(device.value))
  }

  /** A string whose ends are not whitespace is its own strip. */
  lemma StripUnpadded(s: string)
    requires s != [] && !IsSpace(s[0]) && !IsSpace(s[|s| - 1])
    ensures Strip(s) == s
  {
    TrimUnpadded(s, Whitespace);
  }

  /** Routing the chosen device string again changes nothing: the mapping is a fixed point. */
  lemma RouteStable(d: string)
    requires d == [] || (!IsSpace(d[0]) && !IsSpace(d[|d| - 1]))
    ensures var chosen := Route(d).device.value;
            chosen != [] && Strip(chosen) == chosen && Route(chosen) == Route(d)
  {
    var chosen := Route(d).device.value;
    if StartsWith(d, "pulse/") || StartsWith(d, "alsa/") {
      StripUnpadded(d);
    } else {
      assert chosen == "pulse/" + d;
      assert chosen[0] == 'p';
      assert chosen[|chosen| - 1] == if d == [] then '/' else d[|d| - 1];
      StripUnpadded(chosen);
      assert chosen[..6] == "pulse/";
    }
  }

  /** Selecting again from the chosen device string gives the same output. */
  lemma SelectBackendAndDeviceStable(device: Option<string>)
    requires !IsDefaultDevice(device)
    ensures SelectBackendAndDevice(SelectBackendAndDevice(device).device) == SelectBackendAndDevice(device)
  {
    var d := Strip(device.value);
    RouteStable(d);
    PrefixedNotDefault(Route(d).device.value);
  }

  lemma PrefixedNotDefault(c: string)
    requires StartsWith(c, "pulse/") || StartsWith(c, "alsa/")
    ensures !IsDefaultDevice(Some(c))
  {
    assert c[0] == 'p' || c[0] == 'a';
  }

  lemma SelectDefaultDevice()
    ensures SelectBackendAndDevice(None) == Output("pulse", None)
    ensures SelectBackendAndDevice(Some("default")) == Output("pulse", None)
  {
  }

  lemma SelectAlsaDevice()
    ensures SelectBackendAndDevice(Some("alsa/hw:1")) == Output("alsa", Some("alsa/hw:1"))
  {
    var d := "alsa/hw:1";
    assert d[..5] == "alsa/";
    assert d[..6] != "pulse/" by { assert d[..6][0] != "pulse/"[0]; }
    PrefixedNotDefault(d);
    StripUnpadded(d);
  }

  /** A whitespace-only device passes the empty test and strips to the bare prefix. */
  lemma SelectBlankDevice()
    ensures SelectBackendAndDevice(Some(" ")) == Output("pulse", Some("pulse/"))
  {
    var s := " ";
    TrimAll(s, Whitespace);
    assert s != "default";
    assert !StartsWith([], "pulse/") && !StartsWith([], "alsa/");
    assert "pulse/" + [] == "pulse/";
  }

  // ---------------------------------------------------------------------------
  // Player state and effects

  /** A command sent to the mpv library. */
  datatype Command = LoadFile(url: string) | AppendPlay(url: string) | StopPlayback | PlaylistClear

  /** What the wrapper does to the outside world. */
  datatype Effect = Mpv(cmd: Command) | InvokeDone(callback: nat)

  datatype MpvState = MpvState(
    doneCallback: Option<nat>,     // `_done_cb`
    duckPrevVolume: Option<real>,  // `_duck_prev_volume`
    volume: real,                  // mpv's `volume` property
    stopped: bool,                 // `_stopped`
    watchdogArmed: bool,           // whether a watchdog Timer is pending
    watchdogSec: real)             // `_watchdog_sec`

  /** `MpvMediaPlayer(device, watchdog_sec)` with mpv reporting `initialVolume`. */
  function NewPlayer(watchdogSec: real, initialVolume: real): (st: MpvState)
    ensures st.doneCallback.None? && st.duckPrevVolume.None? && !st.stopped && !st.watchdogArmed
  {
    MpvState(None, None, initialVolume, false, false, watchdogSec)
  }

  /** The number of callback invocations in a trace. */
  function Invocations(effects: seq<Effect>): nat
  {
    if effects == [] then 0
    else Invocations(effects[..|effects| - 1]) + (if effects[|effects| - 1].InvokeDone? then 1 else 0)
  }

  lemma {:induction false} InvocationsAppend(a: seq<Effect>, b: seq<Effect>)
    ensures Invocations(a + b) == Invocations(a) + Invocations(b)
    decreases |b|
  {
    if b == [] {
      assert a + b == a;
    } else {
      assert (a + b)[..|a + b| - 1] == a + b[..|b| - 1];
      InvocationsAppend(a, b[..|b| - 1]);
    }
  }

  /** Traces without callback invocations. */
  predicate Silent(effects: seq<Effect>)
  {
    forall k :: 0 <= k < |effects| ==> !effects[k].InvokeDone?
  }

  lemma {:induction false} SilentHasNoInvocations(effects: seq<Effect>)
    requires Silent(effects)
    ensures Invocations(effects) == 0
  {
    if effects != [] {
      SilentHasNoInvocations(effects[..|effects| - 1]);
    }
  }

  /** One for a registered callback, none otherwise. */
  function Pending(st: MpvState): nat
  {
    if st.doneCallback.Some? then 1 else 0
  }

  /** `_finish()`: swap the callback out, then call it; an exception it raises is logged. */
  function Finish(st: MpvState): (r: (MpvState, seq<Effect>))
    ensures r.0.doneCallback.None? && !r.0.watchdogArmed
    ensures r.0 == st.(doneCallback := None, watchdogArmed := false)
    ensures st.doneCallback.Some? ==> r.1 == [InvokeDone(st.doneCallback.value)]
    ensures st.doneCallback.None? ==> r.1 == []
  {
    var st' := st.(doneCallback := None, watchdogArmed := false);
    match st.doneCallback
    case Some(cb) => (st', [InvokeDone(cb)])
    case None => (st', [])
  }

  /** A second `_finish` never calls anything: the callback fires at most once. */
  lemma FinishAtMostOnce(st: MpvState)
    ensures Finish(Finish(st).0).1 == []
    ensures Invocations(Finish(st).1) == Pending(st)
  {
    if st.doneCallback.Some? {
      assert Finish(st).1 == [] + [InvokeDone(st.doneCallback.value)];
    }
  }

  /**
    `stop(silent)`. `commandsFail` says whether mpv raised on the `stop`
    command; the `finally` reaches `_finish` whenever `silent` is false.
   */
  function Stop(st: MpvState, silent: bool, commandsFail: bool): (r: (MpvState, seq<Effect>))
    ensures r.0.stopped && !r.0.watchdogArmed
    ensures silent ==> r.0.doneCallback == st.doneCallback && Silent(r.1)
    ensures !silent ==> r.0.doneCallback.None?
    ensures !silent && st.doneCallback.Some? ==> |r.1| >= 1 && r.1[|r.1| - 1] == InvokeDone(st.doneCallback.value)
    ensures Invocations(r.1) + Pending(r.0) == Pending(st)
    ensures r.0.volume == st.volume && r.0.duckPrevVolume == st.duckPrevVolume
  {
    var st1 := st.(stopped := true, watchdogArmed := false);
    var cmds := if commandsFail then [] else [Mpv(StopPlayback), Mpv(PlaylistClear)];
    assert Silent(cmds);
    SilentHasNoInvocations(cmds);
    if silent then (st1, cmds)
    else
      var (st2, fired) := Finish(st1);
      FinishAtMostOnce(st1);
      InvocationsAppend(cmds, fired);
      (st2, cmds + fired)
  }

  // ---------------------------------------------------------------------------
  // play

  /** A single URL or path, or a list of them. */
  datatype Source = Single(url: string) | Items(urls: seq<string>)

  /** The commands that load one source: the first item replaces the playlist, the rest are appended. */
  function LoadCommands(first: string, rest: seq<string>): (r: seq<Effect>)
    ensures Silent(r) && |r| == |rest| + 1
  {
    if rest == [] then [Mpv(LoadFile(first))]
    else LoadCommands(first, rest[..|rest| - 1]) + [Mpv(AppendPlay(rest[|rest| - 1]))]
  }

  /** mpv's playlist after a sequence of commands. */
  function Playlist(effects: seq<Effect>): seq<string>
  {
    if effects == [] then []
    else
      var before := Playlist(effects[..|effects| - 1]);
      match effects[|effects| - 1]
      case Mpv(LoadFile(url)) => [url]
      case Mpv(AppendPlay(url)) => before + [url]
      case Mpv(StopPlayback) => before
      case Mpv(PlaylistClear) => []
      case InvokeDone(_) => before
  }

  lemma {:induction false} PlaylistAppend(a: seq<Effect>, b: seq<Effect>)
    requires b != [] && b[0].Mpv? && b[0].cmd.LoadFile?
    ensures Playlist(a + b) == Playlist(b)
    decreases |b|
  {
    if |b| == 1 {
      assert (a + b)[..|a + b| - 1] == a;
    } else {
      assert (a + b)[..|a + b| - 1] == a + b[..|b| - 1];
      PlaylistAppend(a, b[..|b| - 1]);
    }
  }

  /** The load commands leave exactly the requested items queued, in order. */
  lemma {:induction false} LoadCommandsQueue(first: string, rest: seq<string>)
    ensures Playlist(LoadCommands(first, rest)) == [first] + rest
    ensures LoadCommands(first, rest)[0] == Mpv(LoadFile(first))
    decreases |rest|
  {
    if rest != [] {
      LoadCommandsQueue(first, rest[..|rest| - 1]);
      var r := LoadCommands(first, rest);
      assert r[..|r| - 1] == LoadCommands(first, rest[..|rest| - 1]);
      assert [first] + rest[..|rest| - 1] + [rest[|rest| - 1]] == [first] + rest;
    }
  }

  /** Re-arming the watchdog: `_arm_watchdog` starts a Timer only for a positive period. */
  function ArmWatchdog(st: MpvState): (r: MpvState)
    ensures r.watchdogArmed <==> st.watchdogSec > 0.0
    ensures r == st.(watchdogArmed := r.watchdogArmed)
  {
    st.(watchdogArmed := st.watchdogSec > 0.0)
  }

  /**
    `play(source, done_callback)` as written: `_stopped` is cleared first and
    then set again by the silent `stop` that clears the previous state.
    `stopFails` and `playFails` say whether mpv raised on those calls.
   */
  function PlayAsWritten(st: MpvState, source: Source, callback: Option<nat>, stopFails: bool, playFails: bool)
    : (r: (MpvState, seq<Effect>))
    ensures r.0.stopped
  {
    PlayAfterStop(Stop(st.(stopped := false, doneCallback := callback), true, stopFails), source, playFails)
  }

  /**
    `play(source, done_callback)` with `_stopped` cleared for the new playback,
    so that the watchdog can act on it.
   */
  function Play(st: MpvState, source: Source, callback: Option<nat>, stopFails: bool, playFails: bool)
    : (r: (MpvState, seq<Effect>))
    ensures Invocations(r.1) + Pending(r.0) == (if callback.Some? then 1 else 0)
    ensures Fails(source, playFails) ==> r.0.doneCallback.None? && !r.0.watchdogArmed
    ensures Fails(source, playFails) && callback.Some? ==> r.1[|r.1| - 1] == InvokeDone(callback.value)
    ensures !Fails(source, playFails) ==>
              Silent(r.1) && r.0.doneCallback == callback && !r.0.stopped
              && (r.0.watchdogArmed <==> st.watchdogSec > 0.0)
              && Playlist(r.1) == Queued(source)
    ensures r.0.volume == st.volume && r.0.duckPrevVolume == st.duckPrevVolume
  {
    var cleared := Stop(st.(doneCallback := callback), true, stopFails);
    PlayAfterStop((cleared.0.(stopped := false), cleared.1), source, playFails)
  }

  /** Whether `play` ends in its `except` branch: an empty list, or mpv raising. */
  predicate Fails(source: Source, playFails: bool)
  {
    playFails || (source.Items? && source.urls == [])
  }

  /** The items a successful `play` queues. */
  function Queued(source: Source): seq<string>
  {
    match source
    case Single(url) => [url]
    case Items(urls) => urls
  }

  /** The part of `play` after the silent stop. */
  function PlayAfterStop(cleared: (MpvState, seq<Effect>), source: Source, playFails: bool)
    : (r: (MpvState, seq<Effect>))
    requires Silent(cleared.1)
    ensures r.0.stopped == cleared.0.stopped
    ensures r.0.volume == cleared.0.volume && r.0.duckPrevVolume == cleared.0.duckPrevVolume
    ensures Invocations(r.1) + Pending(r.0) == Pending(cleared.0)
    ensures Fails(source, playFails) ==> r.0.doneCallback.None? && !r.0.watchdogArmed
    ensures Fails(source, playFails) && cleared.0.doneCallback.Some? ==>
              r.1[|r.1| - 1] == InvokeDone(cleared.0.doneCallback.value)
    ensures !Fails(source, playFails) ==>
              Silent(r.1) && r.0.doneCallback == cleared.0.doneCallback
              && (r.0.watchdogArmed <==> cleared.0.watchdogSec > 0.0)
              && Playlist(r.1) == Queued(source)
  {
    var (st, trace) := cleared;
    SilentHasNoInvocations(trace);
    if Fails(source, playFails) then
      var (st', fired) := Finish(st);
      FinishAtMostOnce(st);
      InvocationsAppend(trace, fired);
      (st', trace + fired)
    else
      var (first, rest) := match source
        case Single(url) => (url, [])
        case Items(urls) => (urls[0], urls[1..]);
      var loads := LoadCommands(first, rest);
      LoadCommandsQueue(first, rest);
      PlaylistAppend(trace, loads);
      SilentHasNoInvocations(loads);
      InvocationsAppend(trace, loads);
      assert Queued(source) == [first] + rest;
      (ArmWatchdog(st), trace + loads)
  }

  /** `play` on top of an unfinished playback replaces its callback without calling it. */
  lemma PlayDropsPreviousCallback(st: MpvState, source: Source, callback: Option<nat>, stopFails: bool)
    requires st.doneCallback.Some? && !Fails(source, false)
    ensures Invocations(Play(st, source, callback, stopFails, false).1) == 0
  {
  }

  // ---------------------------------------------------------------------------
  // Volume and ducking

  /** `set_volume(percent)`: mpv receives the value clamped to [0, 100]. */
  function SetVolume(st: MpvState, percent: real): (r: MpvState)
    ensures 0.0 <= r.volume <= 100.0
    ensures 0.0 <= percent <= 100.0 ==> r.volume == percent
    ensures percent < 0.0 ==> r.volume == 0.0
    ensures percent > 100.0 ==> r.volume == 100.0
    ensures r == st.(volume := r.volume)
  {
    var p := if percent > 100.0 then 100.0 else percent;
    st.(volume := if p < 0.0 then 0.0 else p)
  }

  /** `get_volume()`. */
  function GetVolume(st: MpvState): real
  {
    st.volume
  }

  const DefaultDuckPercent: real := 25.0

  /** `duck(to_percent)`: remembers the volume only on the first duck. */
  function Duck(st: MpvState, toPercent: real): (r: MpvState)
    ensures st.duckPrevVolume.None? ==> r.duckPrevVolume == Some(st.volume)
    ensures st.duckPrevVolume.Some? ==> r.duckPrevVolume == st.duckPrevVolume
    ensures r.volume == SetVolume(st, toPercent).volume
  {
    var remembered := if st.duckPrevVolume.None? then st.(duckPrevVolume := Some(GetVolume(st))) else st;
    SetVolume(remembered, toPercent)
  }

  /** `unduck()`: restores the remembered volume and forgets it. */
  function Unduck(st: MpvState): (r: MpvState)
    ensures r.duckPrevVolume.None?
    ensures st.duckPrevVolume.None? ==> r == st
    ensures st.duckPrevVolume.Some? ==> r.volume == SetVolume(st, st.duckPrevVolume.value).volume
  {
    var restored := if st.duckPrevVolume.Some? then SetVolume(st, st.duckPrevVolume.value) else st;
    restored.(duckPrevVolume := None)
  }

  /** Any number of ducks followed by one unduck gives back the volume held before the first duck. */
  lemma DuckTwiceUnduckRestores(st: MpvState, a: real, b: real)
    requires st.duckPrevVolume.None? && 0.0 <= st.volume <= 100.0
    ensures Unduck(Duck(Duck(st, a), b)).volume == st.volume
    ensures Unduck(Duck(Duck(st, a), b)).duckPrevVolume.None?
  {
  }

  /** A second unduck is a no-op. */
  lemma UnduckIdempotent(st: MpvState)
    ensures Unduck(Unduck(st)) == Unduck(st)
  {
  }

  // ---------------------------------------------------------------------------
  // Observers and the watchdog

  /** What can happen to the player between two `play` calls. */
  datatype Event =
    | IdleActive(value: bool)            // `idle-active` observer
    | EofReached(value: bool)            // `eof-reached` observer
    | TimePos(present: bool)             // `time-pos` observer; `present` is `value is not None`
    | StopCall(silent: bool, commandsFail: bool)
    | WatchdogTrip(stalledFor: real)     // the Timer fires; `stalledFor` is `monotonic() - _last_progress`
    | SetVolumeCall(percent: real)
    | DuckCall(toPercent: real)
    | UnduckCall

  /** `_trip()`: stop only when stalled long enough and not stopped, otherwise re-arm. */
  function Trip(st: MpvState, stalledFor: real): (r: (MpvState, seq<Effect>))
    ensures stalledFor >= st.watchdogSec && !st.stopped ==> r == Stop(st, false, false)
    ensures !(stalledFor >= st.watchdogSec && !st.stopped) ==> r == (ArmWatchdog(st), [])
  {
    if stalledFor >= st.watchdogSec && !st.stopped then Stop(st, false, false)
    else (ArmWatchdog(st), [])
  }

  function Step(st: MpvState, ev: Event): (r: (MpvState, seq<Effect>))
    ensures Invocations(r.1) + Pending(r.0) <= Pending(st)
    ensures r.0.doneCallback.None? || r.0.doneCallback == st.doneCallback
    ensures forall k :: 0 <= k < |r.1| && r.1[k].InvokeDone? ==> Some(r.1[k].callback) == st.doneCallback
  {
    match ev
    case IdleActive(v) => if v then Finish(st) else (st, [])
    case EofReached(v) => if v then Finish(st) else (st, [])
    case TimePos(present) => if present then (ArmWatchdog(st), []) else (st, [])
    case StopCall(silent, fails) => StopPreservingCallback(st, silent, fails)
    case WatchdogTrip(stalledFor) =>
      if !st.watchdogArmed then (st, [])
      else if stalledFor >= st.watchdogSec && !st.stopped then StopPreservingCallback(st, false, false)
      else (ArmWatchdog(st), [])
    case SetVolumeCall(p) => (SetVolume(st, p), [])
    case DuckCall(p) => (Duck(st, p), [])
    case UnduckCall => (Unduck(st), [])
  }

  /** `Stop`, with the fact that whatever it calls is the registered callback. */
  function StopPreservingCallback(st: MpvState, silent: bool, fails: bool): (r: (MpvState, seq<Effect>))
    ensures r == Stop(st, silent, fails)
    ensures forall k :: 0 <= k < |r.1| && r.1[k].InvokeDone? ==> Some(r.1[k].callback) == st.doneCallback
  {
    Stop(st, silent, fails)
  }

  /** Runs the events in order and concatenates their effects. */
  function Run(st: MpvState, events: seq<Event>): (MpvState, seq<Effect>)
    decreases |events|
  {
    if events == [] then (st, [])
    else
      var (mid, before) := Run(st, events[..|events| - 1]);
      var (end, last) := Step(mid, events[|events| - 1]);
      (end, before + last)
  }

  /**
    Whatever happens after `play`, the done-callback is called at most once and
    only the callback registered by that `play` is called.
   */
  lemma {:induction false} CallbackAtMostOnce(st: MpvState, events: seq<Event>)
    ensures Invocations(Run(st, events).1) + Pending(Run(st, events).0) <= Pending(st)
    ensures Run(st, events).0.doneCallback.None? || Run(st, events).0.doneCallback == st.doneCallback
    ensures forall k :: 0 <= k < |Run(st, events).1| && Run(st, events).1[k].InvokeDone? ==>
              Some(Run(st, events).1[k].callback) == st.doneCallback
    decreases |events|
  {
    if events != [] {
      CallbackAtMostOnce(st, events[..|events| - 1]);
      var (mid, before) := Run(st, events[..|events| - 1]);
      var (end, last) := Step(mid, events[|events| - 1]);
      InvocationsAppend(before, last);
      assert Run(st, events).1 == before + last;
    }
  }

  /** Finding: after `play` as written, a watchdog trip never stops playback, however long it stalled. */
  lemma WatchdogNeverTripsAsWritten(st: MpvState, source: Source, callback: Option<nat>, stopFails: bool,
                                    playFails: bool, stalledFor: real)
    ensures Trip(PlayAsWritten(st, source, callback, stopFails, playFails).0, stalledFor).1 == []
  {
  }

  /** With `_stopped` cleared for the new playback, a stall of the full period stops it and fires the callback once. */
  lemma WatchdogTripsStalledPlayback(st: MpvState, source: Source, callback: nat, stopFails: bool, stalledFor: real)
    requires !Fails(source, false) && st.watchdogSec > 0.0 && stalledFor >= st.watchdogSec
    ensures var played := Play(st, source, Some(callback), stopFails, false).0;
            var (after, effects) := Trip(played, stalledFor);
            after.stopped && after.doneCallback.None?
            && Invocations(effects) == 1 && effects[|effects| - 1] == InvokeDone(callback)
  {
  }

  /** The concrete case: an 8 s watchdog and a clip stuck for 10 s. */
  lemma WatchdogExample()
    ensures Trip(PlayAsWritten(NewPlayer(8.0, 100.0), Single("tts.flac"), Some(7), false, false).0, 10.0).1 == []
    ensures Trip(Play(NewPlayer(8.0, 100.0), Single("tts.flac"), Some(7), false, false).0, 10.0).1
            == [Mpv(StopPlayback), Mpv(PlaylistClear), InvokeDone(7)]
  {
  }

  // ---------------------------------------------------------------------------
  // Log bridge

  datatype LogLevel = LogError | LogWarning | LogInfo | LogDebug

  /** `_mpv_log(level, ...)`: the Python logging level for an mpv level (`None` counts as empty). */
  function MpvLogLevel(level: Option<string>): (r: LogLevel)
    ensures var lvl := Lower(level.GetOr([]));
            (r == LogError <==> lvl == "fatal" || lvl == "error")
            && (r == LogWarning <==> lvl == "warn" || lvl == "warning")
            && (r == LogInfo <==> lvl == "info")
  {
    var lvl := Lower(level.GetOr([]));
    if lvl == "fatal" || lvl == "error" then LogError
    else if lvl == "warn" || lvl == "warning" then LogWarning
    else if lvl == "info" then LogInfo
    else LogDebug
  }

  /** The mapping ignores case. */
  lemma MpvLogLevelIgnoresCase(level: string)
    ensures MpvLogLevel(Some(Lower(level))) == MpvLogLevel(Some(level))
  {
    LowerIdempotent(level);
  }

  lemma MpvLogLevelExamples()
    ensures MpvLogLevel(Some("FATAL")) == LogError
    ensures MpvLogLevel(None) == LogDebug
    ensures MpvLogLevel(Some("v")) == LogDebug
  {
    assert Lower("FATAL") == "fatal";
  }
}

=== FILE: object_scanner.dfy ===
/**
  The framing of the wake-word client's reader: `_yield_objects_from_text`,
  a brace-depth scanner that cuts top-level `{...}` objects out of a text
  buffer while skipping braces inside string literals, and the drain loop
  that peels objects off the buffer pass by pass and keeps the unconsumed
  remainder for the next line.
 */
module ObjectScanner {

  // ---------------------------------------------------------------------------
  // The scanner

  /** The scanner's locals: where the current object started, its nesting depth, and the string/escape flags. */
  datatype ScanState = ScanState(start: nat, depth: int, inStr: bool, escape: bool)

  /** A yielded object: `text[start:end]`, reported with `end` (the `i + 1` of the closing brace). */
  datatype Piece = Piece(start: nat, end: nat)

  const Init := ScanState(0, 0, false, false)

  /** A state outside every string and object, as after a complete object. */
  predicate AtRest(st: ScanState)
  {
    st.depth == 0 && !st.inStr && !st.escape
  }

  /** One character of the scan at index `i`; the flag says whether an object closes here. */
  function Step(st: ScanState, ch: char, i: nat): (r: (ScanState, bool))
    ensures r.1 <==> !st.inStr && ch == '}' && st.depth == 1
    ensures r.1 ==> r.0 == st.(depth := 0)
    ensures r.0.depth != st.depth ==> !st.inStr && (ch == '{' || ch == '}')
    ensures r.0.depth >= 1 && st.depth < 1 ==> ch == '{' && r.0.start == i && st.depth == 0
    ensures r.0.depth >= 1 && st.depth >= 1 ==> r.0.start == st.start
    ensures (!st.inStr ==> !st.escape) ==> (!r.0.inStr ==> !r.0.escape)
  {
    if st.inStr then
      if st.escape then (st.(escape := false), false)
      else if ch == '\\' then (st.(escape := true), false)
      else if ch == '"' then (st.(inStr := false), false)
      else (st, false)
    else if ch == '"' then (st.(inStr := true), false)
    else if ch == '{' then
      ((if st.depth == 0 then st.(start := i) else st).(depth := st.depth + 1), false)
    else if ch == '}' then (st.(depth := st.depth - 1), st.depth - 1 == 0)
    else (st, false)
  }

  /**
    How `Step` treats string literals: a quote outside a string opens one, a
    backslash inside escapes the next character, the character after it
    clears the escape, an unescaped quote closes the string, and inside a
    string depth and start never change and no object closes.
   */
  lemma StepStrings(st: ScanState, ch: char, i: nat)
    ensures var r := Step(st, ch, i);
            && (!st.inStr && ch == '"' ==> r == (st.(inStr := true), false))
            && (st.inStr ==> !r.1 && r.0.depth == st.depth && r.0.start == st.start)
            && (st.inStr && st.escape ==> r.0 == st.(escape := false))
            && (st.inStr && !st.escape && ch == '\\' ==> r.0 == st.(escape := true))
            && (st.inStr && !st.escape && ch == '"' ==> r.0 == st.(inStr := false))
            && (st.inStr && !st.escape && ch != '\\' && ch != '"' ==> r.0 == st)
            && (!st.inStr && ch != '"' && ch != '{' && ch != '}' ==> r == (st, false))
  {
  }

  /**
    The scan of `t[lo..n]` from state `st`, with positions counted in `t`:
    the final state and the objects closed on the way.
   */
  function Run(st: ScanState, t: string, lo: nat, n: nat): (r: (ScanState, seq<Piece>))
    requires lo <= n <= |t|
    ensures forall k :: 0 <= k < |r.1| ==> lo < r.1[k].end <= n
    ensures forall j, k :: 0 <= j < k < |r.1| ==> r.1[j].end < r.1[k].end
    ensures (!st.inStr ==> !st.escape) ==> (!r.0.inStr ==> !r.0.escape)
    decreases n - lo
  {
    if n == lo then (st, [])
    else
      var (s, ps) := Run(st, t, lo, n - 1);
      var (s2, closes) := Step(s, t[n - 1], n - 1);
      (s2, if closes then ps + [Piece(s.start, n)] else ps)
  }

  /**
    `_yield_objects_from_text(text)`: every `(text[start:end], end)` it
    yields, in order. Every piece lies in the text, starts with '{' and ends
    with '}', and the pieces follow one another without overlapping.
   */
  function YieldObjects(text: string): (ps: seq<Piece>)
    ensures forall k :: 0 <= k < |ps| ==>
              ps[k].start < ps[k].end <= |text| && text[ps[k].start] == '{' && text[ps[k].end - 1] == '}'
    ensures forall k :: 0 <= k < |ps| - 1 ==> ps[k].end <= ps[k + 1].start
  {
    RunGood(text, 0, |text|);
    Run(Init, text, 0, |text|).1
  }

  function Texts(t: string, ps: seq<Piece>): (r: seq<string>)
    requires forall k :: 0 <= k < |ps| ==> ps[k].start <= ps[k].end <= |t|
    ensures |r| == |ps| && forall k :: 0 <= k < |ps| ==> r[k] == t[ps[k].start..ps[k].end]
  {
    if ps == [] then [] else [t[ps[0].start..ps[0].end]] + Texts(t, ps[1..])
  }

  function LastEnd(ps: seq<Piece>): nat
    requires ps != []
  {
    ps[|ps| - 1].end
  }

  // ---------------------------------------------------------------------------
  // What the yielded objects look like

  /** The invariant of the scan from the initial state. */
  predicate Good(t: string, lo: nat, n: nat, st: ScanState, ps: seq<Piece>)
    requires n <= |t|
  {
    && (!st.inStr ==> !st.escape)
    && (st.depth >= 1 ==> lo <= st.start < n && t[st.start] == '{'
                          && (ps == [] || ps[|ps| - 1].end <= st.start))
    && (forall k :: 0 <= k < |ps| ==> lo <= ps[k].start < ps[k].end <= n
                                      && t[ps[k].start] == '{' && t[ps[k].end - 1] == '}')
    && (forall k :: 0 <= k < |ps| - 1 ==> ps[k].end <= ps[k + 1].start)
  }

  lemma {:induction false} RunGood(t: string, lo: nat, n: nat)
    requires lo <= n <= |t|
    ensures Good(t, lo, n, Run(Init, t, lo, n).0, Run(Init, t, lo, n).1)
    decreases n - lo
  {
    if n > lo {
      RunGood(t, lo, n - 1);
      var (s, ps) := Run(Init, t, lo, n - 1);
      GoodStep(t, lo, n, s, ps);
    }
  }

  /** One step keeps the invariant. */
  lemma GoodStep(t: string, lo: nat, n: nat, s: ScanState, ps: seq<Piece>)
    requires lo < n <= |t| && Good(t, lo, n - 1, s, ps)
    ensures var (s2, closes) := Step(s, t[n - 1], n - 1);
            Good(t, lo, n, s2, if closes then ps + [Piece(s.start, n)] else ps)
  {
    if Step(s, t[n - 1], n - 1).1 {
      GoodClose(t, lo, n, s, ps);
    } else {
      GoodNoClose(t, lo, n, s, ps);
    }
  }

  lemma GoodNoClose(t: string, lo: nat, n: nat, s: ScanState, ps: seq<Piece>)
    requires lo < n <= |t| && Good(t, lo, n - 1, s, ps) && !Step(s, t[n - 1], n - 1).1
    ensures Good(t, lo, n, Step(s, t[n - 1], n - 1).0, ps)
  {
    var s2 := Step(s, t[n - 1], n - 1).0;
    assert s2.depth >= 1 ==> lo <= s2.start < n && t[s2.start] == '{'
                             && (ps == [] || ps[|ps| - 1].end <= s2.start);
  }

  lemma GoodClose(t: string, lo: nat, n: nat, s: ScanState, ps: seq<Piece>)
    requires lo < n <= |t| && Good(t, lo, n - 1, s, ps)
    requires !s.inStr && t[n - 1] == '}' && s.depth == 1
    ensures Good(t, lo, n, s.(depth := 0), ps + [Piece(s.start, n)])
  {
    var ps2 := ps + [Piece(s.start, n)];
    forall k | 0 <= k < |ps2|
      ensures lo <= ps2[k].start < ps2[k].end <= n && t[ps2[k].start] == '{' && t[ps2[k].end - 1] == '}'
    {
      if k < |ps| {
        assert ps2[k] == ps[k];
      }
    }
    forall k | 0 <= k < |ps2| - 1
      ensures ps2[k].end <= ps2[k + 1].start
    {
      assert ps2[k] == ps[k];
      if k + 1 < |ps| {
        assert ps2[k + 1] == ps[k + 1];
      }
    }
  }

  // ---------------------------------------------------------------------------
  // Composing scans

  /** A scan can be cut at any point and resumed from the state reached there. */
  lemma {:induction false} RunSplit(st: ScanState, t: string, lo: nat, m: nat, n: nat)
    requires lo <= m <= n <= |t|
    ensures Run(st, t, lo, n).0 == Run(Run(st, t, lo, m).0, t, m, n).0
    ensures Run(st, t, lo, n).1 == Run(st, t, lo, m).1 + Run(Run(st, t, lo, m).0, t, m, n).1
    decreases n - m
  {
    if n > m {
      RunSplit(st, t, lo, m, n - 1);
    }
  }

  /** Two states that agree on everything the scan reads; `b` counts positions from `d`. */
  predicate Corr(a: ScanState, b: ScanState, d: nat)
  {
    a.depth == b.depth && a.inStr == b.inStr && a.escape == b.escape
    && (a.depth >= 1 ==> a.start == b.start + d)
  }

  function Shift(ps: seq<Piece>, d: nat): (r: seq<Piece>)
    ensures |r| == |ps| && forall k :: 0 <= k < |ps| ==> r[k] == Piece(ps[k].start + d, ps[k].end + d)
  {
    if ps == [] then [] else [Piece(ps[0].start + d, ps[0].end + d)] + Shift(ps[1..], d)
  }

  /**
    Scanning `t` from position `lo` and scanning the slice `t[d..]` from
    `lo - d` agree, positions shifted by `d`, when they start from
    corresponding states.
   */
  lemma {:induction false} RunCorr(a: ScanState, b: ScanState, t: string, d: nat, lo: nat, n: nat)
    requires d <= lo <= n <= |t| && Corr(a, b, d)
    ensures Corr(Run(a, t, lo, n).0, Run(b, t[d..], lo - d, n - d).0, d)
    ensures Run(a, t, lo, n).1 == Shift(Run(b, t[d..], lo - d, n - d).1, d)
    decreases n - lo
  {
    if n > lo {
      RunCorr(a, b, t, d, lo, n - 1);
      var (sa, pa) := Run(a, t, lo, n - 1);
      var (sb, pb) := Run(b, t[d..], lo - d, n - 1 - d);
      CorrStep(sa, sb, pa, pb, t, d, n);
    }
  }

  lemma CorrStep(sa: ScanState, sb: ScanState, pa: seq<Piece>, pb: seq<Piece>, t: string, d: nat, n: nat)
    requires d < n <= |t| && Corr(sa, sb, d) && pa == Shift(pb, d)
    ensures var (a2, ca) := Step(sa, t[n - 1], n - 1);
            var (b2, cb) := Step(sb, t[d..][n - 1 - d], n - 1 - d);
            Corr(a2, b2, d) && (if ca then pa + [Piece(sa.start, n)] else pa)
                               == Shift(if cb then pb + [Piece(sb.start, n - d)] else pb, d)
  {
    assert t[d..][n - 1 - d] == t[n - 1];
    StepCorr(sa, sb, t[n - 1], n - 1, d);
    if Step(sa, t[n - 1], n - 1).1 {
      ShiftAppend(pb, Piece(sb.start, n - d), d);
    }
  }

  lemma StepCorr(a: ScanState, b: ScanState, ch: char, i: nat, d: nat)
    requires d <= i && Corr(a, b, d)
    ensures Corr(Step(a, ch, i).0, Step(b, ch, i - d).0, d)
    ensures Step(a, ch, i).1 == Step(b, ch, i - d).1
    ensures Step(a, ch, i).1 ==> a.start == b.start + d
  {
  }

  lemma ShiftAppend(ps: seq<Piece>, p: Piece, d: nat)
    ensures Shift(ps + [p], d) == Shift(ps, d) + [Piece(p.start + d, p.end + d)]
  {
  }

  /** After the last object of a scan, the scanner is at rest and nothing follows. */
  lemma LastPieceAtRest(st: ScanState, t: string, lo: nat, n: nat)
    requires lo <= n <= |t| && (!st.inStr ==> !st.escape)
    requires Run(st, t, lo, n).1 != []
    ensures lo < LastEnd(Run(st, t, lo, n).1) <= n
    ensures AtRest(Run(st, t, lo, LastEnd(Run(st, t, lo, n).1)).0)
    ensures Run(st, t, lo, LastEnd(Run(st, t, lo, n).1)).1 == Run(st, t, lo, n).1
    ensures Run(Run(st, t, lo, LastEnd(Run(st, t, lo, n).1)).0, t, LastEnd(Run(st, t, lo, n).1), n).1 == []
  {
    var ps := Run(st, t, lo, n).1;
    var e := LastEnd(ps);
    RunSplit(st, t, lo, e, n);
    var (s, before) := Run(st, t, lo, e - 1);
    assert forall k :: 0 <= k < |before| ==> before[k].end < e;
  }

  /** Scanning from a point of rest is scanning the remainder afresh. */
  lemma ResumeAtRest(st: ScanState, t: string, e: nat)
    requires e <= |t| && AtRest(st)
    ensures Run(st, t, e, |t|).1 == Shift(YieldObjects(t[e..]), e)
  {
    RunCorr(st, Init, t, e, e, |t|);
  }

  // ---------------------------------------------------------------------------
  // Round trip: concatenated objects are cut apart again

  /**
    An object with no nested object: `{`, a body of plain characters and
    string literals, `}`. Inside a literal any character may appear, braces
    included, and a backslash escapes the character after it.
   */
  predicate Flat(o: string)
  {
    |o| >= 2 && o[0] == '{' && o[|o| - 1] == '}' && FlatBody(o[1..|o| - 1])
  }

  /** Plain characters (no brace, no quote) and string literals, in any order. */
  predicate FlatBody(b: string)
    decreases |b|, 1
  {
    b == []
    || (b[0] != '{' && b[0] != '}' && b[0] != '"' && FlatBody(b[1..]))
    || (b[0] == '"' && InString(b[1..]))
  }

  /** The rest of a string literal, its closing quote, then more of a flat body. */
  predicate InString(b: string)
    decreases |b|, 0
  {
    b != []
    && (b[0] == '"' ==> FlatBody(b[1..]))
    && (b[0] == '\\' ==> |b| >= 2 && InString(b[2..]))
    && (b[0] != '"' && b[0] != '\\' ==> InString(b[1..]))
  }

  /** The contents of a string literal: no bare quote, and every backslash escapes a character. */
  predicate StrBody(b: string)
    decreases |b|
  {
    b == []
    || (b[0] != '"' && b[0] != '\\' && StrBody(b[1..]))
    || (|b| >= 2 && b[0] == '\\' && StrBody(b[2..]))
  }

  /** A literal's contents, its closing quote and a flat body are the rest of a string in a flat body. */
  lemma {:induction false} InStringOfBody(b: string, rest: string)
    requires StrBody(b) && FlatBody(rest)
    ensures InString(b + ['"'] + rest)
    decreases |b|
  {
    var s := b + ['"'] + rest;
    if b == [] {
      assert s[0] == '"' && s[1..] == rest;
    } else if b[0] != '"' && b[0] != '\\' && StrBody(b[1..]) {
      InStringOfBody(b[1..], rest);
      assert s[0] == b[0] && s[1..] == b[1..] + ['"'] + rest;
    } else {
      InStringOfBody(b[2..], rest);
      assert s[0] == b[0] && s[2..] == b[2..] + ['"'] + rest;
    }
  }

  /** The objects written back to back, as a server sending `{}{}...` does. */
  function Concat(objs: seq<string>): (t: string)
    decreases |objs|
  {
    if objs == [] then [] else Concat(objs[..|objs| - 1]) + objs[|objs| - 1]
  }

  /** Where each object sits in `Concat(objs)`. */
  function Bounds(objs: seq<string>): (r: seq<Piece>)
    ensures |r| == |objs|
    ensures forall k :: 0 <= k < |r| ==> r[k].start <= r[k].end <= |Concat(objs)|
    decreases |objs|
  {
    if objs == [] then []
    else
      var init := objs[..|objs| - 1];
      Bounds(init) + [Piece(|Concat(init)|, |Concat(objs)|)]
  }

  /** Each bound cuts its own object out of the concatenation. */
  lemma BoundsCut(objs: seq<string>)
    ensures forall k :: 0 <= k < |objs| ==> Concat(objs)[Bounds(objs)[k].start..Bounds(objs)[k].end] == objs[k]
  {
    forall k | 0 <= k < |objs|
      ensures Concat(objs)[Bounds(objs)[k].start..Bounds(objs)[k].end] == objs[k]
    {
      BoundsCutAt(objs, k);
    }
  }

  lemma {:induction false} BoundsCutAt(objs: seq<string>, k: nat)
    requires k < |objs|
    ensures Concat(objs)[Bounds(objs)[k].start..Bounds(objs)[k].end] == objs[k]
    decreases |objs|
  {
    var init, o := objs[..|objs| - 1], objs[|objs| - 1];
    var r := Bounds(objs);
    assert Concat(objs) == Concat(init) + o;
    if k < |init| {
      BoundsCutAt(init, k);
      assert r[k] == Bounds(init)[k];
      SliceOfPrefix(Concat(init), o, r[k].start, r[k].end);
    } else {
      assert r[k] == Piece(|Concat(init)|, |Concat(objs)|);
      SliceOfSuffix(Concat(init), o);
    }
  }

  lemma TakeOfAppend(x: string, y: string)
    ensures (x + y)[..|x|] == x[..|x|]
  {
  }

  lemma SliceOfSuffix(x: string, y: string)
    ensures (x + y)[|x|..|x| + |y|] == y
  {
  }

  lemma SliceOfPrefix(x: string, y: string, a: nat, b: nat)
    requires a <= b <= |x|
    ensures (x + y)[a..b] == x[a..b]
  {
  }

  /** The scan reads only the characters before `n`. */
  lemma {:induction false} RunPrefix(st: ScanState, t: string, u: string, lo: nat, n: nat)
    requires lo <= n <= |t| && n <= |u| && t[..n] == u[..n]
    ensures Run(st, t, lo, n) == Run(st, u, lo, n)
    decreases n - lo
  {
    if n > lo {
      assert t[n - 1] == t[..n][n - 1] && u[n - 1] == u[..n][n - 1];
      assert t[..n - 1] == t[..n][..n - 1] && u[..n - 1] == u[..n][..n - 1];
      RunPrefix(st, t, u, lo, n - 1);
    }
  }

  /** One character scanned on its own. */
  lemma RunOne(st: ScanState, t: string, i: nat)
    requires i < |t|
    ensures Run(st, t, i, i + 1) == (Step(st, t[i], i).0, if Step(st, t[i], i).1 then [Piece(st.start, i + 1)] else [])
  {
    assert Run(st, t, i, i) == (st, []);
    assert [] + [Piece(st.start, i + 1)] == [Piece(st.start, i + 1)];
  }

  /** A flat body leaves the scanner where it was and yields nothing, whatever its literals hold. */
  lemma {:induction false} RunFlatBody(st: ScanState, t: string, i: nat, n: nat)
    requires i <= n <= |t| && !st.inStr && !st.escape && FlatBody(t[i..n])
    ensures Run(st, t, i, n) == (st, [])
    decreases n - i, 1
  {
    if i < n {
      var b := t[i..n];
      assert b[0] == t[i] && b[1..] == t[i + 1..n];
      RunOne(st, t, i);
      RunSplit(st, t, i, i + 1, n);
      if t[i] == '"' {
        RunInString(st.(inStr := true), t, i + 1, n);
      } else {
        RunFlatBody(st, t, i + 1, n);
      }
    }
  }

  /** Inside a literal: the scan leaves the literal at its closing quote and the flat body after it is inert. */
  lemma {:induction false} RunInString(st: ScanState, t: string, i: nat, n: nat)
    requires i <= n <= |t| && st.inStr && !st.escape && InString(t[i..n])
    ensures Run(st, t, i, n) == (st.(inStr := false), [])
    decreases n - i, 0
  {
    var b := t[i..n];
    assert b[0] == t[i] && b[1..] == t[i + 1..n];
    RunOne(st, t, i);
    RunSplit(st, t, i, i + 1, n);
    if t[i] == '"' {
      RunFlatBody(st.(inStr := false), t, i + 1, n);
    } else if t[i] == '\\' {
      assert b[1] == t[i + 1] && b[2..] == t[i + 2..n];
      RunOne(st.(escape := true), t, i + 1);
      RunSplit(st.(escape := true), t, i + 1, i + 2, n);
      RunInString(st, t, i + 2, n);
    } else {
      RunInString(st, t, i + 1, n);
    }
  }

  /**
    A string literal `"b"` scanned from outside any string returns the
    scanner to the same depth and start and yields nothing, whatever braces
    `b` holds.
   */
  lemma StringLiteralInert(st: ScanState, t: string, i: nat, b: string)
    requires !st.inStr && !st.escape && StrBody(b)
    requires i + |b| + 2 <= |t| && t[i..i + |b| + 2] == ['"'] + b + ['"']
    ensures Run(st, t, i, i + |b| + 2) == (st, [])
  {
    var n := i + |b| + 2;
    assert t[i + 1..n] == t[i..n][1..] == b + ['"'] + [];
    assert t[i] == t[i..n][0] == '"';
    InStringOfBody(b, []);
    RunOne(st, t, i);
    RunSplit(st, t, i, i + 1, n);
    RunInString(st.(inStr := true), t, i + 1, n);
  }

  /** Scanning one flat object from rest yields exactly that object and ends at rest. */
  lemma RunFlat(st: ScanState, t: string, m: nat, o: string)
    requires AtRest(st) && Flat(o) && m + |o| <= |t| && t[m..m + |o|] == o
    ensures Run(st, t, m, m + |o|).1 == [Piece(m, m + |o|)]
    ensures AtRest(Run(st, t, m, m + |o|).0)
  {
    assert t[m] == o[0];
    var open := ScanState(m, 1, false, false);
    assert Run(st, t, m, m + 1) == (open, []);
    var body := o[1..|o| - 1];
    assert FlatBody(body);
    forall j | 0 <= j < |body| ensures t[m + 1..m + |o| - 1][j] == body[j] {
      assert t[m + 1 + j] == t[m..m + |o|][1 + j];
    }
    assert t[m + 1..m + |o| - 1] == body;
    RunFlatBody(open, t, m + 1, m + |o| - 1);
    RunSplit(st, t, m, m + 1, m + |o| - 1);
    assert t[m + |o| - 1] == o[|o| - 1];
  }

  /** Objects written back to back are found again, each exactly, and the scan ends at rest. */
  lemma {:induction false} ConcatScan(objs: seq<string>)
    requires forall k :: 0 <= k < |objs| ==> Flat(objs[k])
    ensures Run(Init, Concat(objs), 0, |Concat(objs)|).1 == Bounds(objs)
    ensures AtRest(Run(Init, Concat(objs), 0, |Concat(objs)|).0)
    decreases |objs|
  {
    if objs != [] {
      var init := objs[..|objs| - 1];
      assert forall k :: 0 <= k < |init| ==> init[k] == objs[k];
      ConcatScan(init);
      ConcatScanStep(objs);
    }
  }

  /** Appending one flat object after objects that scan to their bounds. */
  lemma ConcatScanStep(objs: seq<string>)
    requires objs != [] && Flat(objs[|objs| - 1])
    requires Run(Init, Concat(objs[..|objs| - 1]), 0, |Concat(objs[..|objs| - 1])|).1 == Bounds(objs[..|objs| - 1])
    requires AtRest(Run(Init, Concat(objs[..|objs| - 1]), 0, |Concat(objs[..|objs| - 1])|).0)
    ensures Run(Init, Concat(objs), 0, |Concat(objs)|).1 == Bounds(objs)
    ensures AtRest(Run(Init, Concat(objs), 0, |Concat(objs)|).0)
  {
    var init, o := objs[..|objs| - 1], objs[|objs| - 1];
    var u := Concat(init);
    assert Concat(objs) == u + o;
    ScanAppendFlat(u, o);
  }

  /** A flat object appended to a text that scans to rest is found after the text's own objects. */
  lemma ScanAppendFlat(u: string, o: string)
    requires Flat(o) && AtRest(Run(Init, u, 0, |u|).0)
    ensures Run(Init, u + o, 0, |u + o|).1 == Run(Init, u, 0, |u|).1 + [Piece(|u|, |u + o|)]
    ensures AtRest(Run(Init, u + o, 0, |u + o|).0)
  {
    assert o[0..|o|] == o;
    RunFlat(Init, o, 0, o);
    ScanAppendWhole(u, o);
  }

  /** The same for any text that scans, on its own, to exactly one object spanning all of it. */
  lemma ScanAppendWhole(u: string, o: string)
    requires Run(Init, o, 0, |o|).1 == [Piece(0, |o|)] && AtRest(Run(Init, o, 0, |o|).0)
    requires AtRest(Run(Init, u, 0, |u|).0)
    ensures Run(Init, u + o, 0, |u + o|).1 == Run(Init, u, 0, |u|).1 + [Piece(|u|, |u + o|)]
    ensures AtRest(Run(Init, u + o, 0, |u + o|).0)
  {
    var t := u + o;
    var m := |u|;
    TakeOfAppend(u, o);
    RunPrefix(Init, t, u, 0, m);
    var s := Run(Init, t, 0, m).0;
    assert t[m..] == o;
    RunCorr(s, Init, t, m, m, |t|);
    assert Shift([Piece(0, |o|)], m) == [Piece(m, |t|)];
    RunSplit(Init, t, 0, m, |t|);
  }

  /**
    Flat objects written back to back, string literals and all, are cut
    apart again: the texts the scanner yields are the objects that were
    concatenated.
   */
  lemma YieldObjectsOfConcat(objs: seq<string>)
    requires forall k :: 0 <= k < |objs| ==> Flat(objs[k])
    ensures Texts(Concat(objs), YieldObjects(Concat(objs))) == objs
  {
    ConcatScan(objs);
    BoundsCut(objs);
  }

  /** `{"a":"}\"{"}`: the braces and the escaped quote inside the literals do not cut the object. */
  lemma YieldObjectWithString()
    ensures Texts("{\"a\":\"}\\\"{\"}", YieldObjects("{\"a\":\"}\\\"{\"}")) == ["{\"a\":\"}\\\"{\"}"]
  {
    var o := "{\"a\":\"}\\\"{\"}";
    FlatWithString();
    YieldObjectsOfConcat([o]);
    assert Concat([o]) == o by {
      assert [o][..0] == [];
    }
  }

  lemma FlatWithString()
    ensures Flat("{\"a\":\"}\\\"{\"}")
  {
    var body := "\"a\":\"}\\\"{\"";
    var o := ['{'] + body + ['}'];
    assert o == "{\"a\":\"}\\\"{\"}";
    FlatWithStringBody();
    assert o[1..|o| - 1] == body;
  }

  lemma FlatWithStringBody()
    ensures FlatBody("\"a\":\"}\\\"{\"")
  {
    FlatWithStringTail();
    assert FlatBody(":\"}\\\"{\"");
    assert InString("\":\"}\\\"{\"");
    assert InString("a\":\"}\\\"{\"");
  }

  lemma FlatWithStringTail()
    ensures FlatBody("\"}\\\"{\"")
  {
    assert FlatBody([]);
    assert InString("\"");
    assert InString("{\"");
    assert InString("\\\"{\"");
    assert InString("}\\\"{\"");
  }

  // ---------------------------------------------------------------------------
  // The drain loop

  /** How a pass advances `pos`: the code adds every yielded end; the fix moves to the last one. */
  datatype Cursor = AsWritten | Corrected

  function SumEnds(ps: seq<Piece>): nat
  {
    if ps == [] then 0 else SumEnds(ps[..|ps| - 1]) + ps[|ps| - 1].end
  }

  /** `pos` after a pass over `buf[pos:]` that yielded `ps` (ends relative to `pos`). */
  function NextPos(pos: nat, ps: seq<Piece>, cursor: Cursor): nat
    requires ps != []
  {
    match cursor
    case AsWritten => pos + SumEnds(ps)
    case Corrected => pos + LastEnd(ps)
  }

  /** `buf[pos:]`, which is empty once `pos` has run past the end. */
  function Remainder(buf: string, pos: nat): (r: string)
    ensures pos <= |buf| ==> r == buf[pos..]
    ensures pos >= |buf| ==> r == []
  {
    if pos < |buf| then buf[pos..] else []
  }

  /**
    The pass loop `while progressed and pos < len(buf)`: the object texts
    handed to `json.loads`, in order, and the final `pos`.
   */
  function Drain(buf: string, pos: nat, cursor: Cursor): (r: (seq<string>, nat))
    ensures r.1 >= pos
    decreases if pos < |buf| then |buf| - pos else 0
  {
    if pos >= |buf| then ([], pos)
    else
      var ps := YieldObjects(buf[pos..]);
      if ps == [] then ([], pos)
      else
        assert ps[|ps| - 1].end <= SumEnds(ps) by { SumEndsAtLeastLast(ps); }
        var (rest, p) := Drain(buf, NextPos(pos, ps, cursor), cursor);
        (Texts(buf[pos..], ps) + rest, p)
  }

  lemma SumEndsAtLeastLast(ps: seq<Piece>)
    requires ps != []
    ensures SumEnds(ps) >= LastEnd(ps)
  {
  }

  /** With two or more objects in one pass the code's cursor lands past the last object's end. */
  lemma {:induction false} AsWrittenOvershoots(ps: seq<Piece>, pos: nat)
    requires |ps| >= 2 && forall k :: 0 <= k < |ps| ==> ps[k].end >= 1
    ensures NextPos(pos, ps, AsWritten) >= NextPos(pos, ps, Corrected) + ps[0].end
  {
    FirstEndInSum(ps);
  }

  lemma {:induction false} FirstEndInSum(ps: seq<Piece>)
    requires |ps| >= 2
    ensures SumEnds(ps) >= ps[0].end + ps[|ps| - 1].end
    decreases |ps|
  {
    var init := ps[..|ps| - 1];
    if |ps| > 2 {
      FirstEndInSum(init);
    } else {
      assert SumEnds(init) == SumEnds(init[..0]) + init[0].end;
    }
  }

  /**
    With the corrected cursor the loop hands over exactly the objects one
    scan of the whole buffer finds, and keeps everything after the last of
    them: a remainder that holds no complete object.
   */
  lemma DrainCorrected(buf: string)
    ensures Drain(buf, 0, Corrected).0 == Texts(buf, YieldObjects(buf))
    ensures YieldObjects(buf) == [] ==> Remainder(buf, Drain(buf, 0, Corrected).1) == buf
    ensures YieldObjects(buf) != [] ==>
              Remainder(buf, Drain(buf, 0, Corrected).1) == buf[LastEnd(YieldObjects(buf))..]
    ensures YieldObjects(Remainder(buf, Drain(buf, 0, Corrected).1)) == []
  {
    var ps := YieldObjects(buf);
    assert buf[0..] == buf;
    if ps != [] {
      var e := LastEnd(ps);
      NothingAfterLast(buf);
      assert NextPos(0, ps, Corrected) == e;
      if e < |buf| {
        assert Drain(buf, e, Corrected) == ([], e);
      }
      assert Texts(buf, ps) + [] == Texts(buf, ps);
    } else if |buf| == 0 {
      assert YieldObjects([]) == [];
    }
  }

  /** Rescanning from the end of the last object finds nothing. */
  lemma NothingAfterLast(buf: string)
    requires YieldObjects(buf) != []
    ensures YieldObjects(buf[LastEnd(YieldObjects(buf))..]) == []
  {
    var e := LastEnd(YieldObjects(buf));
    LastPieceAtRest(Init, buf, 0, |buf|);
    ResumeAtRest(Run(Init, buf, 0, e).0, buf, e);
    RunSplit(Init, buf, 0, e, |buf|);
  }

  /** `{}{}{`: the code drops the trailing `{` of an object still arriving; the fix keeps it. */
  lemma DrainExample()
    ensures YieldObjects("{}{}{") == [Piece(0, 2), Piece(2, 4)]
    ensures Drain("{}{}{", 0, AsWritten) == (["{}", "{}"], 6)
    ensures Remainder("{}{}{", Drain("{}{}{", 0, AsWritten).1) == ""
    ensures Remainder("{}{}{", Drain("{}{}{", 0, Corrected).1) == "{"
  {
    var t := "{}{}{";
    ScanExample();
    assert t[0..] == t;
    var ps := [Piece(0, 2), Piece(2, 4)];
    assert SumEnds(ps) == 6 by {
      assert ps[..1] == [Piece(0, 2)];
      assert ps[..1][..0] == [];
    }
    assert Texts(t, ps) == ["{}", "{}"] by {
      assert t[0..2] == "{}" && t[2..4] == "{}";
      assert ps[1..] == [Piece(2, 4)];
    }
    DrainCorrected(t);
    assert t[4..] == "{";
  }

  /** The first object of `{}{}{`. */
  lemma ScanFirstObject()
    ensures Run(Init, "{}{}{", 0, 2) == (ScanState(0, 0, false, false), [Piece(0, 2)])
  {
    assert Run(Init, "{}{}{", 0, 1) == (ScanState(0, 1, false, false), []);
    assert [] + [Piece(0, 2)] == [Piece(0, 2)];
  }

  /** The second object of `{}{}{`. */
  lemma ScanSecondObject()
    ensures Run(Init, "{}{}{", 0, 4) == (ScanState(2, 0, false, false), [Piece(0, 2), Piece(2, 4)])
  {
    ScanFirstObject();
    assert Run(Init, "{}{}{", 0, 3) == (ScanState(2, 1, false, false), [Piece(0, 2)]);
    assert [Piece(0, 2)] + [Piece(2, 4)] == [Piece(0, 2), Piece(2, 4)];
  }

  lemma ScanExample()
    ensures YieldObjects("{}{}{") == [Piece(0, 2), Piece(2, 4)]
  {
    ScanSecondObject();
    assert Run(Init, "{}{}{", 0, 5) == (ScanState(4, 1, false, false), [Piece(0, 2), Piece(2, 4)]);
  }
}

=== FILE: optional.dfy ===
/** Python's `Optional[T]`: a value that may be `None`. */
module Optional {

  datatype Option<+T> = None | Some(value: T) {

    /** The wrapped value, or `default` when there is none (`x if x is not None else default`). */
    function GetOr(default: T): T
    {
      match this
      case Some(v) => v
      case None => default
    }
  }
}

=== FILE: pcm_player.dfy ===
/**
  `AudioPlayer` as the bridge drives it: `set_format`, `set_volume`, `clear`,
  `submit`, and the three frame readers with their early returns. The event
  loop clock is a parameter of `submit` (`nowUs`), and so is the time-sync
  callback `compute_client_time` (`clientTime`, `None` when it raises).
 */
module PcmPlayer {

  import opened Optional
  import opened PcmQueue

  const DefaultVolume := 60
  const EarlyStartThresholdUs := 700_000
  const StartTimeUpdateThresholdUs := 5_000

  datatype PlaybackState = Initializing | WaitingForStart | Playing

  /** The sample drop/insert schedule; only `clear` touches it in this model. */
  datatype Corrections = Corrections(
    insertEveryN: int,
    dropEveryN: int,
    framesUntilInsert: int,
    framesUntilDrop: int,
    hasReanchored: bool)

  const NoCorrections := Corrections(0, 0, 0, 0, false)

  datatype Player = Player(
    format: Option<Format>,
    buf: Buffer,
    expectedNext: Option<int>,
    state: PlaybackState,
    scheduledStart: Option<int>,
    firstServerTs: Option<int>,
    earlyStartSuspect: bool,
    lastKnownPositionUs: int,
    corrections: Corrections,
    lastOutputFrame: seq<Byte>,
    hasStream: bool,
    streamStarted: bool,
    clearRequested: bool,
    volume: int,
    muted: bool)

  /** A present format has a positive sample rate, and the buffer is well formed. */
  predicate PlayerWf(p: Player)
  {
    (p.format.Some? ==> p.format.value.sampleRate > 0) && PcmQueue.Wf(p.buf)
  }

  predicate Framed(p: Player)
  {
    p.format.Some? && Rated(p.format.value)
  }

  /**
    The invariant `submit`, `clear` and the readers keep for a fixed format:
    the buffered duration is that of the held chunks, the chunks are whole
    frames, and they lie on the server timeline in order, none past the
    expected next timestamp.
   */
  predicate Inv(p: Player)
  {
    PlayerWf(p)
    && (Framed(p) ==>
          QueuedMatches(p.format.value, p.buf)
          && Aligned(p.format.value, p.buf)
          && Timeline(p.format.value, p.buf, p.expectedNext))
  }

  function Abs(x: int): nat
  {
    if x < 0 then -x else x
  }

  /** `AudioPlayer.__init__`. */
  function NewPlayer(): (p: Player)
    ensures Inv(p) && p.volume == DefaultVolume && Stream(p.buf) == []
  {
    Player(None, EmptyBuffer, None, Initializing, None, None, false, 0, NoCorrections, [],
           false, false, false, DefaultVolume, false)
  }

  /** `set_format`: a new format and a new, not yet started, output stream. */
  function SetFormat(p: Player, f: Format): (r: Player)
    requires PlayerWf(p) && f.sampleRate > 0
    ensures PlayerWf(r) && r.format == Some(f) && r.hasStream && !r.streamStarted
    ensures r.buf == p.buf && r.expectedNext == p.expectedNext
  {
    p.(format := Some(f), hasStream := true, streamStarted := false)
  }

  /** `max(0, min(100, volume))`, the clamp the player and the bridge both apply. */
  function ClampVolume(volume: int): (r: int)
    ensures 0 <= r <= 100
    ensures 0 <= volume <= 100 ==> r == volume
    ensures volume < 0 ==> r == 0
    ensures volume > 100 ==> r == 100
  {
    if volume < 0 then 0 else if volume > 100 then 100 else volume
  }

  /** Clamping twice is clamping once. */
  lemma ClampVolumeIdempotent(volume: int)
    ensures ClampVolume(ClampVolume(volume)) == ClampVolume(volume)
  {
  }

  /** `AudioPlayer.set_volume`: only the volume, clamped, and the mute flag change. */
  function SetVolume(p: Player, volume: int, muted: bool): (r: Player)
    ensures r.volume == ClampVolume(volume) && r.muted == muted
    ensures r == p.(volume := r.volume, muted := muted)
    ensures Inv(r) <==> Inv(p)
  {
    p.(volume := ClampVolume(volume), muted := muted)
  }

  /**
    `clear`: every queued byte, the timeline and the sync state are dropped;
    the format, the stream object and the volume stay.
   */
  function Clear(p: Player): (r: Player)
    requires PlayerWf(p)
    ensures Inv(r) && Stream(r.buf) == [] && Held(r.buf) == []
    ensures r.state == Initializing && r.expectedNext.None? && r.buf.queuedUs == 0
    ensures r.buf.cursorUs == 0 && r.buf.cursorRem == 0 && r.corrections == NoCorrections
    ensures !r.streamStarted && !r.clearRequested
    ensures r.format == p.format && r.hasStream == p.hasStream && r.volume == p.volume && r.muted == p.muted
  {
    p.(clearRequested := false, streamStarted := false, buf := EmptyBuffer, state := Initializing,
       expectedNext := None, lastKnownPositionUs := 0, scheduledStart := None, firstServerTs := None,
       earlyStartSuspect := false, corrections := NoCorrections, lastOutputFrame := [])
  }

  /** Nothing from before a `clear` survives it except format, stream and volume. */
  lemma ClearForgets(p: Player, q: Player)
    requires PlayerWf(p) && PlayerWf(q)
    requires p.format == q.format && p.hasStream == q.hasStream && p.volume == q.volume && p.muted == q.muted
    ensures Clear(p) == Clear(q)
  {
  }

  /** A fresh player is a cleared one. */
  lemma NewPlayerIsCleared(p: Player)
    requires PlayerWf(p) && p.format.None? && !p.hasStream && p.volume == DefaultVolume && !p.muted
    ensures Clear(p) == NewPlayer()
  {
  }

  // ---------------------------------------------------------------------------
  // submit, in stages

  /** The deferred clear the audio thread may have requested. */
  function Pending(p: Player): (r: Player)
    requires PlayerWf(p)
    ensures PlayerWf(r) && r.format == p.format
    ensures Inv(p) ==> Inv(r)
  {
    if p.clearRequested then Clear(p) else p
  }

  /** The checks at the top of `submit`: a format with non-zero frames, and a whole number of frames. */
  predicate Accepts(p: Player, payload: seq<Byte>)
  {
    p.format.Some? && p.format.value.frameSize > 0 && |payload| % p.format.value.frameSize == 0
  }

  /**
    The start-time scheduling of `submit`: the first chunk fixes the
    scheduled start; while waiting to start, a re-estimate replaces it only
    when it has moved by more than 5 ms.
   */
  function Schedule(p: Player, ts: int, nowUs: int, clientTime: int -> Option<int>): (r: Player)
    ensures r.buf == p.buf && r.expectedNext == p.expectedNext && r.format == p.format
    ensures r.clearRequested == p.clearRequested && r.streamStarted == p.streamStarted && r.hasStream == p.hasStream
    ensures r.scheduledStart.Some?
    ensures p.scheduledStart.None? ==>
              r.state == WaitingForStart && r.firstServerTs == Some(ts)
              && r.scheduledStart.value == clientTime(ts).GetOr(nowUs)
              && (r.earlyStartSuspect <==> p.earlyStartSuspect || r.scheduledStart.value - nowUs <= EarlyStartThresholdUs)
    ensures p.scheduledStart.Some? ==>
              r.state == p.state && r.firstServerTs == p.firstServerTs && r.earlyStartSuspect == p.earlyStartSuspect
              && (r.scheduledStart != p.scheduledStart ==>
                    p.state == WaitingForStart && p.firstServerTs.Some?
                    && clientTime(p.firstServerTs.value) == r.scheduledStart
                    && Abs(r.scheduledStart.value - p.scheduledStart.value) > StartTimeUpdateThresholdUs)
  {
    if p.scheduledStart.None? then
      var start := match clientTime(ts) case Some(t) => t case None => nowUs;
      p.(scheduledStart := Some(start), state := WaitingForStart, firstServerTs := Some(ts),
         earlyStartSuspect := if start - nowUs <= EarlyStartThresholdUs then true else p.earlyStartSuspect)
    else if p.state == WaitingForStart && p.firstServerTs.Some? then
      match clientTime(p.firstServerTs.value)
      case None => p
      case Some(u) =>
        if Abs(u - p.scheduledStart.value) > StartTimeUpdateThresholdUs then p.(scheduledStart := Some(u)) else p
    else
      p
  }

  /** Scheduling again with the same clock and the same time sync changes nothing more. */
  lemma ScheduleIdempotent(p: Player, ts: int, nowUs: int, clientTime: int -> Option<int>)
    ensures var once := Schedule(p, ts, nowUs, clientTime);
            Schedule(once, ts, nowUs, clientTime) == once
  {
  }

  /** Where a chunk goes: skipped entirely, or placed at a timestamp with some of its bytes. */
  datatype Placement = Skipped | Placed(p: Player, ts: int, data: seq<Byte>)

  /** Frames of silence that fill a gap of `gapUs`, rounded down. */
  function GapFrames(f: Format, gapUs: nat): nat
    requires Rated(f)
  {
    (gapUs * f.sampleRate) / MicrosPerSecond
  }

  /**
    The gap and overlap handling of `submit`: a gap is filled with a
    zero-filled chunk stamped at the expected timestamp, an overlap trims the
    start of the payload and re-stamps it at the expected timestamp, and an
    overlap covering the whole payload skips it.
   */
  function Place(p: Player, ts: int, payload: seq<Byte>): (r: Placement)
    requires PlayerWf(p) && Framed(p)
    ensures r.Skipped? <==>
              p.expectedNext.Some? && ts < p.expectedNext.value
              && GapFrames(p.format.value, p.expectedNext.value - ts) * p.format.value.frameSize >= |payload|
    ensures r.Placed? ==>
              PlayerWf(r.p) && r.p.format == p.format && r.p.clearRequested == p.clearRequested
              && r.p.streamStarted == p.streamStarted && r.p.hasStream == p.hasStream
              && r.p.buf.cursorUs == p.buf.cursorUs && r.p.buf.current == p.buf.current && r.p.buf.offset == p.buf.offset
              && IsSuffix(r.data, payload)
              && r.p.expectedNext == Some(r.ts)
  {
    var f := p.format.value;
    match p.expectedNext
    case None => Placed(p.(expectedNext := Some(ts)), ts, payload)
    case Some(e) =>
      if ts > e then
        var frames := GapFrames(f, ts - e);
        var silence := Chunk(e, Zeros(frames * f.frameSize));
        var silenceUs := (frames * MicrosPerSecond) / f.sampleRate;
        Placed(p.(buf := p.buf.(queue := p.buf.queue + [silence], queuedUs := p.buf.queuedUs + silenceUs),
                  expectedNext := Some(ts)),
               ts, payload)
      else if ts < e then
        var trim := GapFrames(f, e - ts) * f.frameSize;
        if trim < |payload| then
          SuffixSlice(payload[trim..], payload);
          Placed(p, e, payload[trim..])
        else
          Skipped
      else
        Placed(p, ts, payload)
  }

  /** The first chunk after a clear is placed as it is and fixes the expected timestamp. */
  lemma PlaceFirst(p: Player, ts: int, payload: seq<Byte>)
    requires PlayerWf(p) && Framed(p) && p.expectedNext.None?
    ensures Place(p, ts, payload) == Placed(p.(expectedNext := Some(ts)), ts, payload)
  {
  }

  /**
    A chunk at or after the expected timestamp is placed as it is; a gap
    before it is queued as silence stamped at the expected timestamp.
   */
  lemma PlaceGap(p: Player, ts: int, payload: seq<Byte>)
    requires PlayerWf(p) && Framed(p) && p.expectedNext.Some? && ts >= p.expectedNext.value
    ensures var r := Place(p, ts, payload);
            var e := p.expectedNext.value;
            var silence := Zeros(GapFrames(p.format.value, ts - e) * p.format.value.frameSize);
            r.Placed? && r.ts == ts && r.data == payload && r.p.expectedNext == Some(ts)
            && r.p.buf.queue == p.buf.queue + (if ts > e then [Chunk(e, silence)] else [])
  {
  }

  /** A chunk before the expected timestamp loses its overlap and is re-stamped at the expected timestamp. */
  lemma PlaceOverlap(p: Player, ts: int, payload: seq<Byte>)
    requires PlayerWf(p) && Framed(p) && p.expectedNext.Some? && ts < p.expectedNext.value
    requires GapFrames(p.format.value, p.expectedNext.value - ts) * p.format.value.frameSize < |payload|
    ensures var r := Place(p, ts, payload);
            var e := p.expectedNext.value;
            r.Placed? && r.ts == e && r.p == p
            && r.data == payload[GapFrames(p.format.value, e - ts) * p.format.value.frameSize..]
  {
  }

  /** Queueing a non-empty chunk: it goes to the back, and both counters move by its duration. */
  function Enqueue(p: Player, ts: int, data: seq<Byte>): (r: Player)
    requires PlayerWf(p) && Framed(p)
    ensures PlayerWf(r) && r.format == p.format && r.streamStarted == p.streamStarted && r.hasStream == p.hasStream
    ensures r.buf.current == p.buf.current && r.buf.offset == p.buf.offset && r.buf.cursorUs == p.buf.cursorUs
    ensures data == [] ==> r == p
    ensures data != [] ==>
              var d := Dur(p.format.value, |data|);
              r.buf.queue == p.buf.queue + [Chunk(ts, data)]
              && r.buf.queuedUs == p.buf.queuedUs + d
              && r.expectedNext == Some(ts + d)
  {
    if |data| > 0 then
      var d := Dur(p.format.value, |data|);
      p.(buf := p.buf.(queue := p.buf.queue + [Chunk(ts, data)], queuedUs := p.buf.queuedUs + d),
         expectedNext := Some(ts + d))
    else
      p
  }

  /** The output stream starts once something is queued. */
  function StartStream(p: Player): (r: Player)
    ensures r == p.(streamStarted := r.streamStarted)
    ensures r.streamStarted <==> p.streamStarted || (p.buf.queue != [] && p.hasStream)
  {
    if !p.streamStarted && |p.buf.queue| > 0 && p.hasStream then p.(streamStarted := true) else p
  }

  /**
    `submit(server_timestamp_us, payload)`. The sync-error correction step
    in the middle is floating point and is not part of this function.
   */
  function Submit(p: Player, ts: int, payload: seq<Byte>, nowUs: int, clientTime: int -> Option<int>): (r: Player)
    requires PlayerWf(p)
    ensures PlayerWf(r) && r.format == p.format
    ensures !Accepts(p, payload) ==> r == Pending(p)
  {
    var p0 := Pending(p);
    if !Accepts(p0, payload) then p0
    else
      var p1 := Schedule(p0, ts, nowUs, clientTime);
      match Place(p1, ts, payload)
      case Skipped => p1
      case Placed(p2, ts2, data) => StartStream(Enqueue(p2, ts2, data))
  }

  /** `submit` leaves the volume and the mute flag alone. */
  lemma SubmitKeepsVolume(p: Player, ts: int, payload: seq<Byte>, nowUs: int, clientTime: int -> Option<int>)
    requires PlayerWf(p)
    ensures Submit(p, ts, payload, nowUs, clientTime).volume == p.volume
    ensures Submit(p, ts, payload, nowUs, clientTime).muted == p.muted
  {
    var p0 := Pending(p);
    if Accepts(p0, payload) {
      var p1 := Schedule(p0, ts, nowUs, clientTime);
      assert p1.volume == p.volume && p1.muted == p.muted;
      var r := Place(p1, ts, payload);
      if r.Placed? {
        assert r.p.volume == p.volume && r.p.muted == p.muted;
      }
    }
  }

  // ---------------------------------------------------------------------------
  // What submit does to the buffer

  /** The bytes a gap between the expected and the received timestamp adds, as silence. */
  function SilenceFor(f: Format, expected: Option<int>, ts: int): seq<Byte>
    requires Rated(f)
  {
    if expected.Some? && ts > expected.value then Zeros(GapFrames(f, ts - expected.value) * f.frameSize) else []
  }

  /** The payload bytes that survive the overlap trim (none when the chunk is skipped). */
  function Kept(f: Format, expected: Option<int>, ts: int, payload: seq<Byte>): seq<Byte>
    requires Rated(f)
  {
    if expected.Some? && ts < expected.value then
      var trim := GapFrames(f, expected.value - ts) * f.frameSize;
      if trim < |payload| then payload[trim..] else []
    else payload
  }

  lemma FlattenAppend(cs: seq<Chunk>, c: Chunk)
    ensures Flatten(cs + [c]) == Flatten(cs) + c.data
  {
    if cs != [] {
      assert (cs + [c])[1..] == cs[1..] + [c];
      FlattenAppend(cs[1..], c);
    } else {
      assert [c][1..] == [];
    }
  }

  lemma StreamAppend(b: Buffer, c: Chunk)
    requires PcmQueue.Wf(b)
    ensures PcmQueue.Wf(b.(queue := b.queue + [c]))
    ensures Stream(b.(queue := b.queue + [c])) == Stream(b) + c.data
  {
    FlattenAppend(b.queue, c);
  }

  /**
    `submit` never touches audio already buffered: an accepted chunk appends
    the gap's silence and the part of the payload that survives the overlap
    trim, and nothing else, to the stream.
   */
  lemma SubmitAppends(p: Player, ts: int, payload: seq<Byte>, nowUs: int, clientTime: int -> Option<int>)
    requires PlayerWf(p) && Accepts(Pending(p), payload) && Framed(p)
    ensures var p0 := Pending(p);
            var f := p.format.value;
            Stream(Submit(p, ts, payload, nowUs, clientTime).buf)
              == Stream(p0.buf) + SilenceFor(f, p0.expectedNext, ts) + Kept(f, p0.expectedNext, ts, payload)
  {
    var f := p.format.value;
    var p1 := Schedule(Pending(p), ts, nowUs, clientTime);
    var e := p1.expectedNext;
    SubmitSteps(p, ts, payload, nowUs, clientTime);
    var r := Place(p1, ts, payload);
    if r.Placed? {
      assert Stream(r.p.buf) == Stream(p1.buf) + SilenceFor(f, e, ts) && r.data == Kept(f, e, ts, payload) by {
        if e.None? {
          PlaceFirst(p1, ts, payload);
        } else if ts >= e.value {
          PlaceGap(p1, ts, payload);
          if ts > e.value {
            StreamAppend(p1.buf, Chunk(e.value, SilenceFor(f, e, ts)));
          }
        } else {
          PlaceOverlap(p1, ts, payload);
        }
      }
      if r.data != [] {
        StreamAppend(r.p.buf, Chunk(r.ts, r.data));
      }
    }
  }

  /** The three steps of an accepted `submit`, one after the other. */
  lemma SubmitSteps(p: Player, ts: int, payload: seq<Byte>, nowUs: int, clientTime: int -> Option<int>)
    requires PlayerWf(p) && Accepts(Pending(p), payload)
    ensures var p1 := Schedule(Pending(p), ts, nowUs, clientTime);
            var r := Place(p1, ts, payload);
            Submit(p, ts, payload, nowUs, clientTime)
              == if r.Skipped? then p1 else StartStream(Enqueue(r.p, r.ts, r.data))
  {
  }

  /** The silence queued for a gap ends no later than the late chunk starts. */
  lemma SilenceKeepsInv(p: Player, ts: int)
    requires Inv(p) && Framed(p) && p.expectedNext.Some? && ts > p.expectedNext.value
    ensures var f := p.format.value;
            var e := p.expectedNext.value;
            var frames := GapFrames(f, ts - e);
            var silence := Chunk(e, Zeros(frames * f.frameSize));
            var b := p.buf.(queue := p.buf.queue + [silence], queuedUs := p.buf.queuedUs + (frames * MicrosPerSecond) / f.sampleRate);
            Inv(p.(buf := b, expectedNext := Some(ts)))
  {
    var f := p.format.value;
    var e := p.expectedNext.value;
    SilenceFits(f, ts - e);
    var frames := GapFrames(f, ts - e);
    var silence := Chunk(e, Zeros(frames * f.frameSize));
    AppendKeeps(f, p.buf, p.expectedNext, silence, (frames * MicrosPerSecond) / f.sampleRate, ts);
  }

  /** Placing a chunk keeps the invariant, and what is left of the payload is whole frames. */
  lemma PlaceKeepsInv(p: Player, ts: int, payload: seq<Byte>)
    requires Inv(p) && Framed(p) && Accepts(p, payload)
    ensures var r := Place(p, ts, payload);
            r.Placed? ==> Inv(r.p) && |r.data| % p.format.value.frameSize == 0
  {
    var f := p.format.value;
    if p.expectedNext.None? {
      PlaceFirst(p, ts, payload);
    } else if ts >= p.expectedNext.value {
      PlaceGapKeepsInv(p, ts, payload);
    } else if GapFrames(f, p.expectedNext.value - ts) * f.frameSize < |payload| {
      PlaceOverlap(p, ts, payload);
      TrimKeepsFrames(f, GapFrames(f, p.expectedNext.value - ts), payload);
    }
  }

  lemma PlaceGapKeepsInv(p: Player, ts: int, payload: seq<Byte>)
    requires Inv(p) && Framed(p) && Accepts(p, payload) && p.expectedNext.Some? && ts >= p.expectedNext.value
    ensures Inv(Place(p, ts, payload).p)
  {
    PlaceGap(p, ts, payload);
    if ts > p.expectedNext.value {
      SilenceKeepsInv(p, ts);
    }
  }

  /** Trimming whole frames off a whole-frame payload leaves whole frames. */
  lemma TrimKeepsFrames(f: Format, frames: nat, payload: seq<Byte>)
    requires Rated(f) && |payload| % f.frameSize == 0 && frames * f.frameSize < |payload|
    ensures |payload[frames * f.frameSize..]| % f.frameSize == 0
  {
    ModAddMul(0, frames, f.frameSize);
    MultipleSub(|payload|, frames * f.frameSize, f.frameSize);
  }

  /** Queueing a whole-frame chunk at the expected timestamp keeps the invariant. */
  lemma EnqueueKeepsInv(p: Player, ts: int, data: seq<Byte>)
    requires Inv(p) && Framed(p) && p.expectedNext == Some(ts) && |data| % p.format.value.frameSize == 0
    ensures Inv(Enqueue(p, ts, data))
  {
    if data != [] {
      var f := p.format.value;
      var c := Chunk(ts, data);
      AppendKeeps(f, p.buf, p.expectedNext, c, Dur(f, |data|), End(f, c));
    }
  }

  /** `submit` keeps the invariant. */
  lemma SubmitKeepsInv(p: Player, ts: int, payload: seq<Byte>, nowUs: int, clientTime: int -> Option<int>)
    requires Inv(p)
    ensures Inv(Submit(p, ts, payload, nowUs, clientTime))
  {
    var p0 := Pending(p);
    if Accepts(p0, payload) {
      var p1 := Schedule(p0, ts, nowUs, clientTime);
      SubmitSteps(p, ts, payload, nowUs, clientTime);
      assert Inv(p1);
      PlaceKeepsInv(p1, ts, payload);
      var r := Place(p1, ts, payload);
      if r.Placed? {
        EnqueueKeepsInv(r.p, r.ts, r.data);
      }
    }
  }

  // ---------------------------------------------------------------------------
  // The readers, with their early returns

  /**
    `_read_one_input_frame`: the buffer left behind and the frame read, if
    any; the caller stores the buffer back into the player. Under the
    invariant a frame is never padded and the invariant survives.
   */
  method ReadOneFrame(p: Player) returns (b: Buffer, frame: Option<seq<Byte>>)
    requires PlayerWf(p)
    ensures PcmQueue.Wf(b)
    ensures p.format.None? || p.format.value.frameSize == 0 || Held(p.buf) == [] ==> b == p.buf && frame.None?
    ensures frame.None? ==> Stream(b) == Stream(p.buf)
    ensures frame.Some? ==>
              var fs := p.format.value.frameSize;
              var k := |Stream(p.buf)| - |Stream(b)|;
              |frame.value| == fs && 0 < k <= fs
              && Stream(p.buf) == frame.value[..k] + Stream(b)
              && frame.value[k..] == Zeros(fs - k)
    ensures Inv(p) ==> Inv(p.(buf := b)) && (frame.Some? ==> Stream(p.buf) == frame.value + Stream(b))
    ensures frame.Some? ==> p.format.Some? && Moved(p.format.value, p.buf, b, 1)
    ensures frame.None? && Framed(p) ==> b.cursorUs == SeededCursor(p.buf) && b.cursorRem == p.buf.cursorRem
  {
    if p.format.None? || p.format.value.frameSize == 0 {
      return p.buf, None;
    }
    var f := p.format.value;
    b, frame := ReadOne(f, p.buf);
    if Inv(p) {
      TimelineSuffix(f, p.buf, b, p.expectedNext);
    }
  }

  /**
    `_read_input_frames_bulk(n)`: the buffer left behind, the new
    `_last_output_frame` and the `n` frames of output, padded with silence
    once the buffer runs dry. The last output frame is the last frame's
    worth of real audio read, and stays as it was when less than a frame
    was read.
   */
  method ReadFramesBulk(p: Player, n: int) returns (b: Buffer, last: seq<Byte>, out: seq<Byte>)
    requires PlayerWf(p)
    ensures PcmQueue.Wf(b)
    ensures p.format.None? || n <= 0 ==> b == p.buf && last == p.lastOutputFrame && out == []
    ensures p.format.Some? && p.format.value.frameSize == 0 && n > 0 ==> b == p.buf && last == [] && out == []
    ensures p.format.Some? && n > 0 ==>
              var fs := p.format.value.frameSize;
              var total := n * fs;
              var k := Min(total, |Stream(p.buf)|);
              0 <= k <= |Stream(p.buf)| && |out| == total
              && out == Stream(p.buf)[..k] + Zeros(total - k)
              && Stream(b) == Stream(p.buf)[k..]
              && (fs > 0 && k >= fs ==> last == out[k - fs..k])
              && (fs > 0 && k < fs ==> last == p.lastOutputFrame)
    ensures Inv(p) ==> Inv(p.(buf := b))
    ensures Inv(p) && Framed(p) ==> (|Stream(p.buf)| - |Stream(b)|) % p.format.value.frameSize == 0
    ensures Framed(p) && n > 0 && SeededCursor(p.buf) > 0 ==> ReadMoved(p.format.value, p.buf, b, Aligned(p.format.value, p.buf))
  {
    if p.format.None? || n <= 0 {
      if Inv(p) && Framed(p) {
        assert 0 % p.format.value.frameSize == 0;
      }
      return p.buf, p.lastOutputFrame, [];
    }
    var f := p.format.value;
    if f.frameSize == 0 {
      return p.buf, [], [];
    }
    b, last, out := ReadWholeFrames(f, p.buf, p.lastOutputFrame, n);
    if Inv(p) {
      TimelineSuffix(f, p.buf, b, p.expectedNext);
    }
  }

  /** The body of `_read_input_frames_bulk` once a format with whole frames is known. */
  method ReadWholeFrames(f: Format, buf: Buffer, lastOut: seq<Byte>, n: int)
    returns (b: Buffer, last: seq<Byte>, out: seq<Byte>)
    requires PcmQueue.Wf(buf) && Rated(f) && n > 0
    ensures PcmQueue.Wf(b) && IsSuffix(Held(b), Held(buf))
    ensures QueuedMatches(f, buf) ==> QueuedMatches(f, b)
    ensures Aligned(f, buf) ==> Aligned(f, b) && (|Stream(buf)| - |Stream(b)|) % f.frameSize == 0
    ensures var fs := f.frameSize;
            var total := n * fs;
            var k := Min(total, |Stream(buf)|);
            0 <= k <= |Stream(buf)| && |out| == total
            && out == Stream(buf)[..k] + Zeros(total - k)
            && Stream(b) == Stream(buf)[k..]
            && (k >= fs ==> last == out[k - fs..k])
            && (k < fs ==> last == lastOut)
    ensures SeededCursor(buf) > 0 ==> ReadMoved(f, buf, b, Aligned(f, buf))
  {
    var fs := f.frameSize;
    var total := n * fs;
    ModAddMul(0, n, fs);
    MulMono(1, n, fs);
    var got;
    b, got := Fill(f, buf, total);
    last := if |got| >= fs then got[|got| - fs..] else lastOut;
    out := got + Zeros(total - |got|);
    assert out[..|got|] == got;
  }

  /**
    `_skip_input_frames(n)`. With a zero frame size and audio held the
    division by the frame size raises; that outcome is `None`. Under the
    invariant exactly the requested frames go, or everything there is.
   */
  method SkipFrames(p: Player, frames: int) returns (r: Option<Buffer>)
    requires PlayerWf(p)
    ensures p.format.None? || frames <= 0 ==> r == Some(p.buf)
    ensures r.None? <==> p.format.Some? && frames > 0 && p.format.value.frameSize == 0 && Held(p.buf) != []
    ensures r.Some? ==> PcmQueue.Wf(r.value) && IsSuffix(Stream(r.value), Stream(p.buf))
    ensures r.Some? && Inv(p) ==> Inv(p.(buf := r.value))
    ensures r.Some? && Inv(p) && Framed(p) && frames > 0 ==>
              var k := Min(frames * p.format.value.frameSize, |Stream(p.buf)|);
              0 <= k <= |Stream(p.buf)| && Stream(r.value) == Stream(p.buf)[k..]
    ensures r.Some? && Framed(p) && frames > 0 && SeededCursor(p.buf) > 0 ==>
              exists m: nat :: Moved(p.format.value, p.buf, r.value, m) && m <= frames
                               && SkippedBytes(p.format.value, p.buf, r.value, m)
  {
    if p.format.None? || frames <= 0 {
      return Some(p.buf);
    }
    var f := p.format.value;
    if f.frameSize == 0 {
      if Held(p.buf) != [] {
        return None;
      }
      return Some(p.buf);
    }
    var b := SkipLoop(f, p.buf, frames);
    if Inv(p) {
      TimelineSuffix(f, p.buf, b, p.expectedNext);
    }
    return Some(b);
  }
}

=== FILE: pcm_queue.dfy ===
/**
  The integer core of the Sendspin `AudioPlayer` buffer: the queue of
  timestamped PCM chunks, the partially consumed current chunk, the
  buffered-duration counter and the server-time cursor, with the loops of the
  three readers the audio callback uses (`_read_one_input_frame`,
  `_read_input_frames_bulk`, `_skip_input_frames`) and the two bookkeeping
  steps they share. Everything here runs with a format present whose frame
  size and sample rate are positive; the player wraps these with the
  early returns for a missing format.

  The bytes still to be played form one stream: the unread tail of the
  current chunk followed by every queued chunk. Each reader is stated as
  consuming a prefix of that stream.
 */
module PcmQueue {

  import opened Optional

  const MicrosPerSecond: nat := 1_000_000

  type Byte = b: int | 0 <= b < 256

  function Zeros(n: nat): (z: seq<Byte>)
    ensures |z| == n
    ensures forall i :: 0 <= i < n ==> z[i] == 0
  {
    seq(n, _ => 0)
  }

  function Min(a: int, b: int): int
  {
    if a <= b then a else b
  }

  /** The two fields of the PCM format the queue arithmetic reads. */
  datatype Format = Format(frameSize: nat, sampleRate: nat)

  predicate Rated(f: Format)
  {
    f.frameSize > 0 && f.sampleRate > 0
  }

  /** `_QueuedChunk`. */
  datatype Chunk = Chunk(ts: int, data: seq<Byte>)

  /** The player fields the readers and `submit` share. */
  datatype Buffer = Buffer(
    queue: seq<Chunk>,
    current: Option<Chunk>,
    offset: nat,
    queuedUs: int,
    cursorUs: int,
    cursorRem: int)

  const EmptyBuffer := Buffer([], None, 0, 0, 0, 0)

  /**
    What every operation keeps: the offset lies inside the current chunk, and
    the cursor remainder and the buffered duration are not negative.
   */
  predicate Wf(b: Buffer)
  {
    (b.current.Some? ==> b.offset <= |b.current.value.data|)
    && b.cursorRem >= 0
    && b.queuedUs >= 0
  }

  // ---------------------------------------------------------------------------
  // Durations and the held chunks

  /** Whole frames in `n` bytes, in microseconds, rounded down. */
  function Dur(f: Format, n: nat): nat
    requires Rated(f)
  {
    ((n / f.frameSize) * MicrosPerSecond) / f.sampleRate
  }

  function End(f: Format, c: Chunk): int
    requires Rated(f)
  {
    c.ts + Dur(f, |c.data|)
  }

  /** The current chunk, if any, followed by the queue. */
  function Held(b: Buffer): seq<Chunk>
  {
    (if b.current.Some? then [b.current.value] else []) + b.queue
  }

  function SumDur(f: Format, cs: seq<Chunk>): nat
    requires Rated(f)
  {
    if cs == [] then 0 else Dur(f, |cs[0].data|) + SumDur(f, cs[1..])
  }

  /** The buffered-duration counter is the duration of the chunks held. */
  predicate QueuedMatches(f: Format, b: Buffer)
    requires Rated(f)
  {
    b.queuedUs == SumDur(f, Held(b))
  }

  /** Every held chunk is whole frames and the offset is on a frame boundary. */
  predicate Aligned(f: Format, b: Buffer)
    requires Rated(f)
  {
    b.offset % f.frameSize == 0 && AllWhole(f, Held(b))
  }

  predicate AllWhole(f: Format, cs: seq<Chunk>)
    requires Rated(f)
  {
    cs == [] || (|cs[0].data| % f.frameSize == 0 && AllWhole(f, cs[1..]))
  }

  /** No chunk starts before the previous one ends. */
  predicate Ordered(f: Format, cs: seq<Chunk>)
    requires Rated(f)
  {
    forall i :: 0 <= i < |cs| - 1 ==> End(f, cs[i]) <= cs[i + 1].ts
  }

  /**
    The held chunks are in timeline order and none ends after the timestamp
    the next chunk is expected at; with no expectation nothing is held.
   */
  predicate Timeline(f: Format, b: Buffer, expectedNext: Option<int>)
    requires Rated(f)
  {
    (expectedNext.None? ==> Held(b) == [])
    && (expectedNext.Some? ==>
          Ordered(f, Held(b))
          && (Held(b) != [] ==> End(f, Held(b)[|Held(b)| - 1]) <= expectedNext.value))
  }

  /** `a` is what is left of `b` once some prefix is dropped. */
  predicate IsSuffix<T(==)>(a: seq<T>, b: seq<T>)
    decreases |b|
  {
    a == b || (|a| < |b| && IsSuffix(a, b[1..]))
  }

  /** The suffix relation as a slice. */
  lemma {:induction false} SuffixSlice<T>(a: seq<T>, b: seq<T>)
    ensures IsSuffix(a, b) <==> |a| <= |b| && a == b[|b| - |a|..]
    decreases |b|
  {
    if a != b && |a| < |b| {
      SuffixSlice(a, b[1..]);
      assert b[1..][|b| - 1 - |a|..] == b[|b| - |a|..];
    }
  }

  function Flatten(cs: seq<Chunk>): seq<Byte>
  {
    if cs == [] then [] else cs[0].data + Flatten(cs[1..])
  }

  /** The bytes still to be played, in order. */
  function Stream(b: Buffer): seq<Byte>
    requires Wf(b)
  {
    (if b.current.Some? then b.current.value.data[b.offset..] else []) + Flatten(b.queue)
  }

  // ---------------------------------------------------------------------------
  // The server cursor

  /**
    The server-time cursor as one number, in units of a microsecond divided
    by the sample rate: `cursorUs` whole microseconds plus `cursorRem`.
   */
  function Clock(f: Format, b: Buffer): int
  {
    b.cursorUs * f.sampleRate + b.cursorRem
  }

  /** `cursorUs` once the next chunk is loaded: a zero cursor takes the timestamp of the chunk loaded. */
  function SeededCursor(b: Buffer): int
  {
    if b.current.None? && b.queue != [] && b.cursorUs == 0 then b.queue[0].ts else b.cursorUs
  }

  /** The cursor a reader starts from, after loading. */
  function StartClock(f: Format, b: Buffer): int
  {
    SeededCursor(b) * f.sampleRate + b.cursorRem
  }

  /** The cursor moved `n` frames from where it was in `b`. */
  predicate Advanced(f: Format, b: Buffer, r: Buffer, n: nat)
  {
    Clock(f, r) == Clock(f, b) + n * MicrosPerSecond
  }

  /** The cursor moved `n` frames past where the reader started. */
  predicate Moved(f: Format, b: Buffer, r: Buffer, n: nat)
  {
    Clock(f, r) == StartClock(f, b) + n * MicrosPerSecond
  }

  /**
    A bulk read from `b` to `r` moved the cursor by whole frames no larger
    than the bytes it read, and by exactly those bytes when `exact`.
   */
  ghost predicate ReadMoved(f: Format, b: Buffer, r: Buffer, exact: bool)
    requires Wf(b) && Wf(r)
  {
    exists n: nat :: Moved(f, b, r, n) && n * f.frameSize <= |Stream(b)| - |Stream(r)|
                     && (exact ==> n * f.frameSize == |Stream(b)| - |Stream(r)|)
  }

  // ---------------------------------------------------------------------------
  // Bookkeeping steps

  /** `_advance_server_cursor_frames`. */
  function AdvanceCursor(f: Format, b: Buffer, frames: int): (r: Buffer)
    requires Wf(b) && f.sampleRate > 0
    ensures Wf(r)
    ensures r == b.(cursorUs := r.cursorUs, cursorRem := r.cursorRem)
    ensures frames <= 0 ==> r == b
    ensures frames > 0 ==>
              r.cursorUs * f.sampleRate + r.cursorRem
                == b.cursorUs * f.sampleRate + b.cursorRem + frames * MicrosPerSecond
              && r.cursorRem < f.sampleRate
              && r.cursorUs >= b.cursorUs
  {
    if frames <= 0 then b
    else
      var sr := f.sampleRate;
      var rem := b.cursorRem + frames * MicrosPerSecond;
      if rem >= sr then
        assert rem == (rem / sr) * sr + rem % sr;
        assert (b.cursorUs + rem / sr) * sr == b.cursorUs * sr + (rem / sr) * sr;
        b.(cursorUs := b.cursorUs + rem / sr, cursorRem := rem % sr)
      else
        b.(cursorRem := rem)
  }

  /** `_initialize_current_chunk`: the head of the queue becomes the current chunk. */
  function InitializeCurrentChunk(b: Buffer): (r: Buffer)
    requires Wf(b) && b.queue != []
    ensures Wf(r)
    ensures r.current == Some(b.queue[0]) && r.offset == 0 && r.queue == b.queue[1..]
    ensures r.queuedUs == b.queuedUs && r.cursorRem == b.cursorRem
    ensures r.cursorUs == (if b.cursorUs == 0 then b.queue[0].ts else b.cursorUs)
  {
    var c := b.queue[0];
    b.(current := Some(c), offset := 0, queue := b.queue[1..],
       cursorUs := if b.cursorUs == 0 then c.ts else b.cursorUs)
  }

  /** `_advance_finished_chunk`: drop the current chunk and its duration, never below zero. */
  function AdvanceFinishedChunk(f: Format, b: Buffer): (r: Buffer)
    requires Wf(b) && Rated(f)
    ensures Wf(r)
    ensures b.current.None? ==> r == b
    ensures b.current.Some? ==>
              r.current.None? && r.offset == 0 && r.queue == b.queue
              && r.cursorUs == b.cursorUs && r.cursorRem == b.cursorRem
              && r.queuedUs == (var d := Dur(f, |b.current.value.data|);
                                if b.queuedUs >= d then b.queuedUs - d else 0)
  {
    if b.current.None? then b
    else
      var d := Dur(f, |b.current.value.data|);
      b.(queuedUs := if b.queuedUs - d >= 0 then b.queuedUs - d else 0, current := None, offset := 0)
  }

  // ---------------------------------------------------------------------------
  // Facts about the steps

  /** Two cursor advances land where one advance by the sum lands. */
  lemma CursorComposes(f: Format, b: Buffer, m: int, n: int)
    requires Wf(b) && f.sampleRate > 0 && m > 0 && n > 0
    ensures var two := AdvanceCursor(f, AdvanceCursor(f, b, m), n);
            var one := AdvanceCursor(f, b, m + n);
            two.cursorUs == one.cursorUs && two.cursorRem == one.cursorRem
  {
    var sr := f.sampleRate;
    var two := AdvanceCursor(f, AdvanceCursor(f, b, m), n);
    var one := AdvanceCursor(f, b, m + n);
    assert (m + n) * MicrosPerSecond == m * MicrosPerSecond + n * MicrosPerSecond;
    var total := b.cursorUs * sr + b.cursorRem + (m + n) * MicrosPerSecond;
    DivModUnique(two.cursorUs, two.cursorRem, total, sr);
    DivModUnique(one.cursorUs, one.cursorRem, total, sr);
  }

  lemma FlattenCons(cs: seq<Chunk>)
    requires cs != []
    ensures Flatten(cs) == cs[0].data + Flatten(cs[1..])
  {
  }

  /** Moving the offset forward by `k` removes exactly those `k` bytes from the front. */
  lemma StreamTake(b: Buffer, k: nat)
    requires Wf(b) && b.current.Some? && b.offset + k <= |b.current.value.data|
    ensures Wf(b.(offset := b.offset + k))
    ensures Stream(b) == b.current.value.data[b.offset..b.offset + k] + Stream(b.(offset := b.offset + k))
  {
    var d := b.current.value.data;
    assert d[b.offset..] == d[b.offset..b.offset + k] + d[b.offset + k..];
  }

  lemma SuffixTrans<T>(a: seq<T>, b: seq<T>, c: seq<T>)
    requires IsSuffix(a, b) && IsSuffix(b, c)
    ensures IsSuffix(a, c)
  {
    SuffixSlice(a, b);
    SuffixSlice(b, c);
    SuffixSlice(a, c);
    assert c[|c| - |b|..][|b| - |a|..] == c[|c| - |a|..];
  }

  /** A suffix of an ordered run of chunks is ordered. */
  lemma OrderedSuffix(f: Format, a: seq<Chunk>, b: seq<Chunk>)
    requires Rated(f) && IsSuffix(a, b) && Ordered(f, b)
    ensures Ordered(f, a)
  {
    SuffixSlice(a, b);
    var k := |b| - |a|;
    forall i | 0 <= i < |a| - 1
      ensures End(f, a[i]) <= a[i + 1].ts
    {
      assert a[i] == b[k + i] && a[i + 1] == b[k + i + 1];
    }
  }

  /** The readers keep the timeline: they only drop chunks from the front. */
  lemma {:induction false} TimelineSuffix(f: Format, b: Buffer, r: Buffer, expectedNext: Option<int>)
    requires Rated(f) && Timeline(f, b, expectedNext) && IsSuffix(Held(r), Held(b))
    ensures Timeline(f, r, expectedNext)
  {
    if expectedNext.Some? {
      SuffixSlice(Held(r), Held(b));
      OrderedSuffix(f, Held(r), Held(b));
      if Held(r) != [] {
        assert Held(r)[|Held(r)| - 1] == Held(b)[|Held(b)| - 1];
      }
    }
  }

  /**
    The first step of every reader: when nothing is current, the head of the
    queue becomes current. This changes neither the stream nor the held
    chunks.
   */
  function Load(f: Format, b: Buffer): (r: Buffer)
    requires Wf(b) && Rated(f) && Held(b) != []
    ensures Wf(r) && r.current.Some?
    ensures Stream(r) == Stream(b) && Held(r) == Held(b)
    ensures QueuedMatches(f, b) ==> QueuedMatches(f, r)
    ensures Aligned(f, b) ==> Aligned(f, r)
    ensures r.cursorUs == SeededCursor(b) && r.cursorRem == b.cursorRem
  {
    if b.current.None? then
      var r := InitializeCurrentChunk(b);
      assert r.current.value.data[0..] == b.queue[0].data;
      FlattenCons(b.queue);
      assert Held(r) == Held(b);
      r
    else
      b
  }

  /** Dropping the current chunk: one chunk fewer, the buffered duration still matches. */
  lemma FinishKeeps(f: Format, b: Buffer)
    requires Wf(b) && Rated(f) && b.current.Some?
    ensures var r := AdvanceFinishedChunk(f, b);
            Held(r) == Held(b)[1..]
            && Stream(b) == b.current.value.data[b.offset..] + Stream(r)
            && (QueuedMatches(f, b) ==> QueuedMatches(f, r))
            && (Aligned(f, b) ==> Aligned(f, r))
  {
    var r := AdvanceFinishedChunk(f, b);
    assert Held(b)[1..] == Held(r);
  }

  /** Appending a chunk to the queue appends it to the held chunks. */
  lemma HeldAppend(b: Buffer, c: Chunk)
    ensures Held(b.(queue := b.queue + [c])) == Held(b) + [c]
  {
  }

  lemma {:induction false} SumDurAppend(f: Format, cs: seq<Chunk>, c: Chunk)
    requires Rated(f)
    ensures SumDur(f, cs + [c]) == SumDur(f, cs) + Dur(f, |c.data|)
  {
    if cs == [] {
      assert [c][1..] == [];
    } else {
      assert (cs + [c])[1..] == cs[1..] + [c];
      SumDurAppend(f, cs[1..], c);
    }
  }

  lemma {:induction false} AllWholeAppend(f: Format, cs: seq<Chunk>, c: Chunk)
    requires Rated(f) && AllWhole(f, cs) && |c.data| % f.frameSize == 0
    ensures AllWhole(f, cs + [c])
  {
    if cs == [] {
      assert [c][1..] == [];
    } else {
      assert (cs + [c])[1..] == cs[1..] + [c];
      AllWholeAppend(f, cs[1..], c);
    }
  }

  /** A chunk that starts no earlier than the last one ends extends an ordered run. */
  lemma OrderedAppend(f: Format, cs: seq<Chunk>, c: Chunk)
    requires Rated(f) && Ordered(f, cs)
    requires cs != [] ==> End(f, cs[|cs| - 1]) <= c.ts
    ensures Ordered(f, cs + [c])
  {
    var ds := cs + [c];
    forall i | 0 <= i < |ds| - 1
      ensures End(f, ds[i]) <= ds[i + 1].ts
    {
      if i < |cs| - 1 {
        assert ds[i] == cs[i] && ds[i + 1] == cs[i + 1];
      }
    }
  }

  /**
    Appending a whole-frame chunk that starts no earlier than the expected
    timestamp, and moving the expectation to no earlier than its end, keeps
    the three invariants.
   */
  lemma AppendKeeps(f: Format, b: Buffer, expected: Option<int>, c: Chunk, d: nat, next: int)
    requires Rated(f) && Wf(b)
    requires QueuedMatches(f, b) && Aligned(f, b) && Timeline(f, b, expected)
    requires expected.Some? && expected.value <= c.ts && End(f, c) <= next
    requires |c.data| % f.frameSize == 0 && d == Dur(f, |c.data|)
    ensures var b1 := b.(queue := b.queue + [c], queuedUs := b.queuedUs + d);
            Wf(b1) && QueuedMatches(f, b1) && Aligned(f, b1) && Timeline(f, b1, Some(next))
  {
    var b1 := b.(queue := b.queue + [c], queuedUs := b.queuedUs + d);
    HeldAppend(b, c);
    assert Held(b1) == Held(b) + [c];
    SumDurAppend(f, Held(b), c);
    AllWholeAppend(f, Held(b), c);
    OrderedAppend(f, Held(b), c);
    assert Held(b1)[|Held(b1)| - 1] == c;
  }

  // ---------------------------------------------------------------------------
  // The readers

  /**
    The step every reader ends with: `n` bytes of the current chunk leave the
    front of the stream, the server cursor moves by `frames`, and a chunk
    read to its end is dropped.
   */
  method Consume(f: Format, b: Buffer, n: nat, frames: nat) returns (r: Buffer)
    requires Wf(b) && Rated(f) && b.current.Some? && b.offset + n <= |b.current.value.data|
    ensures Wf(r) && IsSuffix(Held(r), Held(b))
    ensures Clock(f, r) == Clock(f, b) + frames * MicrosPerSecond && r.cursorUs >= b.cursorUs
    ensures QueuedMatches(f, b) ==> QueuedMatches(f, r)
    ensures Stream(b) == b.current.value.data[b.offset..b.offset + n] + Stream(r)
    ensures b.offset + n == |b.current.value.data| ==> |Held(r)| < |Held(b)|
    ensures Aligned(f, b) && n % f.frameSize == 0 ==> Aligned(f, r)
  {
    StreamTake(b, n);
    r := AdvanceCursor(f, b.(offset := b.offset + n), frames);
    assert Stream(r) == Stream(b.(offset := b.offset + n)) && Held(r) == Held(b);
    if Aligned(f, b) && n % f.frameSize == 0 {
      MultipleAdd(b.offset, n, f.frameSize);
    }
    if r.offset >= |r.current.value.data| {
      FinishKeeps(f, r);
      assert r.current.value.data[r.offset..] == [];
      r := AdvanceFinishedChunk(f, r);
    }
  }

  /**
    The chunk work of `_read_one_input_frame`: one frame from the front of
    the stream, zero-padded when the chunk ends inside it, or nothing when
    nothing is held or the current chunk turns out to be used up. On
    frame-aligned chunks the frame is a whole frame of real audio.
   */
  method ReadOne(f: Format, b: Buffer) returns (r: Buffer, frame: Option<seq<Byte>>)
    requires Wf(b) && Rated(f)
    ensures Wf(r) && IsSuffix(Held(r), Held(b))
    ensures QueuedMatches(f, b) ==> QueuedMatches(f, r)
    ensures Held(b) == [] ==> r == b && frame.None?
    ensures frame.None? ==> Stream(r) == Stream(b)
    ensures frame.Some? ==>
              var k := |Stream(b)| - |Stream(r)|;
              |frame.value| == f.frameSize && 0 < k <= f.frameSize
              && Stream(b) == frame.value[..k] + Stream(r)
              && frame.value[k..] == Zeros(f.frameSize - k)
    ensures Aligned(f, b) ==> Aligned(f, r)
    ensures frame.Some? && Aligned(f, b) ==> Stream(b) == frame.value + Stream(r)
    ensures frame.Some? ==> Moved(f, b, r, 1) && r.cursorUs >= SeededCursor(b)
    ensures frame.None? ==> r.cursorUs == SeededCursor(b) && r.cursorRem == b.cursorRem
  {
    if Held(b) == [] {
      return b, None;
    }
    var b1 := Load(f, b);
    var data := b1.current.value.data;
    if b1.offset >= |data| {
      FinishKeeps(f, b1);
      assert data[b1.offset..] == [];
      return AdvanceFinishedChunk(f, b1), None;
    }
    var out;
    r, out := TakeFrame(f, b1);
    frame := Some(out);
  }

  /** The body of `_read_one_input_frame` once a current chunk with unread bytes is in place. */
  method TakeFrame(f: Format, b: Buffer) returns (r: Buffer, out: seq<Byte>)
    requires Wf(b) && Rated(f) && b.current.Some? && b.offset < |b.current.value.data|
    ensures Wf(r) && IsSuffix(Held(r), Held(b))
    ensures QueuedMatches(f, b) ==> QueuedMatches(f, r)
    ensures var k := |Stream(b)| - |Stream(r)|;
            |out| == f.frameSize && 0 < k <= f.frameSize
            && Stream(b) == out[..k] + Stream(r)
            && out[k..] == Zeros(f.frameSize - k)
    ensures Aligned(f, b) ==> Aligned(f, r) && Stream(b) == out + Stream(r)
    ensures Clock(f, r) == Clock(f, b) + MicrosPerSecond && r.cursorUs >= b.cursorUs
  {
    var data := b.current.value.data;
    var fs := f.frameSize;
    var start := b.offset;
    var end := Min(start + fs, |data|);
    var taken := data[start..end];
    out := taken + Zeros(fs - |taken|);
    if Aligned(f, b) {
      assert Held(b)[0] == b.current.value;
      AlignedRoom(|data|, start, fs);
      ModAddMul(0, 1, fs);
    }
    r := Consume(f, b, end - start, 1);
    PadFacts(fs, taken, Stream(b), Stream(r));
  }

  /** A padded frame read from the front of a stream. */
  lemma PadFacts(fs: nat, taken: seq<Byte>, sb: seq<Byte>, sr: seq<Byte>)
    requires 0 < |taken| <= fs && sb == taken + sr
    ensures var out := taken + Zeros(fs - |taken|);
            var k := |sb| - |sr|;
            |out| == fs && 0 < k <= fs
            && sb == out[..k] + sr && out[k..] == Zeros(fs - k)
            && (|taken| == fs ==> sb == out + sr)
  {
    var out := taken + Zeros(fs - |taken|);
    assert out[..|taken|] == taken && out[|taken|..] == Zeros(fs - |taken|);
  }

  /**
    One pass of the loop body of `_read_input_frames_bulk`, with something
    held and something still needed: the bytes read are the front of the
    stream, and either some bytes were read or a chunk was dropped.
   */
  method FillOnce(f: Format, b: Buffer, need: nat) returns (r: Buffer, piece: seq<Byte>, frames: nat)
    requires Wf(b) && Rated(f) && need > 0 && Held(b) != []
    ensures Wf(r) && IsSuffix(Held(r), Held(b))
    ensures QueuedMatches(f, b) ==> QueuedMatches(f, r)
    ensures |piece| <= need && Stream(b) == piece + Stream(r)
    ensures piece != [] || |Held(r)| < |Held(b)|
    ensures Aligned(f, b) && need % f.frameSize == 0 ==> Aligned(f, r) && (need - |piece|) % f.frameSize == 0
    ensures frames == |piece| / f.frameSize && Moved(f, b, r, frames) && r.cursorUs >= SeededCursor(b)
  {
    var b1 := Load(f, b);
    r, piece, frames := FillCurrent(f, b1, need);
    MovedAfterLoad(f, b, b1, r, frames);
  }

  /** `FillOnce` once a chunk is current. */
  method FillCurrent(f: Format, b: Buffer, need: nat) returns (r: Buffer, piece: seq<Byte>, frames: nat)
    requires Wf(b) && Rated(f) && need > 0 && b.current.Some?
    ensures Wf(r) && IsSuffix(Held(r), Held(b))
    ensures QueuedMatches(f, b) ==> QueuedMatches(f, r)
    ensures |piece| <= need && Stream(b) == piece + Stream(r)
    ensures piece != [] || |Held(r)| < |Held(b)|
    ensures Aligned(f, b) && need % f.frameSize == 0 ==> Aligned(f, r) && (need - |piece|) % f.frameSize == 0
    ensures frames == |piece| / f.frameSize && Advanced(f, b, r, frames) && r.cursorUs >= b.cursorUs
  {
    var data := b.current.value.data;
    var take := Min(|data| - b.offset, need);
    if Aligned(f, b) && need % f.frameSize == 0 {
      assert Held(b)[0] == b.current.value;
      MultipleSub(|data|, b.offset, f.frameSize);
      MultipleSub(need, take, f.frameSize);
    }
    piece := data[b.offset..b.offset + take];
    assert |piece| == take && (take == 0 ==> b.offset + take == |data|);
    frames := take / f.frameSize;
    r := Consume(f, b, take, frames);
  }

  /** A reader that loaded `b1` from `b` and then moved the cursor `n` frames moved it `n` frames from its start. */
  lemma MovedAfterLoad(f: Format, b: Buffer, b1: Buffer, r: Buffer, n: nat)
    requires b1.cursorUs == SeededCursor(b) && b1.cursorRem == b.cursorRem
    requires Advanced(f, b1, r, n)
    ensures Moved(f, b, r, n)
  {
  }

  /**
    The loop of `_read_input_frames_bulk`: the first `min(need, |stream|)`
    bytes of the stream, stopping early only when nothing is held any more.
    Reading whole frames from frame-aligned chunks reads whole frames and
    keeps the chunks aligned. Each pass credits the cursor with the whole
    frames in the bytes it read, so the cursor moves by no more frames than
    were read, and by exactly those on aligned chunks.
   */
  method Fill(f: Format, b: Buffer, need: nat) returns (r: Buffer, got: seq<Byte>)
    requires Wf(b) && Rated(f)
    ensures Wf(r) && IsSuffix(Held(r), Held(b))
    ensures QueuedMatches(f, b) ==> QueuedMatches(f, r)
    ensures var k := Min(need, |Stream(b)|);
            got == Stream(b)[..k] && Stream(r) == Stream(b)[k..]
    ensures |got| < need ==> Held(r) == []
    ensures Aligned(f, b) && need % f.frameSize == 0 ==> Aligned(f, r) && |got| % f.frameSize == 0
    ensures need > 0 && SeededCursor(b) > 0 ==> ReadMoved(f, b, r, Aligned(f, b) && need % f.frameSize == 0)
  {
    var fs := f.frameSize;
    var whole := Aligned(f, b) && need % fs == 0;
    r, got := b, [];
    var left: nat := need;
    var credited: nat := 0;
    while 0 < left && Held(r) != []
      invariant FillInv(f, b, r, need, whole, left, got, credited)
      decreases left, |Held(r)|
    {
      var r2, piece, frames := FillOnce(f, r, left);
      FillInvStep(f, b, r, r2, need, whole, left, got, piece, credited, frames);
      got, r, left, credited := got + piece, r2, left - |piece|, credited + frames;
    }
    FillInvDone(f, b, r, need, whole, left, got, credited);
  }

  /** What the fill loop keeps: `got` read so far, `left` still needed, `credited` frames on the cursor. */
  ghost predicate FillInv(f: Format, b: Buffer, r: Buffer, need: nat, whole: bool, left: nat, got: seq<Byte>, credited: nat)
    requires Rated(f)
  {
    FillBytes(f, b, r, need, whole, left, got, credited) && FillCursor(f, b, r, |got|, credited)
  }

  /** The byte half of the fill loop's invariant. */
  ghost predicate FillBytes(f: Format, b: Buffer, r: Buffer, need: nat, whole: bool, left: nat, got: seq<Byte>, credited: nat)
    requires Rated(f)
  {
    Wf(b) && Wf(r) && IsSuffix(Held(r), Held(b))
    && (whole <==> Aligned(f, b) && need % f.frameSize == 0)
    && (QueuedMatches(f, b) ==> QueuedMatches(f, r))
    && left == need - |got| && Stream(b) == got + Stream(r)
    && (whole ==> Aligned(f, r) && left % f.frameSize == 0)
    && FrameBytes(credited, f.frameSize) <= |got|
    && (whole ==> FrameBytes(credited, f.frameSize) == |got|)
  }

  /** The cursor half: once seeded, it has moved by the `credited` frames since the start. */
  ghost predicate FillCursor(f: Format, b: Buffer, r: Buffer, gotLen: nat, credited: nat)
  {
    SeededCursor(b) > 0 ==>
      SeededCursor(r) > 0 && StartClock(f, r) == StartClock(f, b) + credited * MicrosPerSecond
      && (gotLen > 0 ==> r.cursorUs > 0)
  }

  lemma FillInvStep(f: Format, b: Buffer, r: Buffer, r2: Buffer, need: nat, whole: bool, left: nat,
                    got: seq<Byte>, piece: seq<Byte>, credited: nat, frames: nat)
    requires Rated(f) && FillInv(f, b, r, need, whole, left, got, credited) && 0 < left && Held(r) != []
    requires Wf(r2) && IsSuffix(Held(r2), Held(r))
    requires QueuedMatches(f, r) ==> QueuedMatches(f, r2)
    requires |piece| <= left && Stream(r) == piece + Stream(r2)
    requires Aligned(f, r) && left % f.frameSize == 0 ==> Aligned(f, r2) && (left - |piece|) % f.frameSize == 0
    requires frames == |piece| / f.frameSize && Moved(f, r, r2, frames) && r2.cursorUs >= SeededCursor(r)
    ensures FillInv(f, b, r2, need, whole, left - |piece|, got + piece, credited + frames)
  {
    FillBytesStep(f, b, r, r2, need, whole, left, got, piece, credited, frames);
    FillCursorStep(f, b, r, r2, |got|, |piece|, credited, frames);
  }

  lemma FillBytesStep(f: Format, b: Buffer, r: Buffer, r2: Buffer, need: nat, whole: bool, left: nat,
                      got: seq<Byte>, piece: seq<Byte>, credited: nat, frames: nat)
    requires Rated(f) && FillBytes(f, b, r, need, whole, left, got, credited)
    requires Wf(r2) && IsSuffix(Held(r2), Held(r))
    requires QueuedMatches(f, r) ==> QueuedMatches(f, r2)
    requires |piece| <= left && Stream(r) == piece + Stream(r2)
    requires Aligned(f, r) && left % f.frameSize == 0 ==> Aligned(f, r2) && (left - |piece|) % f.frameSize == 0
    requires frames == |piece| / f.frameSize
    ensures FillBytes(f, b, r2, need, whole, left - |piece|, got + piece, credited + frames)
  {
    var fs := f.frameSize;
    SuffixTrans(Held(r2), Held(r), Held(b));
    Regroup(Stream(b), got, Stream(r), piece, Stream(r2));
    FrameBytesAdd(credited, frames, fs);
    if whole {
      MultipleSub(left, left - |piece|, fs);
    }
    WholeFramesIn(|piece|, fs, frames);
  }

  lemma FillCursorStep(f: Format, b: Buffer, r: Buffer, r2: Buffer, gotLen: nat, pieceLen: nat, credited: nat, frames: nat)
    requires FillCursor(f, b, r, gotLen, credited)
    requires Moved(f, r, r2, frames) && r2.cursorUs >= SeededCursor(r)
    ensures FillCursor(f, b, r2, gotLen + pieceLen, credited + frames)
  {
    if SeededCursor(b) > 0 {
      assert SeededCursor(r) > 0;
      assert r2.cursorUs > 0;
      assert SeededCursor(r2) == r2.cursorUs;
    }
  }

  lemma FillInvDone(f: Format, b: Buffer, r: Buffer, need: nat, whole: bool, left: nat, got: seq<Byte>, credited: nat)
    requires Rated(f) && FillInv(f, b, r, need, whole, left, got, credited) && (left == 0 || Held(r) == [])
    ensures Wf(r) && IsSuffix(Held(r), Held(b))
    ensures QueuedMatches(f, b) ==> QueuedMatches(f, r)
    ensures var k := Min(need, |Stream(b)|);
            got == Stream(b)[..k] && Stream(r) == Stream(b)[k..]
    ensures |got| < need ==> Held(r) == []
    ensures Aligned(f, b) && need % f.frameSize == 0 ==> Aligned(f, r) && |got| % f.frameSize == 0
    ensures need > 0 && SeededCursor(b) > 0 ==> ReadMoved(f, b, r, Aligned(f, b) && need % f.frameSize == 0)
  {
    var fs := f.frameSize;
    if whole {
      MultipleSub(need, left, fs);
    }
    assert Stream(b)[..|got|] == got;
    if Held(r) == [] {
      assert Stream(r) == [];
    }
    FrameBytesMul(credited, fs);
    if need > 0 && SeededCursor(b) > 0 {
      assert SeededCursor(r) == r.cursorUs;
      assert Moved(f, b, r, credited);
    }
  }

  /**
    The loop of `_skip_input_frames`: a suffix of the stream stays. On
    frame-aligned chunks exactly `frames` frames go, or everything there is;
    otherwise a tail shorter than a frame is dropped with its chunk.
   */
  method SkipLoop(f: Format, b: Buffer, frames: nat) returns (r: Buffer)
    requires Wf(b) && Rated(f)
    ensures Wf(r) && IsSuffix(Held(r), Held(b))
    ensures QueuedMatches(f, b) ==> QueuedMatches(f, r)
    ensures IsSuffix(Stream(r), Stream(b))
    ensures Aligned(f, b) ==> Aligned(f, r)
    ensures Aligned(f, b) ==>
              var k := Min(frames * f.frameSize, |Stream(b)|);
              0 <= k <= |Stream(b)| && Stream(r) == Stream(b)[k..]
    ensures frames > 0 && SeededCursor(b) > 0 ==>
              exists n: nat :: Moved(f, b, r, n) && n <= frames && SkippedBytes(f, b, r, n)
  {
    r := b;
    var left: nat, done: nat := frames, 0;
    assert Stream(b)[|Stream(b)| - |Stream(b)|..] == Stream(b);
    assert Held(b)[|Held(b)| - |Held(b)|..] == Held(b);
    while left > 0 && Held(r) != []
      invariant SkipInv(f, b, r, frames, left, done)
      decreases left, |Held(r)|
    {
      var r2, took := SkipOnce(f, r, left);
      SkipInvStep(f, b, r, r2, frames, left, done, took);
      r, left, done := r2, left - took, done + took;
    }
    SkipInvDone(f, b, r, frames, left, done);
  }

  /**
    `n` skipped frames account for the bytes that left the stream: no more
    than them, and exactly them on frame-aligned chunks.
   */
  predicate SkippedBytes(f: Format, b: Buffer, r: Buffer, n: nat)
    requires Wf(b) && Wf(r) && Rated(f)
  {
    n * f.frameSize <= |Stream(b)| - |Stream(r)|
    && (Aligned(f, b) ==> n * f.frameSize == |Stream(b)| - |Stream(r)|)
  }

  /**
    What the skip loop keeps: `done` frames gone on the way from `b` to `r`,
    `left` to go, and a cursor `done` frames past where it started once a
    chunk was loaded.
   */
  ghost predicate SkipInv(f: Format, b: Buffer, r: Buffer, frames: nat, left: nat, done: nat)
    requires Rated(f)
  {
    Wf(b) && Wf(r) && IsSuffix(Held(r), Held(b)) && done + left == frames
    && (QueuedMatches(f, b) ==> QueuedMatches(f, r))
    && IsSuffix(Stream(r), Stream(b))
    && (Aligned(f, b) ==> Aligned(f, r) && |Stream(b)| - |Stream(r)| == FrameBytes(done, f.frameSize))
    && FrameBytes(done, f.frameSize) <= |Stream(b)| - |Stream(r)|
    && (SeededCursor(b) > 0 ==>
          SeededCursor(r) > 0 && StartClock(f, r) == StartClock(f, b) + done * MicrosPerSecond
          && (done > 0 ==> r.cursorUs > 0))
  }

  lemma SkipInvStep(f: Format, b: Buffer, r: Buffer, r2: Buffer, frames: nat, left: nat, done: nat, took: nat)
    requires Rated(f) && SkipInv(f, b, r, frames, left, done) && took <= left
    requires Wf(r2) && IsSuffix(Held(r2), Held(r))
    requires QueuedMatches(f, r) ==> QueuedMatches(f, r2)
    requires IsSuffix(Stream(r2), Stream(r))
    requires Aligned(f, r) ==> Aligned(f, r2) && |Stream(r)| - |Stream(r2)| == FrameBytes(took, f.frameSize)
    requires FrameBytes(took, f.frameSize) <= |Stream(r)| - |Stream(r2)|
    requires Moved(f, r, r2, took) && r2.cursorUs >= SeededCursor(r)
    ensures SkipInv(f, b, r2, frames, left - took, done + took)
  {
    SuffixTrans(Held(r2), Held(r), Held(b));
    SuffixTrans(Stream(r2), Stream(r), Stream(b));
    FrameBytesAdd(done, took, f.frameSize);
  }

  /** Leaving the skip loop: every frame went, or the stream ran dry. */
  lemma SkipInvDone(f: Format, b: Buffer, r: Buffer, frames: nat, left: nat, done: nat)
    requires Rated(f) && SkipInv(f, b, r, frames, left, done) && (left == 0 || Held(r) == [])
    ensures Wf(r) && IsSuffix(Held(r), Held(b))
    ensures QueuedMatches(f, b) ==> QueuedMatches(f, r)
    ensures IsSuffix(Stream(r), Stream(b))
    ensures Aligned(f, b) ==> Aligned(f, r)
    ensures Aligned(f, b) ==>
              var k := Min(frames * f.frameSize, |Stream(b)|);
              0 <= k <= |Stream(b)| && Stream(r) == Stream(b)[k..]
    ensures frames > 0 && SeededCursor(b) > 0 ==>
              exists n: nat :: Moved(f, b, r, n) && n <= frames && SkippedBytes(f, b, r, n)
  {
    FrameBytesMul(done, f.frameSize);
    if Aligned(f, b) {
      SkipDone(Stream(b), Stream(r), frames, left, f.frameSize);
    }
    if frames > 0 && SeededCursor(b) > 0 {
      assert SeededCursor(r) == r.cursorUs;
      assert Moved(f, b, r, done) && SkippedBytes(f, b, r, done);
    }
  }

  /** Leaving the skip loop, on the byte streams alone. */
  lemma SkipDone(sb: seq<Byte>, sr: seq<Byte>, frames: nat, left: nat, fs: nat)
    requires left <= frames && IsSuffix(sr, sb) && |sb| - |sr| == (frames - left) * fs
    requires left == 0 || sr == []
    ensures var k := Min(frames * fs, |sb|); 0 <= k <= |sb| && sr == sb[k..]
  {
    SuffixSlice(sr, sb);
    MulMono(frames - left, frames, fs);
  }

  /**
    One pass of the skip loop: a tail shorter than a frame is dropped with
    its chunk, otherwise up to `left` whole frames are skipped.
  */
  method SkipOnce(f: Format, b: Buffer, left: nat) returns (r: Buffer, took: nat)
    requires Wf(b) && Rated(f) && Held(b) != [] && left > 0
    ensures Wf(r) && IsSuffix(Held(r), Held(b)) && took <= left
    ensures took > 0 || |Held(r)| < |Held(b)|
    ensures QueuedMatches(f, b) ==> QueuedMatches(f, r)
    ensures IsSuffix(Stream(r), Stream(b))
    ensures Aligned(f, b) ==> Aligned(f, r) && |Stream(b)| - |Stream(r)| == FrameBytes(took, f.frameSize)
    ensures FrameBytes(took, f.frameSize) <= |Stream(b)| - |Stream(r)|
    ensures Moved(f, b, r, took) && r.cursorUs >= SeededCursor(b)
  {
    var fs := f.frameSize;
    var b1 := Load(f, b);
    var data := b1.current.value.data;
    if (|data| - b1.offset) / fs <= 0 {
      SkipShortTail(f, b1);
      r, took := AdvanceFinishedChunk(f, b1), 0;
      SuffixSlice(Stream(r), Stream(b));
    } else {
      took := Min((|data| - b1.offset) / fs, left);
      SkipStep(f, b1, took);
      r := Consume(f, b1, took * fs, took);
      SuffixOfAppend(data[b1.offset..b1.offset + took * fs], Stream(r));
      FrameBytesMul(took, fs);
    }
    MovedAfterLoad(f, b, b1, r, took);
  }

  // ---------------------------------------------------------------------------
  // Helpers for the frame readers

  /** A tail shorter than a frame: not aligned, or nothing left at all. */
  lemma SkipShortTail(f: Format, b: Buffer)
    requires Wf(b) && Rated(f) && b.current.Some?
    requires (|b.current.value.data| - b.offset) / f.frameSize <= 0
    ensures var r := AdvanceFinishedChunk(f, b);
            Held(r) == Held(b)[1..]
            && IsSuffix(Stream(r), Stream(b))
            && (QueuedMatches(f, b) ==> QueuedMatches(f, r))
            && (Aligned(f, b) ==> Aligned(f, r) && Stream(r) == Stream(b))
  {
    var d := b.current.value.data;
    FinishKeeps(f, b);
    SuffixOfAppend(d[b.offset..], Stream(AdvanceFinishedChunk(f, b)));
    if Aligned(f, b) {
      assert Held(b)[0] == b.current.value;
      AlignedShortIsEmpty(|d|, b.offset, f.frameSize);
      assert d[b.offset..] == [];
    }
  }

  /** One step of the skip loop: `take` whole frames fit in what is left of the current chunk. */
  lemma SkipStep(f: Format, b: Buffer, take: nat)
    requires Wf(b) && Rated(f) && b.current.Some?
    requires 0 < take <= (|b.current.value.data| - b.offset) / f.frameSize
    ensures b.offset + take * f.frameSize <= |b.current.value.data|
    ensures (take * f.frameSize) % f.frameSize == 0
  {
    var fs := f.frameSize;
    var rb := |b.current.value.data| - b.offset;
    assert take * fs <= (rb / fs) * fs <= rb by {
      MulMono(take, rb / fs, fs);
    }
    ModAddMul(0, take, fs);
  }

  /** On aligned data a chunk with bytes left has a whole frame left. */
  lemma AlignedRoom(n: nat, o: nat, fs: nat)
    requires fs > 0 && o < n && n % fs == 0 && o % fs == 0
    ensures o + fs <= n
  {
    var a := n / fs;
    var c := o / fs;
    assert n == a * fs && o == c * fs;
    MulSub(a, c, fs);
    assert (a - c) * fs > 0;
    if a - c < 1 {
      MulMono(a - c, 0, fs);
    }
    MulMono(1, a - c, fs);
  }

  lemma AlignedShortIsEmpty(n: nat, o: nat, fs: nat)
    requires fs > 0 && o <= n && n % fs == 0 && o % fs == 0 && (n - o) / fs <= 0
    ensures o == n
  {
    if o < n {
      AlignedRoom(n, o, fs);
      DivAtLeastOne(n - o, fs);
    }
  }

  // ---------------------------------------------------------------------------
  // Arithmetic

  lemma MulMono(a: int, b: int, c: nat)
    requires a <= b
    ensures a * c <= b * c
  {
    assert b * c - a * c == (b - a) * c;
  }

  lemma MulSub(a: int, b: int, c: int)
    ensures a * c - b * c == (a - b) * c
  {
  }

  lemma DivAtLeastOne(n: nat, d: nat)
    requires 0 < d <= n
    ensures n / d >= 1
  {
    var q := n / d;
    var r := n % d;
    assert n == q * d + r;
    if q <= 0 {
      MulMono(q, 0, d);
    }
  }

  /** Quotient and remainder are unique. */
  lemma DivModUnique(q: int, r: int, n: int, d: int)
    requires d > 0 && 0 <= r < d && n == q * d + r
    ensures q == n / d && r == n % d
  {
    var q0 := n / d;
    var r0 := n % d;
    assert n == q0 * d + r0;
    MulSub(q, q0, d);
    if q > q0 {
      MulMono(1, q - q0, d);
    } else if q < q0 {
      MulSub(q0, q, d);
      MulMono(1, q0 - q, d);
    }
  }

  /** Sums and differences of multiples of `d` are multiples of `d`. */
  lemma MultipleAdd(x: nat, y: nat, d: nat)
    requires d > 0 && x % d == 0 && y % d == 0
    ensures (x + y) % d == 0
  {
    var a, c := x / d, y / d;
    assert x == a * d && y == c * d;
    assert x + y == (a + c) * d;
    DivModUnique(a + c, 0, x + y, d);
  }

  lemma MultipleSub(x: nat, y: nat, d: nat)
    requires d > 0 && x % d == 0 && y % d == 0 && y <= x
    ensures (x - y) % d == 0
  {
    var a, c := x / d, y / d;
    assert x == a * d && y == c * d;
    MulSub(a, c, d);
    DivModUnique(a - c, 0, x - y, d);
  }

  lemma ModAddMul(o: nat, k: nat, fs: nat)
    requires fs > 0 && o % fs == 0
    ensures (o + k * fs) % fs == 0
  {
    var a := o / fs;
    assert o == a * fs;
    assert o + k * fs == (a + k) * fs;
    DivModUnique(a + k, 0, o + k * fs, fs);
  }

  lemma Regroup<T>(s: seq<T>, a: seq<T>, s1: seq<T>, c: seq<T>, s2: seq<T>)
    requires s == a + s1 && s1 == c + s2
    ensures s == (a + c) + s2
  {
  }

  lemma SuffixOfAppend<T>(a: seq<T>, c: seq<T>)
    ensures IsSuffix(c, a + c)
  {
    SuffixSlice(c, a + c);
    assert (a + c)[|a|..] == c;
  }

  /** The whole frames in `n` bytes take at most `n` bytes, and exactly `n` when `n` is a multiple. */
  lemma WholeFramesIn(n: nat, fs: nat, frames: nat)
    requires fs > 0 && frames == n / fs
    ensures FrameBytes(frames, fs) <= n
    ensures n % fs == 0 ==> FrameBytes(frames, fs) == n
  {
    FrameBytesMul(frames, fs);
    assert n == frames * fs + n % fs;
  }

  /** The size of `n` frames of `fs` bytes, counted one frame at a time. */
  function FrameBytes(n: nat, fs: nat): nat
  {
    if n == 0 then 0 else FrameBytes(n - 1, fs) + fs
  }

  lemma {:induction false} FrameBytesMul(n: nat, fs: nat)
    ensures FrameBytes(n, fs) == n * fs
  {
    if n > 0 {
      FrameBytesMul(n - 1, fs);
    }
  }

  lemma {:induction false} FrameBytesAdd(a: nat, t: nat, fs: nat)
    ensures FrameBytes(a + t, fs) == FrameBytes(a, fs) + FrameBytes(t, fs)
  {
    if t > 0 {
      FrameBytesAdd(a, t - 1, fs);
    }
  }

  /** Division by a positive number is monotone. */
  lemma DivMono(a: nat, b: nat, d: nat)
    requires d > 0 && a <= b
    ensures a / d <= b / d
  {
    var qa, qb := a / d, b / d;
    assert a == qa * d + a % d && b == qb * d + b % d;
    if qa > qb {
      MulMono(qb + 1, qa, d);
    }
  }

  /** `(x * d) / d == x`. */
  lemma MulDivCancel(x: nat, d: nat)
    requires d > 0
    ensures (x * d) / d == x
  {
    DivModUnique(x, 0, x * d, d);
  }

  /** The silence for a gap of `gapUs` lasts no longer than the gap. */
  lemma SilenceFits(f: Format, gapUs: nat)
    requires Rated(f)
    ensures var frames := (gapUs * f.sampleRate) / MicrosPerSecond;
            Dur(f, frames * f.frameSize) == (frames * MicrosPerSecond) / f.sampleRate
            && Dur(f, frames * f.frameSize) <= gapUs
            && (frames * f.frameSize) % f.frameSize == 0
  {
    var frames := (gapUs * f.sampleRate) / MicrosPerSecond;
    MulDivCancel(frames, f.frameSize);
    assert frames * MicrosPerSecond <= gapUs * f.sampleRate;
    DivMono(frames * MicrosPerSecond, gapUs * f.sampleRate, f.sampleRate);
    MulDivCancel(gapUs, f.sampleRate);
    DivModUnique(frames, 0, frames * f.frameSize, f.frameSize);
  }

}

=== FILE: satellite.dfy ===
/**
  `Satellite`: the voice-session logic of `VoiceSatelliteProtocol`. A
  session is a record of flags; each handler returns the new session and
  what it did outside it, in order: messages sent to Home Assistant, calls
  on the TTS and music players, the stop-word switch. Which player is
  playing, what the entities' players report, the done callback the TTS
  player holds, and the connection itself are parameters.
 */
module Satellite {

  import opened Optional
  import opened Text
  import opened Messages
  import Entity
  import MpvPlayer

  /** The callbacks the satellite hands to the TTS player. */
  datatype Callback =
    | TtsFinishedCallback  // `_tts_finished`
    | TimerSoundCallback   // one second's sleep, then `_play_timer_finished`

  datatype Effect =
    | Send(msg: Message)
    | DuckAudio                 // `duck()`: the music player, and a playing TTS player
    | UnduckAudio               // `unduck()`
    | TtsPlay(source: MpvPlayer.Source, callback: Option<Callback>)
    | TtsStop
    | MusicStop
    | StopWord(active: bool)    // the stop word's `is_active`
    | EntityCall(call: Entity.PlayerCall)
    | SavePreferences

  datatype Session = Session(
    streaming: bool,            // `_is_streaming_audio`
    pipelineActive: bool,       // `_pipeline_active`
    ttsPlayed: bool,            // `_tts_played`
    continueConversation: bool, // `_continue_conversation`
    timerFinished: bool,        // `_timer_finished`
    ttsUrl: Option<string>,     // `_tts_url`
    muted: bool,                // `state.muted`
    connected: bool)            // `state.connected`

  /** The messages among the effects, in order. */
  function Sent(effects: seq<Effect>): (r: seq<Message>)
    ensures |r| <= |effects|
  {
    if effects == [] then []
    else Sent(effects[..|effects| - 1]) + (if effects[|effects| - 1].Send? then [effects[|effects| - 1].msg] else [])
  }

  lemma {:induction false} SentAppend(a: seq<Effect>, b: seq<Effect>)
    ensures Sent(a + b) == Sent(a) + Sent(b)
    decreases |b|
  {
    if b == [] {
      assert a + b == a;
    } else {
      assert (a + b)[..|a + b| - 1] == a + b[..|b| - 1];
      SentAppend(a, b[..|b| - 1]);
    }
  }

  /** A start request: with the wake phrase after a wake word, with none when a conversation continues. */
  function StartRequest(phrase: string): Message
  {
    VoiceAssistantRequest(true, phrase)
  }

  /** The session as `__init__` leaves it. */
  function NewSession(muted: bool): (s: Session)
    ensures !s.streaming && !s.pipelineActive && !s.ttsPlayed && !s.continueConversation && !s.timerFinished
    ensures s.ttsUrl.None? && s.muted == muted && !s.connected
  {
    Session(false, false, false, false, false, None, muted, false)
  }

  // ---------------------------------------------------------------------------
  // Muting

  /**
    `_set_muted`: muting stops the microphone stream, the TTS player and the
    stop word. Stopping the TTS player runs the done callback it holds
    (`pending`) before the stop word is switched off; a `_tts_finished`
    that continues a conversation turns the stream back on.
   */
  function SetMuted(s: Session, muted: bool, pending: Option<Callback>, timerSound: string): (r: (Session, seq<Effect>))
    ensures r.0.muted == muted
    ensures !muted ==> r == (s.(muted := false), [])
    ensures muted && pending.None? ==> r == (s.(muted := true, streaming := false), [TtsStop, StopWord(false)])
    ensures muted && pending == Some(TimerSoundCallback) ==>
              r.0 == s.(muted := true, streaming := false)
              && r.1 == [TtsStop] + PlayTimerFinished(s, timerSound) + [StopWord(false)]
    ensures muted && pending == Some(TtsFinishedCallback) ==>
              r.0 == TtsFinished(s.(muted := true, streaming := false)).0
              && r.1 == [TtsStop] + TtsFinished(s).1 + [StopWord(false)]
    ensures muted ==> r.0.streaming == (pending == Some(TtsFinishedCallback) && s.continueConversation)
  {
    if !muted then (s.(muted := false), [])
    else
      var s1 := s.(muted := true, streaming := false);
      match pending
      case None => (s1, [TtsStop, StopWord(false)])
      case Some(callback) =>
        var c := RunCallback(s1, callback, timerSound);
        (c.0, [TtsStop] + c.1 + [StopWord(false)])
  }

  /** Muting sends what the pending callback sends, and nothing else. */
  lemma SetMutedSends(s: Session, muted: bool, pending: Option<Callback>, timerSound: string)
    ensures Sent(SetMuted(s, muted, pending, timerSound).1) == if muted then CallbackSends(s, pending) else []
  {
    if muted {
      var s1 := s.(muted := true, streaming := false);
      var t := StopTts(s1, pending, timerSound);
      StopTtsSends(s1, pending, timerSound);
      assert SetMuted(s, muted, pending, timerSound).1 == t.1 + [StopWord(false)];
      SentAppend(t.1, [StopWord(false)]);
      SentOne(StopWord(false));
    }
  }

  // ---------------------------------------------------------------------------
  // The end of a response

  /**
    `_tts_finished`: Home Assistant hears that the announcement is over; the
    conversation then either continues with a new start request, or the
    pipeline ends and the audio is unducked.
   */
  function TtsFinished(s: Session): (r: (Session, seq<Effect>))
    ensures !r.0.continueConversation
    ensures |r.1| == 3 && r.1[..2] == [StopWord(false), Send(AnnounceFinished)]
    ensures s.continueConversation ==>
              r.0 == s.(continueConversation := false, streaming := true, pipelineActive := true)
              && r.1[2] == Send(StartRequest(""))
    ensures !s.continueConversation ==> r.0 == s.(pipelineActive := false) && r.1[2] == UnduckAudio
  {
    var s1 := s.(continueConversation := false);
    if s.continueConversation then
      (s1.(streaming := true, pipelineActive := true), [StopWord(false), Send(AnnounceFinished), Send(StartRequest(""))])
    else
      (s1.(pipelineActive := false), [StopWord(false), Send(AnnounceFinished), UnduckAudio])
  }

  /** `_tts_finished` always sends AnnounceFinished, and a start request exactly when the conversation continues. */
  lemma TtsFinishedSends(s: Session)
    ensures Sent(TtsFinished(s).1) ==
              [AnnounceFinished] + (if s.continueConversation then [StartRequest("")] else [])
    ensures TtsFinished(s).0.pipelineActive <==> s.continueConversation
  {
    var e := TtsFinished(s).1;
    assert e == [StopWord(false)] + [Send(AnnounceFinished)] + [e[2]];
    SentAppend([StopWord(false)] + [Send(AnnounceFinished)], [e[2]]);
    SentAppend([StopWord(false)], [Send(AnnounceFinished)]);
  }

  /** `play_tts`: the response is played only when there is a non-empty URL and it has not been played in this run. */
  function PlayTts(s: Session): (r: (Session, seq<Effect>))
    ensures s.ttsUrl.None? || s.ttsUrl == Some("") || s.ttsPlayed ==> r == (s, [])
    ensures s.ttsUrl.Some? && s.ttsUrl != Some("") && !s.ttsPlayed ==>
              r.0 == s.(ttsPlayed := true)
              && r.1 == [StopWord(true), TtsPlay(MpvPlayer.Single(s.ttsUrl.value), Some(TtsFinishedCallback))]
    ensures r.0.ttsPlayed
            || (r == (s, []) && !s.ttsPlayed)
  {
    if s.ttsUrl.None? || s.ttsUrl.value == "" || s.ttsPlayed then (s, [])
    else (s.(ttsPlayed := true), [StopWord(true), TtsPlay(MpvPlayer.Single(s.ttsUrl.value), Some(TtsFinishedCallback))])
  }

  /** A response plays at most once: a second `play_tts` does nothing. */
  lemma PlayTtsOnce(s: Session)
    ensures PlayTts(PlayTts(s).0) == (PlayTts(s).0, [])
  {
  }

  // ---------------------------------------------------------------------------
  // Pipeline events

  /** `msg.data` turned into a dict: a later argument with the same name wins. */
  function ArgsMap(args: seq<(string, string)>): (m: map<string, string>)
    ensures forall k :: k in m <==> exists i :: 0 <= i < |args| && args[i].0 == k
  {
    if args == [] then map[]
    else
      var m0 := ArgsMap(args[..|args| - 1]);
      var last := args[|args| - 1];
      assert forall i :: 0 <= i < |args| - 1 ==> args[..|args| - 1][i] == args[i];
      m0[last.0 := last.1]
  }

  /** The value under a name is that of the last argument with the name. */
  lemma {:induction false} ArgsMapLast(args: seq<(string, string)>, i: nat)
    requires i < |args|
    requires forall j :: i < j < |args| ==> args[j].0 != args[i].0
    ensures args[i].0 in ArgsMap(args) && ArgsMap(args)[args[i].0] == args[i].1
    decreases |args|
  {
    if i < |args| - 1 {
      var init := args[..|args| - 1];
      assert forall j :: i < j < |init| ==> init[j] == args[j];
      ArgsMapLast(init, i);
    }
  }

  /** `data.get(name)`. */
  function Lookup(data: map<string, string>, name: string): Option<string>
  {
    if name in data then Some(data[name]) else None
  }

  /** `data.get(name) == "1"`. */
  predicate Flag(data: map<string, string>, name: string)
  {
    name in data && data[name] == "1"
  }

  /** `handle_voice_event`. Events other than the seven below change nothing (an error is not handled). */
  function HandleVoiceEvent(s: Session, event: VoiceEvent, data: map<string, string>): (r: (Session, seq<Effect>))
    ensures event == RunStart ==>
              r == (s.(ttsUrl := Lookup(data, "url"), ttsPlayed := false, continueConversation := false,
                       pipelineActive := true), [])
    ensures event == SttVadEnd || event == SttEnd ==> r == (s.(streaming := false), [])
    ensures event == IntentProgress ==> r == (if Flag(data, "tts_start_streaming") then PlayTts(s) else (s, []))
    ensures event == IntentEnd ==>
              r == (if Flag(data, "continue_conversation") then s.(continueConversation := true) else s, [])
    ensures event == TtsEnd ==> r == PlayTts(s.(ttsUrl := Lookup(data, "url")))
    ensures event == RunEnd ==> r == RunEnded(s)
    ensures event.OtherVoiceEvent? ==> r == (s, [])
  {
    match event
    case RunStart =>
      (s.(ttsUrl := Lookup(data, "url"), ttsPlayed := false, continueConversation := false, pipelineActive := true), [])
    case SttVadEnd => (s.(streaming := false), [])
    case SttEnd => (s.(streaming := false), [])
    case IntentProgress => if Flag(data, "tts_start_streaming") then PlayTts(s) else (s, [])
    case IntentEnd => (if Flag(data, "continue_conversation") then s.(continueConversation := true) else s, [])
    case TtsEnd => PlayTts(s.(ttsUrl := Lookup(data, "url")))
    case RunEnd => RunEnded(s)
    case OtherVoiceEvent(_) => (s, [])
  }

  /** Pipeline events leave the mute flag, a ringing timer and the connection alone. */
  lemma VoiceEventKeepsDevice(s: Session, event: VoiceEvent, data: map<string, string>)
    ensures var r := HandleVoiceEvent(s, event, data).0;
            r.muted == s.muted && r.timerFinished == s.timerFinished && r.connected == s.connected
  {
    match event
    case IntentProgress =>
    case TtsEnd =>
    case RunEnd =>
    case _ =>
  }

  /**
    RUN_END: the microphone stream stops; a run whose response was never
    played finishes here, which may continue the conversation and so turn
    the stream back on.
   */
  function RunEnded(s: Session): (r: (Session, seq<Effect>))
    ensures !r.0.ttsPlayed && (r.0.streaming <==> !s.ttsPlayed && s.continueConversation)
    ensures s.ttsPlayed ==> r == (s.(streaming := false, ttsPlayed := false), [])
    ensures !s.ttsPlayed ==>
              r.1 == TtsFinished(s).1 && r.0 == TtsFinished(s.(streaming := false)).0.(ttsPlayed := false)
    ensures r.0.muted == s.muted && r.0.timerFinished == s.timerFinished && r.0.connected == s.connected
  {
    var s1 := s.(streaming := false);
    if !s.ttsPlayed then
      var f := TtsFinished(s1);
      (f.0.(ttsPlayed := false), f.1)
    else (s1.(ttsPlayed := false), [])
  }

  /**
    Within one run the response plays at most once: after RUN_START, an early
    start on INTENT_PROGRESS and the TTS_END that follows produce a single
    `TtsPlay` between them.
   */
  lemma OnePlayPerRun(s: Session, startData: map<string, string>, progressData: map<string, string>,
                      endData: map<string, string>)
    requires Flag(progressData, "tts_start_streaming") && "url" in startData && startData["url"] != ""
    ensures var s1 := HandleVoiceEvent(s, RunStart, startData).0;
            var s2 := HandleVoiceEvent(s1, IntentProgress, progressData);
            var s3 := HandleVoiceEvent(s2.0, TtsEnd, endData);
            s2.1 == [StopWord(true), TtsPlay(MpvPlayer.Single(startData["url"]), Some(TtsFinishedCallback))]
            && s3.1 == []
  {
  }

  // ---------------------------------------------------------------------------
  // Timers

  /** `_play_timer_finished`: the timer sound loops while the flag is set; once it is cleared the audio is unducked. */
  function PlayTimerFinished(s: Session, timerSound: string): (r: seq<Effect>)
    ensures s.timerFinished ==> r == [TtsPlay(MpvPlayer.Single(timerSound), Some(TimerSoundCallback))]
    ensures !s.timerFinished ==> r == [UnduckAudio]
  {
    if !s.timerFinished then [UnduckAudio]
    else [TtsPlay(MpvPlayer.Single(timerSound), Some(TimerSoundCallback))]
  }

  /** `handle_timer_event`: a finished timer rings once, however many times it is reported. */
  function HandleTimerEvent(s: Session, event: TimerEvent, timerSound: string): (r: (Session, seq<Effect>))
    ensures event == TimerFinished && !s.timerFinished ==>
              r.0 == s.(timerFinished := true)
              && r.1 == [StopWord(true), DuckAudio, TtsPlay(MpvPlayer.Single(timerSound), Some(TimerSoundCallback))]
    ensures event != TimerFinished || s.timerFinished ==> r == (s, [])
  {
    if event == TimerFinished && !s.timerFinished then
      var s1 := s.(timerFinished := true);
      (s1, [StopWord(true), DuckAudio] + PlayTimerFinished(s1, timerSound))
    else (s, [])
  }

  /**
    `tts_player.stop()`: the player stops, then runs the done callback it
    holds, if any (`_finish` in mpv_player.py).
   */
  function StopTts(s: Session, pending: Option<Callback>, timerSound: string): (r: (Session, seq<Effect>))
    ensures pending.None? ==> r == (s, [TtsStop])
    ensures pending.Some? ==> r.0 == RunCallback(s, pending.value, timerSound).0
                              && r.1 == [TtsStop] + RunCallback(s, pending.value, timerSound).1
    ensures r.0.muted == s.muted && r.0.timerFinished == s.timerFinished && r.0.ttsPlayed == s.ttsPlayed
  {
    match pending
    case None => (s, [TtsStop])
    case Some(callback) =>
      var c := RunCallback(s, callback, timerSound);
      (c.0, [TtsStop] + c.1)
  }

  /**
    What the pending callback sends when the TTS player is stopped:
    `_tts_finished` reports the response over, and starts a new request when
    the conversation continues; the timer callback sends nothing.
   */
  function CallbackSends(s: Session, pending: Option<Callback>): seq<Message>
  {
    if pending == Some(TtsFinishedCallback) then
      [AnnounceFinished] + (if s.continueConversation then [StartRequest("")] else [])
    else []
  }

  lemma SentOne(e: Effect)
    ensures Sent([e]) == if e.Send? then [e.msg] else []
  {
    assert [e][..0] == [];
  }

  /** Stopping the TTS player sends exactly what its pending callback sends. */
  lemma StopTtsSends(s: Session, pending: Option<Callback>, timerSound: string)
    ensures Sent(StopTts(s, pending, timerSound).1) == CallbackSends(s, pending)
  {
    SentOne(TtsStop);
    if pending.Some? {
      var c := RunCallback(s, pending.value, timerSound).1;
      SentAppend([TtsStop], c);
      if pending.value == TtsFinishedCallback {
        TtsFinishedSends(s);
      } else {
        SentOne(c[0]);
        assert c == [c[0]];
      }
    }
  }

  /** The player calls a callback the satellite handed it. */
  function RunCallback(s: Session, callback: Callback, timerSound: string): (r: (Session, seq<Effect>))
    ensures callback == TtsFinishedCallback ==> r == TtsFinished(s)
    ensures callback == TimerSoundCallback ==> r.0 == s && r.1 == PlayTimerFinished(s, timerSound)
  {
    match callback
    case TtsFinishedCallback => TtsFinished(s)
    case TimerSoundCallback => (s, PlayTimerFinished(s, timerSound))
  }

  // ---------------------------------------------------------------------------
  // Wake word, audio, stop

  /**
    `wakeup`: a ringing timer is silenced instead; a muted satellite or one
    with a pipeline already running ignores the wake word; otherwise one
    start request carrying the wake phrase goes out and the microphone
    streams.
   */
  function Wakeup(s: Session, phrase: string, wakeupSound: string, pending: Option<Callback>, timerSound: string)
    : (r: (Session, seq<Effect>))
    ensures s.timerFinished ==> r == StopTts(s.(timerFinished := false), pending, timerSound)
    ensures !s.timerFinished && (s.muted || s.pipelineActive) ==> r == (s, [])
    ensures !s.timerFinished && !s.muted && !s.pipelineActive ==>
              r.0 == s.(streaming := true, pipelineActive := true)
              && r.1 == [Send(StartRequest(phrase)), DuckAudio, TtsPlay(MpvPlayer.Single(wakeupSound), None)]
  {
    if s.timerFinished then StopTts(s.(timerFinished := false), pending, timerSound)
    else if s.muted || s.pipelineActive then (s, [])
    else
      (s.(streaming := true, pipelineActive := true),
       [Send(StartRequest(phrase)), DuckAudio, TtsPlay(MpvPlayer.Single(wakeupSound), None)])
  }

  /**
    An accepted wake word sends exactly one message, the start request; one
    that silences a timer sends what the TTS player's pending callback sends;
    otherwise nothing is sent.
   */
  lemma WakeupSends(s: Session, phrase: string, wakeupSound: string, pending: Option<Callback>, timerSound: string)
    ensures Sent(Wakeup(s, phrase, wakeupSound, pending, timerSound).1) ==
              if s.timerFinished then CallbackSends(s, pending)
              else if !s.muted && !s.pipelineActive then [StartRequest(phrase)] else []
  {
    var e := Wakeup(s, phrase, wakeupSound, pending, timerSound).1;
    if s.timerFinished {
      StopTtsSends(s.(timerFinished := false), pending, timerSound);
    } else if !s.muted && !s.pipelineActive {
      assert e == [Send(StartRequest(phrase))] + [DuckAudio, TtsPlay(MpvPlayer.Single(wakeupSound), None)];
      SentAppend([Send(StartRequest(phrase))], [DuckAudio, TtsPlay(MpvPlayer.Single(wakeupSound), None)]);
      SentAppend([DuckAudio], [TtsPlay(MpvPlayer.Single(wakeupSound), None)]);
    }
  }

  /** A wake word during a running pipeline is dropped, not allowed to pre-empt it. */
  lemma WakeWhileBusyIgnored(s: Session, phrase: string, wakeupSound: string, pending: Option<Callback>,
                             timerSound: string)
    requires s.pipelineActive && !s.timerFinished
    ensures Wakeup(s, phrase, wakeupSound, pending, timerSound) == (s, [])
  {
  }

  /**
    A wake word that silences the timer sound: the sound's own callback then
    finds the flag cleared and unducks the audio.
   */
  lemma WakeupSilencesTimer(s: Session, phrase: string, wakeupSound: string, timerSound: string)
    requires s.timerFinished
    ensures Wakeup(s, phrase, wakeupSound, Some(TimerSoundCallback), timerSound)
            == (s.(timerFinished := false), [TtsStop, UnduckAudio])
  {
    assert [TtsStop] + [UnduckAudio] == [TtsStop, UnduckAudio];
  }

  /** `handle_audio`: a chunk is forwarded exactly when the microphone streams and the satellite is not muted. */
  function HandleAudio(s: Session, chunk: seq<int>): (r: seq<Effect>)
    ensures |Sent(r)| == |r|
    ensures s.streaming && !s.muted <==> r == [Send(VoiceAssistantAudio(chunk))]
    ensures !(s.streaming && !s.muted) <==> r == []
  {
    if !s.streaming || s.muted then [] else [Send(VoiceAssistantAudio(chunk))]
  }

  /**
    `stop`: the response is cut short; a ringing timer is silenced instead
    of finishing the response. The TTS player is stopped while the
    conversation flag is still set, so a pending `_tts_finished` runs first
    and may start a new request before the flags are cleared.
   */
  function Stop(s: Session, pending: Option<Callback>, timerSound: string): (r: (Session, seq<Effect>))
    ensures !r.0.pipelineActive && !r.0.continueConversation && !r.0.timerFinished
    ensures r.0.streaming == (s.streaming || (pending == Some(TtsFinishedCallback) && s.continueConversation))
    ensures r.0.ttsPlayed == s.ttsPlayed && r.0.muted == s.muted && r.0.ttsUrl == s.ttsUrl
    ensures r.1 == [StopWord(false)] + StopTts(s, pending, timerSound).1
                   + (if s.timerFinished then [] else [StopWord(false), Send(AnnounceFinished), UnduckAudio])
  {
    var t := StopTts(s, pending, timerSound);
    var s1 := t.0.(continueConversation := false, pipelineActive := false);
    if s1.timerFinished then (s1.(timerFinished := false), [StopWord(false)] + t.1)
    else
      var f := TtsFinished(s1);
      (f.0, [StopWord(false)] + t.1 + f.1)
  }

  /**
    A manual stop reports the response finished unless it only silenced a
    timer; before that comes whatever the TTS player's pending callback
    sends, which is the only way it can start a new request.
   */
  lemma StopSends(s: Session, pending: Option<Callback>, timerSound: string)
    ensures Sent(Stop(s, pending, timerSound).1)
            == CallbackSends(s, pending) + (if s.timerFinished then [] else [AnnounceFinished])
  {
    var t := StopTts(s, pending, timerSound).1;
    StopTtsSends(s, pending, timerSound);
    SentOne(StopWord(false));
    SentAppend([StopWord(false)], t);
    if !s.timerFinished {
      var s1 := s.(continueConversation := false);
      TtsFinishedSends(s1);
      assert TtsFinished(s1).1 == [StopWord(false), Send(AnnounceFinished), UnduckAudio];
      SentAppend([StopWord(false)] + t, TtsFinished(s1).1);
    }
  }

  /** A stop during a continued conversation's response: the callback's request goes out between two reports. */
  lemma StopDuringContinuedConversation(s: Session, timerSound: string)
    requires s.continueConversation && !s.timerFinished
    ensures Sent(Stop(s, Some(TtsFinishedCallback), timerSound).1)
            == [AnnounceFinished, StartRequest(""), AnnounceFinished]
    ensures var r := Stop(s, Some(TtsFinishedCallback), timerSound).0;
            r.streaming && !r.pipelineActive
  {
    StopSends(s, Some(TtsFinishedCallback), timerSound);
  }

  /**
    `connection_lost`: every session flag is cleared, both players stop, and
    the satellite is disconnected. The TTS player's pending callback runs on
    the cleared session, so at most a final AnnounceFinished is handed to the
    closed connection.
   */
  function ConnectionLost(s: Session, pending: Option<Callback>, timerSound: string): (r: (Session, seq<Effect>))
    ensures !r.0.streaming && !r.0.pipelineActive && !r.0.ttsPlayed && !r.0.continueConversation && !r.0.timerFinished
    ensures r.0.ttsUrl.None? && !r.0.connected && r.0.muted == s.muted
    ensures r.1 == [MusicStop] + StopTts(NewSession(s.muted), pending, timerSound).1 + [StopWord(false)]
  {
    var t := StopTts(NewSession(s.muted), pending, timerSound);
    (t.0, [MusicStop] + t.1 + [StopWord(false)])
  }

  /** After the connection is lost, only a pending `_tts_finished` still hands a message, AnnounceFinished, to it. */
  lemma ConnectionLostSends(s: Session, pending: Option<Callback>, timerSound: string)
    ensures Sent(ConnectionLost(s, pending, timerSound).1)
            == if pending == Some(TtsFinishedCallback) then [AnnounceFinished] else []
  {
    var c := NewSession(s.muted);
    var t := StopTts(c, pending, timerSound).1;
    StopTtsSends(c, pending, timerSound);
    SentAppend([MusicStop] + t, [StopWord(false)]);
    SentAppend([MusicStop], t);
    SentOne(MusicStop);
    SentOne(StopWord(false));
  }

  // ---------------------------------------------------------------------------
  // Device name

  /** The characters `[\s-]` matches. */
  const Separators: set<char> := Whitespace + {'-'}

  /** `re.sub(r'[\s-]+', '-', s)`: each run of whitespace and dashes becomes one dash. */
  function CollapseSeparators(s: string): (r: string)
    ensures |r| <= |s|
    ensures r != [] && r[0] == '-' <==> s != [] && s[0] in Separators
    ensures Collapsed(r)
    ensures NoUpper(s) ==> NoUpper(r)
    decreases |s|
  {
    if s == [] then []
    else if s[0] in Separators then
      var rest := TrimStart(s, Separators);
      TrimStartIsTail(s, Separators);
      assert NoUpper(s) ==> NoUpper(rest) by {
        assert forall i :: 0 <= i < |rest| ==> rest[i] == s[|s| - |rest| + i];
      }
      ['-'] + CollapseSeparators(rest)
    else
      assert NoUpper(s) ==> NoUpper(s[1..]) by {
        assert forall i :: 0 <= i < |s[1..]| ==> s[1..][i] == s[i + 1];
      }
      [s[0]] + CollapseSeparators(s[1..])
  }

  /**
    The same substitution read one character at a time: a separator becomes
    a dash when it starts a run (`inRun` is false) and disappears inside one;
    every other character is copied.
   */
  function CollapseRuns(s: string, inRun: bool): string
  {
    if s == [] then []
    else if s[0] in Separators then (if inRun then [] else ['-']) + CollapseRuns(s[1..], true)
    else [s[0]] + CollapseRuns(s[1..], false)
  }

  /** Inside a run, the rest of the run contributes nothing. */
  lemma {:induction false} CollapseRunsSkips(s: string)
    ensures CollapseRuns(s, true) == CollapseRuns(TrimStart(s, Separators), true)
    decreases |s|
  {
    if s != [] && s[0] in Separators {
      CollapseRunsSkips(s[1..]);
      assert CollapseRuns(s, true) == [] + CollapseRuns(s[1..], true);
    }
  }

  /** Collapsing a whole run at once agrees with the character-at-a-time reading. */
  lemma {:induction false} CollapseSeparatorsByRuns(s: string)
    ensures CollapseSeparators(s) == CollapseRuns(s, false)
    decreases |s|
  {
    if s != [] {
      if s[0] in Separators {
        var rest := TrimStart(s, Separators);
        CollapseRunsSkips(s[1..]);
        assert rest == TrimStart(s[1..], Separators);
        CollapseSeparatorsByRuns(rest);
        assert CollapseRuns(rest, true) == CollapseRuns(rest, false);
      } else {
        CollapseSeparatorsByRuns(s[1..]);
      }
    }
  }

  /** Collapsing only turns separators into dashes: without them, input and output agree. */
  lemma {:induction false} CollapseKeepsText(s: string)
    ensures Remove(CollapseSeparators(s), {'-'}) == Remove(s, Separators)
    decreases |s|
  {
    if s != [] {
      var r := CollapseSeparators(s);
      if s[0] in Separators {
        var rest := TrimStart(s, Separators);
        var k := |s| - |rest|;
        TrimStartIsTail(s, Separators);
        CollapseKeepsText(rest);
        RemoveAppend(['-'], CollapseSeparators(rest), {'-'});
        assert s == s[..k] + rest;
        RemoveAppend(s[..k], rest, Separators);
        RemoveDropped(s[..k], Separators);
        RemoveDropped(['-'], {'-'});
      } else {
        CollapseKeepsText(s[1..]);
        assert r[1..] == CollapseSeparators(s[1..]);
      }
    }
  }

  /** No whitespace, and no two dashes in a row. */
  predicate Collapsed(s: string)
  {
    (forall i :: 0 <= i < |s| ==> !IsSpace(s[i]))
    && (forall i :: 0 <= i < |s| - 1 ==> s[i] == '-' ==> s[i + 1] != '-')
  }

  predicate NoUpper(s: string)
  {
    forall i :: 0 <= i < |s| ==> !IsUpper(s[i])
  }

  /** A string that is already collapsed is left alone. */
  lemma {:induction false} CollapseCollapsed(s: string)
    requires Collapsed(s)
    ensures CollapseSeparators(s) == s
    decreases |s|
  {
    if s != [] {
      CollapsedTail(s);
      CollapseCollapsed(s[1..]);
      if s[0] in Separators {
        CollapsedSingleDash(s);
      }
    }
  }

  lemma CollapsedTail(s: string)
    requires Collapsed(s) && s != []
    ensures Collapsed(s[1..])
  {
    assert forall i :: 0 <= i < |s[1..]| ==> s[1..][i] == s[i + 1];
  }

  /** In a collapsed string a leading separator is a single dash. */
  lemma CollapsedSingleDash(s: string)
    requires Collapsed(s) && s != [] && s[0] in Separators
    ensures TrimStart(s, Separators) == s[1..]
  {
    assert s[0] == '-';
    assert s[1..] == [] || s[1..][0] !in Separators;
  }

  /** Trimming dashes off a collapsed, lower-case string keeps it so. */
  lemma CollapsedTrim(s: string)
    requires Collapsed(s) && NoUpper(s)
    ensures Collapsed(Trim(s, {'-'})) && NoUpper(Trim(s, {'-'}))
  {
    TrimIsSlice(s, {'-'});
    var r := Trim(s, {'-'});
    var lo :| SliceAt(s, lo, r);
    assert forall i :: 0 <= i < |r| ==> r[i] == s[lo + i];
  }

  /** Dropping the trimmed characters before or after trimming gives the same string. */
  lemma TrimKeepsText(s: string, chars: set<char>)
    ensures Remove(Trim(s, chars), chars) == Remove(s, chars)
  {
    TrimStartKeepsText(s, chars);
    TrimEndKeepsText(TrimStart(s, chars), chars);
  }

  lemma TrimStartKeepsText(s: string, chars: set<char>)
    ensures Remove(TrimStart(s, chars), chars) == Remove(s, chars)
  {
    var a := TrimStart(s, chars);
    var lo := |s| - |a|;
    TrimStartIsTail(s, chars);
    assert s == s[..lo] + a;
    RemoveAppend(s[..lo], a, chars);
    RemoveDropped(s[..lo], chars);
  }

  lemma TrimEndKeepsText(s: string, chars: set<char>)
    ensures Remove(TrimEnd(s, chars), chars) == Remove(s, chars)
  {
    var e := TrimEnd(s, chars);
    TrimEndIsHead(s, chars);
    var after := s[|e|..];
    assert s == e + after;
    assert forall i :: 0 <= i < |after| ==> after[i] == s[|e| + i];
    RemoveAppend(e, after, chars);
    RemoveDropped(after, chars);
  }

  /**
    What a base name says about the name it came from: lower case, collapsed,
    no dash at either end, and without its dashes it is the name's
    non-separator characters, lower-cased, in order.
   */
  predicate IsBaseNameOf(b: string, name: string)
  {
    Collapsed(b) && NoUpper(b) && (b == [] || (b[0] != '-' && b[|b| - 1] != '-'))
    && Remove(b, {'-'}) == Remove(Lower(name), Separators)
  }

  /**
    The device's base name: lower case, separator runs collapsed to one dash,
    no dash at either end. The second clause pins where the dashes go, against
    the one-character-at-a-time reference `CollapseRuns`.
   */
  function BaseName(name: string): (r: string)
    ensures IsBaseNameOf(r, name)
    ensures r == Trim(CollapseRuns(Lower(name), false), {'-'})
  {
    var c := CollapseSeparators(Lower(name));
    CollapseSeparatorsByRuns(Lower(name));
    CollapsedTrim(c);
    CollapseKeepsText(Lower(name));
    TrimKeepsText(c, {'-'});
    Trim(c, {'-'})
  }

  /** Every character of `s` except those in `drop`, in order. */
  function Remove(s: string, drop: set<char>): (r: string)
    ensures |r| <= |s|
    ensures forall i :: 0 <= i < |r| ==> r[i] !in drop
  {
    if s == [] then []
    else (if s[0] in drop then [] else [s[0]]) + Remove(s[1..], drop)
  }

  /** A single character is kept exactly when it is not dropped. */
  lemma RemoveOne(c: char, drop: set<char>)
    ensures Remove([c], drop) == if c in drop then [] else [c]
  {
    assert [c][1..] == [];
  }

  /** A string of dropped characters disappears entirely. */
  lemma {:induction false} RemoveDropped(s: string, drop: set<char>)
    requires forall i :: 0 <= i < |s| ==> s[i] in drop
    ensures Remove(s, drop) == []
  {
    if s != [] {
      assert forall i :: 0 <= i < |s[1..]| ==> s[1..][i] == s[i + 1];
      RemoveDropped(s[1..], drop);
    }
  }

  /** A string with no dropped character is kept whole. */
  lemma {:induction false} RemoveNothing(s: string, drop: set<char>)
    requires forall i :: 0 <= i < |s| ==> s[i] !in drop
    ensures Remove(s, drop) == s
  {
    if s != [] {
      assert forall i :: 0 <= i < |s[1..]| ==> s[1..][i] == s[i + 1];
      RemoveNothing(s[1..], drop);
    }
  }

  /** A character that is not dropped survives. */
  lemma {:induction false} RemoveKeeps(s: string, drop: set<char>, i: int)
    requires 0 <= i < |s| && s[i] !in drop
    ensures s[i] in Remove(s, drop)
  {
    if i > 0 {
      RemoveKeeps(s[1..], drop, i - 1);
    }
  }

  /** Removing characters distributes over concatenation, so the order of what is kept is the original order. */
  lemma {:induction false} RemoveAppend(a: string, b: string, drop: set<char>)
    ensures Remove(a + b, drop) == Remove(a, drop) + Remove(b, drop)
  {
    if a == [] {
      assert a + b == b;
    } else {
      var head := if a[0] in drop then [] else [a[0]];
      var ab := a + b;
      assert ab[0] == a[0] && ab[1..] == a[1..] + b;
      RemoveAppend(a[1..], b, drop);
      assert Remove(ab, drop) == head + (Remove(a[1..], drop) + Remove(b, drop));
      assert Remove(a, drop) == head + Remove(a[1..], drop);
    }
  }

  /** `s[-6:]`. */
  function LastSix(s: string): (r: string)
    ensures |r| == if |s| < 6 then |s| else 6
    ensures s == s[..|s| - |r|] + r
  {
    if |s| <= 6 then s else s[|s| - 6..]
  }

  /**
    The name in the DeviceInfo response: the base name of the configured
    name, a dash, and the last six characters of the MAC address without its
    colons, lower-cased.
   */
  function DeviceName(name: string, mac: string): (r: string)
    ensures var m := Lower(Remove(mac, {':'}));
            var k := if |m| < 6 then |m| else 6;
            |r| >= k + 1
            && r[|r| - k..] == m[|m| - k..] && ':' !in r[|r| - k..]
            && r[|r| - k - 1] == '-'
            && IsBaseNameOf(r[..|r| - k - 1], name)
            && r[..|r| - k - 1] == Trim(CollapseRuns(Lower(name), false), {'-'})
  {
    var m := Lower(Remove(mac, {':'}));
    var tail := LastSix(m);
    LowerKeeps(Remove(mac, {':'}), ':');
    assert tail == m[|m| - |tail|..];
    JoinAtDash(BaseName(name), tail);
    BaseName(name) + "-" + tail
  }

  /** A separator between two letters becomes exactly one dash, in its place. */
  lemma BaseNameSpaceIsDash()
    ensures BaseName("a b") == "a-b"
  {
    assert Lower("a b") == "a b";
    assert CollapseRuns("a b", false) == "a-b" by {
      assert "a b"[1..] == " b" && " b"[1..] == "b" && "b"[1..] == [];
    }
    assert Trim("a-b", {'-'}) == "a-b" by {
      TrimUnpadded("a-b", {'-'});
    }
  }

  lemma JoinAtDash(a: string, b: string)
    ensures var r := a + "-" + b;
            |r| == |a| + 1 + |b| && r[..|a|] == a && r[|a|] == '-' && r[|a| + 1..] == b
  {
  }

  /** The base name is stable: building it from a base name gives the same base name. */
  lemma BaseNameIdempotent(name: string)
    ensures BaseName(BaseName(name)) == BaseName(name)
  {
    var b := BaseName(name);
    NoUpperLower(b);
    CollapseCollapsed(b);
    if b != [] {
      TrimUnpadded(b, {'-'});
    }
  }

  lemma {:induction false} NoUpperLower(s: string)
    requires NoUpper(s)
    ensures Lower(s) == s
  {
  }

  lemma LowerKeeps(s: string, c: char)
    requires c !in s && !IsUpper(c) && !IsLower(c)
    ensures c !in Lower(s)
  {
  }

  // ---------------------------------------------------------------------------
  // Wake word configuration

  /**
    The wake words: those Home Assistant may choose from (in the order the
    configuration response lists them), those loaded so far with their
    `is_active` flags, the ids saved as preferences, and `wake_words_changed`.
   */
  datatype WakeWords = WakeWords(
    available: seq<WakeWordInfo>,
    loaded: map<string, bool>,
    preferred: set<string>,
    changed: bool)

  function AvailableIds(w: WakeWords): set<string>
  {
    set i | 0 <= i < |w.available| :: w.available[i].id
  }

  /** The ids of the loaded wake words that are active. */
  function ActiveIds(w: WakeWords): set<string>
  {
    set id | id in w.loaded && w.loaded[id]
  }

  /** A requested wake word that is neither loaded nor available is skipped; one that is available but not loaded is loaded. */
  predicate Loadable(id: string, loaded: set<string>, available: set<string>)
  {
    id !in loaded && id in available
  }

  /**
    The loop over `msg.active_wake_words`: loaded ids are activated, unknown
    ids skipped, and the first one that has to be loaded is loaded,
    activated, and ends the loop. The result is the activated ids and the id
    loaded, if any.
   */
  function Select(requested: seq<string>, loaded: set<string>, available: set<string>): (r: (set<string>, Option<string>))
    ensures forall id :: id in r.0 ==> id in requested && (id in loaded || r.1 == Some(id))
    ensures r.1.Some? ==> r.1.value in requested && Loadable(r.1.value, loaded, available) && r.1.value in r.0
    ensures r.1.None? ==> forall i :: 0 <= i < |requested| ==> !Loadable(requested[i], loaded, available)
    ensures r.1.None? ==> forall i :: 0 <= i < |requested| && requested[i] in loaded ==> requested[i] in r.0
    decreases |requested|
  {
    if requested == [] then ({}, None)
    else
      var id := requested[0];
      if id in loaded then
        var rest := Select(requested[1..], loaded, available);
        assert forall i :: 1 <= i < |requested| ==> requested[i] == requested[1..][i - 1];
        ({id} + rest.0, rest.1)
      else if id !in available then
        assert forall i :: 1 <= i < |requested| ==> requested[i] == requested[1..][i - 1];
        Select(requested[1..], loaded, available)
      else ({id}, Some(id))
  }

  /** Whatever follows the first wake word that has to be loaded is ignored, even ids already loaded. */
  lemma {:induction false} SelectStopsAtFirstLoad(before: seq<string>, id: string, after: seq<string>,
                                                   loaded: set<string>, available: set<string>)
    requires Loadable(id, loaded, available)
    ensures Select(before + [id] + after, loaded, available) == Select(before + [id], loaded, available)
    decreases |before|
  {
    if before == [] {
      assert ([] + [id] + after)[1..] == after;
    } else {
      assert (before + [id] + after)[1..] == before[1..] + [id] + after;
      assert (before + [id])[1..] == before[1..] + [id];
      SelectStopsAtFirstLoad(before[1..], id, after, loaded, available);
    }
  }

  /** `VoiceAssistantSetConfiguration`: activates the selected wake words, deactivates the others, saves the preferences. */
  function SetActiveWakeWords(w: WakeWords, requested: seq<string>): (r: (WakeWords, seq<Effect>))
    ensures var sel := Select(requested, w.loaded.Keys, AvailableIds(w));
            ActiveIds(r.0) == sel.0 == r.0.preferred
            && r.0.loaded.Keys == w.loaded.Keys + (if sel.1.Some? then {sel.1.value} else {})
    ensures r.0.changed && r.0.available == w.available && r.1 == [SavePreferences]
    ensures forall id :: id in ActiveIds(r.0) ==> id in requested
  {
    var sel := Select(requested, w.loaded.Keys, AvailableIds(w));
    var keys := w.loaded.Keys + (if sel.1.Some? then {sel.1.value} else {});
    var loaded := map id | id in keys :: id in sel.0;
    (w.(loaded := loaded, preferred := sel.0, changed := true), [SavePreferences])
  }

  /** One request loads at most one new wake word. */
  lemma SetConfigurationLoadsAtMostOne(w: WakeWords, requested: seq<string>)
    ensures |SetActiveWakeWords(w, requested).0.loaded.Keys - w.loaded.Keys| <= 1
  {
    var sel := Select(requested, w.loaded.Keys, AvailableIds(w));
    var added := SetActiveWakeWords(w, requested).0.loaded.Keys - w.loaded.Keys;
    if sel.1.Some? {
      assert added <= {sel.1.value};
    } else {
      assert added == {};
    }
  }

  /**
    Asking for a new wake word first and a loaded one second activates only
    the new one: the loaded wake word is switched off although it was asked for.
   */
  lemma SetConfigurationDropsLaterIds()
    ensures var w := WakeWords([WakeWordInfo("b", "B", [])], map["a" := true], {}, false);
            ActiveIds(SetActiveWakeWords(w, ["b", "a"]).0) == {"b"}
  {
    var w := WakeWords([WakeWordInfo("b", "B", [])], map["a" := true], {}, false);
    assert w.available[0].id == "b";
    SelectStopsAtFirstLoad([], "b", ["a"], {"a"}, AvailableIds(w));
    assert Select(["b"], {"a"}, AvailableIds(w)) == ({"b"}, Some("b"));
    assert [] + ["b"] + ["a"] == ["b", "a"];
  }

  /** `VoiceAssistantConfigurationRequest`: the available wake words, the active ids, and at most two at a time. */
  function ConfigurationReply(w: WakeWords): (m: Message)
    ensures m.ConfigurationResponse? && m.activeWakeWords == ActiveIds(w) && m.maxActiveWakeWords == 2
    ensures m.availableWakeWords == w.available
  {
    ConfigurationResponse(w.available, ActiveIds(w), 2)
  }

  // ---------------------------------------------------------------------------
  // The satellite

  datatype Satellite = Satellite(
    session: Session,
    media: Entity.MediaPlayer,
    muteSwitch: Entity.MuteSwitch,
    wakeWords: WakeWords,
    name: string,
    macAddress: string,
    timerSound: string)

  /** What `handle_message` returns: the satellite after it, the replies it yields, and what it did besides. */
  datatype Reply = Reply(sat: Satellite, replies: seq<Message>, effects: seq<Effect>)

  /** The player calls of an entity, as effects. */
  function Calls(calls: seq<Entity.PlayerCall>): (r: seq<Effect>)
    ensures |r| == |calls| && Sent(r) == []
    ensures forall i :: 0 <= i < |calls| ==> r[i] == EntityCall(calls[i])
  {
    if calls == [] then []
    else
      var r := Calls(calls[..|calls| - 1]) + [EntityCall(calls[|calls| - 1])];
      SentAppend(Calls(calls[..|calls| - 1]), [EntityCall(calls[|calls| - 1])]);
      r
  }

  const Features: set<Feature> := {VoiceAssistant, ApiAudio, Announce, StartConversation, Timers}

  function DeviceInfo(sat: Satellite): (m: Message)
    ensures m.DeviceInfoResponse? && !m.usesPassword && m.macAddress == sat.macAddress
    ensures m.name == DeviceName(sat.name, sat.macAddress) && m.features == Features
  {
    DeviceInfoResponse(false, DeviceName(sat.name, sat.macAddress), sat.macAddress,
                       "Open Home Foundation", "Linux Voice Assistant", Features)
  }

  /**
    The requests every entity sees: first the media player, then the mute
    switch (whose `set_muted` is the satellite's `_set_muted`), then, for
    ListEntities, the end-of-list marker.
   */
  function ToEntities(sat: Satellite, msg: Message, players: Entity.Players, ttsPending: Option<Callback>)
    : (r: Reply)
    requires ForEntities(msg)
    ensures msg.ListEntitiesRequest? ==>
              r.replies == [Entity.HandleMessage(sat.media, msg, players).replies[0],
                            Entity.HandleSwitch(sat.muteSwitch, msg, sat.session.muted).replies[0],
                            ListEntitiesDoneResponse]
    ensures msg.SwitchCommandRequest? && msg.key == sat.muteSwitch.key ==>
              r.sat.session == SetMuted(sat.session, msg.newState, ttsPending, sat.timerSound).0
              && r.replies == [SwitchStateResponse(msg.key, msg.newState)]
              && r.effects == SetMuted(sat.session, msg.newState, ttsPending, sat.timerSound).1
    ensures !msg.SwitchCommandRequest? ==> r.sat.session == sat.session
    ensures r.sat.wakeWords == sat.wakeWords
  {
    var m := Entity.HandleMessage(sat.media, msg, players);
    var sw := Entity.HandleSwitch(sat.muteSwitch, msg, sat.session.muted);
    var muted := if sw.setMuted.Some? then SetMuted(sat.session, sw.setMuted.value, ttsPending, sat.timerSound) else (sat.session, []);
    var done := if msg.ListEntitiesRequest? then [ListEntitiesDoneResponse] else [];
    Reply(sat.(media := m.entity, muteSwitch := sw.switch, session := muted.0),
          m.replies + sw.replies + done, Calls(m.calls) + muted.1)
  }

  /**
    `VoiceAssistantAnnounceRequest`: the preannounce sound (if any) and the
    announcement are played on the announcement player with `_tts_finished`
    as the done callback.
   */
  function AnnounceUrls(preannounce: string, media: string): (urls: seq<string>)
    ensures urls == if preannounce == "" then [media] else [preannounce, media]
  {
    (if preannounce != "" then [preannounce] else []) + [media]
  }

  function AnnounceMessage(sat: Satellite, preannounce: string, media: string, startConversation: bool,
                    players: Entity.Players): (r: Reply)
    ensures r.sat == sat.(session := sat.session.(continueConversation := startConversation), media := r.sat.media)
    ensures r.sat.media.state == Playing && r.replies == [Entity.StateMessage(r.sat.media)]
    ensures |r.effects| >= 3 && r.effects[0] == StopWord(true) && r.effects[1] == DuckAudio
    ensures r.effects[|r.effects| - 1] ==
              EntityCall(Entity.PlayOn(Entity.AnnouncePlayer, MpvPlayer.Items(AnnounceUrls(preannounce, media)),
                                       if players.musicPlaying then Entity.ResumeMusic else Entity.ReportIdle, true))
  {
    var played := Entity.Play(sat.media, MpvPlayer.Items(AnnounceUrls(preannounce, media)), true, true, players);
    Reply(sat.(session := sat.session.(continueConversation := startConversation), media := played.entity),
          played.replies, [StopWord(true), DuckAudio] + Calls(played.calls))
  }

  /** An announcement sends no message to Home Assistant of its own: the entity's state is its only reply. */
  lemma AnnounceSendsNothing(sat: Satellite, preannounce: string, media: string, startConversation: bool,
                             players: Entity.Players)
    ensures Sent(AnnounceMessage(sat, preannounce, media, startConversation, players).effects) == []
  {
    var played := Entity.Play(sat.media, MpvPlayer.Items(AnnounceUrls(preannounce, media)), true, true, players);
    SentAppend([StopWord(true), DuckAudio], Calls(played.calls));
    SentAppend([StopWord(true)], [DuckAudio]);
  }

  /** The messages that only ask for an answer. */
  predicate Passive(msg: Message)
  {
    !ForEntities(msg) && !msg.EventResponse? && !msg.AnnounceRequest? && !msg.TimerEventResponse?
    && !msg.SetConfiguration?
  }

  /**
    `handle_message` of the satellite. What it does with each kind of
    message is stated by the lemmas after it.
   */
  function HandleMessage(sat: Satellite, msg: Message, players: Entity.Players, ttsPending: Option<Callback>)
    : (r: Reply)
    ensures r.sat.name == sat.name && r.sat.macAddress == sat.macAddress && r.sat.timerSound == sat.timerSound
    ensures Passive(msg) ==> r.sat == sat && r.effects == []
  {
    match msg
    case EventResponse(event, args) =>
      var v := HandleVoiceEvent(sat.session, event, ArgsMap(args));
      Reply(sat.(session := v.0), [], v.1)
    case AnnounceRequest(preannounce, media, startConversation) =>
      AnnounceMessage(sat, preannounce, media, startConversation, players)
    case TimerEventResponse(event) =>
      var t := HandleTimerEvent(sat.session, event, sat.timerSound);
      Reply(sat.(session := t.0), [], t.1)
    case DeviceInfoRequest =>
      Reply(sat, [DeviceInfo(sat)], [])
    case ConfigurationRequest =>
      Reply(sat, [ConfigurationReply(sat.wakeWords)], [])
    case SetConfiguration(requested) =>
      var c := SetActiveWakeWords(sat.wakeWords, requested);
      Reply(sat.(wakeWords := c.0), [], c.1)
    case _ =>
      if ForEntities(msg) then ToEntities(sat, msg, players, ttsPending) else Reply(sat, [], [])
  }

  /** A pipeline event goes to `handle_voice_event` with its arguments as a dict; nothing is replied. */
  lemma HandlesEvent(sat: Satellite, event: VoiceEvent, args: seq<(string, string)>, players: Entity.Players,
                     ttsPending: Option<Callback>)
    ensures var v := HandleVoiceEvent(sat.session, event, ArgsMap(args));
            HandleMessage(sat, EventResponse(event, args), players, ttsPending) == Reply(sat.(session := v.0), [], v.1)
  {
  }

  /** A timer event goes to `handle_timer_event`; nothing is replied. */
  lemma HandlesTimerEvent(sat: Satellite, event: TimerEvent, players: Entity.Players, ttsPending: Option<Callback>)
    ensures var t := HandleTimerEvent(sat.session, event, sat.timerSound);
            HandleMessage(sat, TimerEventResponse(event), players, ttsPending) == Reply(sat.(session := t.0), [], t.1)
  {
  }

  /** An announcement is played through the media player entity. */
  lemma HandlesAnnounce(sat: Satellite, preannounce: string, media: string, startConversation: bool,
                        players: Entity.Players, ttsPending: Option<Callback>)
    ensures HandleMessage(sat, AnnounceRequest(preannounce, media, startConversation), players, ttsPending)
            == AnnounceMessage(sat, preannounce, media, startConversation, players)
  {
  }

  /** DeviceInfo is answered with the device name built from the configured name and the MAC address. */
  lemma HandlesDeviceInfo(sat: Satellite, players: Entity.Players, ttsPending: Option<Callback>)
    ensures HandleMessage(sat, DeviceInfoRequest, players, ttsPending) == Reply(sat, [DeviceInfo(sat)], [])
  {
  }

  /** A configuration request is answered with the wake word configuration. */
  lemma HandlesConfigurationRequest(sat: Satellite, players: Entity.Players, ttsPending: Option<Callback>)
    ensures HandleMessage(sat, ConfigurationRequest, players, ttsPending)
            == Reply(sat, [ConfigurationReply(sat.wakeWords)], [])
  {
  }

  /** SetConfiguration changes only the wake words, and saves the preferences. */
  lemma HandlesSetConfiguration(sat: Satellite, requested: seq<string>, players: Entity.Players,
                                ttsPending: Option<Callback>)
    ensures HandleMessage(sat, SetConfiguration(requested), players, ttsPending)
            == Reply(sat.(wakeWords := SetActiveWakeWords(sat.wakeWords, requested).0), [], [SavePreferences])
  {
  }

  /** The entity requests are handed to the entities. */
  lemma HandlesEntityRequest(sat: Satellite, msg: Message, players: Entity.Players, ttsPending: Option<Callback>)
    requires ForEntities(msg)
    ensures HandleMessage(sat, msg, players, ttsPending) == ToEntities(sat, msg, players, ttsPending)
  {
  }

  /** ListEntities is answered by exactly one descriptor per entity and the end-of-list marker. */
  lemma ListEntitiesReply(sat: Satellite, players: Entity.Players, ttsPending: Option<Callback>)
    ensures HandleMessage(sat, ListEntitiesRequest, players, ttsPending).replies ==
              [ListEntitiesMediaPlayerResponse(sat.media.objectId, sat.media.key, sat.media.name, true),
               ListEntitiesSwitchResponse(sat.muteSwitch.objectId, sat.muteSwitch.key, sat.muteSwitch.name,
                                          ConfigCategory, "mdi:microphone-off"),
               ListEntitiesDoneResponse]
  {
  }

  /**
    `connection_lost` on the whole satellite: the session resets and the
    mute switch re-reads the mute flag.
   */
  function Disconnect(sat: Satellite, ttsPending: Option<Callback>): (r: (Satellite, seq<Effect>))
    ensures r.0.session == ConnectionLost(sat.session, ttsPending, sat.timerSound).0
    ensures r.1 == ConnectionLost(sat.session, ttsPending, sat.timerSound).1
    ensures r.0.muteSwitch.switchState == sat.session.muted
  {
    var c := ConnectionLost(sat.session, ttsPending, sat.timerSound);
    (sat.(session := c.0, muteSwitch := Entity.SyncWithState(sat.muteSwitch, c.0.muted)), c.1)
  }
}

=== FILE: sendspin_bridge.dfy ===
/**
  `SendspinBridge`: the flags that decide whether streamed music plays and
  how loud (stream active, paused, ducked, volume, muted), the `AudioPlayer`
  the bridge creates per stream format, and the state reports it schedules
  for the server. The client connection, its listeners and the event loop
  are left to their callers; the reports and entity updates a handler would
  schedule come back as a list of effects.
 */
module SendspinBridge {

  import opened Optional
  import opened PcmQueue
  import opened PcmPlayer

  const InitialVolume := 100

  /** The stream format the server announces; the player reads only its PCM part. */
  datatype AudioFormat = AudioFormat(codec: string, channels: nat, bitDepth: nat, pcm: Format)

  datatype Bridge = Bridge(
    connected: bool,
    streamActive: bool,
    paused: bool,
    player: Option<Player>,
    currentFormat: Option<AudioFormat>,
    volume: int,
    muted: bool,
    ducked: bool,
    hasStartCallback: bool,
    hasEntity: bool)

  /** What a handler schedules or calls outside the bridge. */
  datatype Effect =
    | Report(volume: int, muted: bool)  // send_player_state(SYNCHRONIZED, volume, muted)
    | StartCallback                     // the on-sendspin-start callback
    | EntityIdle                        // the media player entity's state becomes IDLE
    | EntityVolume(volume: int)         // the entity and its two players take the volume
    | EntityMuted(muted: bool)          // the entity takes the mute flag

  /** A command from the server; the value of the wrong kind is ignored. */
  datatype CommandKind = VolumeCommand | MuteCommand | OtherCommand
  datatype PlayerCommand = PlayerCommand(kind: CommandKind, volume: Option<int>, mute: Option<bool>)

  /**
    How the player volume is applied: as the code does it, or with a paused
    bridge keeping its player silent (see `Apply`).
   */
  datatype Rule = AsWritten | Corrected

  /** The bridge as `__init__` leaves it. */
  function NewBridge(connected: bool, hasStartCallback: bool, hasEntity: bool): (b: Bridge)
    ensures !IsPlaying(b) && b.player.None? && b.volume == InitialVolume && !b.muted && !b.ducked
    ensures Wf(b)
  {
    Bridge(connected, false, false, None, None, InitialVolume, false, false, hasStartCallback, hasEntity)
  }

  /**
    The bridge's bookkeeping: a player exists exactly when a format is
    current, it plays that format and keeps the queue invariant, and only an
    active stream can be paused.
   */
  predicate Wf(b: Bridge)
  {
    (b.player.Some? <==> b.currentFormat.Some?)
    && (b.player.Some? ==> Inv(b.player.value) && b.player.value.format == Some(b.currentFormat.value.pcm))
    && (b.paused ==> b.streamActive)
  }

  /** `is_playing`. */
  predicate IsPlaying(b: Bridge)
  {
    b.streamActive && !b.paused
  }

  /** The volume the player should get: halved (rounding down, as `//` does) while ducked. */
  function TargetVolume(b: Bridge): int
  {
    if b.ducked then b.volume / 2 else b.volume
  }

  /** The player plays at the bridge's volume and mute setting. */
  predicate Reflects(b: Bridge)
  {
    b.player.Some? ==> b.player.value.volume == ClampVolume(TargetVolume(b)) && b.player.value.muted == b.muted
  }

  /** The player, if any, is muted at volume 0, as `pause` leaves it. */
  predicate Hushed(b: Bridge)
  {
    b.player.Some? ==> b.player.value.volume == 0 && b.player.value.muted
  }

  /** What `pause` sets up and `unduck` is careful to keep: a paused bridge is silent. */
  predicate PausedHushed(b: Bridge)
  {
    b.paused ==> Hushed(b)
  }

  /** The fields a volume change does not touch. */
  predicate SameExceptVolume(b: Bridge, r: Bridge)
  {
    r == b.(player := r.player, volume := r.volume, muted := r.muted) && SameExceptLevel(b.player, r.player)
  }

  /** Two optional players that differ at most in volume and mute flag. */
  predicate SameExceptLevel(p: Option<Player>, q: Option<Player>)
  {
    (p.Some? <==> q.Some?) && (q.Some? ==> q.value == p.value.(volume := q.value.volume, muted := q.value.muted))
  }

  /** The player, if there is one, set to `volume` and `muted`. */
  function Level(player: Option<Player>, volume: int, muted: bool): (r: Option<Player>)
    ensures SameExceptLevel(player, r)
    ensures r.Some? ==> r.value.volume == ClampVolume(volume) && r.value.muted == muted
    ensures player.Some? && Inv(player.value) ==> Inv(r.value)
  {
    match player
    case None => None
    case Some(p) => Some(PcmPlayer.SetVolume(p, volume, muted))
  }

  /**
    `_update_player_volume`. As written it always hands the target volume to
    the player; the corrected rule leaves a paused bridge's player muted at 0.
   */
  function Apply(b: Bridge, rule: Rule): (r: Bridge)
    ensures SameExceptVolume(b, r) && r.volume == b.volume && r.muted == b.muted
    ensures rule == AsWritten || !b.paused ==> Reflects(r)
    ensures rule == Corrected && b.paused ==> Hushed(r)
    ensures Wf(b) ==> Wf(r)
  {
    if rule == Corrected && b.paused then b.(player := Level(b.player, 0, true))
    else b.(player := Level(b.player, TargetVolume(b), b.muted))
  }

  /** The bridge's own volume and mute flag changed, and handed on to the player. */
  function Retune(b: Bridge, volume: int, muted: bool, rule: Rule): (r: Bridge)
    ensures r.volume == volume && r.muted == muted && SameExceptVolume(b, r)
    ensures rule == AsWritten || !b.paused ==> Reflects(r)
    ensures rule == Corrected ==> PausedHushed(r)
    ensures Wf(b) ==> Wf(r)
  {
    Apply(b.(volume := volume, muted := muted), rule)
  }

  /** The state report a handler schedules when the client is connected. */
  function ReportIfConnected(b: Bridge): (e: seq<Effect>)
    ensures b.connected ==> e == [Report(b.volume, b.muted)]
    ensures !b.connected ==> e == []
  {
    if b.connected then [Report(b.volume, b.muted)] else []
  }

  /** `set_volume(volume, muted)`, called when Home Assistant changes the volume. */
  function SetVolume(b: Bridge, volume: int, muted: bool, rule: Rule): (r: (Bridge, seq<Effect>))
    ensures r.0.volume == ClampVolume(volume) && r.0.muted == muted && SameExceptVolume(b, r.0)
    ensures rule == AsWritten || !b.paused ==> Reflects(r.0)
    ensures rule == Corrected ==> PausedHushed(r.0)
    ensures r.1 == ReportIfConnected(r.0)
    ensures Wf(b) ==> Wf(r.0)
  {
    var b1 := Retune(b, ClampVolume(volume), muted, rule);
    (b1, ReportIfConnected(b1))
  }

  /** `duck`: the player drops to half volume. */
  function Duck(b: Bridge, rule: Rule): (r: Bridge)
    ensures r.ducked && r.volume == b.volume && r.muted == b.muted
    ensures rule == AsWritten || !b.paused ==> Reflects(r)
    ensures rule == Corrected ==> PausedHushed(r)
    ensures Wf(b) ==> Wf(r)
  {
    Apply(b.(ducked := true), rule)
  }

  /** `unduck`: the full volume comes back, but not while paused. */
  function Unduck(b: Bridge, rule: Rule): (r: Bridge)
    ensures !r.ducked && r.volume == b.volume && r.muted == b.muted
    ensures !b.paused ==> Reflects(r)
    ensures b.paused ==> r == b.(ducked := false)
    ensures PausedHushed(b) ==> PausedHushed(r)
    ensures Wf(b) ==> Wf(r)
  {
    if b.paused then b.(ducked := false) else Apply(b.(ducked := false), rule)
  }

  /** `pause`: only an active, unpaused stream pauses, by muting the player at volume 0. */
  function Pause(b: Bridge): (r: Bridge)
    ensures IsPlaying(b) ==> r.paused && !IsPlaying(r) && Hushed(r) && SameExceptVolume(b.(paused := true), r)
    ensures !IsPlaying(b) ==> r == b
    ensures PausedHushed(b) ==> PausedHushed(r)
    ensures Wf(b) ==> Wf(r)
  {
    if b.streamActive && !b.paused then
      var b1 := b.(paused := true);
      match b1.player
      case None => b1
      case Some(p) => b1.(player := Some(PcmPlayer.SetVolume(p, 0, true)))
    else b
  }

  /** `resume`: only a paused stream resumes, and the player gets its volume back. */
  function Resume(b: Bridge, rule: Rule): (r: Bridge)
    ensures b.streamActive && b.paused ==> IsPlaying(r) && Reflects(r) && SameExceptVolume(b.(paused := false), r)
    ensures !(b.streamActive && b.paused) ==> r == b
    ensures PausedHushed(b) ==> PausedHushed(r)
    ensures Wf(b) ==> Wf(r)
  {
    if b.streamActive && b.paused then Apply(b.(paused := false), rule) else b
  }

  /** `_stop_player`: the player is cleared and dropped, and no format is current. */
  function StopPlayer(b: Bridge): (r: Bridge)
    ensures r.player.None? && r.currentFormat.None?
    ensures r == b.(player := None, currentFormat := None)
  {
    b.(player := None, currentFormat := None)
  }

  /** `stop`: an active stream ends here, and the server hears the volume. */
  function Stop(b: Bridge): (r: (Bridge, seq<Effect>))
    ensures !IsPlaying(r.0)
    ensures b.streamActive ==> !r.0.paused && r.0.player.None? && r.1 == ReportIfConnected(b)
    ensures !b.streamActive ==> r == (b, [])
    ensures Wf(b) ==> Wf(r.0) && !r.0.paused
  {
    if b.streamActive then (StopPlayer(b).(streamActive := false, paused := false), ReportIfConnected(b))
    else (b, [])
  }

  /** `_on_stream_start`: the stream is active and unpaused; the start callback runs if set. */
  function OnStreamStart(b: Bridge): (r: (Bridge, seq<Effect>))
    ensures IsPlaying(r.0) && r.0 == b.(streamActive := true, paused := false)
    ensures r.1 == (if b.hasStartCallback then [StartCallback] else [])
    ensures Wf(b) ==> Wf(r.0)
  {
    (b.(streamActive := true, paused := false), if b.hasStartCallback then [StartCallback] else [])
  }

  /** `_on_stream_end`: the stream and the player go, and the entity is told it is idle. */
  function OnStreamEnd(b: Bridge): (r: (Bridge, seq<Effect>))
    ensures !r.0.streamActive && !r.0.paused && r.0.player.None? && r.0.currentFormat.None?
    ensures r.0.volume == b.volume && r.0.muted == b.muted && r.0.ducked == b.ducked
    ensures r.1 == (if b.hasEntity then [EntityIdle] else [])
    ensures Wf(r.0)
  {
    (StopPlayer(b).(streamActive := false, paused := false), if b.hasEntity then [EntityIdle] else [])
  }

  /** The bridge after a server command: a volume is clamped, a mute flag taken; anything else is ignored. */
  function CommandState(b: Bridge, c: PlayerCommand, rule: Rule): (r: Bridge)
    ensures c.kind == VolumeCommand && c.volume.Some? ==> r.volume == ClampVolume(c.volume.value) && r.muted == b.muted
    ensures c.kind == MuteCommand && c.mute.Some? ==> r.muted == c.mute.value && r.volume == b.volume
    ensures !Applies(c) ==> r == b
    ensures SameExceptVolume(b, r)
    ensures Applies(c) && (rule == AsWritten || !b.paused) ==> Reflects(r)
    ensures rule == Corrected && PausedHushed(b) ==> PausedHushed(r)
    ensures Wf(b) ==> Wf(r)
  {
    if c.kind == VolumeCommand && c.volume.Some? then Retune(b, ClampVolume(c.volume.value), b.muted, rule)
    else if c.kind == MuteCommand && c.mute.Some? then Retune(b, b.volume, c.mute.value, rule)
    else b
  }

  /** A command that carries the value its kind needs. */
  predicate Applies(c: PlayerCommand)
  {
    (c.kind == VolumeCommand && c.volume.Some?) || (c.kind == MuteCommand && c.mute.Some?)
  }

  /** What the media player entity is told after a server command, when there is one. */
  function EntitySync(b: Bridge, c: PlayerCommand, r: Bridge): (e: seq<Effect>)
    ensures !b.hasEntity || !Applies(c) ==> e == []
    ensures b.hasEntity && c.kind == VolumeCommand && c.volume.Some? ==> e == [EntityVolume(r.volume)]
    ensures b.hasEntity && c.kind == MuteCommand && c.mute.Some? ==> e == [EntityMuted(r.muted)]
  {
    if !b.hasEntity then []
    else if c.kind == VolumeCommand && c.volume.Some? then [EntityVolume(r.volume)]
    else if c.kind == MuteCommand && c.mute.Some? then [EntityMuted(r.muted)]
    else []
  }

  /**
    `_on_server_command`: a volume or mute command from the server is
    applied, mirrored to the entity, and answered with a state report that is
    scheduled whether or not the client is connected.
   */
  function OnServerCommand(b: Bridge, command: Option<PlayerCommand>, rule: Rule): (r: (Bridge, seq<Effect>))
    ensures command.None? ==> r == (b, [])
    ensures command.Some? ==> |r.1| >= 1 && r.1[|r.1| - 1] == Report(r.0.volume, r.0.muted)
    ensures command.Some? ==> r.0 == CommandState(b, command.value, rule)
    ensures command.Some? ==> r.1[..|r.1| - 1] == EntitySync(b, command.value, r.0)
  {
    match command
    case None => (b, [])
    case Some(c) =>
      var b1 := CommandState(b, c, rule);
      (b1, EntitySync(b, c, b1) + [Report(b1.volume, b1.muted)])
  }

  /**
    `_create_player(fmt)`: the old player is dropped and a new one, set to
    `fmt` and to the bridge's volume, takes its place.
   */
  function CreatePlayer(b: Bridge, fmt: AudioFormat, rule: Rule): (r: Bridge)
    requires fmt.pcm.sampleRate > 0
    ensures r.player.Some? && r.currentFormat == Some(fmt)
    ensures r.player.value.format == Some(fmt.pcm) && Inv(r.player.value) && Stream(r.player.value.buf) == []
    ensures r.streamActive == b.streamActive && r.paused == b.paused && r.volume == b.volume && r.muted == b.muted
    ensures rule == AsWritten || !b.paused ==> Reflects(r)
    ensures rule == Corrected ==> PausedHushed(r)
    ensures Wf(b) ==> Wf(r)
  {
    var np := PcmPlayer.SetFormat(NewPlayer(), fmt.pcm);
    Apply(StopPlayer(b).(player := Some(np), currentFormat := Some(fmt)), rule)
  }

  /**
    `_on_audio_chunk`: with an active stream the chunk goes to the player,
    which is first (re)created when there is none or the format changed.
   */
  function OnAudioChunk(b: Bridge, ts: int, data: seq<Byte>, fmt: AudioFormat, nowUs: int,
                        clientTime: int -> Option<int>, rule: Rule): (r: Bridge)
    requires Wf(b) && fmt.pcm.sampleRate > 0
    ensures Wf(r)
    ensures !b.streamActive ==> r == b
    ensures b.streamActive ==> r.currentFormat == Some(fmt) && r.player.Some?
    ensures b.streamActive && b.currentFormat == Some(fmt) ==>
              r == b.(player := Some(Submit(b.player.value, ts, data, nowUs, clientTime)))
    ensures b.streamActive && b.currentFormat != Some(fmt) ==>
              exists np: Player :: Inv(np) && Stream(np.buf) == [] && np.format == Some(fmt.pcm)
                              && r.player == Some(Submit(np, ts, data, nowUs, clientTime))
    ensures rule == Corrected && PausedHushed(b) ==> PausedHushed(r)
    ensures Reflects(b) && !b.paused ==> Reflects(r)
  {
    if !b.streamActive then b
    else
      var b1 := if b.currentFormat != Some(fmt) then CreatePlayer(b, fmt, rule) else b;
      var p := b1.player.value;
      SubmitKeepsInv(p, ts, data, nowUs, clientTime);
      SubmitKeepsVolume(p, ts, data, nowUs, clientTime);
      b1.(player := Some(Submit(p, ts, data, nowUs, clientTime)))
  }

  // ---------------------------------------------------------------------------
  // Round trips

  /** Pausing and resuming a playing stream gives back the same bridge, player volume included. */
  lemma PauseResume(b: Bridge, rule: Rule)
    requires IsPlaying(b) && Reflects(b)
    ensures Resume(Pause(b), rule) == b
  {
  }

  /** Ducking and unducking an unpaused bridge that was not ducked gives back the same bridge. */
  lemma DuckUnduck(b: Bridge, rule: Rule)
    requires !b.paused && !b.ducked && Reflects(b)
    ensures Unduck(Duck(b, rule), rule) == b
  {
  }

  /** A second pause changes nothing. */
  lemma PauseIdempotent(b: Bridge)
    ensures Pause(Pause(b)) == Pause(b)
  {
  }

  /** A second stop changes nothing and reports nothing. */
  lemma StopIdempotent(b: Bridge)
    ensures Stop(Stop(b).0) == (Stop(b).0, [])
  {
  }

  // ---------------------------------------------------------------------------
  // Ducking a paused stream

  /**
    As written, ducking a paused bridge hands the player half the volume
    unmuted, so the paused music is heard again at half volume.
   */
  lemma DuckWhilePausedIsHeard(b: Bridge)
    requires IsPlaying(b) && b.player.Some? && b.volume >= 2 && !b.muted
    ensures Pause(b).paused && Hushed(Pause(b))
    ensures Duck(Pause(b), AsWritten).paused
    ensures !Hushed(Duck(Pause(b), AsWritten))
    ensures Duck(Pause(b), AsWritten).player.value.volume == ClampVolume(b.volume / 2) > 0
  {
  }

  /** With the corrected rule the same sequence leaves the player silent. */
  lemma DuckWhilePausedCorrected(b: Bridge)
    requires IsPlaying(b)
    ensures Hushed(Duck(Pause(b), Corrected))
  {
  }

  /** A concrete bridge on which the two rules differ. */
  lemma DuckWhilePausedExample()
    ensures var b := Bridge(true, true, false, Some(PcmPlayer.SetVolume(NewPlayer(), 100, false)),
                            None, 100, false, false, false, false);
            Duck(Pause(b), AsWritten).player.value.volume == 50
            && !Duck(Pause(b), AsWritten).player.value.muted
            && Hushed(Duck(Pause(b), Corrected))
  {
  }
}

=== FILE: text.dfy ===
/**
  The slice of Python's `str` behaviour the satellite relies on: ASCII case
  mapping, whitespace, substring tests (`in`, `startswith`), `strip`, `split`,
  `join`, and the code-point order that `sorted` uses on strings.
 */
module Text {

  import opened Optional

  // ---------------------------------------------------------------------------
  // Characters

  predicate IsUpper(c: char) { 'A' <= c <= 'Z' }

  predicate IsLower(c: char) { 'a' <= c <= 'z' }

  predicate IsDigit(c: char) { '0' <= c <= '9' }

  /** The ASCII characters `str.isspace()` accepts: \t \n \v \f \r, the separators 0x1c..0x1f, and space. */
  const Whitespace: set<char> :=
    {'\t', '\n', '\U{0B}', '\U{0C}', '\r', '\U{1C}', '\U{1D}', '\U{1E}', '\U{1F}', ' '}

  /** `c.isspace()` restricted to ASCII. */
  predicate IsSpace(c: char)
  {
    c in Whitespace
  }

  function LowerChar(c: char): (r: char)
    ensures !IsUpper(r)
    ensures IsUpper(c) || r == c
  {
    if IsUpper(c) then (c as int + 32) as char else c
  }

  function UpperChar(c: char): (r: char)
    ensures !IsLower(r)
    ensures IsLower(c) || r == c
  {
    if IsLower(c) then (c as int - 32) as char else c
  }

  // ---------------------------------------------------------------------------
  // Case mapping

  /** `s.lower()` on ASCII letters. */
  function Lower(s: string): (r: string)
    ensures |r| == |s|
    ensures forall i :: 0 <= i < |s| ==> r[i] == LowerChar(s[i])
  {
    if s == [] then [] else [LowerChar(s[0])] + Lower(s[1..])
  }

  /** `s.capitalize()`: first character upper case, the rest lower case. */
  function Capitalize(s: string): (r: string)
    ensures |r| == |s|
    ensures |s| > 0 ==> r[0] == UpperChar(s[0]) && r[1..] == Lower(s[1..])
  {
    if s == [] then [] else [UpperChar(s[0])] + Lower(s[1..])
  }

  /** A string with no upper-case letter is its own lower case. */
  lemma LowerNoUpper(s: string)
    requires forall i :: 0 <= i < |s| ==> !IsUpper(s[i])
    ensures Lower(s) == s
  {
  }

  lemma LowerIdempotent(s: string)
    ensures Lower(Lower(s)) == Lower(s)
  {
  }

  // ---------------------------------------------------------------------------
  // Substrings

  predicate StartsWith(s: string, prefix: string)
  {
    |prefix| <= |s| && s[..|prefix|] == prefix
  }

  predicate EndsWith(s: string, suffix: string)
  {
    |suffix| <= |s| && s[|s| - |suffix|..] == suffix
  }

  /** Python's `needle in hay` for strings. */
  predicate Contains(hay: string, needle: string)
  {
    exists i :: 0 <= i <= |hay| - |needle| && StartsWith(hay[i..], needle)
  }

  /** The first index at or after `i` where `needle` occurs in `hay` (the scan behind `in` and `str.find`). */
  function FindFrom(hay: string, needle: string, i: nat): (r: Option<nat>)
    requires i <= |hay|
    ensures r.Some? ==> i <= r.value <= |hay| - |needle| && StartsWith(hay[r.value..], needle)
    ensures r.Some? ==> forall j :: i <= j < r.value ==> !StartsWith(hay[j..], needle)
    ensures r.None? ==> forall j :: i <= j <= |hay| - |needle| ==> !StartsWith(hay[j..], needle)
    decreases |hay| - i
  {
    if i + |needle| > |hay| then None
    else if StartsWith(hay[i..], needle) then Some(i)
    else FindFrom(hay, needle, i + 1)
  }

  /** `hay.find(needle)` as an option: present exactly when `needle in hay`. */
  function Find(hay: string, needle: string): (r: Option<nat>)
    ensures r.Some? <==> Contains(hay, needle)
    ensures r.Some? ==> r.value <= |hay| && StartsWith(hay[r.value..], needle)
  {
    FindFrom(hay, needle, 0)
  }

  /** A needle whose first character does not occur in the hay is not in it. */
  lemma NotContainedWithoutHead(hay: string, needle: string)
    requires needle != [] && needle[0] !in hay
    ensures !Contains(hay, needle)
  {
    forall i | 0 <= i <= |hay| - |needle|
      ensures !StartsWith(hay[i..], needle)
    {
      assert hay[i..][..|needle|][0] == hay[i];
      assert hay[i] in hay;
    }
  }

  lemma ContainsSelf(s: string)
    ensures Contains(s, s)
  {
    assert StartsWith(s[0..], s);
  }

  lemma ContainsEmpty(s: string)
    ensures Contains(s, [])
  {
    assert StartsWith(s[0..], []);
  }

  /** A string that occurs in `s` is no longer than `s`. */
  lemma ContainsShorter(hay: string, needle: string)
    requires Contains(hay, needle)
    ensures |needle| <= |hay|
  {
  }

  // ---------------------------------------------------------------------------
  // Stripping

  /** `s.lstrip(chars)`: drops the leading characters in `chars`, and only those. */
  function TrimStart(s: string, chars: set<char>): (r: string)
    ensures |r| <= |s|
    ensures r == [] || r[0] !in chars
    ensures forall i :: 0 <= i < |s| - |r| ==> s[i] in chars
  {
    if s == [] || s[0] !in chars then s else TrimStart(s[1..], chars)
  }

  /** `lstrip` keeps a tail of the string. */
  lemma {:induction false} TrimStartIsTail(s: string, chars: set<char>)
    ensures TrimStart(s, chars) == s[|s| - |TrimStart(s, chars)|..]
  {
    if s != [] && s[0] in chars {
      TrimStartIsTail(s[1..], chars);
    }
  }

  /** `s.rstrip(chars)`: drops the trailing characters in `chars`, and only those. */
  function TrimEnd(s: string, chars: set<char>): (r: string)
    ensures |r| <= |s|
    ensures r == [] || r[|r| - 1] !in chars
    ensures forall i :: |r| <= i < |s| ==> s[i] in chars
  {
    if s == [] || s[|s| - 1] !in chars then s else TrimEnd(s[..|s| - 1], chars)
  }

  /** `rstrip` keeps a head of the string. */
  lemma {:induction false} TrimEndIsHead(s: string, chars: set<char>)
    ensures TrimEnd(s, chars) == s[..|TrimEnd(s, chars)|]
  {
    if s != [] && s[|s| - 1] in chars {
      TrimEndIsHead(s[..|s| - 1], chars);
    }
  }

  /** `r` occurs in `s` starting at index `lo`. */
  predicate SliceAt(s: string, lo: int, r: string)
  {
    0 <= lo <= |s| - |r| && s[lo..lo + |r|] == r
  }

  /**
   * `s.strip(chars)`: both ends. The piece kept starts at
   * `|s| - |TrimStart(s, chars)|`; everything before and after it is in `chars`.
   */
  function Trim(s: string, chars: set<char>): (r: string)
    ensures |r| <= |s|
    ensures r == [] || (r[0] !in chars && r[|r| - 1] !in chars)
    ensures forall i :: 0 <= i < |s| - |TrimStart(s, chars)| ==> s[i] in chars
    ensures forall i :: |s| - |TrimStart(s, chars)| + |r| <= i < |s| ==> s[i] in chars
  {
    TrimStartIsTail(s, chars);
    TrimEndIsHead(TrimStart(s, chars), chars);
    TrimEnd(TrimStart(s, chars), chars)
  }

  /** What `strip` keeps is a contiguous piece of the original. */
  lemma TrimIsSlice(s: string, chars: set<char>)
    ensures exists lo :: SliceAt(s, lo, Trim(s, chars))
  {
    var a := TrimStart(s, chars);
    var r := Trim(s, chars);
    var lo := |s| - |a|;
    TrimStartIsTail(s, chars);
    TrimEndIsHead(a, chars);
    assert r == a[..|r|];
    assert a[..|r|] == s[lo..lo + |r|];
    assert SliceAt(s, lo, r);
  }

  /** A string that neither starts nor ends with a character of `chars` is left alone. */
  lemma TrimUnpadded(s: string, chars: set<char>)
    requires s != [] && s[0] !in chars && s[|s| - 1] !in chars
    ensures Trim(s, chars) == s
  {
  }

  /** A string made only of characters in `chars` trims to nothing. */
  lemma {:induction false} TrimAll(s: string, chars: set<char>)
    requires forall i :: 0 <= i < |s| ==> s[i] in chars
    ensures TrimStart(s, chars) == [] && Trim(s, chars) == []
  {
    if s != [] {
      TrimAll(s[1..], chars);
    }
  }

  /** `s.strip()`: only whitespace is removed, from both ends. */
  function Strip(s: string): (r: string)
    ensures r == [] || (!IsSpace(r[0]) && !IsSpace(r[|r| - 1]))
    ensures forall i :: 0 <= i < |s| - |TrimStart(s, Whitespace)| ==> IsSpace(s[i])
    ensures forall i :: |s| - |TrimStart(s, Whitespace)| + |r| <= i < |s| ==> IsSpace(s[i])
  {
    Trim(s, Whitespace)
  }

  // ---------------------------------------------------------------------------
  // split / join

  /** `s.split(sep)` with an explicit one-character separator: never empty. */
  function Split(s: string, sep: char): (parts: seq<string>)
    ensures |parts| >= 1
    ensures forall k :: 0 <= k < |parts| ==> sep !in parts[k]
  {
    if s == [] then [[]]
    else
      var rest := Split(s[1..], sep);
      if s[0] == sep then [[]] + rest
      else [[s[0]] + rest[0]] + rest[1..]
  }

  /** A string without the separator splits into itself. */
  lemma {:induction false} SplitNoSep(s: string, sep: char)
    requires sep !in s
    ensures Split(s, sep) == [s]
  {
    if s != [] {
      SplitNoSep(s[1..], sep);
      assert [s[0]] + s[1..] == s;
    }
  }

  /** Splitting at the first separator: the part before it comes first. */
  lemma {:induction false} SplitAt(a: string, sep: char, b: string)
    requires sep !in a
    ensures Split(a + [sep] + b, sep) == [a] + Split(b, sep)
  {
    if a == [] {
      assert ([] + [sep] + b)[1..] == b;
    } else {
      SplitAt(a[1..], sep, b);
      assert (a + [sep] + b)[1..] == a[1..] + [sep] + b;
      assert [a[0]] + a[1..] == a;
    }
  }

  /** Splitting around one separator splits each side on its own. */
  lemma {:induction false} SplitAppend(a: string, sep: char, b: string)
    ensures Split(a + [sep] + b, sep) == Split(a, sep) + Split(b, sep)
  {
    if a == [] {
      assert a + [sep] + b == [sep] + b;
      SplitConsSep(b, sep);
    } else {
      SplitAppend(a[1..], sep, b);
      SplitAppendStep(a[0], a[1..], sep, b);
      assert a == [a[0]] + a[1..];
      assert a + [sep] + b == [a[0]] + (a[1..] + [sep] + b);
    }
  }

  /** The inductive step of `SplitAppend`: one more character in front. */
  lemma SplitAppendStep(c: char, a: string, sep: char, b: string)
    requires Split(a + [sep] + b, sep) == Split(a, sep) + Split(b, sep)
    ensures Split([c] + (a + [sep] + b), sep) == Split([c] + a, sep) + Split(b, sep)
  {
    var x := a + [sep] + b;
    var ra := Split(a, sep);
    var sb := Split(b, sep);
    if c == sep {
      SplitConsSep(x, sep);
      SplitConsSep(a, sep);
      assert [[]] + (ra + sb) == ([[]] + ra) + sb;
    } else {
      SplitConsOther(c, x, sep);
      SplitConsOther(c, a, sep);
      ExtendFirst([c], ra, sb);
    }
  }

  /** A leading separator ends an empty first part. */
  lemma SplitConsSep(s: string, sep: char)
    ensures Split([sep] + s, sep) == [[]] + Split(s, sep)
  {
    assert ([sep] + s)[1..] == s;
  }

  /** Any other leading character joins the first part. */
  lemma SplitConsOther(c: char, s: string, sep: char)
    requires c != sep
    ensures Split([c] + s, sep) == [[c] + Split(s, sep)[0]] + Split(s, sep)[1..]
  {
    assert ([c] + s)[0] == c && ([c] + s)[1..] == s;
  }

  /** Prefixing the first part commutes with appending more parts. */
  lemma ExtendFirst(p: string, xs: seq<string>, ys: seq<string>)
    requires |xs| >= 1
    ensures [p + (xs + ys)[0]] + (xs + ys)[1..] == ([p + xs[0]] + xs[1..]) + ys
  {
    assert (xs + ys)[1..] == xs[1..] + ys;
  }

  /** `sep.join(parts)`. */
  function Join(parts: seq<string>, sep: string): string
  {
    if parts == [] then []
    else if |parts| == 1 then parts[0]
    else parts[0] + sep + Join(parts[1..], sep)
  }

  lemma JoinTwo(a: string, b: string, sep: string)
    ensures Join([a, b], sep) == a + sep + b
  {
    assert [a, b][1..] == [b];
  }

  /** Splitting on a character and joining with the same character gives the string back. */
  lemma {:induction false} JoinSplit(s: string, sep: char)
    ensures Join(Split(s, sep), [sep]) == s
  {
    if s != [] {
      var rest := Split(s[1..], sep);
      JoinSplit(s[1..], sep);
      if s[0] == sep {
        assert Split(s, sep) == [[]] + rest;
      } else {
        var parts := Split(s, sep);
        assert parts == [[s[0]] + rest[0]] + rest[1..];
        if |rest| == 1 {
          assert Join(rest, [sep]) == rest[0];
        } else {
          assert Join(rest, [sep]) == rest[0] + [sep] + Join(rest[1..], [sep]);
          assert parts[1..] == rest[1..];
        }
      }
    }
  }

  // ---------------------------------------------------------------------------
  // Code-point order, as used by Python's `sorted` on `str`

  predicate Less(a: string, b: string)
  {
    if a == [] then b != []
    else b != [] && (a[0] < b[0] || (a[0] == b[0] && Less(a[1..], b[1..])))
  }

  lemma {:induction false} LessIrreflexive(a: string)
    ensures !Less(a, a)
  {
    if a != [] {
      LessIrreflexive(a[1..]);
    }
  }

  lemma {:induction false} LessTransitive(a: string, b: string, c: string)
    requires Less(a, b) && Less(b, c)
    ensures Less(a, c)
  {
    if a != [] && a[0] == b[0] && b[0] == c[0] {
      LessTransitive(a[1..], b[1..], c[1..]);
    }
  }

  lemma {:induction false} LessTotal(a: string, b: string)
    ensures a == b || Less(a, b) || Less(b, a)
  {
    if a != [] && b != [] && a[0] == b[0] {
      LessTotal(a[1..], b[1..]);
      if a[1..] == b[1..] {
        assert a == [a[0]] + a[1..] && b == [b[0]] + b[1..];
      }
    }
  }

  lemma LessAsymmetric(a: string, b: string)
    requires Less(a, b)
    ensures !Less(b, a)
  {
    if Less(b, a) {
      LessTransitive(a, b, a);
      LessIrreflexive(a);
    }
  }

  /** Strictly increasing in code-point order, hence free of duplicates. */
  predicate StrictlySorted(xs: seq<string>)
  {
    forall i, j :: 0 <= i < j < |xs| ==> Less(xs[i], xs[j])
  }

  lemma StrictlySortedDistinct(xs: seq<string>, i: int, j: int)
    requires StrictlySorted(xs)
    requires 0 <= i < |xs| && 0 <= j < |xs| && i != j
    ensures xs[i] != xs[j]
  {
    if i < j {
      LessIrreflexive(xs[i]);
    } else {
      LessIrreflexive(xs[j]);
    }
  }

  /** Inserts `x` into a strictly sorted list unless it is already there. */
  function Insert(xs: seq<string>, x: string): (r: seq<string>)
    requires StrictlySorted(xs)
    ensures StrictlySorted(r)
    ensures forall y :: y in r <==> y in xs || y == x
  {
    if xs == [] then [x]
    else if x == xs[0] then xs
    else if Less(x, xs[0]) then
      assert forall j :: 0 < j < |xs| ==> Less(x, xs[j]) by {
        forall j | 0 < j < |xs| ensures Less(x, xs[j]) {
          LessTransitive(x, xs[0], xs[j]);
        }
      }
      [x] + xs
    else
      LessTotal(x, xs[0]);
      var tail := Insert(xs[1..], x);
      assert forall y :: y in tail ==> Less(xs[0], y);
      [xs[0]] + tail
  }

  /** `sorted(set(xs))`: the distinct elements in increasing order. */
  function SortedDistinct(xs: seq<string>): (r: seq<string>)
    ensures StrictlySorted(r)
    ensures forall y :: y in r <==> y in xs
  {
    if xs == [] then [] else Insert(SortedDistinct(xs[..|xs| - 1]), xs[|xs| - 1])
  }
}

=== FILE: util.dfy ===
/**
  Small helpers of the satellite: the MAC address used as the device identity,
  `call_all` for chaining optional callbacks, and the ARM platform test.
 */
module Util {

  import opened Optional
  import opened Text

  // ---------------------------------------------------------------------------
  // Base-256 arithmetic behind the MAC formatting

  function Pow256(k: nat): (r: nat)
    ensures r > 0
  {
    if k == 0 then 1 else 256 * Pow256(k - 1)
  }

  /** `(node >> 8k) & 0xff`: the k-th octet, counting from the least significant. */
  function Octet(node: nat, k: nat): (r: nat)
    ensures r < 256
  {
    (node / Pow256(k)) % 256
  }

  /** A positive multiple of a positive number is at least that number. */
  lemma MulAtLeast(d: int, k: int)
    requires d > 0 && k >= 1
    ensures d * k >= d
  {
    assert d * k == d * (k - 1) + d;
  }

  /** Division with remainder has exactly one result. */
  lemma DivModUnique(n: int, d: int, q: int, x: int)
    requires d > 0 && n == d * q + x && 0 <= x < d
    ensures n / d == q && n % d == x
  {
    var q', x' := n / d, n % d;
    assert d * q + x == d * q' + x';
    assert d * (q - q') == x' - x;
    if q' < q {
      MulAtLeast(d, q - q');
    } else if q' > q {
      MulAtLeast(d, q' - q);
    }
  }

  /** `n % (a*b)` splits into the low digit and the next digit. */
  lemma ModSplit(n: nat, a: nat, b: nat)
    requires a > 0 && b > 0
    ensures n % (a * b) == n % a + a * ((n / a) % b)
  {
    var q, r := n / a, n % a;
    var q2, r2 := q / b, q % b;
    assert n == a * q + r;
    assert q == b * q2 + r2;
    calc {
      a * q;
      a * (b * q2 + r2);
      a * (b * q2) + a * r2;
      (a * b) * q2 + a * r2;
    }
    assert a * r2 + r < a * b by {
      MulAtLeast(a, b - r2);
      assert a * (b - r2) == a * b - a * r2;
    }
    DivModUnique(n, a * b, q2, a * r2 + r);
  }

  /** One more octet: the value below `p * 256` is that below `p` plus the next octet times `p`. */
  lemma NextOctet(n: nat, p: nat, low: nat, o: nat, next: nat)
    requires p > 0 && low == n % p && o == (n / p) % 256 && next == p * 256
    ensures low + o * p == n % next
  {
    ModSplit(n, p, 256);
  }

  /** The value of the lowest `k` octets of `node`. */
  function LowOctetsValue(node: nat, k: nat): nat
  {
    if k == 0 then 0 else LowOctetsValue(node, k - 1) + Octet(node, k - 1) * Pow256(k - 1)
  }

  lemma {:induction false} LowOctetsValueIsMod(node: nat, k: nat)
    ensures LowOctetsValue(node, k) == node % Pow256(k)
  {
    if k > 0 {
      LowOctetsValueIsMod(node, k - 1);
      NextOctet(node, Pow256(k - 1), LowOctetsValue(node, k - 1), Octet(node, k - 1), Pow256(k));
    }
  }

  // ---------------------------------------------------------------------------
  // MAC formatting (uuid.getnode path)

  predicate IsHexDigit(c: char)
  {
    '0' <= c <= '9' || 'a' <= c <= 'f'
  }

  /** One lower-case hex digit for a value below 16. */
  function HexDigit(d: nat): (c: char)
    requires d < 16
    ensures IsHexDigit(c)
  {
    if d < 10 then ('0' as int + d) as char else ('a' as int + d - 10) as char
  }

  /** The value of one lower-case hex digit. */
  function HexValue(c: char): nat
  {
    if '0' <= c <= '9' then c as nat - '0' as nat
    else if 'a' <= c <= 'f' then c as nat - 'a' as nat + 10
    else 0
  }

  /** `f"{b:02x}"`. */
  function HexPair(b: nat): (r: string)
    requires b < 256
    ensures |r| == 2 && IsHexDigit(r[0]) && IsHexDigit(r[1])
  {
    [HexDigit(b / 16), HexDigit(b % 16)]
  }

  lemma HexPairValue(b: nat)
    requires b < 256
    ensures HexValue(HexPair(b)[0]) * 16 + HexValue(HexPair(b)[1]) == b
  {
    assert HexValue(HexDigit(b / 16)) == b / 16;
    assert HexValue(HexDigit(b % 16)) == b % 16;
  }

  /** The octet written at position `k` (0 = leftmost) of a `xx:xx:xx:xx:xx:xx` string. */
  function OctetAt(s: string, k: nat): nat
    requires |s| == 17 && k < 6
  {
    HexValue(s[3 * k]) * 16 + HexValue(s[3 * k + 1])
  }

  /** The value of the rightmost `k` octets of a `xx:xx:xx:xx:xx:xx` string. */
  function MacValueLow(s: string, k: nat): nat
    requires |s| == 17 && k <= 6
  {
    if k == 0 then 0 else MacValueLow(s, k - 1) + OctetAt(s, 6 - k) * Pow256(k - 1)
  }

  /** Reads back the 48-bit value of a `xx:xx:xx:xx:xx:xx` string. */
  function MacValue(s: string): nat
    requires |s| == 17
  {
    MacValueLow(s, 6)
  }

  /** Octets as two-digit lower-case hex, joined by ':'. */
  function FormatOctets(os: seq<nat>): (r: string)
    requires |os| >= 1 && forall j :: 0 <= j < |os| ==> os[j] < 256
    ensures |r| == 3 * |os| - 1
    ensures forall i :: 0 <= i < |r| && i % 3 == 2 ==> r[i] == ':'
    ensures forall i :: 0 <= i < |r| && i % 3 != 2 ==> IsHexDigit(r[i])
    ensures forall j :: 0 <= j < |os| ==> r[3 * j] == HexPair(os[j])[0] && r[3 * j + 1] == HexPair(os[j])[1]
  {
    if |os| == 1 then HexPair(os[0])
    else
      var rest := FormatOctets(os[1..]);
      var r := HexPair(os[0]) + ":" + rest;
      assert forall i :: 3 <= i < |r| ==> r[i] == rest[i - 3];
      assert forall j :: 1 <= j < |os| ==> os[j] == os[1..][j - 1];
      r
  }

  /** The six octets of the node id, most significant first. */
  function MacOctets(node: nat): (os: seq<nat>)
    ensures |os| == 6 && forall j :: 0 <= j < 6 ==> os[j] == Octet(node, 5 - j) < 256
  {
    [Octet(node, 5), Octet(node, 4), Octet(node, 3), Octet(node, 2), Octet(node, 1), Octet(node, 0)]
  }

  /** The node id as six lower-case octets, most significant first, joined by ':'. */
  function FormatMac(node: nat): (r: string)
    ensures |r| == 17
    ensures forall i :: 0 <= i < 17 && i % 3 == 2 ==> r[i] == ':'
    ensures forall i :: 0 <= i < 17 && i % 3 != 2 ==> IsHexDigit(r[i])
  {
    FormatOctets(MacOctets(node))
  }

  lemma {:induction false} MacValueLowMatches(s: string, node: nat, k: nat)
    requires |s| == 17 && k <= 6
    requires forall j :: 0 <= j < 6 ==> OctetAt(s, j) == Octet(node, 5 - j)
    ensures MacValueLow(s, k) == LowOctetsValue(node, k)
  {
    if k > 0 {
      MacValueLowMatches(s, node, k - 1);
      assert OctetAt(s, 6 - k) == Octet(node, k - 1);
    }
  }

  /** Parsing the formatted MAC gives back the node id reduced to 48 bits. */
  lemma FormatMacRoundTrip(node: nat)
    ensures MacValue(FormatMac(node)) == node % Pow256(6)
  {
    var s := FormatMac(node);
    forall j | 0 <= j < 6
      ensures OctetAt(s, j) == Octet(node, 5 - j)
    {
      HexPairValue(Octet(node, 5 - j));
      assert MacOctets(node)[j] == Octet(node, 5 - j);
    }
    MacValueLowMatches(s, node, 6);
    LowOctetsValueIsMod(node, 6);
  }

  /**
    `get_mac()`: a non-empty FIXED_MAC_ADDRESS environment value wins and is
    only lower-cased; otherwise the node id is formatted.
   */
  function GetMac(fixedMac: Option<string>, node: nat): (r: string)
    ensures fixedMac.Some? && fixedMac.value != [] ==> r == Lower(fixedMac.value)
    ensures (fixedMac.None? || fixedMac.value == []) ==>
              |r| == 17 && MacValue(r) == node % Pow256(6)
  {
    match fixedMac
    case Some(m) =>
      if m != [] then Lower(m) else FormatMacWithProof(node)
    case None => FormatMacWithProof(node)
  }

  function FormatMacWithProof(node: nat): (r: string)
    ensures r == FormatMac(node) && MacValue(r) == node % Pow256(6)
  {
    FormatMacRoundTrip(node);
    FormatMac(node)
  }

  // ---------------------------------------------------------------------------
  // call_all

  /** The callables `call_all` invokes, in the order it invokes them. */
  function Present<C>(callables: seq<Option<C>>): seq<C>
  {
    if callables == [] then []
    else
      var rest := Present(callables[..|callables| - 1]);
      match callables[|callables| - 1]
      case Some(c) => rest + [c]
      case None => rest
  }

  /** `call_all(*callables)`: returns the trace of invocations. */
  method CallAll<C>(callables: seq<Option<C>>) returns (invoked: seq<C>)
    ensures invoked == Present(callables)
  {
    invoked := [];
    var i := 0;
    while i < |callables|
      invariant 0 <= i <= |callables|
      invariant invoked == Present(callables[..i])
    {
      assert callables[..i + 1][..i] == callables[..i];
      match callables[i] {
        case Some(c) => invoked := invoked + [c];
        case None =>
      }
      i := i + 1;
    }
    assert callables[..i] == callables;
  }

  /** Invocation follows argument order: the trace of a concatenation is the concatenation of traces. */
  lemma {:induction false} PresentAppend<C>(a: seq<Option<C>>, b: seq<Option<C>>)
    ensures Present(a + b) == Present(a) + Present(b)
    decreases |b|
  {
    if b == [] {
      assert a + b == a;
    } else {
      var b' := b[..|b| - 1];
      assert (a + b)[..|a + b| - 1] == a + b';
      PresentAppend(a, b');
    }
  }

  /** Every non-None callable is invoked exactly once; None entries are skipped. */
  lemma PresentSingle<C>(c: C)
    ensures Present([Some(c)]) == [c]
    ensures Present<C>([None]) == []
  {
    assert [Some(c)][..0] == [];
    var none: seq<Option<C>> := [None];
    assert none[..0] == [];
  }

  // ---------------------------------------------------------------------------
  // is_arm

  /** `is_arm()` for a given `platform.machine()` string. */
  function IsArm(machine: string): (r: bool)
    ensures r <==> Contains(machine, "arm") || Contains(machine, "aarch")
  {
    Find(machine, "arm").Some? || Find(machine, "aarch").Some?
  }

  lemma IsArmAarch64()
    ensures IsArm("aarch64")
  {
    assert StartsWith("aarch64"[0..], "aarch");
  }

  lemma IsArmArmv7l()
    ensures IsArm("armv7l")
  {
    assert StartsWith("armv7l"[0..], "arm");
  }

  lemma NotArmX86()
    ensures !IsArm("x86_64")
  {
    NotContainedWithoutHead("x86_64", "arm");
    NotContainedWithoutHead("x86_64", "aarch");
  }
}

=== FILE: utilities.dfy ===
/**
  Range clamps used for configuration values. Python's `int(value)` and
  `float(value)` conversions are inputs here: `None` stands for a conversion
  that raised ValueError or TypeError.
 */
module Utilities {

  import opened Optional

  /**
    A Python float as far as comparisons go: a real number, one of the two
    infinities, or NaN (`float("nan")`, `float("inf")` and `float("-inf")`
    all convert without raising).
   */
  datatype Float = Num(v: real) | PosInf | NegInf | NaN

  /** `a < b` on Python floats: every comparison involving NaN is false. */
  predicate Less(a: Float, b: Float)
  {
    match a
    case NaN => false
    case PosInf => false
    case NegInf => b.Num? || b.PosInf?
    case Num(x) => b.PosInf? || (b.Num? && x < b.v)
  }

  /** `a <= b` on Python floats, false when either is NaN. */
  predicate LessEq(a: Float, b: Float)
  {
    Less(a, b) || (a == b && !a.NaN?)
  }

  /** `clamp_0_1(name, value, default)`, given `float(value)` as `parsed`. */
  function Clamp0To1(parsed: Option<Float>, default: Float): (r: Float)
    ensures parsed.None? ==> r == default
    ensures parsed == Some(NaN) ==> r == NaN
    ensures parsed.Some? && parsed.value != NaN ==> r.Num? && 0.0 <= r.v <= 1.0
    ensures parsed.Some? && parsed.value.Num? && 0.0 <= parsed.value.v <= 1.0 ==> r == parsed.value
    ensures parsed.Some? && Less(parsed.value, Num(0.0)) ==> r == Num(0.0)
    ensures parsed.Some? && Less(Num(1.0), parsed.value) ==> r == Num(1.0)
  {
    match parsed
    case None => default
    case Some(v) => if Less(v, Num(0.0)) then Num(0.0) else if Less(Num(1.0), v) then Num(1.0) else v
  }

  /** `clamp_0_100(name, value, default)`, given `int(value)` as `parsed`. */
  function Clamp0To100(parsed: Option<int>, default: int): (r: int)
    ensures parsed.None? ==> r == default
    ensures parsed.Some? ==> 0 <= r <= 100
    ensures parsed.Some? && 0 <= parsed.value <= 100 ==> r == parsed.value
    ensures parsed.Some? && parsed.value < 0 ==> r == 0
    ensures parsed.Some? && parsed.value > 100 ==> r == 100
  {
    match parsed
    case None => default
    case Some(v) => if v < 0 then 0 else if v > 100 then 100 else v
  }

  /**
    `clamp_value(value, minimum, maximum)`: the lower bound is tested first.
    Its type variable ranges over `int` and `float`; both are covered by
    `Float`, whose NaN passes both tests and comes back unclamped.
   */
  function ClampValue(value: Float, minimum: Float, maximum: Float): (r: Float)
    ensures LessEq(minimum, maximum) && !value.NaN? ==> LessEq(minimum, r) && LessEq(r, maximum)
    ensures LessEq(minimum, value) && LessEq(value, maximum) ==> r == value
    ensures value.NaN? ==> r == NaN
    ensures r == value || r == minimum || r == maximum
  {
    if Less(value, minimum) then minimum
    else if Less(maximum, value) then maximum
    else value
  }

  /** Clamping twice is clamping once, when the bounds are ordered. */
  lemma ClampValueIdempotent(value: Float, minimum: Float, maximum: Float)
    requires LessEq(minimum, maximum)
    ensures ClampValue(ClampValue(value, minimum, maximum), minimum, maximum)
            == ClampValue(value, minimum, maximum)
  {
  }

  /** Clamping preserves order, when the bounds are ordered. */
  lemma ClampValueMonotone(v1: Float, v2: Float, minimum: Float, maximum: Float)
    requires LessEq(minimum, maximum) && LessEq(v1, v2)
    ensures LessEq(ClampValue(v1, minimum, maximum), ClampValue(v2, minimum, maximum))
  {
  }

  /** With crossed bounds a value below the minimum yields the minimum and any other value the maximum. */
  lemma ClampValueCrossedBounds()
    ensures ClampValue(Num(0.0), Num(5.0), Num(1.0)) == Num(5.0)
    ensures ClampValue(Num(3.0), Num(5.0), Num(1.0)) == Num(5.0)
    ensures ClampValue(Num(9.0), Num(5.0), Num(1.0)) == Num(1.0)
  {
  }

  /** A NaN bound is never crossed: with a NaN maximum only the minimum clamps. */
  lemma ClampValueNaNBound()
    ensures ClampValue(Num(9.0), Num(0.0), NaN) == Num(9.0)
    ensures ClampValue(Num(-1.0), Num(0.0), NaN) == Num(0.0)
  {
  }

  /** A parse failure returns the default even when it lies outside the range. */
  lemma Clamp0To100DefaultUnclamped()
    ensures Clamp0To100(None, 150) == 150
    ensures Clamp0To1(None, Num(-2.0)) == Num(-2.0)
  {
  }
}

=== FILE: wake_client.dfy ===
/**
  `WyomingWakeClient`: the client-side state of the connection to the
  openWakeWord server (pause, suppression window, refractory period, model
  cache, detect request) and the reader's handling of each JSON message:
  model-info updates, the several shapes a detection may take, and the
  suppression rule deciding whether the detection callback runs.
  `json.loads` is a parameter; the clock is one `now` (milliseconds) per line
  read.
 */
module WakeClient {

  import opened Optional
  import opened Text
  import opened ObjectScanner
  import ModelNames

  // ---------------------------------------------------------------------------
  // JSON values

  /** A decoded JSON value; numbers are integers here. */
  datatype Json =
    | JNull
    | JBool(b: bool)
    | JNum(n: int)
    | JStr(s: string)
    | JArr(items: seq<Json>)
    | JObj(fields: map<string, Json>)

  /** Python truthiness of the decoded value. */
  predicate Truthy(j: Json)
  {
    match j
    case JNull => false
    case JBool(b) => b
    case JNum(n) => n != 0
    case JStr(s) => s != []
    case JArr(items) => items != []
    case JObj(fields) => fields != map[]
  }

  /** `d.get(key, default)`. */
  function GetOr(d: map<string, Json>, key: string, default: Json): Json
  {
    if key in d then d[key] else default
  }

  /** `d.get(key)`. */
  function Get(d: map<string, Json>, key: string): Json
  {
    GetOr(d, key, JNull)
  }

  /** `a or b`. */
  function Or(a: Json, b: Json): (r: Json)
    ensures Truthy(a) ==> r == a
    ensures !Truthy(a) ==> r == b
  {
    if Truthy(a) then a else b
  }

  const EmptyObject := JObj(map[])

  /**
    `str(v or "").lower()` as far as it is compared with keywords: a string
    is lower-cased; any other value prints as text that spells no keyword
    ("5", "true", "[...]", "{...}") and is represented by "".
   */
  function KeywordText(v: Json): (r: string)
    ensures v.JStr? ==> r == Lower(v.s)
    ensures !v.JStr? ==> r == []
  {
    if v.JStr? then Lower(v.s) else []
  }

  // ---------------------------------------------------------------------------
  // Client state

  datatype Client = Client(
    name: string,
    paused: bool,
    suppressUntilMs: int,
    refractoryMs: int,
    connected: bool,        // `_sock is not None`
    hasCallback: bool,      // `_on_detect` is set
    modelsCache: seq<map<string, Json>>,
    infoEventSet: bool)

  /** `WyomingWakeClient(uri, name)` before `connect`. */
  function NewClient(name: string): (c: Client)
    ensures !c.paused && c.suppressUntilMs == 0 && c.refractoryMs == 0
    ensures !c.connected && !c.hasCallback && c.modelsCache == [] && !c.infoEventSet
  {
    Client(name, false, 0, 0, false, false, [], false)
  }

  /** `pause()`. */
  function Pause(c: Client): (r: Client)
    ensures r.paused && r == c.(paused := true)
  {
    c.(paused := true)
  }

  /** `resume()`. */
  function Resume(c: Client): (r: Client)
    ensures !r.paused && r == c.(paused := false)
  {
    c.(paused := false)
  }

  function Max(a: int, b: int): int
  {
    if a >= b then a else b
  }

  /** `suppress(ms)` at time `now`: the window is only ever extended. */
  function Suppress(c: Client, ms: int, now: int): (r: Client)
    ensures r.suppressUntilMs >= c.suppressUntilMs && r.suppressUntilMs >= now + ms
    ensures r.suppressUntilMs == c.suppressUntilMs || r.suppressUntilMs == now + ms
    ensures r == c.(suppressUntilMs := r.suppressUntilMs)
  {
    c.(suppressUntilMs := Max(c.suppressUntilMs, now + ms))
  }

  /** Suppressing twice with the same arguments is suppressing once. */
  lemma SuppressIdempotent(c: Client, ms: int, now: int)
    ensures Suppress(Suppress(c, ms, now), ms, now) == Suppress(c, ms, now)
  {
  }

  /** `set_refractory(ms)`: negative values become 0. */
  function SetRefractory(c: Client, ms: int): (r: Client)
    ensures r.refractoryMs >= 0
    ensures ms >= 0 ==> r.refractoryMs == ms
    ensures ms < 0 ==> r.refractoryMs == 0
    ensures r == c.(refractoryMs := r.refractoryMs)
  {
    c.(refractoryMs := Max(0, ms))
  }

  /** Whether a detection at `now` is held back: paused, or inside a non-zero suppression window. */
  predicate Suppressed(c: Client, now: int)
  {
    c.paused || (c.suppressUntilMs != 0 && now < c.suppressUntilMs)
  }

  // ---------------------------------------------------------------------------
  // set_detect

  datatype DetectResult =
    | NotConnected                               // RuntimeError("Not connected")
    | Ignored                                    // nothing but empty names: warning only
    | Sent(client: Client, names: seq<string>)   // a `detect` message with these names

  function NonEmpty(names: seq<string>): (r: seq<string>)
    ensures forall k :: 0 <= k < |r| ==> r[k] != []
    ensures forall x :: x in r <==> x in names && x != []
    ensures |r| <= |names|
  {
    if names == [] then []
    else if names[0] == [] then NonEmpty(names[1..])
    else [names[0]] + NonEmpty(names[1..])
  }

  /** Filtering distributes over concatenation: kept names stay in the order given. */
  lemma {:induction false} NonEmptyAppend(a: seq<string>, b: seq<string>)
    ensures NonEmpty(a + b) == NonEmpty(a) + NonEmpty(b)
  {
    if a == [] {
      assert a + b == b;
    } else {
      assert (a + b)[1..] == a[1..] + b;
      NonEmptyAppend(a[1..], b);
      if a[0] != [] {
        assert [a[0]] + (NonEmpty(a[1..]) + NonEmpty(b)) == ([a[0]] + NonEmpty(a[1..])) + NonEmpty(b);
      }
    }
  }

  /** The same filter, written from the other end: the reference `NonEmpty` is checked against. */
  function NonEmptyFromEnd(names: seq<string>): seq<string>
  {
    if names == [] then []
    else
      var last := names[|names| - 1];
      NonEmptyFromEnd(names[..|names| - 1]) + (if last == [] then [] else [last])
  }

  lemma {:induction false} NonEmptyAgrees(names: seq<string>)
    ensures NonEmpty(names) == NonEmptyFromEnd(names)
  {
    if names != [] {
      var init, last := names[..|names| - 1], names[|names| - 1];
      assert names == init + [last];
      NonEmptyAppend(init, [last]);
      assert [last][1..] == [];
      NonEmptyAgrees(init);
    }
  }

  /** Keeping the non-empty names keeps their order: the first one is the first non-empty name given. */
  lemma {:induction false} NonEmptyFirst(names: seq<string>, i: nat)
    requires i < |names| && names[i] != [] && forall j :: 0 <= j < i ==> names[j] == []
    ensures NonEmpty(names) != [] && NonEmpty(names)[0] == names[i]
    decreases i
  {
    if i > 0 {
      NonEmptyFirst(names[1..], i - 1);
    }
  }

  /** `set_detect(names)`. */
  function SetDetect(c: Client, names: seq<string>): (r: DetectResult)
    ensures !c.connected <==> r.NotConnected?
    ensures r.Ignored? <==> c.connected && forall k :: 0 <= k < |names| ==> names[k] == []
    ensures r.Sent? ==> r.names != [] && (forall k :: 0 <= k < |r.names| ==> r.names[k] != [])
                        && (forall x :: x in r.names <==> x in names && x != [])
                        && r.client == c.(name := r.names[0])
    ensures r.Sent? ==> r.names == NonEmpty(names)
  {
    if !c.connected then NotConnected
    else
      var filtered := NonEmpty(names);
      if filtered == [] then
        assert forall k :: 0 <= k < |names| ==> names[k] !in filtered;
        Ignored
      else
        assert filtered[0] in names;
        Sent(c.(name := filtered[0]), filtered)
  }

  // ---------------------------------------------------------------------------
  // Messages

  /** What handling one message does, besides updating the client. */
  datatype Reaction =
    | NoReaction
    | ModelsUpdated(models: seq<map<string, Json>>)
    | Detection(name: Json, timestamp: Json, delivered: bool)
    | Crash   // an AttributeError ends the reader thread

  /** `msg.get("data", {}) or {}`. */
  function DataOf(msg: map<string, Json>): (d: Json)
    ensures Truthy(d) || d == EmptyObject
  {
    Or(GetOr(msg, "data", EmptyObject), EmptyObject)
  }

  /** The model list of an info message: `wake.models` if a list, otherwise `wake.names` if a list. */
  function InfoModels(msg: map<string, Json>): seq<Json>
  {
    var data := DataOf(msg);
    var wake := if data.JObj? then GetOr(data.fields, "wake", EmptyObject) else EmptyObject;
    if !wake.JObj? then []
    else if Get(wake.fields, "models").JArr? then Get(wake.fields, "models").items
    else if Get(wake.fields, "names").JArr? then Get(wake.fields, "names").items
    else []
  }

  /** A string model `s` becomes `{"name": s}`, a dict is kept, anything else is dropped. */
  function NormalizeModels(models: seq<Json>): (r: seq<map<string, Json>>)
    ensures |r| <= |models|
    ensures (forall k :: 0 <= k < |models| ==> models[k].JStr? || models[k].JObj?) ==> |r| == |models|
    ensures forall k :: 0 <= k < |r| ==> exists j :: 0 <= j < |models| && Entry(models[j]) == Some(r[k])
    ensures (forall k :: 0 <= k < |models| ==> Entry(models[k]).Some?) ==>
              |r| == |models| && forall k :: 0 <= k < |r| ==> Some(r[k]) == Entry(models[k])
  {
    if models == [] then []
    else
      var rest := NormalizeModels(models[1..]);
      assert forall k :: 0 <= k < |rest| ==> exists j :: 0 <= j < |models| && Entry(models[j]) == Some(rest[k]) by {
        forall k | 0 <= k < |rest|
          ensures exists j :: 0 <= j < |models| && Entry(models[j]) == Some(rest[k])
        {
          var j :| 0 <= j < |models[1..]| && Entry(models[1..][j]) == Some(rest[k]);
          assert models[1..][j] == models[j + 1];
        }
      }
      match Entry(models[0])
      case Some(e) => [e] + rest
      case None => rest
  }

  /** The cache entry for one listed model. */
  function Entry(m: Json): Option<map<string, Json>>
  {
    match m
    case JStr(s) => Some(map["name" := JStr(s)])
    case JObj(fields) => Some(fields)
    case _ => None
  }

  /** A list of plain names becomes a list of `{"name": ...}` entries, one per name, in order. */
  lemma NormalizeNames(models: seq<Json>)
    requires forall k :: 0 <= k < |models| ==> models[k].JStr?
    ensures |NormalizeModels(models)| == |models|
    ensures forall k :: 0 <= k < |models| ==> NormalizeModels(models)[k] == map["name" := models[k]]
  {
    forall k | 0 <= k < |models|
      ensures NormalizeModels(models)[k] == map["name" := models[k]]
    {
      NormalizeNameAt(models, k);
    }
  }

  lemma {:induction false} NormalizeNameAt(models: seq<Json>, k: nat)
    requires k < |models| && forall j :: 0 <= j < |models| ==> models[j].JStr?
    ensures |NormalizeModels(models)| == |models|
    ensures NormalizeModels(models)[k] == map["name" := models[k]]
    decreases k
  {
    var rest := NormalizeModels(models[1..]);
    assert NormalizeModels(models) == [map["name" := models[0]]] + rest;
    if k > 0 {
      assert forall j :: 0 <= j < |models[1..]| ==> models[1..][j] == models[j + 1];
      NormalizeNameAt(models[1..], k - 1);
    }
  }

  /** Normalising distributes over concatenation: entries keep the order of their models. */
  lemma {:induction false} NormalizeAppend(a: seq<Json>, b: seq<Json>)
    ensures NormalizeModels(a + b) == NormalizeModels(a) + NormalizeModels(b)
  {
    if a == [] {
      assert a + b == b;
    } else {
      assert (a + b)[1..] == a[1..] + b;
      assert (a + b)[0] == a[0];
      NormalizeAppend(a[1..], b);
      var ra, rb := NormalizeModels(a[1..]), NormalizeModels(b);
      if Entry(a[0]).Some? {
        assert [Entry(a[0]).value] + (ra + rb) == ([Entry(a[0]).value] + ra) + rb;
      }
    }
  }

  /** One model gives its entry, or nothing when it has none. */
  lemma NormalizeOne(m: Json)
    ensures NormalizeModels([m]) == if Entry(m).Some? then [Entry(m).value] else []
  {
    assert [m][1..] == [];
  }

  /** The same normalisation, written from the other end: the reference `NormalizeModels` is checked against. */
  function NormalizeFromEnd(models: seq<Json>): seq<map<string, Json>>
  {
    if models == [] then []
    else
      var e := Entry(models[|models| - 1]);
      NormalizeFromEnd(models[..|models| - 1]) + (if e.Some? then [e.value] else [])
  }

  lemma {:induction false} NormalizeAgrees(models: seq<Json>)
    ensures NormalizeModels(models) == NormalizeFromEnd(models)
  {
    if models != [] {
      var init, last := models[..|models| - 1], models[|models| - 1];
      assert models == init + [last];
      NormalizeAppend(init, [last]);
      NormalizeOne(last);
      NormalizeAgrees(init);
    }
  }

  // ---------------------------------------------------------------------------
  // list_models: the entries offered for selection

  /** `EXCLUDED_OWW_MODELS`. */
  const ExcludedModels: set<string> := {"embedding_model", "melspectrogram"}

  /** `(m.get(key) or '').strip()`; None when the value is truthy but not a string, where `.strip()` raises. */
  function FieldText(m: map<string, Json>, key: string): Option<string>
  {
    var v := Or(Get(m, key), JStr([]));
    if v.JStr? then Some(Strip(v.s)) else None
  }

  /** What `list_models` makes of one normalised model. */
  datatype EntryOutcome =
    | Raises                             // `.strip()` on a value that is not text
    | Skipped                            // empty name, or a helper model
    | Kept(entry: map<string, Json>)     // a copy of the model with its `label` set

  /** The label shown for a kept entry: `phrase or desc or _prettify_model_name(name)`. */
  function Label(name: string, phrase: string, desc: string): string
  {
    if phrase != [] then phrase
    else if desc != [] then desc
    else ModelNames.PrettifyAsWritten(name)
  }

  /** One iteration of the loop over the normalised models. */
  function Outcome(m: map<string, Json>): EntryOutcome
  {
    match FieldText(m, "name")
    case None => Raises
    case Some(name) =>
      if name == [] || name in ExcludedModels then Skipped
      else
        match FieldText(m, "phrase")
        case None => Raises
        case Some(phrase) =>
          match FieldText(m, "description")
          case None => Raises
          case Some(desc) => Kept(m["label" := JStr(Label(name, phrase, desc))])
  }

  /**
    A kept entry has a non-empty name outside the helper models, and is the
    model with only its label added; a skipped one has an empty or helper name.
   */
  lemma OutcomeMeaning(m: map<string, Json>)
    ensures Outcome(m).Kept? ==>
              FieldText(m, "name").Some? && FieldText(m, "name").value != []
              && FieldText(m, "name").value !in ExcludedModels
              && FieldText(Outcome(m).entry, "name") == FieldText(m, "name")
              && (forall key :: key != "label" && key in m ==> key in Outcome(m).entry && Outcome(m).entry[key] == m[key])
              && "label" in Outcome(m).entry && Outcome(m).entry["label"].JStr?
    ensures Outcome(m).Skipped? <==>
              FieldText(m, "name").Some? && (FieldText(m, "name").value == [] || FieldText(m, "name").value in ExcludedModels)
  {
    if Outcome(m).Kept? {
      assert Get(Outcome(m).entry, "name") == Get(m, "name");
    }
  }

  /** A model with a given phrase is labelled with it. */
  lemma PhraseIsLabel(m: map<string, Json>, phrase: string)
    requires Outcome(m).Kept? && FieldText(m, "phrase") == Some(phrase) && phrase != []
    ensures Outcome(m).entry["label"] == JStr(phrase)
  {
  }

  /** The entries kept from a run of outcomes, in order; None once one raises. */
  function Collect(os: seq<EntryOutcome>): (r: Option<seq<map<string, Json>>>)
    ensures r.None? <==> exists j :: 0 <= j < |os| && os[j].Raises?
    ensures r.Some? ==> |r.value| <= |os|
    ensures r.Some? ==> forall k :: 0 <= k < |r.value| ==> exists j :: 0 <= j < |os| && os[j] == Kept(r.value[k])
    ensures r.Some? ==> forall j :: 0 <= j < |os| && os[j].Kept? ==> os[j].entry in r.value
    decreases |os|
  {
    if os == [] then Some([])
    else
      var rest := Collect(os[1..]);
      assert forall j :: 0 <= j < |os[1..]| ==> os[1..][j] == os[j + 1];
      if os[0].Raises? || rest.None? then None
      else
        var r := if os[0].Kept? then [os[0].entry] + rest.value else rest.value;
        assert forall k :: 0 <= k < |r| ==> exists j :: 0 <= j < |os| && os[j] == Kept(r[k]) by {
          forall k | 0 <= k < |r|
            ensures exists j :: 0 <= j < |os| && os[j] == Kept(r[k])
          {
            if os[0].Kept? && k == 0 {
              assert os[0] == Kept(r[0]);
            } else {
              var k' := if os[0].Kept? then k - 1 else k;
              assert r[k] == rest.value[k'];
              var j :| 0 <= j < |os[1..]| && os[1..][j] == Kept(rest.value[k']);
              assert os[j + 1] == Kept(r[k]);
            }
          }
        }
        Some(r)
  }

  /**
    The entries `list_models` returns for the normalised models of a
    `describe`/`info` reply, in order; None when building one of them raises.
   */
  function ListedModels(norm: seq<map<string, Json>>): (r: Option<seq<map<string, Json>>>)
    ensures r.None? <==> exists j :: 0 <= j < |norm| && Outcome(norm[j]).Raises?
    ensures r.Some? ==> |r.value| <= |norm|
    ensures r.Some? ==> forall k :: 0 <= k < |r.value| ==>
              exists j :: 0 <= j < |norm| && Outcome(norm[j]) == Kept(r.value[k])
    ensures r.Some? ==> forall j :: 0 <= j < |norm| && Outcome(norm[j]).Kept? ==> Outcome(norm[j]).entry in r.value
  {
    Collect(Outcomes(norm))
  }

  function Outcomes(norm: seq<map<string, Json>>): (os: seq<EntryOutcome>)
    ensures |os| == |norm| && forall j :: 0 <= j < |norm| ==> os[j] == Outcome(norm[j])
  {
    if norm == [] then [] else [Outcome(norm[0])] + Outcomes(norm[1..])
  }

  /** No helper model and no nameless model is ever offered. */
  lemma ListedNoExcluded(norm: seq<map<string, Json>>, k: int)
    requires ListedModels(norm).Some? && 0 <= k < |ListedModels(norm).value|
    ensures FieldText(ListedModels(norm).value[k], "name").Some?
    ensures FieldText(ListedModels(norm).value[k], "name").value != []
    ensures FieldText(ListedModels(norm).value[k], "name").value !in ExcludedModels
  {
    var j :| 0 <= j < |norm| && Outcome(norm[j]) == Kept(ListedModels(norm).value[k]);
    OutcomeMeaning(norm[j]);
  }

  const DetectionWords: set<string> := {"detection", "wake", "hotword"}
  const EventTypes: set<string> := {"event", "wake", "hotword"}
  const InfoTypes: set<string> := {"info", "describe"}

  /** The type words the reader dispatches on are distinct. */
  lemma InfoTypesAreNoEvents(t: string)
    requires t in InfoTypes
    ensures t != "detection" && t !in EventTypes
  {
  }

  /** The type, lower-cased: `str(msg.get("type") or "").lower()`. */
  function MessageType(msg: map<string, Json>): string
  {
    KeywordText(Or(Get(msg, "type"), JStr([])))
  }

  /** A message the reader treats as a detection, when its data can be read. */
  predicate IsDetection(msg: map<string, Json>)
  {
    var t := MessageType(msg);
    t == "detection"
    || (t in EventTypes && DataOf(msg).JObj?
        && KeywordText(Or(Get(DataOf(msg).fields, "event"), JStr([]))) in DetectionWords)
  }

  /**
    A message whose handling raises: the detection path calls `.get` on a
    `data` field that is truthy but not an object.
   */
  predicate Crashes(msg: map<string, Json>)
  {
    var t := MessageType(msg);
    t !in InfoTypes && (t == "detection" || t in EventTypes) && !DataOf(msg).JObj?
  }

  /** The name reported: `data.name or data.model or data.wakeword or self.name`. */
  function DetectedName(c: Client, data: map<string, Json>): (r: Json)
    ensures Truthy(r) || r == JStr(c.name)
  {
    Or(Or(Or(Get(data, "name"), Get(data, "model")), Get(data, "wakeword")), JStr(c.name))
  }

  /** The timestamp reported: `data.timestamp or data.time or data.ts`. */
  function DetectedTimestamp(data: map<string, Json>): Json
  {
    Or(Or(Get(data, "timestamp"), Get(data, "time")), Get(data, "ts"))
  }

  /**
    One decoded message at time `now`. `callbackRaises` says whether the
    detection callback raises (the exception is logged and the refractory
    suppression skipped).
   */
  function HandleMessage(c: Client, msg: map<string, Json>, now: int, callbackRaises: bool): (r: (Client, Reaction))
    ensures r.1.Crash? <==> Crashes(msg)
    ensures r.1.Detection? <==> IsDetection(msg) && !Crashes(msg)
    ensures r.1.ModelsUpdated? <==> MessageType(msg) in InfoTypes && NormalizeModels(InfoModels(msg)) != []
    ensures r.1.Detection? ==> (r.1.delivered <==> c.hasCallback && !Suppressed(c, now))
    ensures r.1.ModelsUpdated? ==> r.0 == c.(modelsCache := r.1.models, infoEventSet := true)
    ensures r.1.Detection? && r.1.delivered && c.refractoryMs != 0 && !callbackRaises ==>
              r.0 == Suppress(c, c.refractoryMs, now)
    ensures !r.1.ModelsUpdated? && !(r.1.Detection? && r.1.delivered) ==> r.0 == c
    ensures r.0.paused == c.paused && r.0.refractoryMs == c.refractoryMs && r.0.name == c.name
    ensures r.0.suppressUntilMs >= c.suppressUntilMs
  {
    var mtype := MessageType(msg);
    if mtype in InfoTypes then
      InfoTypesAreNoEvents(mtype);
      var norm := NormalizeModels(InfoModels(msg));
      if norm != [] then (c.(modelsCache := norm, infoEventSet := true), ModelsUpdated(norm))
      else (c, NoReaction)
    else
      var data := DataOf(msg);
      if mtype != "detection" && mtype !in EventTypes then (c, NoReaction)
      else if !data.JObj? then (c, Crash)
      else if !IsDetection(msg) then (c, NoReaction)
      else Deliver(c, data.fields, now, callbackRaises)
  }

  /** A detection: handed to the callback unless there is none or it falls in the suppression window. */
  function Deliver(c: Client, data: map<string, Json>, now: int, callbackRaises: bool): (r: (Client, Reaction))
    ensures r.1.Detection? && r.1.name == DetectedName(c, data) && r.1.timestamp == DetectedTimestamp(data)
    ensures r.1.delivered <==> c.hasCallback && !Suppressed(c, now)
    ensures r.1.delivered && c.refractoryMs != 0 && !callbackRaises ==> r.0 == Suppress(c, c.refractoryMs, now)
    ensures !(r.1.delivered && c.refractoryMs != 0 && !callbackRaises) ==> r.0 == c
    ensures r.0.paused == c.paused && r.0.refractoryMs == c.refractoryMs && r.0.name == c.name
    ensures r.0.suppressUntilMs >= c.suppressUntilMs
  {
    var name := DetectedName(c, data);
    var ts := DetectedTimestamp(data);
    if !c.hasCallback || Suppressed(c, now) then (c, Detection(name, ts, false))
    else
      var c1 := if c.refractoryMs != 0 && !callbackRaises then Suppress(c, c.refractoryMs, now) else c;
      var c2 := if c.refractoryMs != 0 && !callbackRaises then Suppress(c1, c.refractoryMs, now) else c1;
      SuppressIdempotent(c, c.refractoryMs, now);
      (c2, Detection(name, ts, true))
  }

  /**
    After a delivered detection with a positive refractory period, every
    detection in the following `refractory_ms` milliseconds is held back.
   */
  lemma RefractoryHoldsBack(c: Client, msg: map<string, Json>, now: nat, callbackRaises: bool, later: int)
    requires c.refractoryMs > 0 && !callbackRaises
    requires HandleMessage(c, msg, now, callbackRaises).1.Detection?
    requires HandleMessage(c, msg, now, callbackRaises).1.delivered
    requires now <= later < now + c.refractoryMs
    ensures Suppressed(HandleMessage(c, msg, now, callbackRaises).0, later)
  {
  }

  /** While paused, no detection is delivered, whatever the suppression window. */
  lemma PausedDeliversNothing(c: Client, msg: map<string, Json>, now: int, callbackRaises: bool)
    requires c.paused
    ensures !(HandleMessage(c, msg, now, callbackRaises).1.Detection?
              && HandleMessage(c, msg, now, callbackRaises).1.delivered)
  {
  }

  /** A bare `detection` message is a detection. */
  lemma DetectionShape()
    ensures IsDetection(map["type" := JStr("detection")])
  {
    LowerNoUpper("detection");
  }

  /** Type and event words are compared without regard to case. */
  lemma WakeHotwordShape()
    ensures IsDetection(map["type" := JStr("Wake"), "data" := JObj(map["event" := JStr("HOTWORD")])])
  {
    var data := map["event" := JStr("HOTWORD")];
    var msg := map["type" := JStr("Wake"), "data" := JObj(data)];
    assert DataOf(msg) == JObj(data);
    assert Or(Get(data, "event"), JStr([])) == JStr("HOTWORD");
    LowerWake();
    LowerHotword();
  }

  lemma LowerWake()
    ensures Lower("Wake") == "wake"
  {
    var w := "Wake";
    LowerNoUpper(w[1..]);
    assert Lower(w) == [LowerChar(w[0])] + Lower(w[1..]);
  }

  lemma LowerHotword()
    ensures Lower("HOTWORD") == "hotword"
  {
    var w := "HOTWORD";
    assert forall k :: 0 <= k < |w| ==> Lower(w)[k] == LowerChar(w[k]);
  }

  /** An event of another kind is not a detection. */
  lemma OtherEventShape()
    ensures !IsDetection(map["type" := JStr("event"), "data" := JObj(map["event" := JStr("started")])])
  {
    EventMessage("event", "started");
    LowerNoUpper("event");
    StartedIsNoDetectionWord();
  }

  lemma StartedIsNoDetectionWord()
    ensures Lower("started") !in DetectionWords
  {
    LowerNoUpper("started");
  }

  /** How the reader sees `{"type": t, "data": {"event": word}}`. */
  lemma EventMessage(t: string, word: string)
    requires word != []
    ensures var msg := map["type" := JStr(t), "data" := JObj(map["event" := JStr(word)])];
            MessageType(msg) == Lower(t)
            && (Lower(t) == "event" ==> (IsDetection(msg) <==> Lower(word) in DetectionWords))
  {
    var data := map["event" := JStr(word)];
    var msg := map["type" := JStr(t), "data" := JObj(data)];
    assert DataOf(msg) == JObj(data);
    assert Or(Get(data, "event"), JStr([])) == JStr(word);
  }

  /** An event whose data is a non-empty list makes the reader raise. */
  lemma ListDataCrashes()
    ensures Crashes(map["type" := JStr("event"), "data" := JArr([JNull])])
  {
    var msg := map["type" := JStr("event"), "data" := JArr([JNull])];
    LowerNoUpper("event");
    assert MessageType(msg) == "event";
    assert DataOf(msg) == JArr([JNull]);
  }

  // ---------------------------------------------------------------------------
  // The reader, one line at a time

  /**
    The object texts of a pass loop, decoded and handled in order until one
    crashes the reader; texts that do not decode are skipped.
   */
  function HandleAll(c: Client, texts: seq<string>, decode: string -> Option<map<string, Json>>,
                     now: int, callbackRaises: bool): (r: (Client, seq<Reaction>))
    ensures |r.1| <= |texts|
    ensures forall k :: 0 <= k < |r.1| - 1 ==> !r.1[k].Crash?
    ensures r.0.paused == c.paused && r.0.refractoryMs == c.refractoryMs
    ensures r.0.suppressUntilMs >= c.suppressUntilMs
    decreases |texts|
  {
    if texts == [] then (c, [])
    else
      match decode(texts[0])
      case None => HandleAll(c, texts[1..], decode, now, callbackRaises)
      case Some(msg) =>
        var handled := HandleMessage(c, msg, now, callbackRaises);
        var c1, reaction := handled.0, handled.1;
        if reaction.Crash? then (c1, [reaction])
        else
          var results := HandleAll(c1, texts[1..], decode, now, callbackRaises);
          var c2, rest := results.0, results.1;
          (c2, [reaction] + rest)
  }

  predicate DeliveredAt(rs: seq<Reaction>, k: int)
  {
    0 <= k < |rs| && rs[k].Detection? && rs[k].delivered
  }

  /**
    With a refractory period set, one line delivers at most one detection:
    the first delivery opens a suppression window that covers the rest of
    the line.
   */
  lemma {:induction false} OneDeliveryPerLine(c: Client, texts: seq<string>, decode: string -> Option<map<string, Json>>,
                                              now: nat, i: int, j: int)
    requires c.refractoryMs > 0
    requires DeliveredAt(HandleAll(c, texts, decode, now, false).1, i)
    requires DeliveredAt(HandleAll(c, texts, decode, now, false).1, j)
    ensures i == j
    decreases |texts|, 1
  {
    if texts != [] {
      match decode(texts[0])
      case None =>
        OneDeliveryPerLine(c, texts[1..], decode, now, i, j);
      case Some(msg) =>
        OneDeliveryAfter(c, msg, texts, decode, now, i, j);
    }
  }

  lemma {:induction false} OneDeliveryAfter(c: Client, msg: map<string, Json>, texts: seq<string>,
                                            decode: string -> Option<map<string, Json>>, now: nat, i: int, j: int)
    requires c.refractoryMs > 0 && texts != [] && decode(texts[0]) == Some(msg)
    requires DeliveredAt(HandleAll(c, texts, decode, now, false).1, i)
    requires DeliveredAt(HandleAll(c, texts, decode, now, false).1, j)
    ensures i == j
    decreases |texts|, 0
  {
    var handled := HandleMessage(c, msg, now, false);
    var c1, reaction := handled.0, handled.1;
    if !reaction.Crash? {
      HandleAllCons(c, msg, texts, decode, now);
      if reaction.Detection? && reaction.delivered {
        OnlyFirstDelivered(c, msg, texts, decode, now);
      } else {
        var rest := HandleAll(c1, texts[1..], decode, now, false).1;
        DeliveredShift(reaction, rest, i);
        DeliveredShift(reaction, rest, j);
        OneDeliveryPerLine(c1, texts[1..], decode, now, i - 1, j - 1);
      }
    }
  }

  /** A delivery behind a reaction that delivers nothing is a delivery of the rest. */
  lemma DeliveredShift(r: Reaction, rs: seq<Reaction>, k: int)
    requires DeliveredAt([r] + rs, k) && !(r.Detection? && r.delivered)
    ensures DeliveredAt(rs, k - 1)
  {
    assert ([r] + rs)[k] == rs[k - 1];
  }

  /** Handling a line whose first object decodes: that object's reaction, then the rest's. */
  lemma HandleAllCons(c: Client, msg: map<string, Json>, texts: seq<string>,
                      decode: string -> Option<map<string, Json>>, now: int)
    requires texts != [] && decode(texts[0]) == Some(msg)
    requires !HandleMessage(c, msg, now, false).1.Crash?
    ensures HandleAll(c, texts, decode, now, false).1
            == [HandleMessage(c, msg, now, false).1]
               + HandleAll(HandleMessage(c, msg, now, false).0, texts[1..], decode, now, false).1
  {
  }

  /** A delivery with a refractory period set is the last delivery of the line. */
  lemma OnlyFirstDelivered(c: Client, msg: map<string, Json>, texts: seq<string>,
                           decode: string -> Option<map<string, Json>>, now: nat)
    requires c.refractoryMs > 0 && texts != [] && decode(texts[0]) == Some(msg)
    requires HandleMessage(c, msg, now, false).1.Detection? && HandleMessage(c, msg, now, false).1.delivered
    ensures forall k :: k != 0 ==> !DeliveredAt(HandleAll(c, texts, decode, now, false).1, k)
  {
    var c1 := HandleMessage(c, msg, now, false).0;
    HandleAllCons(c, msg, texts, decode, now);
    DeliveryOpensWindow(c, msg, now);
    NoDeliveryWhileSuppressed(c1, texts[1..], decode, now);
    var rest := HandleAll(c1, texts[1..], decode, now, false).1;
    forall k | k != 0
      ensures !DeliveredAt(HandleAll(c, texts, decode, now, false).1, k)
    {
      assert !DeliveredAt(rest, k - 1);
    }
  }

  lemma DeliveryOpensWindow(c: Client, msg: map<string, Json>, now: nat)
    requires c.refractoryMs > 0
    requires HandleMessage(c, msg, now, false).1.Detection? && HandleMessage(c, msg, now, false).1.delivered
    ensures Suppressed(HandleMessage(c, msg, now, false).0, now)
  {
  }

  /** Once the client holds detections back at `now`, it holds back every detection of the line. */
  lemma {:induction false} NoDeliveryWhileSuppressed(c: Client, texts: seq<string>,
                                                     decode: string -> Option<map<string, Json>>, now: nat)
    requires Suppressed(c, now)
    ensures forall k :: !DeliveredAt(HandleAll(c, texts, decode, now, false).1, k)
    decreases |texts|
  {
    if texts != [] {
      match decode(texts[0])
      case None =>
        NoDeliveryWhileSuppressed(c, texts[1..], decode, now);
      case Some(msg) =>
        var handled := HandleMessage(c, msg, now, false);
        var c1, reaction := handled.0, handled.1;
        if !reaction.Crash? {
          assert Suppressed(c1, now);
          NoDeliveryWhileSuppressed(c1, texts[1..], decode, now);
          var rest := HandleAll(c1, texts[1..], decode, now, false).1;
          var rs := HandleAll(c, texts, decode, now, false).1;
          assert rs == [reaction] + rest;
          forall k ensures !DeliveredAt(rs, k) {
            if 0 < k < |rs| {
              assert rs[k] == rest[k - 1];
              assert !DeliveredAt(rest, k - 1);
            }
          }
        }
    }
  }

  /** The reader's state between lines: the client, the text buffer, and whether the thread still runs. */
  datatype Reader = Reader(client: Client, buf: string, alive: bool)

  /**
    One line read by `_read_loop`: appended to the buffer, drained of
    complete objects with the given cursor, and the remainder kept. A line
    that is not UTF-8 is left to the caller (it is skipped).
   */
  function ReadLine(rd: Reader, line: string, decode: string -> Option<map<string, Json>>,
                    now: int, callbackRaises: bool, cursor: Cursor): (r: (Reader, seq<Reaction>))
    ensures !rd.alive ==> r == (rd, [])
    ensures rd.alive ==> r.0.alive <==> (r.1 == [] || !r.1[|r.1| - 1].Crash?)
  {
    if !rd.alive then (rd, [])
    else
      var buf := rd.buf + line;
      var drained := Drain(buf, 0, cursor);
      var texts, pos := drained.0, drained.1;
      var results := HandleAll(rd.client, texts, decode, now, callbackRaises);
      var c, reactions := results.0, results.1;
      var crashed := reactions != [] && reactions[|reactions| - 1].Crash?;
      (Reader(c, Remainder(buf, pos), !crashed), reactions)
  }

  /**
    With the corrected cursor a line that ends inside an object keeps that
    partial object for the next line, and the buffer never holds a complete
    object between lines.
   */
  lemma ReadLineKeepsPartialObject(rd: Reader, line: string, decode: string -> Option<map<string, Json>>,
                                   now: int, callbackRaises: bool)
    requires rd.alive
    ensures var buf := rd.buf + line;
            var after := ReadLine(rd, line, decode, now, callbackRaises, Corrected).0.buf;
            YieldObjects(after) == []
            && (YieldObjects(buf) == [] ==> after == buf)
            && (YieldObjects(buf) != [] ==> after == buf[LastEnd(YieldObjects(buf))..])
  {
    DrainCorrected(rd.buf + line);
  }
}
